=== FILE: README.md ===
# asdetector acquisition core in Dafny

asdetector drives infrared detectors read out by MACIE cards and ACADIA ASICs. It computes how
many frames an exposure takes in each reduction mode and how long an exposure a number of frames
makes. It reduces a ramp of frames to one image (CDS, SSR, MIN, MAX, MEAN, Fowler-k) and
reorders readout channels (deinterlacing). The acquisition object works out which ASICs are
present from a bitmask, splits each multiplexed readout buffer into one frame per camera, decodes
the six telemetry words of each frame, and reassigns a frame to the camera its chip id names. Its
`start` builds the skip schedule, counts down the time remaining, saves frames and keeps one ramp
of raw frame names per camera. Around that sit the FITS header template, the status object that
records saved frames per camera, the settings merge and the output file names, the text command
interpreter, and a deterministic simulator of the vendor driver.

The model has one module per component:

- `Bits`: mask helpers of io.py.
- `ExposureTiming`: frame and exposure tables of image.py.
- `FrameReduce`: ramp reductions of image.py.
- `Deinterlace`: `BaseImage.deinterlace`, on an array, in place.
- `Deinterleave`: the index partition of io.py.
- `Telemetry`: `parse_science_header`.
- `Cards`: card selection, interface save names, `download_file`, `mcf_abs_from_rel`, `card_to_dict`.
- `Header`: header.py.
- `StatusSink`: status.py, as a class.
- `Files`: files.py.
- `Interface`: interface.py.
- `Simulator`: apisimulator.py.
- `Acquisition`: functions that say what each step of a BaseMACIE session does to its state.
- `MacieSession`: the BaseMACIE object as a class whose methods are proved against those functions.

Python's own semantics that the source leans on are modelled explicitly:

- `Text`: `str.upper`, `split`, `strip`, `int`, `float`, `hex`, `'{:04d}'`, `re.findall(r'\d+')`, `os.path.join`.
- `Ordered`: insertion-ordered dicts.
- `Slices` and `Wrappers.PyIndex`: negative indices and slices.
- `Utf8`: strict UTF-8 decoding.
- `Json`: JSON values.

The driver, files, clocks and threads are parameters or left out. Each frame capture is a
function `readout` from capture number to the per-camera frames. The contents of the settings
and status files are values. The current time is a string argument.

Exceptions are values. Each operation that can raise returns a `Result` whose error names the
Python exception, including the ZeroDivisionError of a zero frame time. Only the lemmas assume
more than the source's callers guarantee, for example a positive frame time in the round trips.

## Model

| member | source | states |
|---|---|---|
| Bits.CompositeToList | asdetector/detector/macie/io.py:34-36 | fails exactly for a negative mask (`int('b')` on the sign of `bin(x)`); otherwise the list is strictly ascending |
| Bits.CompositeListSum | asdetector/detector/macie/io.py:34-43 | summing the list of a non-negative mask gives the mask back |
| Bits.CompositeListLength | asdetector/detector/macie/io.py:34-36 | the list holds one entry per set bit: its length is the popcount, the number of cameras |
| Bits.ListToComposite | asdetector/detector/macie/io.py:39-43 | the accumulating loop returns the sum of the list |
| Bits.Log2Floor | asdetector/detector/macie/io.py:47 | the result e satisfies 2^e <= v < 2^(e+1) |
| Bits.IndexList | asdetector/detector/macie/io.py:46-47 | succeeds exactly when every entry is at least 1 (log2 of 0 or a negative number cannot be converted to int); entry i is the floor log2 of entry i |
| Bits.Log2OfPower | asdetector/detector/macie/io.py:47 | the index of a power of two 2^e is e |
| Bits.CompositeIndexList | asdetector/detector/macie/io.py:672-675 | the index list of a mask's list is the ascending list of its set bit positions |
| Bits.SetBitsMembers | asdetector/detector/macie/io.py:672-675 | a position is among the set bit positions exactly when that bit is set |
| Bits.LowMaskBits | asdetector/detector/macie/apisimulator.py:844-847 | the mask 2^N − 1 has exactly the set bits 0 .. N−1, in order |
| Text.Upper | asdetector/interface/interface.py:270 | (with UpperIdempotent) upper-casing keeps the length and maps each ASCII letter to its capital |
| Text.UpperIdempotent | asdetector/utils/files.py:147-149 | upper-casing an upper-cased text changes nothing |
| Text.Split | asdetector/detector/macie/io.py:1149 | `s.split(sep)` always has at least one part and no part holds the separator |
| Text.JoinSplit | asdetector/detector/macie/io.py:1149 | joining the parts of `s.split(sep)` with sep gives s back |
| Text.SplitConcat | asdetector/detector/macie/io.py:1149 | splitting around an explicit separator splits the two halves independently |
| Text.SplitJoin | asdetector/detector/macie/io.py:193-195 | splitting a join of separator-free parts gives the parts back |
| Text.SplitWhitespace | asdetector/interface/interface.py:269 | the tokens are non-empty and hold no whitespace |
| Text.SplitWhitespaceSpaced | asdetector/interface/interface.py:269 | words laid out with whitespace gaps (any before and after, at least one character between two words) split back into exactly those words, in order |
| Text.SplitWhitespaceCovers | asdetector/interface/interface.py:269 | every text is its tokens laid out with whitespace gaps, so the tokens are its words in order and nothing else |
| Text.Strip | asdetector/interface/interface.py:160 | the result is a slice s[i..j] with only whitespace before i and after j, and neither starts nor ends with whitespace: s without its leading and trailing whitespace |
| Text.StripUnchanged | asdetector/interface/interface.py:160 | a text without surrounding whitespace is its own strip |
| Text.DecimalString | asdetector/utils/status.py:37 | `str(n)` of a natural number is a non-empty run of digits |
| Text.IntStringInjective | asdetector/utils/status.py:37 | two different integers never print the same, so `CAMERA{n}` keys differ per camera |
| Text.ParseIntString | asdetector/interface/interface.py:122 | `int(str(i)) == i` for every integer i |
| Text.ParseNegative | asdetector/interface/interface.py:122 | a minus sign before digits negates their value |
| Text.ParseFloatDecimal | asdetector/interface/interface.py:114 | `float(str(n)) == n` for a whole number |
| Text.DecimalReal | asdetector/interface/interface.py:114 | an unsigned decimal form never denotes a negative value |
| Text.HexString | asdetector/detector/macie/io.py:194 | `hex(n)` starts with `0x` |
| Text.ParseHexRoundTrip | asdetector/interface/interface.py:160 | `int(hex(n), 16) == n` |
| Text.ZeroPadded | asdetector/utils/files.py:268 | `'{:0Nd}'` is at least N digits long and all digits |
| Text.ZeroPaddedValue | asdetector/utils/files.py:268 | zero padding never changes the number the digits denote |
| Text.ZeroPaddedExact | asdetector/utils/files.py:186 | a number below 10^N pads to exactly N digits |
| Text.DigitGroups | asdetector/utils/files.py:169 | `re.findall(r'\d+')` gives non-empty, all-digit groups |
| Text.SecondDigitGroup | asdetector/utils/files.py:170 | two digit runs separated by non-digits are the first two groups |
| Text.DigitGroupsConcat | asdetector/utils/files.py:169 | across a non-digit boundary the groups of a concatenation are those of its parts |
| Text.PathJoin | asdetector/detector/macie/io.py:59 | POSIX `os.path.join(a, b)`: b when it is absolute; a, '/', b when a is non-empty and does not end in '/' |
| Ordered.Get | asdetector/utils/files.py:151 | `d.get(k)` is the value of the first entry with key k, None when there is none |
| Ordered.Set | asdetector/detector/macie/header.py:135 | `d[k] = v` replaces k's entry in place, or appends it when k is new |
| Ordered.GetSet | asdetector/detector/macie/header.py:135 | after `d[k] = v`, k looks up v and every other key what it did before |
| Ordered.SetValid | asdetector/detector/macie/header.py:135 | assignment keeps every key unique |
| Ordered.SetAllKeys | asdetector/detector/macie/header.py:134-135 | after a loop of assignments the old keys are still a prefix, in their places; the keys are exactly the old ones and the assigned ones |
| Ordered.GetSetAll | asdetector/detector/macie/header.py:134-135 | after the loop each key looks up the last value assigned to it, or its old value |
| Ordered.SetAllFresh | asdetector/detector/macie/header.py:15-132 | assigning distinct keys into an empty dict gives exactly those entries in order |
| Ordered.Update | asdetector/detector/macie/header.py:134-135 | the loop `for k, v in entries.items(): d[k] = v` computes the bulk assignment |
| Slices.Slice | asdetector/utils/image.py:413-414 | `s[i:j]` with negative and out-of-range bounds: the elements between the clamped bounds |
| Slices.At | asdetector/utils/image.py:385 | `s[i]` is an IndexError outside −len .. len−1, and counts from the end for negative i |
| Slices.TakePrefix | asdetector/detector/macie/io.py:493 | `s[:n]` keeps the first n elements, or all of them |
| Wrappers.PyIndex | asdetector/detector/macie/io.py:381 | a list index is found exactly when −len <= i < len, and then it is i or len + i |
| Utf8.DecodeEncode | asdetector/detector/macie/apisimulator.py:554-556 | strict UTF-8 decoding inverts encoding for every string |
| Utf8.DecodeAscii | asdetector/detector/macie/apisimulator.py:554-556 | ASCII bytes decode to the characters with the same codes |
| Utf8.InvalidLeadByte | asdetector/detector/macie/apisimulator.py:560-563 | bytes starting with a continuation byte or 0xC0, 0xC1, 0xF5 .. 0xFF do not decode |
| Utf8.EncodeNoZero | asdetector/detector/macie/apisimulator.py:554-556 | the encoding of a NUL-free string has no zero byte |
| ExposureTiming.ParseMode | asdetector/utils/image.py:523-535 | only the exact table keys are modes, and each mode's name looks itself up |
| ExposureTiming.Round | asdetector/utils/image.py:486 | Python's `round`: within 1/2 of x, and on a tie the even integer |
| ExposureTiming.SsrFrames | asdetector/utils/image.py:485-486 | ZeroDivisionError for a zero frame time, otherwise `round(t / tpf)` |
| ExposureTiming.FowlerFrames | asdetector/utils/image.py:497-504 | ZeroDivisionError exactly for a zero frame time and t >= 0; 2k frames below the minimum exposure k·tpf |
| ExposureTiming.FramesRelateToSsr | asdetector/utils/image.py:485-535 | CDS is SSR + 1, MEAN, MEDIAN and MODE are 2·SSR, MIN and MAX are SSR |
| ExposureTiming.FowlerFramesAtLeastTwiceK | asdetector/utils/image.py:497-504 | a Fowler-k count is never below 2k |
| ExposureTiming.FramesNonNegative | asdetector/utils/image.py:485-535 | for t >= 0 no count is negative and CDS has at least one frame |
| ExposureTiming.FowlerExposure | asdetector/utils/image.py:555-558 | k·tpf + (frames − 2k)·tpf, which is (frames − k)·tpf |
| ExposureTiming.IntendedExposure | asdetector/utils/image.py:577-589 | the exposure table with each Fowler mode using its own k |
| ExposureTiming.SsrRoundTrip | asdetector/utils/image.py:485-548 | the SSR count times tpf is within tpf/2 of t |
| ExposureTiming.ExposureRoundTrip | asdetector/utils/image.py:485-589 | exposure(frames(t)) is within tpf/2 of t for CDS, SSR, MEAN, MEDIAN, MODE, MIN, MAX, and for FOWLER2/4 when t >= k·tpf |
| ExposureTiming.FowlerRoundTrip | asdetector/utils/image.py:497-558 | with its own k the Fowler exposure is within tpf/2 of t when t >= k·tpf |
| ExposureTiming.FowlerFramesRoundTrip | asdetector/utils/image.py:497-558 | the Fowler exposure of the Fowler count of t is within tpf/2 of t for t >= k·tpf |
| ExposureTiming.FowlerMinimumExposure | asdetector/utils/image.py:497-504 | below the minimum the count is 2k and the exposure k·tpf |
| ExposureTiming.WideFowlerExposureOvershoot | asdetector/utils/image.py:569-574 | as written FOWLER8 and FOWLER16 report within tpf/2 of t + 4·tpf and t + 12·tpf |
| ExposureTiming.Fowler8ExposureExample | asdetector/utils/image.py:515-570 | an 8-frame-time FOWLER8 exposure takes 16 frames, which the table turns into 12 frame times |
| FrameReduce.Sub | asdetector/utils/image.py:413-414 | `images[lo:hi]` is the ramp of the frames between the clamped bounds |
| FrameReduce.WrapSpec | asdetector/utils/image.py:385 | wrapping into a dtype lands in its range and differs by a multiple of 2^bits |
| FrameReduce.CdsType | asdetector/utils/image.py:379-383 | uintN is widened to int(2N) (TypeError for N = 64); signed dtypes are kept |
| FrameReduce.CdsReduce | asdetector/utils/image.py:378-385 | fails exactly for an empty ramp (IndexError) or uint64 frames (TypeError); otherwise an image of the frames' shape |
| FrameReduce.CdsUnsignedExact | asdetector/utils/image.py:378-385 | for an unsigned ramp every pixel is exactly last − first, negative when it fell |
| FrameReduce.CdsSignedWraps | asdetector/utils/image.py:385 | for a signed ramp each pixel is last − first wrapped into the frame's dtype |
| FrameReduce.CdsUint16Examples | asdetector/utils/image.py:378-385 | u16 ramps [100, 150] and [150, 100] reduce to 50 and −50 |
| FrameReduce.SsrReduce | asdetector/utils/image.py:388-389 | IndexError exactly for an empty ramp, otherwise an image of the frames' shape |
| FrameReduce.SsrIsCdsPlusFirst | asdetector/utils/image.py:378-389 | CDS of an unsigned ramp is SSR minus the first frame |
| FrameReduce.MinReduce | asdetector/utils/image.py:404-405 | each pixel is a value of the pixel's stack and below all of them; ValueError for an empty ramp |
| FrameReduce.MaxReduce | asdetector/utils/image.py:400-401 | each pixel is a value of the pixel's stack and above all of them; ValueError for an empty ramp |
| FrameReduce.MeanReduce | asdetector/utils/image.py:392-393 | NaN exactly for an empty ramp; otherwise each pixel times the frame count is the sum of the pixel's stack |
| FrameReduce.MeanBetweenMinAndMax | asdetector/utils/image.py:392-405 | every mean pixel lies between the pixel's minimum and maximum |
| FrameReduce.Difference | asdetector/utils/image.py:415 | the pixelwise difference of two means; NaN in either operand gives NaN |
| FrameReduce.FowlerReduce | asdetector/utils/image.py:412-415 | NaN exactly when k = 0 or the ramp has at most one frame, so that a window is empty |
| FrameReduce.FowlerWindows | asdetector/utils/image.py:413-414 | the start window is the first k frames; the end window is indices n−1−k .. n−2, short of the last frame |
| FrameReduce.WindowMeanDifference | asdetector/utils/image.py:413-415 | on a linear ramp two k-frame windows differ by slope × their offset |
| FrameReduce.FowlerOfLinearRamp | asdetector/utils/image.py:412-415 | as written Fowler-k of a linear ramp of n > k frames measures slope·(n − 1 − k) |
| FrameReduce.IntendedFowlerReduce | asdetector/utils/image.py:412-415 | with the last k frames as end window: NaN exactly when k = 0 or the ramp is empty |
| FrameReduce.IntendedFowlerOfLinearRamp | asdetector/utils/image.py:412-415 | with the last k frames a linear ramp measures slope·(n − k) |
| FrameReduce.FinalReducer | asdetector/utils/image.py:434-446 | Fowler modes, and only they, get the Fowler reduction, each with its own k |
| FrameReduce.IntermediateReducer | asdetector/utils/image.py:449-461 | every Fowler mode previews with CDS, every other mode with its final reduction |
| FrameReduce.Apply | asdetector/utils/image.py:396-409 | MEDIAN and MODE raise AttributeError (ndarray has no such method) |
| FrameReduce.IntermediateOfSingleFrame | asdetector/utils/image.py:457-460 | the preview of a one-frame ramp in a Fowler mode is the zero image |
| Deinterlace.DestColumn | asdetector/utils/image.py:250-254 | read m of channel i lands inside channel i's block of p columns |
| Deinterlace.ChannelPlacement | asdetector/utils/image.py:250-254 | read m of channel i goes to column i·p + m for even i and (i+1)·p − 1 − m for odd i, and that column is read from data column i + m·nch |
| Deinterlace.TargetThenSource | asdetector/utils/image.py:250-254 | every data column lands in exactly one block column and is read back from there |
| Deinterlace.SourceThenTarget | asdetector/utils/image.py:250-254 | every block column is filled from exactly one data column |
| Deinterlace.ChannelErrors | asdetector/utils/image.py:249-254 | when the shapes do not match the loop fails at channel 0, otherwise at no channel |
| Deinterlace.DeinterlaceRowPlacement | asdetector/utils/image.py:247-255 | header columns are untouched, each channel's reads are placed as above |
| Deinterlace.DeinterlaceRowPermutes | asdetector/utils/image.py:247-255 | data column s moves to its target column; since that map is a bijection, the data part is permuted |
| Deinterlace.DeinterlaceRowValues | asdetector/utils/image.py:247-255 | with a column per channel a row holds exactly the input's values; with none its data columns are 0 |
| Deinterlace.DeinterlaceRowHeaders | asdetector/utils/image.py:247-255 | the first nheaders columns are those of the input row |
| Deinterlace.CopyChannel | asdetector/utils/image.py:251-254 | one slice assignment writes channel i's block of every row and nothing else |
| Deinterlace.CopyBack | asdetector/utils/image.py:255 | `image[:, h:] = dein` writes each row's data part and keeps its header columns |
| Deinterlace.GatherChannels | asdetector/utils/image.py:248-254 | builds every deinterlaced data row, or returns the first slice error |
| Deinterlace.PlaceChannels | asdetector/utils/image.py:250-254 | after channels 0 .. nch−1 every column holds its source column; with blocks of width 0 nothing is written |
| Deinterlace.Deinterlace | asdetector/utils/image.py:241-255 | in place: on an error nothing is written, otherwise each row becomes its deinterlaced row |
| Deinterleave.DeinterleavingArray | asdetector/detector/macie/io.py:357-364 | ZeroDivisionError when r = 0; fails exactly when r does not divide frame_size; otherwise n arrays of length frame_size |
| Deinterleave.CameraOfPosition | asdetector/detector/macie/io.py:360-363 | entry j of camera i decodes back to camera i and offset j |
| Deinterleave.CameraInRange | asdetector/detector/macie/io.py:360-363 | every buffer word belongs to a camera below n at an offset inside the frame |
| Deinterleave.Partition | asdetector/detector/macie/io.py:357-364 | the arrays lie in [0, n·frame_size), are pairwise disjoint, injective, and cover the buffer |
| Deinterleave.Reshape | asdetector/detector/macie/io.py:395 | row y of the reshaped image is words y·frame_x .. y·frame_x + frame_x − 1 |
| Deinterleave.ReshapePixel | asdetector/detector/macie/io.py:395 | pixel (y, x) is word y·frame_x + x, and every word is a pixel |
| Deinterleave.DeinterlacedArray | asdetector/detector/macie/io.py:365-373 | fails exactly when the channel slices do not match the camera's frame |
| Deinterleave.DeinterlacedArrayEntries | asdetector/detector/macie/io.py:365-373 | with a column per channel each camera keeps its own entries, so the partition survives |
| Deinterleave.ReshapeMembers | asdetector/detector/macie/io.py:367 | the reshaped image holds exactly the array's words |
| Deinterleave.Gather | asdetector/detector/macie/io.py:395 | `all_data_array[indices]`: IndexError exactly for an index outside −len .. len−1, otherwise the indexed words |
| Deinterleave.DeinterleaveFrames | asdetector/detector/macie/io.py:394-395 | when it succeeds, one frame_y × frame_x image per camera, gathered from its index array |
| Simulator.AvailableMacies | asdetector/detector/macie/apisimulator.py:798-819 | the mask reports cards 0 and 1 |
| Simulator.AvailableAsics | asdetector/detector/macie/apisimulator.py:822-847 | the accumulating loop returns 2^N − 1, or 0 when N <= 0 |
| Simulator.AvailableAsicsIndices | asdetector/detector/macie/apisimulator.py:844-847 | the reported ASICs are exactly 0 .. N−1 |
| Simulator.AvailableAsicsCount | asdetector/detector/macie/apisimulator.py:844-847 | the simulator always reports N cameras |
| Simulator.ReadGigeScienceFrame | asdetector/detector/macie/apisimulator.py:1609-1647 | FRAMEX·FRAMEY·N words; ZeroDivisionError exactly when FRAMEX = 0 |
| Simulator.SyntheticFrameLayout | asdetector/detector/macie/apisimulator.py:1633-1643 | row j, ASIC i, column x sits at word (j·N + i)·FRAMEX + x and holds i |
| Simulator.ReadUsbScienceFrame | asdetector/detector/macie/apisimulator.py:1650-1673 | the USB read returns the GigE buffer |
| Simulator.ReadCamlinkScienceFrame | asdetector/detector/macie/apisimulator.py:1676-1702 | the Camlink read returns the GigE buffer |
| Simulator.Filled | asdetector/detector/macie/apisimulator.py:966 | count words of 0x8000 when count > 0, none otherwise |
| Simulator.ReadBlock | asdetector/detector/macie/apisimulator.py:937-966 | the block and data reads return the requested number of 0x8000 words, none for a count <= 0 (likewise the reads at apisimulator.py:1184-1220 and 1737-1763) |
| Simulator.TelemetrySet | asdetector/detector/macie/apisimulator.py:2137-2166 | one value per requested item |
| Simulator.TelemetryAll | asdetector/detector/macie/apisimulator.py:2169-2193 | one value per TLMItem, 79 in all |
| Simulator.HandleStatus | asdetector/detector/macie/apisimulator.py:651-654 | MACIEFailError exactly on FAIL |
| Simulator.HandleImageArray | asdetector/detector/macie/apisimulator.py:656-662 | ImageAcquisitionError on a null pointer, otherwise frame_size words |
| Simulator.GatherOwnWords | asdetector/detector/macie/apisimulator.py:1633-1647 | camera i's index array picks simulated words that all hold i |
| Simulator.SimulatedCameraFrames | asdetector/detector/macie/io.py:357-395 | the simulator read, the partition with blocks of FRAMEX words and `deinterleave`: when it succeeds, one frame per camera |
| Simulator.CameraSeesItsIndex | asdetector/detector/macie/apisimulator.py:1633-1647 | end to end, camera i gets a frame_y × frame_x image whose every pixel is i |
| Simulator.FramesFromGathers | asdetector/detector/macie/io.py:394-395 | `deinterleave` succeeds when every gather yields a frame's worth of words |
| Telemetry.FieldsRecombine | asdetector/detector/macie/io.py:982-991 | the unshifted fields add back to the bits their masks cover: all of word 3 and 4, the low 15 bits of word 2, the low 14 of word 1 |
| Telemetry.TelemetryKeys | asdetector/detector/macie/io.py:980-991 | SCIWRD1..6 then the ten field keywords, which close the header template |
| Telemetry.ScienceHeader | asdetector/detector/macie/io.py:980-991 | its keys are exactly the telemetry keywords, in order |
| Telemetry.TelemetryKeysDistinct | asdetector/detector/macie/io.py:980-991 | no telemetry keyword occurs twice |
| Telemetry.ScienceHeaderEntries | asdetector/detector/macie/io.py:980-991 | each telemetry keyword looks up its raw word or decoded field |
| Telemetry.TelemetryKeysInHeader | asdetector/detector/macie/io.py:411-412 | every science header keyword exists in the header for six science words, whatever FITSHEADER adds |
| Telemetry.AssignCamera | asdetector/detector/macie/io.py:992-1014 | a known chip id picks the camera without resync; an unknown one keeps the camera and sets resync; IndexError outside cam_names |
| Telemetry.AssignCameraIdempotent | asdetector/detector/macie/io.py:992-1014 | assigning again from the chosen camera changes nothing |
| Telemetry.AssignCameraAgrees | asdetector/detector/macie/io.py:999-1003 | a chip id mapped to the frame's own camera keeps it |
| Telemetry.TelemetryWords | asdetector/detector/macie/io.py:978-979 | when it succeeds, exactly the six science words |
| Telemetry.AsWrittenNeverParses | asdetector/detector/macie/io.py:994 | as written a frame with six science headers never parses; with its six words present the error is IndexError |
| Telemetry.ParseScienceHeaderSpec | asdetector/detector/macie/io.py:975-1016 | no telemetry without six headers; with six, the fields and the chip-id assignment as above |
| Cards.ConnectionCode | asdetector/detector/macie/io.py:194 | each connection's code is below 4 |
| Cards.ClassTagInjective | asdetector/detector/macie/io.py:1150-1158 | ASIC type and connection code tell every class apart |
| Cards.ChooseInterface | asdetector/detector/macie/io.py:1043-1072 | a chosen transport is always an ACADIA class |
| Cards.ChooseInterfaceBest | asdetector/detector/macie/io.py:1043-1072 | the chosen link is one the card reports and none it reports is preferred; skipped exactly when it reports none |
| Cards.SelectedSpec | asdetector/detector/macie/io.py:1042-1076 | at most one interface per card, each built for one of the cards with the class chosen for it; none exactly when no card reports a link |
| Cards.SelectedConcat | asdetector/detector/macie/io.py:1042-1076 | selection distributes over concatenation of card lists |
| Cards.AcadiasOpen | asdetector/detector/macie/io.py:1030-1083 | MissingMACIEError exactly when no card gives an interface, otherwise the selected interfaces |
| Cards.MatchingClass | asdetector/detector/macie/io.py:1154-1158 | the first class with the ASIC type and connection code, None when no class has both |
| Cards.SplitSaveTag | asdetector/detector/macie/io.py:193-195 | a save tag splits at '.' into serial, connection, ASIC type and "json" |
| Cards.LoadSavedInterface | asdetector/detector/macie/io.py:1146-1158 | `load_interface` reads back the class of every saved interface, whatever the directory (as saved by io.py:189-197) |
| Cards.LoadFromParts | asdetector/detector/macie/io.py:1149-1158 | the class comes from the last three '.'-parts |
| Cards.MatchingClassOf | asdetector/detector/macie/io.py:1154-1158 | each class is picked for its own ASIC type and connection |
| Cards.LoadUnknownClass | asdetector/detector/macie/io.py:1154-1158 | an ASIC type other than 0 and 0xacda loads nothing |
| Cards.DownloadByExtension | asdetector/detector/macie/io.py:264-270 | .mcf, .glf and .ald are load files, .mrf MACIE files, .mcd ASIC files |
| Cards.NoDownloadOtherwise | asdetector/detector/macie/io.py:264-270 | no download exactly when the name has none of the extensions |
| Cards.McfAbsFromRel | asdetector/detector/macie/io.py:50-65 | the corrected rewrite succeeds exactly when every line does, IndexError otherwise, and joins the rewritten lines |
| Cards.LoadLineBody | asdetector/detector/macie/io.py:55-63 | a rewritten line keeps its newline; a LOAD line's text is its absolute form, any other line is kept |
| Cards.McfKeepsLines | asdetector/detector/macie/io.py:50-65 | with the correction the output has the input's lines one for one |
| Cards.McfAsWrittenOneLine | asdetector/detector/macie/io.py:55-61 | as written the output for a file of LOAD lines holds no newline at all |
| Cards.GenCamNamesSpec | asdetector/detector/macie/io.py:1179-1181 | IndexError exactly when an index is out of range; otherwise name i is the one index i selects |
| Cards.FirstCameraNames | asdetector/detector/macie/io.py:380-381 | cameras 0 .. N−1 get the first N names |
| Cards.CString | asdetector/detector/macie/apisimulator.py:554-556 | a c_char array's value is its bytes up to the first NUL |
| Cards.CStringOfPadded | asdetector/detector/macie/apisimulator.py:554-556 | NUL-free bytes padded with NULs read back as themselves |
| Cards.CardToDictText | asdetector/detector/macie/apisimulator.py:544-564 | NUL-free text fields come back as text, with the numbers and the four address bytes |
| Cards.CardToDictDecodeErrors | asdetector/detector/macie/apisimulator.py:554-563 | an undecodable USB serial fails the conversion; an undecodable port name only becomes None |
| Header.Columns | asdetector/detector/macie/header.py:30-33 | FRAMEX less the science header columns when they are removed, FRAMEX otherwise |
| Header.FixedMode | asdetector/detector/macie/header.py:7-132 | every built-in keyword's mode is a key of header_modes |
| Header.ScienceKeys | asdetector/detector/macie/header.py:119-120 | SCIWRD1 .. SCIWRDn in order, none for n <= 0 |
| Header.BuildHeaderFormat | asdetector/detector/macie/header.py:14-135 | the insertions build the template followed by the FITSHEADER assignments |
| Header.Insert | asdetector/detector/macie/header.py:15-132 | a keyword not yet present is appended with its entry |
| Header.InsertLeadingKeywords | asdetector/detector/macie/header.py:15-118 | NFRAMES .. RMVSCIHD in order |
| Header.InsertScienceWords | asdetector/detector/macie/header.py:119-120 | the loop appends SCIWRD1, SCIWRD2, ... in order |
| Header.InsertTrailingKeywords | asdetector/detector/macie/header.py:121-132 | ABLKLEN .. ASCIXPID after the science words |
| Header.TemplateKeyAt | asdetector/detector/macie/header.py:15-132 | built-in keyword i at position i, then SCIWRD1..n, then the ten telemetry keywords |
| Header.TemplateValid | asdetector/detector/macie/header.py:15-132 | every template keyword occurs once |
| Header.TemplateLayout | asdetector/detector/macie/header.py:116-132 | SCIWRD1..n follow RMVSCIHD in order and precede ABLKLEN; ASCIXPID ends the template |
| Header.TemplateFixedEntry | asdetector/detector/macie/header.py:15-132 | each built-in keyword holds its table entry |
| Header.ColumnGeometry | asdetector/detector/macie/header.py:30-37 | SIZAXIS1 and NCOLS hold the column count, SIZAXIS2 and NROWS FRAMEY, unless FITSHEADER overrides them |
| Header.BuiltinKept | asdetector/detector/macie/header.py:134-135 | a built-in keyword FITSHEADER does not mention keeps its entry |
| Header.HeaderOverrides | asdetector/detector/macie/header.py:134-135 | the template keys stay a prefix in their places; the keys are the template's and FITSHEADER's; each key looks up FITSHEADER's last value or the template's |
| Header.HeaderFormatValid | asdetector/detector/macie/header.py:14-135 | the finished table holds every keyword once |
| Header.FixedEntryComplete | asdetector/detector/macie/header.py:15-132 | every built-in entry has value, comment and a mode of header_modes |
| Header.TemplateEntriesComplete | asdetector/detector/macie/header.py:15-132 | every template entry is complete |
| Header.FixedNamesFit | asdetector/detector/macie/header.py:15-132 | built-in keywords fit the eight characters of a FITS keyword |
| Header.BiasTranslationInjective | asdetector/detector/macie/header.py:143-156 | no two bias voltages share a header keyword |
| Header.BiasKeysPresent | asdetector/detector/macie/header.py:100-156 | every bias keyword is in the finished header, so `gen_bias_headers` never misses |
| Header.GenFitsHeader | asdetector/utils/image.py:15-20 | one card per entry in the table's order; KeyError for an entry without value or comment |
| Header.HeaderFormatHasCards | asdetector/utils/image.py:15-20 | the finished header yields cards when FITSHEADER entries carry value and comment |
| StatusSink.CameraKeyInjective | asdetector/utils/status.py:37 | two cameras never share a `CAMERA{n}` key |
| StatusSink.AppendOnlyCamera | asdetector/utils/status.py:35-42 | the append succeeds exactly when the camera has a list (KeyError, TypeError or AttributeError otherwise) and changes only that list |
| StatusSink.AppendKeepsLists | asdetector/utils/status.py:35-42 | an append keeps every camera's list a list |
| StatusSink.AppendsCommute | asdetector/utils/status.py:35-42 | appends for two cameras commute |
| StatusSink.SetFinalOnlyCamera | asdetector/utils/status.py:45-47 | overwrites the camera's entry only, and repeating it changes nothing |
| StatusSink.StatusHandler.constructor | asdetector/utils/status.py:7-10 | the status starts empty |
| StatusSink.StatusHandler.GetStatus | asdetector/utils/status.py:12-14 | the status becomes the file's content |
| StatusSink.StatusHandler.UpdateCommandComplete | asdetector/utils/status.py:19-23 | sets CommandComplete and CommandCompleteTime only |
| StatusSink.StatusHandler.UpdateExposureTimeRemaining | asdetector/utils/status.py:25-28 | sets ExposureTimeRemaining only |
| StatusSink.StatusHandler.UpdateTotalFrameCount | asdetector/utils/status.py:30-33 | sets TotalFrameCount only |
| StatusSink.StatusHandler.UpdateExposureFrames | asdetector/utils/status.py:35-37 | the new status is the append to ExposureFrames, unchanged when it raises |
| StatusSink.StatusHandler.UpdateIntermediateReducedFrames | asdetector/utils/status.py:40-42 | the new status is the append to IntermediateReducedFrames, unchanged when it raises |
| StatusSink.StatusHandler.UpdateFinalReducedExposure | asdetector/utils/status.py:45-47 | the new status is the overwrite in FinalReducedFrame, unchanged when it raises |
| StatusSink.StatusHandler.UpdateCurrentCommand | asdetector/utils/status.py:50-55 | the status is the reset template with CurrentCommand and CommandStartTime |
| Files.UpperKeys | asdetector/utils/files.py:148-149 | each stored entry under its upper-cased key |
| Files.Resolved | asdetector/utils/files.py:150-151 | exactly the default keys, each with the merged value or its default |
| Files.LoadSettings | asdetector/utils/files.py:140-153 | the loop computes the loaded settings |
| Files.LastUpper | asdetector/utils/files.py:148-149 | the last stored entry whose key upper-cases to k |
| Files.DefaultsPresent | asdetector/utils/files.py:140-153 | the stored keys come first, in order; the keys are exactly the stored and the default ones |
| Files.LoadedDefault | asdetector/utils/files.py:147-151 | a default key loads the last stored value whose key upper-cases to it, or the default |
| Files.NonDefaultKept | asdetector/utils/files.py:147-153 | a stored key that is no default loads its stored value |
| Files.MissingFileGivesDefaults | asdetector/utils/files.py:143-146 | with no settings file the result is exactly the defaults |
| Files.LoadedValid | asdetector/utils/files.py:140-153 | loading keeps keys unique |
| Files.UpdateSettingRoundTrip | asdetector/utils/files.py:161-164 | after `update_setting(k, v)` the upper-cased key loads v when no other key upper-cases to it; other keys keep their values |
| Files.Iterations | asdetector/utils/files.py:169-170 | the only error is IndexError |
| Files.MaxOf | asdetector/utils/files.py:172 | the maximum is an element and bounds all of them |
| Files.NextIterationSpec | asdetector/utils/files.py:167-175 | IndexError exactly when a name has one digit group; 0 without digits; otherwise one above every second group and one above some |
| Files.IterationsSpec | asdetector/utils/files.py:169-170 | IndexError exactly when a name has one digit group; otherwise empty exactly when no name has digits, and holding the second digit group of every name with two |
| Files.ReplaceChar | asdetector/utils/files.py:188 | every occurrence of one character becomes the other (`:` to `_` in the ISO stamp), nothing else changes |
| Files.DayStampLayout | asdetector/utils/files.py:179-186 | eight digits reading back as year, month and day, after `{prefix}_` when a prefix is given |
| Files.RawAndResetNeverCollide | asdetector/utils/files.py:268-273 | a raw and a reset frame name never coincide |
| Files.FrameNameCarriesIteration | asdetector/utils/files.py:248-273 | with a digit-free instrument, raw and reset names carry the iteration as their second digit group |
| Files.NextIterationOfFrames | asdetector/utils/files.py:248-265 | on such names the next iteration is one above the largest used, 0 for an empty directory (names as laid out by files.py:167-175) |
| Interface.LookupCommand | asdetector/interface/interface.py:251-263 | `COMMANDS[name]`: a command found carries the name looked up |
| Interface.LookupCommandNames | asdetector/interface/interface.py:251-263 | exactly the seven names, each under its own command |
| Interface.DisabledCommands | asdetector/interface/interface.py:251-263 | SYNC, UNLOCK, CONFIG and CONFIGFROMFILE are not dispatchable |
| Interface.BindIoStart | asdetector/interface/interface.py:213 | Python's binding of `io_start`'s arguments: TypeError exactly for a missing, surplus or duplicated argument |
| Interface.StartCallBinds | asdetector/interface/interface.py:106 | Start's call binds the parsed exposure and skip times |
| Interface.TestStartCallMisbinds | asdetector/interface/interface.py:213 | as written the request lands in skip_time, which `start` cannot use (TypeError) |
| Interface.TestStartCallBinds | asdetector/interface/interface.py:213 | the intended call gives 6 s, skip 0, and request and status to their own parameters |
| Interface.ParseStart | asdetector/interface/interface.py:112-124 | the only error is ValueError |
| Interface.StartDefaults | asdetector/interface/interface.py:112-124 | without arguments: 3 s, no skip, one exposure |
| Interface.StartArgumentsRoundTrip | asdetector/interface/interface.py:112-124 | the printed values parse back to themselves, whatever follows |
| Interface.StartExposureOnly | asdetector/interface/interface.py:112-117 | one argument overrides only the exposure time |
| Interface.StartCommand.ParseArguments | asdetector/interface/interface.py:112-124 | assigns the fields in order and stops at the first ValueError |
| Interface.StartCommand.Execute | asdetector/interface/interface.py:101-110 | parses, then returns `num_exposures` calls to `io_start` in order |
| Interface.StartExposures | asdetector/interface/interface.py:103-106 | the loop makes one `io_start` call per exposure, in order, each binding the parsed exposure and skip times |
| Interface.StartCallCount | asdetector/interface/interface.py:101-110 | exactly `num_exposures` calls (none when not positive), each with the parsed times |
| Interface.ParseOffsets | asdetector/interface/interface.py:158-161 | one list per argument, ValueError when any offset is not base 16 |
| Interface.OffsetListRoundTrip | asdetector/interface/interface.py:160 | a non-empty list written in hex with commas parses back to itself |
| Interface.OffsetsRoundTrip | asdetector/interface/interface.py:158-161 | every camera's printed list reads back unchanged |
| Interface.EmptyOffsetListRejected | asdetector/interface/interface.py:160 | an empty argument is a ValueError |
| Interface.ConfigCommand.ParseArguments | asdetector/interface/interface.py:158-161 | the offsets change only when every argument parses |
| Interface.ConfigCommand.InspectOffsets | asdetector/interface/interface.py:163-191 | SyntaxError for too few lists, or for the first list that is too short; surplus only warns |
| Interface.SelectedMode | asdetector/interface/interface.py:243-248 | the upper-cased argument when it is a mode, AssertionError otherwise, CDS without arguments |
| Interface.SelectedModeAnyCase | asdetector/interface/interface.py:245 | any spelling that upper-cases to a mode name selects that mode |
| Interface.ModeCommand.ParseArguments | asdetector/interface/interface.py:243-248 | the upper-cased argument is stored before it is checked |
| Interface.ModeIsPersisted | asdetector/interface/interface.py:238-241 | after Mode, the settings load the mode's name under MODE |
| Interface.StatusBracketing | asdetector/interface/interface.py:265-294 | an empty command fails before any status update; other commands but STATUS get exactly one start and one completion |
| Interface.BracketedStatus | asdetector/interface/interface.py:275-294 | the status left is the template with the command, its start time and its completion |
| Interface.FailureReplies | asdetector/interface/interface.py:268-301 | KeyError, ValueError and AssertionError failures give the traceback or ExecutionError; ConnectionAbortedError is re-raised |
| Interface.Responses | asdetector/interface/interface.py:210-284 | a command that parses and whose calls go through answers its response; MODE answers None; TEST's as-written `io_start` raises TypeError, reported as the traceback or ExecutionError |
| Interface.CaseInsensitive | asdetector/interface/interface.py:269-270 | dispatch depends only on the upper-cased first token and the remaining tokens |
| Interface.SpacingIgnored | asdetector/interface/interface.py:269-270 | the same words with any whitespace between, before or after them make the same command |
| Interface.ExecuteCommandOn | asdetector/interface/interface.py:268-301 | the status object changes exactly as the command's events say |
| Acquisition.SkipPeriod | asdetector/detector/macie/io.py:487-492 | a saved frame and its skipped ones: at least 1 |
| Acquisition.BuildSkips | asdetector/detector/macie/io.py:485-493 | the loop builds the skip schedule that SavedCountOfSchedule and NoSkipSavesAll describe |
| Acquisition.SavedCountOfSchedule | asdetector/detector/macie/io.py:485-493 | frame 0 is saved, and ⌈science / (skip + 1)⌉ frames are saved |
| Acquisition.NoSkipSavesAll | asdetector/detector/macie/io.py:485-493 | without a positive skip every frame is saved |
| Acquisition.CountdownSpec | asdetector/detector/macie/io.py:519-537 | starts at the whole acquisition, drops one frame time per capture, never increases, ends at 0 |
| Acquisition.RampOfFrames | asdetector/detector/macie/io.py:452 | when it succeeds, one frame per name in ramp order, each the named image |
| Acquisition.WriteValuesKeys | asdetector/detector/macie/io.py:502-508 | header writes never add or drop a keyword; they go through exactly when every keyword exists, KeyError otherwise (likewise the writes at io.py:409-412) |
| Acquisition.WriteValuesFailStays | asdetector/detector/macie/io.py:409-412 | after a raised write no later write happens |
| Acquisition.WriteValuesGet | asdetector/detector/macie/io.py:409-412 | after writes that went through each keyword holds its last written value |
| Acquisition.FrameStepGrows | asdetector/detector/macie/io.py:421-435 | one camera's turn only adds files and ramp entries; a reset frame never reaches a ramp |
| Acquisition.HandleFrameGrows | asdetector/detector/macie/io.py:442-456 | handling a frame only adds; a reset frame never reaches a ramp |
| Acquisition.FormatKeepsKeywords | asdetector/detector/macie/io.py:401-415 | the header keeps its keywords; the frame is named as a reset (ISRESET true) or a raw frame of its camera |
| Acquisition.CaptureGrows | asdetector/detector/macie/io.py:417-419 | a capture only adds files and ramp entries; a reset frame never reaches a ramp; a frame that is not kept saves nothing and changes no ramp |
| Acquisition.ResetRunSpec | asdetector/detector/macie/io.py:524-528 | reset captures leave the ramps alone and save nothing unless reset frames are saved |
| Acquisition.ScienceRunInOrder | asdetector/detector/macie/io.py:532-537 | the science captures keep every ramp in capture order |
| Acquisition.ScienceRunSaves | asdetector/detector/macie/io.py:532-537 | the science captures keep a resync request and only add saved files |
| Acquisition.ScienceRunUnsaved | asdetector/detector/macie/io.py:532-537 | without saving, the science captures change neither the saved files nor the ramps |
| Acquisition.ScienceRunFailed | asdetector/detector/macie/io.py:478-555 | after an exception no capture changes anything |
| Acquisition.StartRunSpec | asdetector/detector/macie/io.py:478-555 | ramps hold only raw, saved, non-skipped frames of their camera in capture order; resync is never withdrawn; without saving nothing is saved and ramps stay empty |
| Acquisition.HandleScienceFrame | asdetector/detector/macie/io.py:442-456 | a science frame is saved, listed under ExposureFrames and appended to its camera's ramp only; under REDUCEINTERMEDIATEFRAMES its preview is saved under the res name and listed |
| Acquisition.ReduceIntermediateSpec | asdetector/detector/macie/io.py:450-456 | a reduction that goes through is saved last under the res name and listed under IntermediateReducedFrames; ramps, images and ExposureFrames lists are kept |
| Acquisition.FowlerPreview | asdetector/detector/macie/io.py:450-453 | in a Fowler mode the preview is last minus first frame, without wrap-around |
| Acquisition.FormatGoesThrough | asdetector/detector/macie/io.py:401-415 | with fewer or more than six science headers (the as-written parse then goes through), a frame of camera i whose ASIC has header entries is formatted as raw frame n of camera i |
| Acquisition.FrameStepAppends | asdetector/detector/macie/io.py:421-449 | without six science headers, a saved science frame of camera i is appended to camera i's ramp and no other |
| Acquisition.HandleFramesFromAppends | asdetector/detector/macie/io.py:417-449 | without six science headers, every camera gets raw frame n appended exactly once, other ramps are kept |
| Acquisition.ScheduledCount | asdetector/detector/macie/io.py:485-493 | a camera's scheduled frames are as many as the schedule saves |
| Acquisition.CaptureReady | asdetector/detector/macie/io.py:325-339 | without six science headers, `capture_frame` goes through and keeps the state ready |
| Acquisition.ScienceRunComplete | asdetector/detector/macie/io.py:532-537 | with saving on and without six science headers, each camera's ramp gains exactly its scheduled raw frames |
| Acquisition.PreparedReady | asdetector/detector/macie/io.py:502-522 | the preparation goes through and leaves every camera an empty ramp |
| Acquisition.CapturesComplete | asdetector/detector/macie/io.py:524-537 | without six science headers, resets then science frames leave each ramp exactly its scheduled frames |
| Acquisition.StartRunComplete | asdetector/detector/macie/io.py:478-537 | without six science headers and when everything goes through, each camera's ramp is exactly its saved raw frames in order, as many as the schedule saves |
| Acquisition.Parse | asdetector/detector/macie/io.py:977-994 | the acquisition's parse goes through exactly without six science headers, and then adds no telemetry and keeps the camera; with six it raises |
| Acquisition.SixHeadersCaptureKeeps | asdetector/detector/macie/io.py:401-421 | with six science headers a capture changes only the header: the per-camera thread raises before it saves or appends |
| Acquisition.SixHeadersResetRunKeeps | asdetector/detector/macie/io.py:524-528 | with six science headers the reset captures keep saved files, images, ramps and resync |
| Acquisition.SixHeadersScienceRunKeeps | asdetector/detector/macie/io.py:532-537 | with six science headers the science captures keep saved files, images, ramps and resync |
| Acquisition.SixHeadersStartKeeps | asdetector/detector/macie/io.py:478-537 | with six science headers a start saves nothing and leaves every camera's ramp empty |
| MacieSession.AsicInfoAfterInit | asdetector/detector/macie/io.py:569-578 | goes through exactly when every index is in ASICLOOKUPTABLE; then each ASIC's entry is its index, address, sca, sce and position (the lookup at io.py:314-315) |
| MacieSession.AsicInfoStepKeeps | asdetector/detector/macie/io.py:571-578 | one turn fills only its own ASIC's entry |
| MacieSession.CardsOfHeader | asdetector/utils/image.py:15-20 | `gen_fits_header` returns the header's cards |
| MacieSession.WriteAll | asdetector/detector/macie/io.py:409-412 | the write loop computes the header writes |
| MacieSession.FormatOn | asdetector/detector/macie/io.py:401-415 | the as-written parse, the writes and the cards of `format_frame_info`: an error with six science headers, otherwise the camera's name, camera and cards |
| MacieSession.EmptyRamps | asdetector/detector/macie/io.py:509-512 | every camera's ramp becomes empty, others are kept |
| MacieSession.Macie.constructor | asdetector/detector/macie/io.py:84-148 | no cameras, no ASIC information, no ramps, no resync |
| MacieSession.Macie.GenCamNames | asdetector/detector/macie/io.py:380-381 | each ASIC's name from CAMERANAMES, IndexError leaving the names unchanged |
| MacieSession.Macie.InitAsicInfo | asdetector/detector/macie/io.py:314-315 | an empty entry for every ASIC |
| MacieSession.Macie.GenAsicInfoHeaders | asdetector/detector/macie/io.py:569-578 | the new entries are those the turns compute |
| MacieSession.Macie.FormatFrameInfo | asdetector/detector/macie/io.py:401-415 | writes land in the header and resync is kept; the result is the as-written parse's error with six science headers, otherwise name, camera and cards |
| MacieSession.Macie.HandleFrame | asdetector/detector/macie/io.py:442-456 | the new state is `Acquisition.HandleFrame` of the old |
| MacieSession.Macie.ReduceIntermediate | asdetector/detector/macie/io.py:450-456 | the new state is the preview saved and recorded |
| MacieSession.Macie.HandleCameraFrame | asdetector/detector/macie/io.py:421-449 | one camera's turn of the loop, as `Acquisition.FrameStep` says: a formatting error keeps only the header writes and ends the loop |
| MacieSession.Macie.HandleFrames | asdetector/detector/macie/io.py:417-440 | the cameras one after another, as `Acquisition.HandleFrames` says (so, with six science headers, nothing but the header changes) |
| MacieSession.Macie.CaptureFrame | asdetector/detector/macie/io.py:325-339 | FRAME is set, then the capture is handled |
| MacieSession.Macie.Prepare | asdetector/detector/macie/io.py:502-522 | header values, empty ramps, frame count and time remaining |
| MacieSession.Macie.CaptureResets | asdetector/detector/macie/io.py:524-529 | the reset captures with the times remaining |
| MacieSession.Macie.CaptureScience | asdetector/detector/macie/io.py:532-537 | the science captures with the times remaining |
| MacieSession.Macie.Acquire | asdetector/detector/macie/io.py:502-537 | prepare, resets, science; the times remaining count down |
| MacieSession.Macie.Start | asdetector/detector/macie/io.py:478-555 | a plan that raises (ZeroDivisionError for a zero frame time) changes nothing; otherwise the status handler is the caller's or a fresh empty one (io.py:494-497), the context takes the run's names, the state is `Acquisition.StartRun` of the old with that status, and the countdown is reported |

## Left out

- FrameReduce.MeanReduce: computes the mean over exact reals; `np.mean` rounds in float64.
- FrameReduce.Difference: the Fowler difference is exact; numpy rounds it in float64.
- FrameReduce.DType: covers integer dtypes only. Float ramps are not modelled.
- Bits.Log2Floor: the exact floor of log2. `int(np.log2(v))` goes through float64, so for v = 2^49 − 1 it can give 49 instead of 48. Only non-powers of two near a power are affected; ASIC masks are powers of two.
- Text.ParseInt: rejects underscores between digits (`1_000`), which Python's `int` accepts.
- Text.ParseFloat: rejects exponents, underscores, "inf" and "nan", which Python's `float` accepts.
- Text.UpperChar: ASCII-only and length-preserving; `str.upper` is Unicode ('ß' becomes 'SS'). It is applied to command names, mode names and settings keys.
- Text.IsSpace: ASCII whitespace only (space, tab, newline, vertical tab, form feed, carriage return, and the file, group, record and unit separators \x1c to \x1f); Python's `str.isspace` also accepts Unicode spaces such as U+0085, U+00A0 and U+2003.
- Text.IsDigit: ASCII digits only; Python's `int` and `float` also accept other Unicode decimal digits.
- Text.SplitWhitespace: splits on ASCII whitespace only (see Text.IsSpace); `str.split()` also splits on Unicode spaces, so a command separated by U+00A0 is one token here and two in the source.
- Text.Strip: strips ASCII whitespace only (see Text.IsSpace); `str.strip()` also strips Unicode spaces.
- Acquisition.Settings: the mode is a parsed `Mode`, so a MODE string outside the frame and reduction tables, which raises KeyError in `calc_num_frames` and the reductions (image.py:538-540, 465, 469), cannot arise; REDXMODE is written as the mode's name.
- ExposureTiming.SsrFrames: `round(t / tpf)` is computed on exact reals; the source divides in float64, so where the quotient lies near a half the count can differ (with FRAMETIMESEC 0.1 and t = 0.35 the float64 quotient is 3.4999999999999996, which rounds to 3 frames, while the exact quotient 3.5 rounds to 4 here).
- ExposureTiming.FowlerFrames: the same float64 rounding of `t / tpf` is not modelled (see ExposureTiming.SsrFrames).
- Acquisition.Seconds: the exposure and skip times are exact reals; the float64 values the source computes with, and the rounding of the frame counts derived from them, are not modelled.
- MacieSession.Macie.Start: uses the settings held in the object; the source reloads them from the settings file with `load_settings()` on every start (io.py:479). The `request` argument is not modelled: it is only handed on to replies.
- MacieSession.Macie.HandleFrames: runs the per-camera threads one after another. The join timeout of FRAMETIMESEC·5 and its TimeoutError (io.py:437-440, 539-542) are not modelled.
- Acquisition.HandleFrame: the intermediate reduction reads MODE from the context settings; `intermediate_reduce_image_from_array` reloads it with `load_settings()`.
- Header.Custom: a FITSHEADER key is a resolved `HeaderKey`. A key spelled like a built-in keyword would, in the source, overwrite that entry in place (header.py:134-135); here `Custom("FRAME")` and `FRAME` are different keys, so the table would hold two entries printed the same.
- Telemetry.ParseScienceHeader: ASICCHIPIDLOWER is an int-to-int map. Once settings.json exists, the table is read back from JSON, whose object keys are strings, so an integer chip id never matches and every frame takes the resync branch (files.py:77-83, 140-153). The model's "chip found" branch is reachable only with int keys.
- Files: the write of DEFAULT_SETTINGS when the settings file is missing (files.py:145), and all file and directory creation, are not modelled.
- Threads in `capture_frame`, `start` and `reduce_frames` (io.py:334-339, 531-546): captures are handled in order, and the header shared between threads is modelled as a value.
- `reduce_frames` and `reduce_frame` (io.py:458-473), run after the captures under REDUCEFINALFRAME, are not modelled.
- `save_frame`: the DATE and ASDFNAME cards and the FITS write (io.py:341-352) are not modelled; a saved frame is its name, trimmed image and cards.
- SAVENUMPYARRAY (io.py:329-332) and the start and end time headers (io.py:327, 520, 530) are not modelled.
- Driver calls (`api.*`), register reads and writes, and opening interfaces on the driver.
- MEDIAN and MODE reductions only raise AttributeError; their frame and exposure rules are modelled.
- The Unlock, Sync, Open, Init, Close and ConfigFromFile command bodies: their effects on the hardware are a parameter.
- The TCP server and its handler (interface.py:304-418).
- ExposureTiming: a zero frame time is a ZeroDivisionError value; lemmas about round trips assume a positive frame time.
- Acquisition.RampOfFrames: `np.asarray` of frames with mismatched shapes is a ValueError here; numpy versions before 1.24 built an object array instead.

## Findings

| source | as written | input that shows it | evidently intended | confidence | as-written member | corrected member |
|---|---|---|---|---|---|---|
| asdetector/detector/macie/io.py:994 | `science_words['ASICIDLOWERTELEMETRYCOLUMN']` indexes a numpy array with a string, which raises IndexError; `except KeyError` does not catch it. The acquisition runs this parse as written (Acquisition.Parse), so a start with six science headers saves nothing | any frame with six science headers | look up the word at ASICIDLOWERTELEMETRYCOLUMN in ASICCHIPIDLOWER. Even then, a table read back from settings.json has string keys and never matches (see Left out) | not executed | Telemetry.ParseScienceHeaderAsWritten, Telemetry.AsWrittenNeverParses, Acquisition.SixHeadersStartKeeps | Telemetry.ParseScienceHeader, Telemetry.ParseScienceHeaderSpec |
| asdetector/utils/image.py:569-574 | FOWLER8 and FOWLER16 compute the exposure with k = 4 | FOWLER8, t = 8·tpf: 16 frames, reported as 12·tpf | each mode uses its own k | not executed | ExposureTiming.CalcExposure, ExposureTiming.WideFowlerExposureOvershoot, ExposureTiming.Fowler8ExposureExample | ExposureTiming.IntendedExposure, ExposureTiming.FowlerRoundTrip |
| asdetector/utils/image.py:414 | the end window `images[-1-k:-1]` excludes the last frame | a linear ramp of n frames with slope b: measures b·(n − 1 − k) | `images[-k:]`, measuring b·(n − k) | not executed | FrameReduce.FowlerReduce, FrameReduce.FowlerOfLinearRamp | FrameReduce.IntendedFowlerReduce, FrameReduce.IntendedFowlerOfLinearRamp |
| asdetector/detector/macie/io.py:50-65 | a rewritten LOAD line loses the newline `readlines` kept | a file of two LOAD lines comes out as one line | keep each line's ending | not executed | Cards.McfAbsFromRelAsWritten, Cards.McfAsWrittenOneLine | Cards.McfAbsFromRel, Cards.McfKeepsLines |
| asdetector/interface/interface.py:213 | `io_start(6, self.request, self.status)` binds the request to skip_time; the TEST dispatch (Interface.Run) makes this call as written, so TEST raises TypeError once its open and init go through | the TEST command | `io_start(6, request=self.request, status=self.status)` | not executed | Interface.TestStartCallAsWritten, Interface.TestStartCallMisbinds, Interface.Responses | Interface.TestStartCall, Interface.TestStartCallBinds |

The acquisition and the command dispatch keep the code's behaviour in every row, as the
instrument runs it: `start` writes `CalcExposure` into EXPTIMEE, the reduction table applies
`FowlerReduce`, each frame goes through the as-written science-header parse, and TEST makes
its misbound `io_start` call. The corrected definitions stand beside them with their proved properties.

=== FILE: acquisition.dfy ===
/** The acquisition session of BaseMACIE (asdetector/detector/macie/io.py). `start` works out the
    number of science frames and the skip schedule, captures the reset frames and then the
    science frames; each capture is split into one frame per camera, which is formatted with its
    FITS header and telemetry, saved, and appended to its camera's ramp. The object's state is a
    class whose methods are proved against the functions that say what each step does to it. */
module Acquisition {
  import opened Wrappers
  import opened Text
  import opened Header
  import opened Json
  import Arith
  import Ordered
  import Telemetry
  import Files
  import Slices
  import ExposureTiming
  import StatusSink
  import Cards
  import FrameReduce
  import Bits

  // ---------------------------------------------------------------- the skip schedule

  /** A saved science frame and the `skip` skipped frames after it. */
  function SkipPeriod(skip: int): (p: nat)
    ensures p >= 1
  {
    if skip > 0 then skip + 1 else 1
  }

  /** The schedule `start` intends: frame j is skipped unless j is a multiple of the period;
      no frames at all when the count is not positive. */
  function SkipSchedule(science: int, skip: int): seq<bool>
  {
    seq(if science > 0 then science else 0, j => j % SkipPeriod(skip) != 0)
  }

  lemma ModOffset(base: nat, m: nat, p: nat)
    requires p >= 1 && base % p == 0 && m <= p
    ensures m < p ==> (base + m) % p == m
    ensures m == p ==> (base + m) % p == 0
  {
    Arith.DivModUnique(base, p, base / p, 0);
    if m < p {
      Arith.DivModUnique(base + m, p, base / p, m);
    } else {
      Arith.DivModUnique(base + m, p, base / p + 1, 0);
    }
  }

  lemma Append(s: seq<bool>, b: bool, p: nat)
    requires p >= 1 && b == (|s| % p != 0)
    requires forall j :: 0 <= j < |s| ==> s[j] == (j % p != 0)
    ensures forall j :: 0 <= j < |s| + 1 ==> (s + [b])[j] == (j % p != 0)
  {
    forall j | 0 <= j < |s| + 1
      ensures (s + [b])[j] == (j % p != 0)
    {
      if j < |s| {
        assert (s + [b])[j] == s[j];
      }
    }
  }

  /** The `skips` list of `start`: a saved frame then `skip` skipped ones, over and over until
      the science frames are covered, cut to the number of science frames. */
  method BuildSkips(science: int, skip: int) returns (skips: seq<bool>)
    ensures skips == SkipSchedule(science, skip)
  {
    var p := SkipPeriod(skip);
    skips := [];
    var remaining := science;
    while remaining > 0
      invariant remaining == science - |skips|
      invariant |skips| % p == 0
      invariant science <= 0 ==> skips == []
      invariant forall j :: 0 <= j < |skips| ==> skips[j] == (j % p != 0)
      decreases remaining
    {
      var base := |skips|;
      ModOffset(base, 0, p);
      Append(skips, false, p);
      skips := skips + [false];
      remaining := remaining - 1;
      for i := 0 to (if skip > 0 then skip else 0)
        invariant remaining == science - |skips|
        invariant |skips| == base + 1 + i
        invariant forall j :: 0 <= j < |skips| ==> skips[j] == (j % p != 0)
      {
        ModOffset(base, 1 + i, p);
        Append(skips, true, p);
        skips := skips + [true];
        remaining := remaining - 1;
      }
      ModOffset(base, p, p);
    }
    var all := skips;
    skips := Slices.Slice(all, 0, science);
    if science > 0 {
      assert skips == all[..science];
    } else {
      assert all == [];
    }
    assert |skips| == |SkipSchedule(science, skip)|;
  }

  /** The number of frames a schedule saves. */
  function SavedCount(s: seq<bool>): nat
  {
    if |s| == 0 then 0 else SavedCount(s[..|s| - 1]) + (if s[|s| - 1] then 0 else 1)
  }

  lemma CeilStep(n: nat, p: nat)
    requires p >= 1
    ensures (n + p) / p == (n + p - 1) / p + (if n % p == 0 then 1 else 0)
  {
    var q, r := n / p, n % p;
    Arith.DivModUnique(n, p, q, r);
    Arith.DivModUnique(n + p, p, q + 1, r);
    if r == 0 {
      Arith.DivModUnique(n + p - 1, p, q, p - 1);
    } else {
      Arith.DivModUnique(n + p - 1, p, q + 1, r - 1);
    }
  }

  /** The first science frame is always saved, and with `skip` frames skipped after each saved
      one, ⌈science / (skip + 1)⌉ of the science frames are saved. */
  lemma {:induction false} SavedCountOfSchedule(science: nat, skip: int)
    ensures science > 0 ==> !SkipSchedule(science, skip)[0]
    ensures SavedCount(SkipSchedule(science, skip)) == (science + SkipPeriod(skip) - 1) / SkipPeriod(skip)
  {
    var p := SkipPeriod(skip);
    if science > 0 {
      var s := SkipSchedule(science, skip);
      assert s[..science - 1] == SkipSchedule(science - 1, skip);
      SavedCountOfSchedule(science - 1, skip);
      CeilStep(science - 1, p);
    } else {
      Arith.DivModUnique(p - 1, p, 0, p - 1);
    }
  }

  /** Without a positive skip count every science frame is saved. */
  lemma NoSkipSavesAll(science: int, skip: int)
    requires skip <= 0
    ensures forall j :: 0 <= j < |SkipSchedule(science, skip)| ==> !SkipSchedule(science, skip)[j]
  {
  }

  // ---------------------------------------------------------------- the countdown

  /** `frames * FRAMETIMESEC`: the time a number of frames takes. */
  function Seconds(frames: int, tpf: real): real
  {
    frames as real * tpf
  }

  /** The values `total_frames` takes in `start` when the time remaining is reported: the
      total before the first capture, then one less after each capture. The time reported is
      `Seconds` of each. */
  predicate CountsDown(reported: seq<int>, total: int)
  {
    forall k :: 0 <= k < |reported| ==> reported[k] == total - k
  }

  /** The time remaining starts at the whole acquisition, drops by exactly one frame time at
      every capture, so never increases for a non-negative frame time, and reaches zero when
      every frame has been counted. */
  lemma CountdownSpec(reported: seq<int>, total: int, tpf: real)
    requires CountsDown(reported, total)
    ensures |reported| > 0 ==> Seconds(reported[0], tpf) == Seconds(total, tpf)
    ensures forall k :: 0 < k < |reported| ==> Seconds(reported[k - 1], tpf) - Seconds(reported[k], tpf) == tpf
    ensures tpf >= 0.0 ==> forall k :: 0 < k < |reported| ==> Seconds(reported[k], tpf) <= Seconds(reported[k - 1], tpf)
    ensures |reported| > 0 && |reported| == total + 1 ==> Seconds(reported[|reported| - 1], tpf) == 0.0
  {
    forall k | 0 < k < |reported|
      ensures Seconds(reported[k - 1], tpf) - Seconds(reported[k], tpf) == tpf
    {
      var a := reported[k] as real;
      assert reported[k - 1] as real == a + 1.0;
      assert (a + 1.0) * tpf == a * tpf + tpf;
    }
  }

  // ---------------------------------------------------------------- the session's data

  /** One camera's frame, rows of 16-bit words, as deinterleaving gives it. */
  type Image = seq<seq<Telemetry.Word>>

  /** A header in the `header_format` layout: keyword to entry, in insertion order. */
  type Fits = seq<(HeaderKey, Entry)>

  /** The settings acquisition reads. */
  datatype Settings = Settings(
    mode: ExposureTiming.Mode,     // MODE
    tpf: real,                     // FRAMETIMESEC
    resetFrames: int,              // ASICRESETFRAMES, kept as `reset_frames`
    saveResetFrames: bool,         // SAVERESETFRAMES
    nScienceHeaders: int,          // `n_science_headers`
    removeScienceHeaders: bool,    // `remove_science_headers`
    telemetryRow: int,             // ASICIDLOWERTELEMETRYROW
    telemetryColumn: int,          // ASICIDLOWERTELEMETRYCOLUMN
    chipTable: map<int, int>,      // ASICCHIPIDLOWER
    reduceIntermediate: bool)      // REDUCEINTERMEDIATEFRAMES

  /** Where `gen_detector_file_name` puts the exposure's frames. */
  datatype Naming = Naming(rawDir: string, resDir: string, date: string, prefix: Option<string>, iteration: nat)

  /** `raw_frame_file_format.format(cam=cam, frame=frame)`. */
  function RawName(nm: Naming, cam: string, frame: nat): string
  {
    PathJoin(nm.rawDir, Files.FrameFileName(nm.date, nm.prefix, nm.iteration, cam, frame))
  }

  /** `res_frame_file_format.format(cam=cam, frame=frame)`: the raw name, in the res directory. */
  function ResName(nm: Naming, cam: string, frame: nat): string
  {
    PathJoin(nm.resDir, Files.FrameFileName(nm.date, nm.prefix, nm.iteration, cam, frame))
  }

  /** `reset_frame_file_format.format(cam=cam, frame=frame)`. */
  function ResetName(nm: Naming, cam: string, frame: nat): string
  {
    PathJoin(nm.rawDir, Files.ResetFileName(nm.date, nm.prefix, nm.iteration, cam, frame))
  }

  function FrameName(nm: Naming, cam: string, frame: nat, reset: bool): string
  {
    if reset then ResetName(nm, cam, frame) else RawName(nm, cam, frame)
  }

  /** What acquisition reads and leaves alone: the settings, the file naming, `cam_names`,
      `list_asics_index` and `asic_info_header`. */
  datatype Context = Context(settings: Settings, naming: Naming, camNames: seq<string>, asicsIndex: seq<int>,
                             asicInfo: map<string, seq<(HeaderKey, Value)>>)

  /** A file handed to `save_frame`: its name, its pixels and its header cards; a raw or reset
      frame, or the intermediate reduction of a ramp. */
  datatype SavedFrame =
    | SavedFrame(fileName: string, image: Image, cards: seq<Card>)
    | SavedReduced(fileName: string, reduced: FrameReduce.Reduced, cards: seq<Card>)

  /** What acquisition changes: `header`, `ramps`, the files saved, the status, and
      `image_arrays`, each formatted frame under its file name. `resync` is carried along: the
      science-header parse as written never reaches the branch that sets it. */
  datatype Acq = Acq(header: Fits, ramps: map<string, seq<string>>, resync: bool, saved: seq<SavedFrame>,
                     status: StatusSink.Status, images: map<string, Image>)

  // ---------------------------------------------------------------- header writes

  /** A header after some writes, and whether all of them went through. */
  datatype Written = Written(header: Fits, outcome: Outcome)

  /** `fits_header[k]['value'] = v` after earlier writes: KeyError when the header lacks k,
      nothing once a write has raised. */
  function WriteOne(w: Written, k: HeaderKey, v: Value): Written
  {
    if w.outcome.Fail? then w
    else match Ordered.Get(w.header, k)
      case None => Written(w.header, Fail(KeyError))
      case Some(e) => Written(Ordered.Set(w.header, k, e.(value := Some(v))), Pass)
  }

  /** `for k, v in entries: fits_header[k]['value'] = v`: the first keyword the header lacks
      raises KeyError, and the writes before it stay. */
  function WriteValues(h: Fits, entries: seq<(HeaderKey, Value)>): Written
    decreases |entries|, 1
  {
    if |entries| == 0 then Written(h, Pass) else WriteLast(h, entries)
  }

  /** The last of the writes, after the ones before it. */
  function WriteLast(h: Fits, entries: seq<(HeaderKey, Value)>): Written
    requires |entries| > 0
    decreases |entries|, 0
  {
    WriteOne(WriteValues(h, entries[..|entries| - 1]), entries[|entries| - 1].0, entries[|entries| - 1].1)
  }

  lemma WriteValuesNext(h: Fits, entries: seq<(HeaderKey, Value)>)
    requires |entries| > 0
    ensures WriteValues(h, entries) ==
      WriteOne(WriteValues(h, entries[..|entries| - 1]), entries[|entries| - 1].0, entries[|entries| - 1].1)
  {
  }

  /** `gen_fits_header`: the cards of a header, KeyError for an entry without a value or a
      comment (the function `Header.GenFitsHeader` computes). */
  function FitsCards(h: Fits): (r: Result<seq<Card>>)
  {
    if forall i :: 0 <= i < |h| ==> HasCard(h[i].1) then
      Ok(seq(|h|, i requires 0 <= i < |h| && HasCard(h[i].1) =>
        Card(Name(h[i].0), h[i].1.value.value, h[i].1.comment.value)))
    else Err(KeyError)
  }

  // ---------------------------------------------------------------- format_frame_info

  /** `parse_science_header` of BaseACADIA as written: without six science headers the frame
      keeps its camera and gets no telemetry keywords; with six, every frame raises (an
      IndexError, or the row's own IndexError or ValueError), before the `except KeyError` that
      would request a resync is reached. `Telemetry.ParseScienceHeader` is the intended parse. */
  function Parse(c: Context, frame: Image, camName: string, camIndex: int): (r: Result<Telemetry.Parsed>)
    ensures r.Ok? <==> c.settings.nScienceHeaders != 6
    ensures r.Ok? ==> r.value == Telemetry.Parsed([], camName, camIndex, false)
  {
    Telemetry.ParseScienceHeaderAsWritten(frame, c.settings.nScienceHeaders, c.settings.telemetryRow, camName, camIndex)
  }

  /** The telemetry keywords as header values. */
  function IntEntries(h: seq<(HeaderKey, int)>): (r: seq<(HeaderKey, Value)>)
  {
    seq(|h|, i requires 0 <= i < |h| => (h[i].0, IntValue(h[i].1)))
  }

  /** A formatted frame: its file name, the camera it was assigned to, and its cards. */
  datatype FrameInfo = FrameInfo(fileName: string, camName: string, camIndex: int, cards: seq<Card>)

  /** The header after formatting, and the frame or the exception. */
  datatype Formatted = Formatted(header: Fits, info: Result<FrameInfo>)

  /** `format_frame_info` after the parse: set ISRESET, write the ASIC's `asic_info_header`
      entries and the telemetry words, name the file after the camera chosen, and make the
      cards; the header as written so far, and the frame or the exception. */
  function FormatParsed(c: Context, header: Fits, p: Telemetry.Parsed, n: nat, reset: bool): (Fits, Result<FrameInfo>)
  {
    var w0 := WriteValues(header, [(ISRESET, BoolValue(reset))]);
    var key := IntString(p.camIndex);
    if w0.outcome.Fail? || key !in c.asicInfo then (w0.header, Err(KeyError))
    else
      var w1 := WriteValues(w0.header, c.asicInfo[key]);
      if w1.outcome.Fail? then (w1.header, Err(KeyError))
      else
        var w2 := WriteValues(w1.header, IntEntries(p.header));
        if w2.outcome.Fail? then (w2.header, Err(KeyError))
        else match FitsCards(w2.header)
          case Err(e) => (w2.header, Err(e))
          case Ok(cards) => (w2.header, Ok(FrameInfo(FrameName(c.naming, p.camName, n, reset), p.camName, p.camIndex, cards)))
  }

  /** `format_frame_info` with the telemetry parse of BaseACADIA: parse the telemetry, then
      write and make the cards. The header is a shallow copy of `self.header`, so the writes
      land in `self.header` as well: the header returned is what both hold afterwards. The parse
      as written never requests a resync. */
  function FormatFrameInfo(c: Context, header: Fits, frame: Image, n: nat, camName: string, camIndex: int,
                           reset: bool): Formatted
  {
    match Parse(c, frame, camName, camIndex)
    case Err(e) => Formatted(header, Err(e))
    case Ok(p) =>
      var r := FormatParsed(c, header, p, n, reset);
      Formatted(r.0, r.1)
  }

  // ---------------------------------------------------------------- handle_frame(s)

  /** The pixels `save_frame` writes: without the science-header columns when they are removed. */
  function Trimmed<T>(s: Settings, image: seq<seq<T>>): seq<seq<T>>
  {
    if s.removeScienceHeaders then
      seq(|image|, r requires 0 <= r < |image| => Slices.Slice(image[r], s.nScienceHeaders, |image[r]|))
    else image
  }

  /** A reduced image as `save_frame` writes it: `image_array[:, n_science_headers:]` when the
      science headers are removed. */
  function TrimmedReduced(s: Settings, red: FrameReduce.Reduced): FrameReduce.Reduced
  {
    match red
    case Ints(img) => FrameReduce.Ints(Trimmed(s, img))
    case Reals(img) => FrameReduce.Reals(Trimmed(s, img))
    case NaNs(rows, cols) =>
      if s.removeScienceHeaders then FrameReduce.NaNs(rows, cols - Slices.Bound(s.nScienceHeaders, cols)) else red
  }

  /** A frame's pixels as integers. */
  function Widened(img: Image): FrameReduce.Image
  {
    seq(|img|, y requires 0 <= y < |img| => seq(|img[y]|, x requires 0 <= x < |img[y]| => img[y][x] as int))
  }

  /** `np.asarray([self.image_arrays[raw_name] for raw_name in names])`: KeyError for a name
      without a frame, ValueError when the frames do not all share the first one's shape. */
  function RampOfFrames(images: map<string, Image>, names: seq<string>): (r: Result<FrameReduce.Ramp>)
    ensures r.Ok? ==> r.value.Valid() && |r.value.frames| == |names|
    ensures r.Ok? ==> forall j :: 0 <= j < |names| ==> names[j] in images && r.value.frames[j] == Widened(images[names[j]])
  {
    if exists j :: 0 <= j < |names| && names[j] !in images then Err(KeyError)
    else
      var frames := seq(|names|, j requires 0 <= j < |names| => images[names[j]]);
      var rows := if |frames| > 0 then |frames[0]| else 0;
      var cols := if rows > 0 then |frames[0][0]| else 0;
      if exists j :: 0 <= j < |frames| && !FrameReduce.IsImage(frames[j], rows, cols) then Err(ValueError)
      else Ok(FrameReduce.Ramp(seq(|frames|, j requires 0 <= j < |frames| => Widened(frames[j])), rows, cols))
  }

  /** `intermediate_reduce_image_from_array` on a camera's ramp of 16-bit frames: the
      intermediate method of the mode (CDS for the Fowler modes). */
  function IntermediateImage(s: Settings, images: map<string, Image>, names: seq<string>): Result<FrameReduce.Reduced>
  {
    var ramp :- RampOfFrames(images, names);
    FrameReduce.Apply(FrameReduce.IntermediateReducer(s.mode), ramp, FrameReduce.UInt(16))
  }

  /** The REDUCEINTERMEDIATEFRAMES branch of `handle_frame`, once the frame is in its camera's
      ramp: reduce the ramp, save the result under the frame's res name with the frame's cards,
      and record it under IntermediateReducedFrames. An exception ends the call. */
  function ReduceIntermediate(c: Context, st: Acq, info: FrameInfo, n: nat, ramp: seq<string>): Acq
  {
    match IntermediateImage(c.settings, st.images, ramp)
    case Err(_) => st
    case Ok(red) =>
      var name := ResName(c.naming, info.camName, n);
      var saved := st.saved + [SavedReduced(name, TrimmedReduced(c.settings, red), info.cards)];
      match StatusSink.AppendFrame(st.status, StatusSink.IntermediateReducedFrames, info.camIndex, name)
      case Err(_) => st.(saved := saved)
      case Ok(status) => st.(saved := saved, status := status)
  }

  /** `handle_frame` for frame number n: save the frame; a science frame is then recorded under
      ExposureFrames, appended to its camera's ramp and, under REDUCEINTERMEDIATEFRAMES, the
      ramp is reduced. A KeyError ends the call, leaving what was done. */
  function HandleFrame(c: Context, st: Acq, info: FrameInfo, frame: Image, n: nat, reset: bool): Acq
  {
    var saved := st.saved + [SavedFrame(info.fileName, Trimmed(c.settings, frame), info.cards)];
    if reset then st.(saved := saved)
    else match StatusSink.AppendFrame(st.status, StatusSink.ExposureFrames, info.camIndex, info.fileName)
      case Err(_) => st.(saved := saved)
      case Ok(status) =>
        if info.camName !in st.ramps then st.(saved := saved, status := status)
        else
          var ramp := st.ramps[info.camName] + [info.fileName];
          var appended := st.(saved := saved, status := status, ramps := st.ramps[info.camName := ramp]);
          if c.settings.reduceIntermediate then ReduceIntermediate(c, appended, info, n, ramp) else appended
  }

  /** The state after one camera's frame, and whether `handle_frames` goes on to the next. */
  datatype Step = Step(st: Acq, ok: bool)

  /** One turn of the loop of `handle_frames`: format the frame (its writes to the header stay
      even when it raises), keep it in `image_arrays`, then handle it. */
  function FrameStep(c: Context, st: Acq, frame: Image, camName: string, camIndex: int, n: nat, reset: bool): Step
  {
    var f := FormatFrameInfo(c, st.header, frame, n, camName, camIndex, reset);
    var st1 := st.(header := f.header);
    match f.info
    case Err(_) => Step(st1, false)
    case Ok(info) => Step(HandleFrame(c, st1.(images := st1.images[info.fileName := frame]), info, frame, n, reset), true)
  }

  /** `zip(asic_frames, cam_names, list_asics_index)` stops at the shortest. */
  function ZipLength(c: Context, frames: seq<Image>): nat
  {
    var m := if |frames| < |c.camNames| then |frames| else |c.camNames|;
    if m < |c.asicsIndex| then m else |c.asicsIndex|
  }

  /** The loop of `handle_frames` from the i-th camera on; an exception ends it. */
  function HandleFramesFrom(c: Context, st: Acq, frames: seq<Image>, n: nat, reset: bool, i: nat): Acq
    requires i <= ZipLength(c, frames)
    decreases ZipLength(c, frames) - i, 1
  {
    if i == ZipLength(c, frames) then st else HandleFrameAt(c, st, frames, n, reset, i)
  }

  /** The i-th camera's turn of that loop, then the turns after it. */
  function HandleFrameAt(c: Context, st: Acq, frames: seq<Image>, n: nat, reset: bool, i: nat): Acq
    requires i < ZipLength(c, frames)
    decreases ZipLength(c, frames) - i, 0
  {
    var step := FrameStep(c, st, frames[i], c.camNames[i], c.asicsIndex[i], n, reset);
    if step.ok then HandleFramesFrom(c, step.st, frames, n, reset, i + 1) else step.st
  }

  /** Whether `handle_frames` keeps a capture: a science frame, or a reset frame under
      SAVERESETFRAMES, that is not skipped, while science frames are being saved. */
  predicate ShouldSave(s: Settings, reset: bool, skip: bool, save: bool)
  {
    (!reset || s.saveResetFrames) && !skip && save
  }

  /** `handle_frames` on a capture already split per camera. */
  function HandleFrames(c: Context, st: Acq, frames: seq<Image>, n: nat, reset: bool, skip: bool, save: bool): Acq
  {
    if ShouldSave(c.settings, reset, skip, save) then HandleFramesFrom(c, st, frames, n, reset, 0) else st
  }

  // ---------------------------------------------------------------- capture_frame and start

  /** The state and whether an exception has ended `start`. */
  datatype Run = Run(st: Acq, outcome: Outcome)

  /** `capture_frame`: FRAME is set in the header, then the capture is handled. */
  function CaptureFrame(c: Context, st: Acq, frames: seq<Image>, n: nat, reset: bool, skip: bool, save: bool): Run
  {
    var w := WriteValues(st.header, [(FRAME, IntValue(n))]);
    if w.outcome.Fail? then Run(st.(header := w.header), w.outcome)
    else Run(HandleFrames(c, st.(header := w.header), frames, n, reset, skip, save), Pass)
  }

  /** `update_exposure_time_remaining`. */
  function WithRemaining(status: StatusSink.Status, t: real): StatusSink.Status
  {
    status["ExposureTimeRemaining" := JReal(t)]
  }

  /** One capture of `start` followed by the countdown's update; nothing more happens once an
      exception has ended `start`. */
  function Counted(c: Context, r: Run, frames: seq<Image>, n: nat, reset: bool, skip: bool, save: bool, t: real): Run
  {
    if r.outcome.Fail? then r
    else
      var r1 := CaptureFrame(c, r.st, frames, n, reset, skip, save);
      if r1.outcome.Fail? then r1 else Run(r1.st.(status := WithRemaining(r1.st.status, t)), Pass)
  }

  /** After the first k reset captures; the i-th capture of the exposure reads `readout(i)`. */
  function ResetRun(c: Context, r0: Run, readout: nat -> seq<Image>, save: bool, total: int, k: nat): Run
    decreases k, 1
  {
    if k == 0 then r0 else ResetCapture(c, r0, readout, save, total, k)
  }

  /** The k-th reset capture, numbered k - 1, after the ones before it. */
  function ResetCapture(c: Context, r0: Run, readout: nat -> seq<Image>, save: bool, total: int, k: nat): Run
    requires k > 0
    decreases k, 0
  {
    Counted(c, ResetRun(c, r0, readout, save, total, k - 1), readout(k - 1), k - 1, true, false, save,
            Seconds(total - k, c.settings.tpf))
  }

  /** After the first k science captures, numbered from 0 again and read after the resets. */
  function ScienceRun(c: Context, r0: Run, readout: nat -> seq<Image>, resets: nat, skips: seq<bool>, save: bool,
                      total: int, k: nat): Run
    requires k <= |skips|
    decreases k, 1
  {
    if k == 0 then r0 else ScienceCapture(c, r0, readout, resets, skips, save, total, k)
  }

  /** The k-th science capture, numbered k - 1, after the ones before it. */
  function ScienceCapture(c: Context, r0: Run, readout: nat -> seq<Image>, resets: nat, skips: seq<bool>, save: bool,
                          total: int, k: nat): Run
    requires 0 < k <= |skips|
    decreases k, 0
  {
    Counted(c, ScienceRun(c, r0, readout, resets, skips, save, total, k - 1), readout(resets + k - 1), k - 1,
            false, skips[k - 1], save, Seconds(total - resets - k, c.settings.tpf))
  }

  /** The reset capture numbered k. */
  lemma ResetRunNext(c: Context, r0: Run, readout: nat -> seq<Image>, save: bool, total: int, k: nat)
    ensures ResetRun(c, r0, readout, save, total, k + 1) ==
      Counted(c, ResetRun(c, r0, readout, save, total, k), readout(k), k, true, false, save,
              Seconds(total - k - 1, c.settings.tpf))
  {
  }

  /** The science capture numbered j. */
  lemma ScienceRunNext(c: Context, r0: Run, readout: nat -> seq<Image>, resets: nat, skips: seq<bool>, save: bool,
                       total: int, j: nat)
    requires j < |skips|
    ensures ScienceRun(c, r0, readout, resets, skips, save, total, j + 1) ==
      Counted(c, ScienceRun(c, r0, readout, resets, skips, save, total, j), readout(resets + j), j, false, skips[j], save,
              Seconds(total - resets - j - 1, c.settings.tpf))
  {
  }

  /** The number of science frames and the skip schedule; ZeroDivisionError without a frame time. */
  datatype Plan = Plan(science: int, skips: seq<bool>)

  function PlanOf(s: Settings, exposureTime: real, skipTime: real): Result<Plan>
  {
    var science :- ExposureTiming.CalcFrames(s.mode, exposureTime, s.tpf);
    var skip :- ExposureTiming.SsrFrames(skipTime, s.tpf);
    Ok(Plan(science, SkipSchedule(science, skip)))
  }

  /** `range(self.reset_frames)`. */
  function ResetCount(s: Settings): nat
  {
    if s.resetFrames > 0 then s.resetFrames else 0
  }

  /** The header values `start` sets before acquiring. */
  function StartEntries(s: Settings, science: int, exposureTime: real): seq<(HeaderKey, Value)>
  {
    [(NFRAMES, IntValue(science)), (EXPTIME, RealValue(Seconds(science, s.tpf))), (EXPTIMEC, RealValue(exposureTime)),
     (EXPTIMEE, RealValue(ExposureTiming.CalcExposure(s.mode, science, s.tpf))),
     (REDXMODE, TextValue(ExposureTiming.ModeName(s.mode))), (NRESETS, IntValue(s.resetFrames)),
     (RSTSAVE, BoolValue(s.saveResetFrames))]
  }

  /** `for cam_name in cam_names: self.ramps[cam_name] = []`. */
  function FreshRamps(ramps: map<string, seq<string>>, names: seq<string>): map<string, seq<string>>
  {
    map k | k in ramps.Keys + set i | 0 <= i < |names| :: names[i] :: if k in names then [] else ramps[k]
  }

  /** The state when the captures begin: header values, empty ramps for the cameras, the frame
      count and the whole acquisition time in the status. */
  function Prepared(c: Context, st: Acq, plan: Plan, exposureTime: real): Run
  {
    var s := c.settings;
    var w := WriteValues(st.header, StartEntries(s, plan.science, exposureTime));
    if w.outcome.Fail? then Run(st.(header := w.header), w.outcome)
    else
      var total := s.resetFrames + plan.science;
      Run(st.(header := w.header, ramps := FreshRamps(st.ramps, c.camNames),
              status := WithRemaining(st.status["TotalFrameCount" := JInt(plan.science)], Seconds(total, s.tpf))),
          Pass)
  }

  /** `start` once the plan is known: prepare, capture the resets, then the science frames. */
  function StartRun(c: Context, st: Acq, plan: Plan, exposureTime: real, readout: nat -> seq<Image>, save: bool): Run
  {
    var total := c.settings.resetFrames + plan.science;
    var r0 := Prepared(c, st, plan, exposureTime);
    var r1 := ResetRun(c, r0, readout, save, total, ResetCount(c.settings));
    ScienceRun(c, r1, readout, ResetCount(c.settings), plan.skips, save, total, |plan.skips|)
  }

  // ---------------------------------------------------------------- properties

  /** One write keeps the keywords, and goes through exactly when the ones before did and the
      header has its keyword. */
  lemma WriteOneKeys(w: Written, k: HeaderKey, v: Value)
    ensures Ordered.Keys(WriteOne(w, k, v).header) == Ordered.Keys(w.header)
    ensures WriteOne(w, k, v).outcome.Pass? <==> w.outcome.Pass? && k in Ordered.Keys(w.header)
    ensures WriteOne(w, k, v).outcome.Fail? && w.outcome.Pass? ==> WriteOne(w, k, v).outcome.error == KeyError
  {
  }

  /** Header writes never add or drop a keyword; they all go through exactly when the header
      has every keyword written, and otherwise raise KeyError. */
  lemma {:induction false} WriteValuesKeys(h: Fits, entries: seq<(HeaderKey, Value)>)
    ensures Ordered.Keys(WriteValues(h, entries).header) == Ordered.Keys(h)
    ensures WriteValues(h, entries).outcome.Pass? <==> forall i :: 0 <= i < |entries| ==> entries[i].0 in Ordered.Keys(h)
    ensures WriteValues(h, entries).outcome.Fail? ==> WriteValues(h, entries).outcome.error == KeyError
    decreases |entries|
  {
    if |entries| > 0 {
      var init := entries[..|entries| - 1];
      var last := entries[|entries| - 1];
      WriteValuesKeys(h, init);
      WriteValuesNext(h, entries);
      var w := WriteValues(h, init);
      WriteOneKeys(w, last.0, last.1);
      assert forall i :: 0 <= i < |init| ==> entries[i] == init[i];
      if w.outcome.Fail? {
        var i :| 0 <= i < |init| && init[i].0 !in Ordered.Keys(h);
        assert entries[i].0 !in Ordered.Keys(h);
      } else if last.0 in Ordered.Keys(w.header) {
        assert forall i :: 0 <= i < |entries| ==> i < |init| || entries[i] == last;
      }
    }
  }


  /** Once a write has raised, the writes after it are not made. */
  lemma {:induction false} WriteValuesFailStays(h: Fits, entries: seq<(HeaderKey, Value)>, i: nat)
    requires i <= |entries| && WriteValues(h, entries[..i]).outcome.Fail?
    ensures WriteValues(h, entries) == WriteValues(h, entries[..i])
    decreases |entries| - i
  {
    if i < |entries| {
      assert entries[..i + 1][..i] == entries[..i];
      WriteValuesFailStays(h, entries, i + 1);
    } else {
      assert entries[..i] == entries;
    }
  }

  /** The entry a keyword holds after the writes: the last value written to it, with its
      comment and mode, or what it held before when nothing was written to it. */
  function LastWritten(h: Fits, entries: seq<(HeaderKey, Value)>, q: HeaderKey): Option<Entry>
  {
    var i := Ordered.LastIndex(entries, q);
    if i < 0 then Ordered.Get(h, q)
    else match Ordered.Get(h, q)
      case None => None
      case Some(e) => Some(e.(value := Some(entries[i].1)))
  }

  /** After writes that all went through, every keyword holds what `LastWritten` says. */
  lemma {:induction false} WriteValuesGet(h: Fits, entries: seq<(HeaderKey, Value)>, q: HeaderKey)
    requires WriteValues(h, entries).outcome.Pass?
    ensures Ordered.Get(WriteValues(h, entries).header, q) == LastWritten(h, entries, q)
    decreases |entries|
  {
    if |entries| > 0 {
      var init := entries[..|entries| - 1];
      var last := entries[|entries| - 1];
      var w := WriteValues(h, init);
      WriteValuesGet(h, init, q);
      WriteValuesGet(h, init, last.0);
      var e := Ordered.Get(w.header, last.0).value;
      Ordered.GetSet(w.header, last.0, e.(value := Some(last.1)), q);
    }
  }

  /** How a capture numbered n may change the state: the ramps keep their cameras and only
      grow, each by names of raw frame n of the ramp's own camera; a resync request is never
      withdrawn; saved files are only added; the header keeps its keywords. */
  predicate Grows(nm: Naming, st: Acq, st': Acq, n: nat)
  {
    st'.ramps.Keys == st.ramps.Keys
    && (forall cam :: cam in st.ramps ==> st.ramps[cam] <= st'.ramps[cam])
    && (forall cam, x :: cam in st.ramps && |st.ramps[cam]| <= x < |st'.ramps[cam]| ==> st'.ramps[cam][x] == RawName(nm, cam, n))
    && (st.resync ==> st'.resync)
    && st.saved <= st'.saved
    && Ordered.Keys(st'.header) == Ordered.Keys(st.header)
  }

  lemma GrowsTrans(nm: Naming, a: Acq, b: Acq, d: Acq, n: nat)
    requires Grows(nm, a, b, n) && Grows(nm, b, d, n)
    ensures Grows(nm, a, d, n)
  {
    forall cam, x | cam in a.ramps && |a.ramps[cam]| <= x < |d.ramps[cam]|
      ensures d.ramps[cam][x] == RawName(nm, cam, n)
    {
      if x < |b.ramps[cam]| {
        assert d.ramps[cam][x] == b.ramps[cam][x];
      }
    }
  }

  /** One camera's turn of `handle_frames` grows the state, and a reset frame never reaches a
      ramp. */
  lemma FrameStepGrows(c: Context, st: Acq, frame: Image, camName: string, camIndex: int, n: nat, reset: bool)
    ensures Grows(c.naming, st, FrameStep(c, st, frame, camName, camIndex, n, reset).st, n)
    ensures reset ==> FrameStep(c, st, frame, camName, camIndex, n, reset).st.ramps == st.ramps
  {
    var f := FormatFrameInfo(c, st.header, frame, n, camName, camIndex, reset);
    FormatKeepsKeywords(c, st.header, frame, n, camName, camIndex, reset);
    var st1 := st.(header := f.header);
    if f.info.Ok? {
      var info := f.info.value;
      HandleFrameGrows(c, st1.(images := st1.images[info.fileName := frame]), info, frame, n, reset);
    }
  }

  /** The intermediate reduction only saves a file and updates the status. */
  lemma ReduceIntermediateKeeps(c: Context, st: Acq, info: FrameInfo, n: nat, ramp: seq<string>)
    ensures var st' := ReduceIntermediate(c, st, info, n, ramp);
      st'.header == st.header && st'.ramps == st.ramps && st'.resync == st.resync && st'.images == st.images
      && st.saved <= st'.saved
  {
  }

  /** Handling a frame named after its camera and number grows the state, and a reset frame
      never reaches a ramp. */
  lemma HandleFrameGrows(c: Context, st: Acq, info: FrameInfo, frame: Image, n: nat, reset: bool)
    requires info.fileName == FrameName(c.naming, info.camName, n, reset)
    ensures Grows(c.naming, st, HandleFrame(c, st, info, frame, n, reset), n)
    ensures reset ==> HandleFrame(c, st, info, frame, n, reset).ramps == st.ramps
  {
    if !reset && StatusSink.AppendFrame(st.status, StatusSink.ExposureFrames, info.camIndex, info.fileName).Ok?
       && info.camName in st.ramps {
      var saved := st.saved + [SavedFrame(info.fileName, Trimmed(c.settings, frame), info.cards)];
      var status := StatusSink.AppendFrame(st.status, StatusSink.ExposureFrames, info.camIndex, info.fileName).value;
      var ramp := st.ramps[info.camName] + [info.fileName];
      var appended := st.(saved := saved, status := status, ramps := st.ramps[info.camName := ramp]);
      ReduceIntermediateKeeps(c, appended, info, n, ramp);
      assert Grows(c.naming, st, appended, n);
    }
  }

  /** Writing and making the cards keeps the header's keywords and names the frame after
      its camera. */
  lemma FormatParsedKeeps(c: Context, header: Fits, p: Telemetry.Parsed, n: nat, reset: bool)
    ensures Ordered.Keys(FormatParsed(c, header, p, n, reset).0) == Ordered.Keys(header)
    ensures var r := FormatParsed(c, header, p, n, reset);
      r.1.Ok? ==> r.1.value.fileName == FrameName(c.naming, r.1.value.camName, n, reset)
  {
    var w0 := WriteValues(header, [(ISRESET, BoolValue(reset))]);
    WriteValuesKeys(header, [(ISRESET, BoolValue(reset))]);
    var key := IntString(p.camIndex);
    if !(w0.outcome.Fail? || key !in c.asicInfo) {
      var w1 := WriteValues(w0.header, c.asicInfo[key]);
      WriteValuesKeys(w0.header, c.asicInfo[key]);
      if w1.outcome.Pass? {
        WriteValuesKeys(w1.header, IntEntries(p.header));
      }
    }
  }

  /** Formatting keeps the header's keywords, and a formatted frame is named after the camera
      it was assigned to, as a reset or a raw frame. */
  lemma FormatKeepsKeywords(c: Context, header: Fits, frame: Image, n: nat, camName: string, camIndex: int, reset: bool)
    ensures Ordered.Keys(FormatFrameInfo(c, header, frame, n, camName, camIndex, reset).header) == Ordered.Keys(header)
    ensures var f := FormatFrameInfo(c, header, frame, n, camName, camIndex, reset);
      f.info.Ok? ==> f.info.value.fileName == FrameName(c.naming, f.info.value.camName, n, reset)
  {
    var s := c.settings;
    match Parse(c, frame, camName, camIndex)
    case Err(e) =>
    case Ok(p) =>
      FormatParsedKeeps(c, header, p, n, reset);
  }

  /** The loop of `handle_frames` grows the state, and leaves the ramps alone for resets. */
  lemma {:induction false} HandleFramesFromGrows(c: Context, st: Acq, frames: seq<Image>, n: nat, reset: bool, i: nat)
    requires i <= ZipLength(c, frames)
    ensures Grows(c.naming, st, HandleFramesFrom(c, st, frames, n, reset, i), n)
    ensures reset ==> HandleFramesFrom(c, st, frames, n, reset, i).ramps == st.ramps
    decreases ZipLength(c, frames) - i
  {
    if i < ZipLength(c, frames) {
      var step := FrameStep(c, st, frames[i], c.camNames[i], c.asicsIndex[i], n, reset);
      FrameStepGrows(c, st, frames[i], c.camNames[i], c.asicsIndex[i], n, reset);
      if step.ok {
        HandleFramesFromGrows(c, step.st, frames, n, reset, i + 1);
        GrowsTrans(c.naming, st, step.st, HandleFramesFrom(c, step.st, frames, n, reset, i + 1), n);
      }
    }
  }

  /** A capture grows the state; a reset frame never reaches a ramp; a capture that is not
      kept saves nothing and changes no ramp. */
  lemma CaptureGrows(c: Context, st: Acq, frames: seq<Image>, n: nat, reset: bool, skip: bool, save: bool)
    ensures Grows(c.naming, st, CaptureFrame(c, st, frames, n, reset, skip, save).st, n)
    ensures reset ==> CaptureFrame(c, st, frames, n, reset, skip, save).st.ramps == st.ramps
    ensures !ShouldSave(c.settings, reset, skip, save) ==>
      CaptureFrame(c, st, frames, n, reset, skip, save).st.ramps == st.ramps &&
      CaptureFrame(c, st, frames, n, reset, skip, save).st.saved == st.saved
  {
    var w := WriteValues(st.header, [(FRAME, IntValue(n))]);
    WriteValuesKeys(st.header, [(FRAME, IntValue(n))]);
    if w.outcome.Pass? && ShouldSave(c.settings, reset, skip, save) {
      HandleFramesFromGrows(c, st.(header := w.header), frames, n, reset, 0);
    }
  }

  /** One capture of `start` with its countdown update grows the state, never puts a reset
      frame in a ramp, and saves nothing when the capture is not kept. */
  lemma CountedStep(c: Context, r: Run, frames: seq<Image>, n: nat, reset: bool, skip: bool, save: bool, t: real)
    ensures r.outcome.Fail? ==> Counted(c, r, frames, n, reset, skip, save, t) == r
    ensures Grows(c.naming, r.st, Counted(c, r, frames, n, reset, skip, save, t).st, n)
    ensures reset ==> Counted(c, r, frames, n, reset, skip, save, t).st.ramps == r.st.ramps
    ensures !ShouldSave(c.settings, reset, skip, save) ==>
      Counted(c, r, frames, n, reset, skip, save, t).st.ramps == r.st.ramps &&
      Counted(c, r, frames, n, reset, skip, save, t).st.saved == r.st.saved
  {
    CaptureGrows(c, r.st, frames, n, reset, skip, save);
  }

  /** The reset captures leave the ramps as they are, keep a resync request, and only add
      saved files, none unless reset frames are saved. */
  lemma {:induction false} ResetRunSpec(c: Context, r0: Run, readout: nat -> seq<Image>, save: bool, total: int, k: nat)
    ensures r0.outcome.Fail? ==> ResetRun(c, r0, readout, save, total, k) == r0
    ensures ResetRun(c, r0, readout, save, total, k).st.ramps == r0.st.ramps
    ensures r0.st.resync ==> ResetRun(c, r0, readout, save, total, k).st.resync
    ensures r0.st.saved <= ResetRun(c, r0, readout, save, total, k).st.saved
    ensures !(save && c.settings.saveResetFrames) ==> ResetRun(c, r0, readout, save, total, k).st.saved == r0.st.saved
    decreases k
  {
    if k > 0 {
      ResetRunSpec(c, r0, readout, save, total, k - 1);
      ResetRunNext(c, r0, readout, save, total, k - 1);
      CountedStep(c, ResetRun(c, r0, readout, save, total, k - 1), readout(k - 1), k - 1, true, false, save,
                  Seconds(total - k, c.settings.tpf));
    }
  }

  /** Camera cam's ramp lists raw frames of cam, one per entry of js: science frames below
      `bound` that the schedule saves, in the order they were captured. */
  predicate RampOf(ramp: seq<string>, nm: Naming, cam: string, skips: seq<bool>, bound: nat, js: seq<nat>)
  {
    |js| == |ramp|
    && (forall i :: 0 <= i < |js| ==> js[i] < bound && js[i] < |skips| && !skips[js[i]] && ramp[i] == RawName(nm, cam, js[i]))
    && (forall i, i' :: 0 <= i < i' < |js| ==> js[i] <= js[i'])
  }

  /** Every camera has a ramp, and it lists its saved science frames below `bound` in order. */
  ghost predicate RampsInOrder(c: Context, st: Acq, skips: seq<bool>, bound: nat)
  {
    forall cam :: cam in c.camNames ==> cam in st.ramps && exists js :: RampOf(st.ramps[cam], c.naming, cam, skips, bound, js)
  }

  /** A science capture numbered j keeps the ramps in order. */
  lemma RampsStep(c: Context, st: Acq, st': Acq, skips: seq<bool>, j: nat)
    requires j < |skips| && RampsInOrder(c, st, skips, j) && Grows(c.naming, st, st', j)
    requires skips[j] ==> st'.ramps == st.ramps
    ensures RampsInOrder(c, st', skips, j + 1)
  {
    var bound := j + 1;
    forall cam | cam in c.camNames
      ensures cam in st'.ramps && exists js :: RampOf(st'.ramps[cam], c.naming, cam, skips, bound, js)
    {
      var js :| RampOf(st.ramps[cam], c.naming, cam, skips, j, js);
      var before, after := st.ramps[cam], st'.ramps[cam];
      var js' := js + seq(|after| - |before|, _ => j);
      if |after| > |before| {
        assert !skips[j];
      }
      forall i | 0 <= i < |js'|
        ensures js'[i] < j + 1 && js'[i] < |skips| && !skips[js'[i]] && after[i] == RawName(c.naming, cam, js'[i])
      {
        if i < |js| {
          assert after[i] == before[i];
        }
      }
      assert RampOf(after, c.naming, cam, skips, j + 1, js');
    }
  }

  /** A science capture with its countdown update keeps the ramps in order. */
  lemma ScienceStepInOrder(c: Context, r: Run, frames: seq<Image>, skips: seq<bool>, j: nat, save: bool, t: real)
    requires j < |skips| && RampsInOrder(c, r.st, skips, j)
    ensures RampsInOrder(c, Counted(c, r, frames, j, false, skips[j], save, t).st, skips, j + 1)
  {
    CountedStep(c, r, frames, j, false, skips[j], save, t);
    RampsStep(c, r.st, Counted(c, r, frames, j, false, skips[j], save, t).st, skips, j);
  }

  /** The science captures keep every camera's ramp in order. */
  lemma {:induction false} ScienceRunInOrder(c: Context, r0: Run, readout: nat -> seq<Image>, resets: nat, skips: seq<bool>,
                                             save: bool, total: int, k: nat)
    requires k <= |skips| && RampsInOrder(c, r0.st, skips, 0)
    ensures RampsInOrder(c, ScienceRun(c, r0, readout, resets, skips, save, total, k).st, skips, k)
    decreases k
  {
    if k > 0 {
      var prev := ScienceRun(c, r0, readout, resets, skips, save, total, k - 1);
      ScienceRunInOrder(c, r0, readout, resets, skips, save, total, k - 1);
      var t := Seconds(total - resets - k, c.settings.tpf);
      ScienceRunNext(c, r0, readout, resets, skips, save, total, k - 1);
      ScienceStepInOrder(c, prev, readout(resets + k - 1), skips, k - 1, save, t);
    }
  }

  /** The science captures keep a resync request and only add saved files. */
  lemma {:induction false} ScienceRunSaves(c: Context, r0: Run, readout: nat -> seq<Image>, resets: nat, skips: seq<bool>,
                                           save: bool, total: int, k: nat)
    requires k <= |skips|
    ensures r0.st.resync ==> ScienceRun(c, r0, readout, resets, skips, save, total, k).st.resync
    ensures r0.st.saved <= ScienceRun(c, r0, readout, resets, skips, save, total, k).st.saved
    decreases k
  {
    if k > 0 {
      var prev := ScienceRun(c, r0, readout, resets, skips, save, total, k - 1);
      ScienceRunSaves(c, r0, readout, resets, skips, save, total, k - 1);
      ScienceRunNext(c, r0, readout, resets, skips, save, total, k - 1);
      var t := Seconds(total - resets - k, c.settings.tpf);
      CountedSaves(c, prev, readout(resets + k - 1), k - 1, skips[k - 1], save, t);
    }
  }

  /** Without saving, the science captures change neither the saved files nor the ramps. */
  lemma {:induction false} ScienceRunUnsaved(c: Context, r0: Run, readout: nat -> seq<Image>, resets: nat,
                                             skips: seq<bool>, total: int, k: nat)
    requires k <= |skips|
    ensures ScienceRun(c, r0, readout, resets, skips, false, total, k).st.saved == r0.st.saved
    ensures ScienceRun(c, r0, readout, resets, skips, false, total, k).st.ramps == r0.st.ramps
    decreases k
  {
    if k > 0 {
      var prev := ScienceRun(c, r0, readout, resets, skips, false, total, k - 1);
      ScienceRunUnsaved(c, r0, readout, resets, skips, total, k - 1);
      ScienceRunNext(c, r0, readout, resets, skips, false, total, k - 1);
      var t := Seconds(total - resets - k, c.settings.tpf);
      CountedSaves(c, prev, readout(resets + k - 1), k - 1, skips[k - 1], false, t);
    }
  }

  /** One science capture keeps a resync request, only adds saved files, and without saving
      changes neither the saved files nor the ramps. */
  lemma CountedSaves(c: Context, r: Run, frames: seq<Image>, n: nat, skip: bool, save: bool, t: real)
    ensures var r' := Counted(c, r, frames, n, false, skip, save, t);
      (r.st.resync ==> r'.st.resync) && r.st.saved <= r'.st.saved
      && (!save ==> r'.st.saved == r.st.saved && r'.st.ramps == r.st.ramps)
  {
    CountedStep(c, r, frames, n, false, skip, save, t);
  }

  /** Once an exception has ended `start`, no capture changes anything. */
  lemma {:induction false} ScienceRunFailed(c: Context, r0: Run, readout: nat -> seq<Image>, resets: nat, skips: seq<bool>,
                                            save: bool, total: int, k: nat)
    requires k <= |skips| && r0.outcome.Fail?
    ensures ScienceRun(c, r0, readout, resets, skips, save, total, k) == r0
    decreases k
  {
    if k > 0 {
      ScienceRunFailed(c, r0, readout, resets, skips, save, total, k - 1);
    }
  }

  /** `start` is its preparation, then its reset captures, then its science captures. */
  lemma StartRunSteps(c: Context, st: Acq, plan: Plan, exposureTime: real, readout: nat -> seq<Image>, save: bool)
    ensures StartRun(c, st, plan, exposureTime, readout, save) ==
      ScienceRun(c, ResetRun(c, Prepared(c, st, plan, exposureTime), readout, save, c.settings.resetFrames + plan.science,
                             ResetCount(c.settings)),
                 readout, ResetCount(c.settings), plan.skips, save, c.settings.resetFrames + plan.science, |plan.skips|)
  {
  }

  /** What `start` promises about the frames once its preparation went through, whatever the
      captures decode to: every camera's ramp lists only raw frames of that camera among the
      science frames the skip schedule saves, never a reset or a skipped frame, in the order
      they were captured (that every scheduled frame is there is StartRunComplete). A resync
      request is never withdrawn, saved files are only added, and with saving off no file is
      saved and every camera's ramp stays empty. */
  lemma StartRunSpec(c: Context, st: Acq, plan: Plan, exposureTime: real, readout: nat -> seq<Image>, save: bool)
    ensures Prepared(c, st, plan, exposureTime).outcome.Pass? ==>
      RampsInOrder(c, StartRun(c, st, plan, exposureTime, readout, save).st, plan.skips, |plan.skips|)
    ensures st.resync ==> StartRun(c, st, plan, exposureTime, readout, save).st.resync
    ensures st.saved <= StartRun(c, st, plan, exposureTime, readout, save).st.saved
    ensures !save ==> StartRun(c, st, plan, exposureTime, readout, save).st.saved == st.saved
    ensures !save && Prepared(c, st, plan, exposureTime).outcome.Pass? ==>
      forall cam :: cam in c.camNames ==> StartRun(c, st, plan, exposureTime, readout, save).st.ramps[cam] == []
  {
    var total := c.settings.resetFrames + plan.science;
    var r0 := Prepared(c, st, plan, exposureTime);
    var r1 := ResetRun(c, r0, readout, save, total, ResetCount(c.settings));
    ResetRunSpec(c, r0, readout, save, total, ResetCount(c.settings));
    ScienceRunSaves(c, r1, readout, ResetCount(c.settings), plan.skips, save, total, |plan.skips|);
    if !save {
      ScienceRunUnsaved(c, r1, readout, ResetCount(c.settings), plan.skips, total, |plan.skips|);
    }
    var r2 := ScienceRun(c, r1, readout, ResetCount(c.settings), plan.skips, save, total, |plan.skips|);
    assert StartRun(c, st, plan, exposureTime, readout, save) == r2;
    if r0.outcome.Pass? {
      forall cam | cam in c.camNames
        ensures cam in r1.st.ramps && r1.st.ramps[cam] == []
        ensures exists js :: RampOf(r1.st.ramps[cam], c.naming, cam, plan.skips, 0, js)
      {
        assert RampOf(r1.st.ramps[cam], c.naming, cam, plan.skips, 0, []);
      }
      ScienceRunInOrder(c, r1, readout, ResetCount(c.settings), plan.skips, save, total, |plan.skips|);
      if !save {
        forall cam | cam in c.camNames
          ensures r2.st.ramps[cam] == []
        {
        }
      }
    } else {
      ScienceRunFailed(c, r1, readout, ResetCount(c.settings), plan.skips, save, total, |plan.skips|);
    }
  }

  // ---------------------------------------------------------------- what handle_frame adds

  /** The names of the files saved, in order. */
  function FileNames(saved: seq<SavedFrame>): (names: seq<string>)
    ensures |names| == |saved|
  {
    seq(|saved|, i requires 0 <= i < |saved| => saved[i].fileName)
  }

  /** A camera's list in a group of the status. */
  function Listed(status: StatusSink.Status, group: string, camera: int): seq<Json>
    requires StatusSink.HasList(status, group, camera)
  {
    status[group].fields[StatusSink.CameraKey(camera)].items
  }

  /** The files the REDUCEINTERMEDIATEFRAMES branch saves for frame n of a camera whose ramp
      has become `ramp`: its res name when the reduction goes through. */
  function Previews(c: Context, images: map<string, Image>, cam: string, n: nat, ramp: seq<string>): seq<string>
  {
    if c.settings.reduceIntermediate && IntermediateImage(c.settings, images, ramp).Ok? then [ResName(c.naming, cam, n)]
    else []
  }

  /** Appending a file to a camera's list in a status group extends that list by the file and
      keeps the camera's list in any other group as it was. */
  lemma AppendListed(status: StatusSink.Status, group: string, camera: int, file: string, other: string)
    requires StatusSink.HasList(status, group, camera) && other != group
    ensures var after := StatusSink.AppendFrame(status, group, camera, file).value;
      StatusSink.AppendFrame(status, group, camera, file).Ok?
      && StatusSink.HasList(after, group, camera)
      && Listed(after, group, camera) == Listed(status, group, camera) + [JString(file)]
      && (StatusSink.HasList(status, other, camera) ==>
            StatusSink.HasList(after, other, camera) && Listed(after, other, camera) == Listed(status, other, camera))
  {
    StatusSink.AppendOnlyCamera(status, group, camera, file);
  }

  /** The REDUCEINTERMEDIATEFRAMES branch: a reduction of the ramp that goes through is saved
      under the frame's res name and listed under IntermediateReducedFrames; the ramps, the images
      and the ExposureFrames lists stay as they are. */
  lemma ReduceIntermediateSpec(c: Context, a: Acq, info: FrameInfo, n: nat, ramp: seq<string>)
    ensures var r := ReduceIntermediate(c, a, info, n, ramp);
      var ok := IntermediateImage(c.settings, a.images, ramp).Ok?;
      var previews := if ok then [ResName(c.naming, info.camName, n)] else [];
      r.ramps == a.ramps && r.images == a.images && FileNames(r.saved) == FileNames(a.saved) + previews
      && (ok ==> r.saved[|r.saved| - 1] ==
                   SavedReduced(ResName(c.naming, info.camName, n),
                                TrimmedReduced(c.settings, IntermediateImage(c.settings, a.images, ramp).value), info.cards))
      && (StatusSink.HasList(a.status, StatusSink.IntermediateReducedFrames, info.camIndex) ==>
            StatusSink.HasList(r.status, StatusSink.IntermediateReducedFrames, info.camIndex)
            && Listed(r.status, StatusSink.IntermediateReducedFrames, info.camIndex) ==
                 Listed(a.status, StatusSink.IntermediateReducedFrames, info.camIndex)
                 + seq(|previews|, i requires 0 <= i < |previews| => JString(previews[i])))
      && (StatusSink.HasList(a.status, StatusSink.ExposureFrames, info.camIndex) ==>
            StatusSink.HasList(r.status, StatusSink.ExposureFrames, info.camIndex)
            && Listed(r.status, StatusSink.ExposureFrames, info.camIndex) ==
                 Listed(a.status, StatusSink.ExposureFrames, info.camIndex))
  {
    var ef, irf := StatusSink.ExposureFrames, StatusSink.IntermediateReducedFrames;
    assert ef != irf by {
      assert |ef| != |irf|;
    }
    match IntermediateImage(c.settings, a.images, ramp)
    case Err(_) =>
    case Ok(red) =>
      var name := ResName(c.naming, info.camName, n);
      var saved := a.saved + [SavedReduced(name, TrimmedReduced(c.settings, red), info.cards)];
      assert FileNames(saved) == FileNames(a.saved) + [name];
      if StatusSink.HasList(a.status, irf, info.camIndex) {
        AppendListed(a.status, irf, info.camIndex, name, ef);
      } else if StatusSink.HasList(a.status, ef, info.camIndex) {
        StatusSink.AppendKeepsLists(a.status, irf, info.camIndex, name, ef, info.camIndex);
        StatusSink.AppendOnlyCamera(a.status, irf, info.camIndex, name);
      }
  }

  /** What `handle_frame` does with a science frame whose camera has a ramp and a list under
      ExposureFrames: the frame's file is saved, listed under ExposureFrames and appended to its
      camera's ramp, and no other ramp changes. Under REDUCEINTERMEDIATEFRAMES a reduction of
      the new ramp that goes through is saved right after it, under the frame's res name with
      the frame's cards, and listed under IntermediateReducedFrames when the camera has a list
      there. */
  lemma HandleScienceFrame(c: Context, st: Acq, info: FrameInfo, frame: Image, n: nat)
    requires info.camName in st.ramps
    requires StatusSink.HasList(st.status, StatusSink.ExposureFrames, info.camIndex)
    ensures var st' := HandleFrame(c, st, info, frame, n, false);
      var ramp := st.ramps[info.camName] + [info.fileName];
      var previews := Previews(c, st.images, info.camName, n, ramp);
      st'.ramps == st.ramps[info.camName := ramp] && st'.images == st.images
      && FileNames(st'.saved) == FileNames(st.saved) + [info.fileName] + previews
      && StatusSink.HasList(st'.status, StatusSink.ExposureFrames, info.camIndex)
      && Listed(st'.status, StatusSink.ExposureFrames, info.camIndex) ==
           Listed(st.status, StatusSink.ExposureFrames, info.camIndex) + [JString(info.fileName)]
    ensures var st' := HandleFrame(c, st, info, frame, n, false);
      var ramp := st.ramps[info.camName] + [info.fileName];
      Previews(c, st.images, info.camName, n, ramp) != [] ==>
        st'.saved[|st'.saved| - 1] ==
          SavedReduced(ResName(c.naming, info.camName, n),
                       TrimmedReduced(c.settings, IntermediateImage(c.settings, st.images, ramp).value), info.cards)
    ensures var st' := HandleFrame(c, st, info, frame, n, false);
      var previews := Previews(c, st.images, info.camName, n, st.ramps[info.camName] + [info.fileName]);
      StatusSink.HasList(st.status, StatusSink.IntermediateReducedFrames, info.camIndex) ==>
        StatusSink.HasList(st'.status, StatusSink.IntermediateReducedFrames, info.camIndex)
        && Listed(st'.status, StatusSink.IntermediateReducedFrames, info.camIndex) ==
             Listed(st.status, StatusSink.IntermediateReducedFrames, info.camIndex)
             + seq(|previews|, i requires 0 <= i < |previews| => JString(previews[i]))
  {
    var ef, irf := StatusSink.ExposureFrames, StatusSink.IntermediateReducedFrames;
    assert ef != irf by {
      assert |ef| != |irf|;
    }
    var ramp := st.ramps[info.camName] + [info.fileName];
    var raw := SavedFrame(info.fileName, Trimmed(c.settings, frame), info.cards);
    AppendListed(st.status, ef, info.camIndex, info.fileName, irf);
    var status := StatusSink.AppendFrame(st.status, ef, info.camIndex, info.fileName).value;
    var appended := st.(saved := st.saved + [raw], status := status, ramps := st.ramps[info.camName := ramp]);
    assert FileNames(appended.saved) == FileNames(st.saved) + [info.fileName];
    if c.settings.reduceIntermediate {
      ReduceIntermediateSpec(c, appended, info, n, ramp);
    }
  }

  /** In a Fowler mode the intermediate reduction of a ramp whose frames share one shape is its
      last frame minus its first, pixel by pixel and without wrap-around. */
  lemma FowlerPreview(s: Settings, images: map<string, Image>, names: seq<string>)
    requires s.mode.IsFowler() && |names| > 0 && RampOfFrames(images, names).Ok?
    ensures IntermediateImage(s, images, names).Ok?
    ensures var out := IntermediateImage(s, images, names).value;
      var first, last := images[names[0]], images[names[|names| - 1]];
      out.Ints? && |out.ints| == |last| &&
      forall y, x :: 0 <= y < |last| && 0 <= x < |last[y]| ==>
        x < |out.ints[y]| && out.ints[y][x] == last[y][x] as int - first[y][x] as int
  {
    var r := RampOfFrames(images, names).value;
    var d := FrameReduce.UInt(16);
    assert Bits.Pow2(16) == 65536 by {
      Bits.Pow2Add(8, 8);
      assert Bits.Pow2(8) == 256;
    }
    forall j, y, x | 0 <= j < |r.frames| && 0 <= y < r.rows && 0 <= x < r.cols
      ensures d.Holds(r.frames[j][y][x])
    {
      assert r.frames[j] == Widened(images[names[j]]);
    }
    FrameReduce.CdsUnsignedExact(r, d);
    assert IntermediateImage(s, images, names) == FrameReduce.CdsReduce(r, d);
    var last := images[names[|names| - 1]];
    assert FrameReduce.Last(r) == Widened(last);
    assert r.frames[0] == Widened(images[names[0]]);
  }

  // ---------------------------------------------------------------- a run that goes through

  /** Every entry of the header has a value and a comment, so `gen_fits_header` goes through. */
  predicate Carded(h: Fits)
  {
    forall i :: 0 <= i < |h| ==> HasCard(h[i].1)
  }

  /** Writes only ever set values, so a header whose entries all make cards keeps that. */
  lemma {:induction false} WriteValuesCarded(h: Fits, entries: seq<(HeaderKey, Value)>)
    requires Carded(h)
    ensures Carded(WriteValues(h, entries).header)
    decreases |entries|
  {
    if |entries| > 0 {
      var init, last := entries[..|entries| - 1], entries[|entries| - 1];
      WriteValuesCarded(h, init);
      var w := WriteValues(h, init);
      if w.outcome.Pass? && last.0 in Ordered.Keys(w.header) {
        var i := Ordered.Find(w.header, last.0);
        var e := Ordered.Get(w.header, last.0).value;
        assert w.header[i].1 == e;
        assert WriteValues(h, entries).header == w.header[i := (last.0, e.(value := Some(last.1)))];
      }
    }
  }

  /** Camera position i's frame goes through `format_frame_info` on a header with the keywords
      `keys`: the parse goes through (so there are not six science headers), and every keyword
      the formatting writes is in the header. */
  predicate Decodes(c: Context, keys: seq<HeaderKey>, frame: Image, i: nat)
  {
    i < |c.camNames| && i < |c.asicsIndex| && ISRESET in keys &&
    Parse(c, frame, c.camNames[i], c.asicsIndex[i]).Ok? && IntString(c.asicsIndex[i]) in c.asicInfo
    && (forall e :: e in c.asicInfo[IntString(c.asicsIndex[i])] ==> e.0 in keys)
  }

  /** Every camera's frame of a capture decodes to its own camera. */
  predicate Captures(c: Context, keys: seq<HeaderKey>, frames: seq<Image>)
  {
    |frames| >= |c.camNames| && forall i :: 0 <= i < |c.camNames| ==> Decodes(c, keys, frames[i], i)
  }

  lemma WriteAllKeys(h: Fits, entries: seq<(HeaderKey, Value)>, keys: seq<HeaderKey>)
    requires keys == Ordered.Keys(h) && forall e :: e in entries ==> e.0 in keys
    ensures WriteValues(h, entries).outcome.Pass? && Ordered.Keys(WriteValues(h, entries).header) == keys
  {
    WriteValuesKeys(h, entries);
    forall i | 0 <= i < |entries|
      ensures entries[i].0 in Ordered.Keys(h)
    {
      assert entries[i] in entries;
    }
  }

  /** A frame that decodes to camera i is formatted as raw frame n of camera i, and the header
      keeps its keywords and its cards. */
  lemma FormatGoesThrough(c: Context, header: Fits, frame: Image, n: nat, i: nat)
    requires Carded(header) && Decodes(c, Ordered.Keys(header), frame, i)
    ensures var f := FormatFrameInfo(c, header, frame, n, c.camNames[i], c.asicsIndex[i], false);
      f.info.Ok? && f.info.value.fileName == RawName(c.naming, c.camNames[i], n)
      && f.info.value.camName == c.camNames[i] && f.info.value.camIndex == c.asicsIndex[i]
      && Carded(f.header) && Ordered.Keys(f.header) == Ordered.Keys(header)
  {
    var keys := Ordered.Keys(header);
    var p := Parse(c, frame, c.camNames[i], c.asicsIndex[i]).value;
    var e0 := [(ISRESET, BoolValue(false))];
    WriteAllKeys(header, e0, keys);
    WriteValuesCarded(header, e0);
    var w0 := WriteValues(header, e0);
    var e1 := c.asicInfo[IntString(p.camIndex)];
    WriteAllKeys(w0.header, e1, keys);
    WriteValuesCarded(w0.header, e1);
    var w1 := WriteValues(w0.header, e1);
    var e2 := IntEntries(p.header);
    assert e2 == [];
    WriteAllKeys(w1.header, e2, keys);
    WriteValuesCarded(w1.header, e2);
    var r := FormatParsed(c, header, p, n, false);
    assert r.0 == WriteValues(w1.header, e2).header;
  }

  /** The cameras have ramps and lists under ExposureFrames, and the header makes cards. */
  predicate Ready(c: Context, st: Acq)
  {
    Carded(st.header) && Listing(c, st.status)
    && forall i :: 0 <= i < |c.camNames| ==> c.camNames[i] in st.ramps
  }

  /** Each camera's ASIC has a list under ExposureFrames. */
  predicate Listing(c: Context, status: StatusSink.Status)
  {
    |c.camNames| <= |c.asicsIndex|
    && forall i :: 0 <= i < |c.camNames| ==> StatusSink.HasList(status, StatusSink.ExposureFrames, c.asicsIndex[i])
  }

  lemma AppendKeepsListing(c: Context, status: StatusSink.Status, group: string, camera: int, frameFile: string)
    requires Listing(c, status)
    ensures StatusSink.AppendFrame(status, group, camera, frameFile).Ok? ==>
      Listing(c, StatusSink.AppendFrame(status, group, camera, frameFile).value)
  {
    forall i | 0 <= i < |c.camNames|
      ensures StatusSink.AppendFrame(status, group, camera, frameFile).Ok? ==>
        StatusSink.HasList(StatusSink.AppendFrame(status, group, camera, frameFile).value, StatusSink.ExposureFrames, c.asicsIndex[i])
    {
      StatusSink.AppendKeepsLists(status, group, camera, frameFile, StatusSink.ExposureFrames, c.asicsIndex[i]);
    }
  }

  /** Writing a status entry other than ExposureFrames keeps the cameras' lists. */
  lemma OtherKeyKeepsListing(c: Context, status: StatusSink.Status, key: string, v: Json)
    requires Listing(c, status) && key != StatusSink.ExposureFrames
    ensures Listing(c, status[key := v])
  {
    if StatusSink.ExposureFrames in status {
      assert status[key := v][StatusSink.ExposureFrames] == status[StatusSink.ExposureFrames];
    }
  }

  lemma FormatKeepsCarded(c: Context, header: Fits, frame: Image, n: nat, camName: string, camIndex: int, reset: bool)
    requires Carded(header)
    ensures Carded(FormatFrameInfo(c, header, frame, n, camName, camIndex, reset).header)
  {
    var s := c.settings;
    match Parse(c, frame, camName, camIndex)
    case Err(_) =>
    case Ok(p) =>
      var w0 := WriteValues(header, [(ISRESET, BoolValue(reset))]);
      WriteValuesCarded(header, [(ISRESET, BoolValue(reset))]);
      var key := IntString(p.camIndex);
      if !(w0.outcome.Fail? || key !in c.asicInfo) {
        var w1 := WriteValues(w0.header, c.asicInfo[key]);
        WriteValuesCarded(w0.header, c.asicInfo[key]);
        if w1.outcome.Pass? {
          WriteValuesCarded(w1.header, IntEntries(p.header));
        }
      }
  }

  /** Handling a frame, whatever happens to it, keeps the state ready. */
  lemma HandleFrameReady(c: Context, st: Acq, info: FrameInfo, frame: Image, n: nat, reset: bool)
    requires Ready(c, st)
    ensures Ready(c, HandleFrame(c, st, info, frame, n, reset))
  {
    var ef := StatusSink.ExposureFrames;
    AppendKeepsListing(c, st.status, ef, info.camIndex, info.fileName);
    if !reset && StatusSink.AppendFrame(st.status, ef, info.camIndex, info.fileName).Ok? && info.camName in st.ramps {
      var status := StatusSink.AppendFrame(st.status, ef, info.camIndex, info.fileName).value;
      var name := ResName(c.naming, info.camName, n);
      AppendKeepsListing(c, status, StatusSink.IntermediateReducedFrames, info.camIndex, name);
    }
  }

  /** One turn of `handle_frames`, whatever happens in it, keeps the state ready. */
  lemma FrameStepReady(c: Context, st: Acq, frame: Image, camName: string, camIndex: int, n: nat, reset: bool)
    requires Ready(c, st)
    ensures Ready(c, FrameStep(c, st, frame, camName, camIndex, n, reset).st)
  {
    var f := FormatFrameInfo(c, st.header, frame, n, camName, camIndex, reset);
    FormatKeepsCarded(c, st.header, frame, n, camName, camIndex, reset);
    var st1 := st.(header := f.header);
    if f.info.Ok? {
      HandleFrameReady(c, st1.(images := st1.images[f.info.value.fileName := frame]), f.info.value, frame, n, reset);
    }
  }

  lemma {:induction false} HandleFramesFromReady(c: Context, st: Acq, frames: seq<Image>, n: nat, reset: bool, i: nat)
    requires i <= ZipLength(c, frames) && Ready(c, st)
    ensures Ready(c, HandleFramesFrom(c, st, frames, n, reset, i))
    decreases ZipLength(c, frames) - i
  {
    if i < ZipLength(c, frames) {
      var step := FrameStep(c, st, frames[i], c.camNames[i], c.asicsIndex[i], n, reset);
      FrameStepReady(c, st, frames[i], c.camNames[i], c.asicsIndex[i], n, reset);
      if step.ok {
        HandleFramesFromReady(c, step.st, frames, n, reset, i + 1);
      }
    }
  }

  /** A science frame that decodes to camera i goes through and is appended to camera i's ramp,
      and to no other. */
  lemma FrameStepAppends(c: Context, st: Acq, frame: Image, n: nat, i: nat)
    requires Ready(c, st) && Decodes(c, Ordered.Keys(st.header), frame, i)
    ensures var step := FrameStep(c, st, frame, c.camNames[i], c.asicsIndex[i], n, false);
      step.ok && Ready(c, step.st) && Ordered.Keys(step.st.header) == Ordered.Keys(st.header)
      && step.st.ramps == st.ramps[c.camNames[i] := st.ramps[c.camNames[i]] + [RawName(c.naming, c.camNames[i], n)]]
  {
    FormatGoesThrough(c, st.header, frame, n, i);
    FrameStepReady(c, st, frame, c.camNames[i], c.asicsIndex[i], n, false);
    var f := FormatFrameInfo(c, st.header, frame, n, c.camNames[i], c.asicsIndex[i], false);
    var st1 := st.(header := f.header);
    HandleScienceFrame(c, st1.(images := st1.images[f.info.value.fileName := frame]), f.info.value, frame, n);
  }

  /** `handle_frames` from camera position i on, when every frame decodes to its own camera and
      the cameras are distinct: every camera from position i on gets raw frame n appended to its
      ramp, exactly once, and every other ramp stays as it was. */
  lemma {:induction false} HandleFramesFromAppends(c: Context, st: Acq, frames: seq<Image>, n: nat, i: nat)
    requires Ready(c, st) && Ordered.Distinct(c.camNames) && i <= |c.camNames|
    requires Captures(c, Ordered.Keys(st.header), frames)
    ensures ZipLength(c, frames) == |c.camNames|
    ensures var r := HandleFramesFrom(c, st, frames, n, false, i);
      Ready(c, r) && Ordered.Keys(r.header) == Ordered.Keys(st.header) && r.ramps.Keys == st.ramps.Keys
      && forall cam :: cam in st.ramps ==>
           r.ramps[cam] == st.ramps[cam] + (if cam in c.camNames[i..] then [RawName(c.naming, cam, n)] else [])
    decreases |c.camNames| - i
  {
    if i < |c.camNames| {
      var cam := c.camNames[i];
      var step := FrameStep(c, st, frames[i], cam, c.asicsIndex[i], n, false);
      FrameStepAppends(c, st, frames[i], n, i);
      HandleFramesFromAppends(c, step.st, frames, n, i + 1);
      var r := HandleFramesFrom(c, step.st, frames, n, false, i + 1);
      assert HandleFramesFrom(c, st, frames, n, false, i) == r;
      AppendedFrom(c, n, i, st.ramps, step.st.ramps, r.ramps);
    }
  }

  /** The ramps after camera i's turn and the turns after it. */
  lemma AppendedFrom(c: Context, n: nat, i: nat, before: map<string, seq<string>>, mid: map<string, seq<string>>,
                     after: map<string, seq<string>>)
    requires Ordered.Distinct(c.camNames) && i < |c.camNames| && c.camNames[i] in before
    requires mid == before[c.camNames[i] := before[c.camNames[i]] + [RawName(c.naming, c.camNames[i], n)]]
    requires after.Keys == mid.Keys
    requires forall q :: q in mid ==> after[q] == mid[q] + (if q in c.camNames[i + 1..] then [RawName(c.naming, q, n)] else [])
    ensures after.Keys == before.Keys
    ensures forall q :: q in before ==> after[q] == before[q] + (if q in c.camNames[i..] then [RawName(c.naming, q, n)] else [])
  {
    var cam := c.camNames[i];
    assert c.camNames[i..] == [cam] + c.camNames[i + 1..];
    assert cam !in c.camNames[i + 1..];
  }

  /** Camera cam's raw frames among the first k science frames that the schedule saves, in
      capture order: `[raw(cam, j) for j in range(k) if not skips[j]]`. */
  function Scheduled(nm: Naming, cam: string, skips: seq<bool>, k: nat): seq<string>
    requires k <= |skips|
  {
    if k == 0 then [] else Scheduled(nm, cam, skips, k - 1) + (if skips[k - 1] then [] else [RawName(nm, cam, k - 1)])
  }

  /** A camera's scheduled frames are as many as the frames the schedule saves. */
  lemma {:induction false} ScheduledCount(nm: Naming, cam: string, skips: seq<bool>, k: nat)
    requires k <= |skips|
    ensures |Scheduled(nm, cam, skips, k)| == SavedCount(skips[..k])
  {
    if k > 0 {
      ScheduledCount(nm, cam, skips, k - 1);
      assert skips[..k][..k - 1] == skips[..k - 1];
    }
  }

  /** `capture_frame` on a ready state with FRAME in the header goes through and keeps the
      state ready, whatever happens to the frames. */
  lemma CaptureReady(c: Context, st: Acq, frames: seq<Image>, n: nat, reset: bool, skip: bool, save: bool)
    requires Ready(c, st) && FRAME in Ordered.Keys(st.header)
    ensures var r := CaptureFrame(c, st, frames, n, reset, skip, save);
      r.outcome.Pass? && Ready(c, r.st) && Ordered.Keys(r.st.header) == Ordered.Keys(st.header)
  {
    var e := [(FRAME, IntValue(n))];
    WriteAllKeys(st.header, e, Ordered.Keys(st.header));
    WriteValuesCarded(st.header, e);
    var st1 := st.(header := WriteValues(st.header, e).header);
    if ShouldSave(c.settings, reset, skip, save) {
      HandleFramesFromReady(c, st1, frames, n, reset, 0);
      HandleFramesFromGrows(c, st1, frames, n, reset, 0);
    }
  }

  /** A capture with its countdown update, on a ready state, goes through and keeps it ready. */
  lemma CountedReady(c: Context, r: Run, frames: seq<Image>, n: nat, reset: bool, skip: bool, save: bool, t: real)
    requires r.outcome.Pass? && Ready(c, r.st) && FRAME in Ordered.Keys(r.st.header)
    ensures var r' := Counted(c, r, frames, n, reset, skip, save, t);
      r'.outcome.Pass? && Ready(c, r'.st) && Ordered.Keys(r'.st.header) == Ordered.Keys(r.st.header)
  {
    CaptureReady(c, r.st, frames, n, reset, skip, save);
    var st1 := CaptureFrame(c, r.st, frames, n, reset, skip, save).st;
    OtherKeyKeepsListing(c, st1.status, "ExposureTimeRemaining", JReal(t));
  }

  /** A saved science capture whose frames all decode to their own cameras appends raw frame n
      to every camera's ramp. */
  lemma CountedAppends(c: Context, r: Run, frames: seq<Image>, n: nat, t: real)
    requires r.outcome.Pass? && Ready(c, r.st) && FRAME in Ordered.Keys(r.st.header) && Ordered.Distinct(c.camNames)
    requires Captures(c, Ordered.Keys(r.st.header), frames)
    ensures var r' := Counted(c, r, frames, n, false, false, true, t);
      forall cam :: cam in c.camNames ==>
        cam in r.st.ramps && cam in r'.st.ramps && r'.st.ramps[cam] == r.st.ramps[cam] + [RawName(c.naming, cam, n)]
  {
    var e := [(FRAME, IntValue(n))];
    WriteAllKeys(r.st.header, e, Ordered.Keys(r.st.header));
    WriteValuesCarded(r.st.header, e);
    var st1 := r.st.(header := WriteValues(r.st.header, e).header);
    HandleFramesFromAppends(c, st1, frames, n, 0);
    assert c.camNames[0..] == c.camNames;
  }

  /** The reset captures on a ready state go through and keep it ready. */
  lemma {:induction false} ResetRunReady(c: Context, r0: Run, readout: nat -> seq<Image>, save: bool, total: int, k: nat)
    requires r0.outcome.Pass? && Ready(c, r0.st) && FRAME in Ordered.Keys(r0.st.header)
    ensures var r := ResetRun(c, r0, readout, save, total, k);
      r.outcome.Pass? && Ready(c, r.st) && Ordered.Keys(r.st.header) == Ordered.Keys(r0.st.header)
    decreases k
  {
    if k > 0 {
      ResetRunReady(c, r0, readout, save, total, k - 1);
      ResetRunNext(c, r0, readout, save, total, k - 1);
      CountedReady(c, ResetRun(c, r0, readout, save, total, k - 1), readout(k - 1), k - 1, true, false, save,
                   Seconds(total - k, c.settings.tpf));
    }
  }

  /** The science captures with saving on, when every saved capture decodes each camera's frame
      to that camera: they go through, and after the first k every camera's ramp has gained
      exactly its scheduled raw frames among them. */
  lemma {:induction false} ScienceRunComplete(c: Context, r0: Run, readout: nat -> seq<Image>, resets: nat,
                                              skips: seq<bool>, save: bool, total: int, k: nat)
    requires k <= |skips| && save && Ordered.Distinct(c.camNames)
    requires r0.outcome.Pass? && Ready(c, r0.st) && FRAME in Ordered.Keys(r0.st.header)
    requires forall j :: 0 <= j < |skips| && !skips[j] ==> Captures(c, Ordered.Keys(r0.st.header), readout(resets + j))
    ensures var r := ScienceRun(c, r0, readout, resets, skips, save, total, k);
      r.outcome.Pass? && Ready(c, r.st) && Ordered.Keys(r.st.header) == Ordered.Keys(r0.st.header)
      && forall cam :: cam in c.camNames ==>
           cam in r0.st.ramps && cam in r.st.ramps && r.st.ramps[cam] == r0.st.ramps[cam] + Scheduled(c.naming, cam, skips, k)
    decreases k
  {
    if k > 0 {
      var prev := ScienceRun(c, r0, readout, resets, skips, save, total, k - 1);
      ScienceRunComplete(c, r0, readout, resets, skips, save, total, k - 1);
      ScienceRunNext(c, r0, readout, resets, skips, save, total, k - 1);
      var t := Seconds(total - resets - k, c.settings.tpf);
      var frames := readout(resets + k - 1);
      CountedReady(c, prev, frames, k - 1, false, skips[k - 1], save, t);
      if skips[k - 1] {
        CountedStep(c, prev, frames, k - 1, false, true, save, t);
      } else {
        CountedAppends(c, prev, frames, k - 1, t);
      }
    }
  }

  /** The preparation of `start` goes through when the header has the keywords it writes, and
      leaves every camera an empty ramp and the state ready. */
  lemma PreparedReady(c: Context, st: Acq, plan: Plan, exposureTime: real)
    requires Carded(st.header) && Listing(c, st.status)
    requires forall e :: e in StartEntries(c.settings, plan.science, exposureTime) ==> e.0 in Ordered.Keys(st.header)
    ensures var r := Prepared(c, st, plan, exposureTime);
      r.outcome.Pass? && Ready(c, r.st) && Ordered.Keys(r.st.header) == Ordered.Keys(st.header)
      && forall cam :: cam in c.camNames ==> cam in r.st.ramps && r.st.ramps[cam] == []
  {
    var e := StartEntries(c.settings, plan.science, exposureTime);
    WriteAllKeys(st.header, e, Ordered.Keys(st.header));
    WriteValuesCarded(st.header, e);
    OtherKeyKeepsListing(c, st.status, "TotalFrameCount", JInt(plan.science));
    var total := c.settings.resetFrames + plan.science;
    OtherKeyKeepsListing(c, st.status["TotalFrameCount" := JInt(plan.science)], "ExposureTimeRemaining",
                         JReal(Seconds(total, c.settings.tpf)));
  }

  /** Reset captures from a ready state whose cameras have empty ramps leave it so. */
  lemma ResetsKeep(c: Context, r0: Run, readout: nat -> seq<Image>, save: bool, total: int, k: nat)
    requires r0.outcome.Pass? && Ready(c, r0.st) && FRAME in Ordered.Keys(r0.st.header)
    requires forall cam :: cam in c.camNames ==> cam in r0.st.ramps && r0.st.ramps[cam] == []
    ensures var r := ResetRun(c, r0, readout, save, total, k);
      r.outcome.Pass? && Ready(c, r.st) && Ordered.Keys(r.st.header) == Ordered.Keys(r0.st.header)
      && forall cam :: cam in c.camNames ==> cam in r.st.ramps && r.st.ramps[cam] == []
  {
    ResetRunReady(c, r0, readout, save, total, k);
    ResetRunSpec(c, r0, readout, save, total, k);
  }

  /** The captures of `start` from a prepared state: the resets, then the science frames. */
  lemma CapturesComplete(c: Context, r0: Run, readout: nat -> seq<Image>, resets: nat, skips: seq<bool>, save: bool,
                         total: int)
    requires save && Ordered.Distinct(c.camNames)
    requires r0.outcome.Pass? && Ready(c, r0.st) && FRAME in Ordered.Keys(r0.st.header)
    requires forall cam :: cam in c.camNames ==> cam in r0.st.ramps && r0.st.ramps[cam] == []
    requires forall j :: 0 <= j < |skips| && !skips[j] ==> Captures(c, Ordered.Keys(r0.st.header), readout(resets + j))
    ensures var r := ScienceRun(c, ResetRun(c, r0, readout, save, total, resets), readout, resets, skips, save, total,
                                |skips|);
      r.outcome.Pass? &&
      forall cam :: cam in c.camNames ==>
        cam in r.st.ramps && r.st.ramps[cam] == Scheduled(c.naming, cam, skips, |skips|) &&
        |r.st.ramps[cam]| == SavedCount(skips)
  {
    var r1 := ResetRun(c, r0, readout, save, total, resets);
    ResetsKeep(c, r0, readout, save, total, resets);
    ScienceRunComplete(c, r1, readout, resets, skips, save, total, |skips|);
    forall cam | cam in c.camNames
      ensures |Scheduled(c.naming, cam, skips, |skips|)| == SavedCount(skips)
    {
      ScheduledAll(c.naming, cam, skips);
    }
  }

  /** A camera's whole schedule holds as many frames as the schedule saves. */
  lemma ScheduledAll(nm: Naming, cam: string, skips: seq<bool>)
    ensures |Scheduled(nm, cam, skips, |skips|)| == SavedCount(skips)
  {
    ScheduledCount(nm, cam, skips, |skips|);
    assert skips[..|skips|] == skips;
  }

  /** What `start` promises when everything goes through: with saving on, distinct cameras
      whose ASICs have lists under ExposureFrames, a header whose entries all make cards and
      that has every keyword `start` writes, and every saved science capture decoding each
      camera's frame to that camera, `start` raises nothing and every camera's ramp is exactly
      its raw frames that the schedule saves, in capture order, as many as the schedule saves. */
  lemma StartRunComplete(c: Context, st: Acq, plan: Plan, exposureTime: real, readout: nat -> seq<Image>, save: bool)
    requires save && Ordered.Distinct(c.camNames) && Carded(st.header) && Listing(c, st.status)
    requires FRAME in Ordered.Keys(st.header)
    requires forall e :: e in StartEntries(c.settings, plan.science, exposureTime) ==> e.0 in Ordered.Keys(st.header)
    requires forall j :: 0 <= j < |plan.skips| && !plan.skips[j] ==>
      Captures(c, Ordered.Keys(st.header), readout(ResetCount(c.settings) + j))
    ensures var r := StartRun(c, st, plan, exposureTime, readout, save);
      r.outcome.Pass? &&
      forall cam :: cam in c.camNames ==>
        cam in r.st.ramps && r.st.ramps[cam] == Scheduled(c.naming, cam, plan.skips, |plan.skips|) &&
        |r.st.ramps[cam]| == SavedCount(plan.skips)
  {
    var total := c.settings.resetFrames + plan.science;
    var r0, resets := Prepared(c, st, plan, exposureTime), ResetCount(c.settings);
    PreparedReady(c, st, plan, exposureTime);
    var keys := Ordered.Keys(st.header);
    assert Ordered.Keys(r0.st.header) == keys;
    assert forall j :: 0 <= j < |plan.skips| && !plan.skips[j] ==> Captures(c, keys, readout(resets + j));
    CapturesComplete(c, r0, readout, resets, plan.skips, save, total);
    assert StartRun(c, st, plan, exposureTime, readout, save) ==
      ScienceRun(c, ResetRun(c, r0, readout, save, total, resets), readout, resets, plan.skips, save, total, |plan.skips|);
  }

  // ---------------------------------------------------------------- six science headers, as written

  /** With six science headers `format_frame_info` raises on the first camera's frame, which
      ends `handle_frames`: a capture writes FRAME and nothing else, so no frame is kept, saved,
      listed or added to a ramp, and no resync is requested. */
  lemma SixHeadersCaptureKeeps(c: Context, st: Acq, frames: seq<Image>, n: nat, reset: bool, skip: bool, save: bool)
    requires c.settings.nScienceHeaders == 6
    ensures var r := CaptureFrame(c, st, frames, n, reset, skip, save);
      r.st == st.(header := r.st.header) && Ordered.Keys(r.st.header) == Ordered.Keys(st.header)
  {
    var w := WriteValues(st.header, [(FRAME, IntValue(n))]);
    WriteValuesKeys(st.header, [(FRAME, IntValue(n))]);
    var st1 := st.(header := w.header);
    if w.outcome.Pass? && ShouldSave(c.settings, reset, skip, save) && 0 < ZipLength(c, frames) {
      assert Parse(c, frames[0], c.camNames[0], c.asicsIndex[0]).Err?;
      assert FrameStep(c, st1, frames[0], c.camNames[0], c.asicsIndex[0], n, reset) == Step(st1, false);
      assert HandleFrameAt(c, st1, frames, n, reset, 0) == st1;
    }
    if w.outcome.Pass? {
      assert HandleFrames(c, st1, frames, n, reset, skip, save) == st1;
    }
  }

  /** A capture and its countdown update with six science headers: only FRAME and the time
      remaining change. */
  lemma SixHeadersCountedKeeps(c: Context, r: Run, frames: seq<Image>, n: nat, reset: bool, skip: bool, save: bool,
                               t: real)
    requires c.settings.nScienceHeaders == 6
    ensures var r' := Counted(c, r, frames, n, reset, skip, save, t);
      r'.st.saved == r.st.saved && r'.st.images == r.st.images && r'.st.ramps == r.st.ramps
      && r'.st.resync == r.st.resync
  {
    if r.outcome.Pass? {
      SixHeadersCaptureKeeps(c, r.st, frames, n, reset, skip, save);
    }
  }

  /** Reset captures with six science headers leave the saved files, the frames kept, the
      ramps and the resync request as they were. */
  lemma {:induction false} SixHeadersResetRunKeeps(c: Context, r0: Run, readout: nat -> seq<Image>, save: bool,
                                                   total: int, k: nat)
    requires c.settings.nScienceHeaders == 6
    ensures var r := ResetRun(c, r0, readout, save, total, k);
      r.st.saved == r0.st.saved && r.st.images == r0.st.images && r.st.ramps == r0.st.ramps
      && r.st.resync == r0.st.resync
    decreases k
  {
    if k > 0 {
      SixHeadersResetRunKeeps(c, r0, readout, save, total, k - 1);
      var r := ResetRun(c, r0, readout, save, total, k - 1);
      SixHeadersCountedKeeps(c, r, readout(k - 1), k - 1, true, false, save, Seconds(total - k, c.settings.tpf));
    }
  }

  /** Science captures with six science headers leave the saved files, the frames kept, the
      ramps and the resync request as they were. */
  lemma {:induction false} SixHeadersScienceRunKeeps(c: Context, r0: Run, readout: nat -> seq<Image>, resets: nat,
                                                     skips: seq<bool>, save: bool, total: int, k: nat)
    requires c.settings.nScienceHeaders == 6 && k <= |skips|
    ensures var r := ScienceRun(c, r0, readout, resets, skips, save, total, k);
      r.st.saved == r0.st.saved && r.st.images == r0.st.images && r.st.ramps == r0.st.ramps
      && r.st.resync == r0.st.resync
    decreases k
  {
    if k > 0 {
      SixHeadersScienceRunKeeps(c, r0, readout, resets, skips, save, total, k - 1);
      var r := ScienceRun(c, r0, readout, resets, skips, save, total, k - 1);
      SixHeadersCountedKeeps(c, r, readout(resets + k - 1), k - 1, false, skips[k - 1], save,
                             Seconds(total - resets - k, c.settings.tpf));
    }
  }

  /** As written, an exposure with six science headers saves no file, keeps no frame, requests
      no resync, and leaves every camera's ramp as the preparation left it: empty. */
  lemma SixHeadersStartKeeps(c: Context, st: Acq, plan: Plan, exposureTime: real, readout: nat -> seq<Image>,
                             save: bool)
    requires c.settings.nScienceHeaders == 6
    ensures var r := StartRun(c, st, plan, exposureTime, readout, save);
      r.st.saved == st.saved && r.st.images == st.images && r.st.resync == st.resync
      && (Prepared(c, st, plan, exposureTime).outcome.Pass? ==>
            forall cam :: cam in c.camNames ==> cam in r.st.ramps && r.st.ramps[cam] == [])
  {
    var total := c.settings.resetFrames + plan.science;
    var r0, resets := Prepared(c, st, plan, exposureTime), ResetCount(c.settings);
    SixHeadersResetRunKeeps(c, r0, readout, save, total, resets);
    var r1 := ResetRun(c, r0, readout, save, total, resets);
    SixHeadersScienceRunKeeps(c, r1, readout, resets, plan.skips, save, total, |plan.skips|);
    assert StartRun(c, st, plan, exposureTime, readout, save) ==
      ScienceRun(c, r1, readout, resets, plan.skips, save, total, |plan.skips|);
  }
}

=== FILE: arith.dfy ===
/** Integer facts the index computations rest on. */
module Arith {

  lemma MulAtLeast(a: int, d: int)
    requires a >= 1 && d > 0
    ensures a * d >= d
  {
  }

  /** Euclidean division is unique: the quotient and remainder of x by d are q and r
      whenever x = q·d + r with 0 <= r < d. */
  lemma DivModUnique(x: int, d: int, q: int, r: int)
    requires d > 0 && 0 <= r < d && x == q * d + r
    ensures x / d == q && x % d == r
  {
    var q', r' := x / d, x % d;
    assert x == q' * d + r';
    assert (q - q') * d == r' - r;
    if q > q' {
      MulAtLeast(q - q', d);
    } else if q < q' {
      MulAtLeast(q' - q, d);
    }
  }

  lemma MulLess(a: int, b: int, d: int)
    requires d > 0 && 0 <= a < b
    ensures a * d + d <= b * d
  {
    MulAtLeast(b - a, d);
    assert (b - a) * d == b * d - a * d;
  }

  lemma MulMono(a: int, b: int, p: int)
    requires a <= b && p >= 0
    ensures a * p <= b * p
  {
  }

  /** A position below n blocks of p lies in one of the first n blocks. */
  lemma QuotientBound(c: int, p: int, n: int)
    requires p > 0 && 0 <= c < n * p
    ensures 0 <= c / p < n
  {
    if c / p >= n {
      MulMono(n, c / p, p);
    }
  }

  /** Block i of n blocks of p ends within n·p. */
  lemma BlockBound(i: int, n: int, p: int)
    requires 0 <= i < n && p >= 0
    ensures i * p + p <= n * p
  {
    MulMono(i + 1, n, p);
  }

  /** Offset i < n in row m < p of a p-by-n layout is below n·p. */
  lemma LayoutBound(i: int, n: int, m: int, p: int)
    requires 0 <= i < n && 0 <= m < p
    ensures 0 <= i + m * n < n * p
  {
    MulMono(m + 1, p, n);
    assert (m + 1) * n == m * n + n;
  }

  /** A multiple of n is n times its quotient. */
  lemma ExactDiv(w: int, n: int)
    requires n > 0 && w % n == 0
    ensures w == n * (w / n)
  {
  }
}

=== FILE: bits.dfy ===
/** The bitmask helpers of asdetector/detector/macie/io.py: a composite mask of cards or
    ASICs, the list of its set bits as powers of two, and their bit positions. */
module Bits {
  import opened Wrappers

  function Pow2(n: nat): (p: nat)
    ensures p >= 1
  {
    if n == 0 then 1 else 2 * Pow2(n - 1)
  }

  lemma {:induction false} Pow2Add(a: nat, b: nat)
    ensures Pow2(a + b) == Pow2(a) * Pow2(b)
    decreases a
  {
    if a > 0 {
      Pow2Add(a - 1, b);
    }
  }

  lemma {:induction false} Pow2Monotone(a: nat, b: nat)
    requires a <= b
    ensures Pow2(a) <= Pow2(b)
    decreases b
  {
    if a < b {
      Pow2Monotone(a, b - 1);
    }
  }

  /** Number of set bits. */
  function Popcount(x: nat): nat
  {
    if x == 0 then 0 else x % 2 + Popcount(x / 2)
  }

  /** Bit b of x, as `bin(x)` shows it. */
  predicate BitSet(x: nat, b: nat) {
    if b == 0 then x % 2 == 1 else BitSet(x / 2, b - 1)
  }

  function Sum(s: seq<int>): int
  {
    if |s| == 0 then 0 else Sum(s[..|s| - 1]) + s[|s| - 1]
  }

  lemma {:induction false} SumConcat(a: seq<int>, b: seq<int>)
    ensures Sum(a + b) == Sum(a) + Sum(b)
    decreases |b|
  {
    if |b| == 0 {
      assert a + b == a;
    } else {
      assert (a + b)[..|a + b| - 1] == a + b[..|b| - 1];
      SumConcat(a, b[..|b| - 1]);
    }
  }

  /** Powers 2^(p+i) for each set bit i of x, lowest first. */
  function PowersFrom(x: nat, p: nat): (powers: seq<nat>)
    ensures forall i :: 0 <= i < |powers| ==> powers[i] >= Pow2(p)
    ensures forall i, j :: 0 <= i < j < |powers| ==> powers[i] < powers[j]
    decreases x
  {
    if x == 0 then []
    else
      var rest := PowersFrom(x / 2, p + 1);
      Pow2Monotone(p, p + 1);
      if x % 2 == 1 then [Pow2(p)] + rest else rest
  }

  /** `composite_byte_to_byte_list(x)`: for x >= 0 the ascending powers of two of the set
      bits; a negative x makes `int('b')` fail on the sign's leftover of `bin(x)`. */
  function CompositeToList(x: int): (r: Result<seq<nat>>)
    ensures r.Err? <==> x < 0
    ensures r.Ok? ==> forall i, j :: 0 <= i < j < |r.value| ==> r.value[i] < r.value[j]
  {
    if x < 0 then Err(ValueError) else Ok(PowersFrom(x, 0))
  }

  lemma {:induction false} PowersFromSum(x: nat, p: nat)
    ensures Sum(PowersFrom(x, p)) == x * Pow2(p)
    decreases x
  {
    if x > 0 {
      var rest := PowersFrom(x / 2, p + 1);
      var pp := Pow2(p);
      PowersFromSum(x / 2, p + 1);
      assert Sum(rest) == (x / 2) * (2 * pp);
      if x % 2 == 1 {
        assert PowersFrom(x, p) == [pp] + rest;
        SumConcat([pp], rest);
        assert Sum([pp]) == pp;
        assert Sum(PowersFrom(x, p)) == pp + Sum(rest);
      } else {
        assert PowersFrom(x, p) == rest;
      }
      HalfStep(x, pp);
    }
  }

  lemma HalfStep(x: nat, pp: nat)
    ensures (x % 2) * pp + (x / 2) * (2 * pp) == x * pp
  {
    var h, m := x / 2, x % 2;
    assert x == 2 * h + m;
    assert x * pp == (2 * h + m) * pp;
  }

  lemma {:induction false} PowersFromCount(x: nat, p: nat)
    ensures |PowersFrom(x, p)| == Popcount(x)
    decreases x
  {
    if x > 0 {
      PowersFromCount(x / 2, p + 1);
    }
  }

  /** Summing the list back (`byte_list_to_composite_byte`) gives back x. */
  lemma CompositeListSum(x: nat)
    ensures Sum(CompositeToList(x).value) == x
  {
    var powers := PowersFrom(x, 0);
    assert CompositeToList(x).value == powers;
    PowersFromSum(x, 0);
    assert Pow2(0) == 1;
  }

  /** The list holds one entry per set bit, so the camera count is the popcount. */
  lemma CompositeListLength(x: nat)
    ensures |CompositeToList(x).value| == Popcount(x)
  {
    PowersFromCount(x, 0);
  }

  /** `byte_list_to_composite_byte`: adds the entries one by one. */
  method ListToComposite(list: seq<int>) returns (composite: int)
    ensures composite == Sum(list)
  {
    composite := 0;
    var i := 0;
    while i < |list|
      invariant 0 <= i <= |list|
      invariant composite == Sum(list[..i])
    {
      assert list[..i + 1][..i] == list[..i];
      composite := composite + list[i];
      i := i + 1;
    }
    assert list[..|list|] == list;
  }

  /** `int(np.log2(v))` for v >= 1: the position of the highest set bit. */
  function Log2Floor(v: nat): (e: nat)
    requires v >= 1
    ensures Pow2(e) <= v < 2 * Pow2(e)
  {
    if v == 1 then 0 else 1 + Log2Floor(v / 2)
  }

  /** `byte_list_to_index_list`: the bit position of each entry. `log2` of 0 is `-inf`, which
      `int` refuses with OverflowError; of a negative number `nan`, a ValueError. */
  function IndexList(list: seq<int>): (r: Result<seq<nat>>)
    ensures r.Ok? <==> forall i :: 0 <= i < |list| ==> list[i] >= 1
    ensures r.Ok? ==> |r.value| == |list|
    ensures r.Ok? ==> forall i :: 0 <= i < |list| ==> Pow2(r.value[i]) <= list[i] < 2 * Pow2(r.value[i])
  {
    if |list| == 0 then Ok([])
    else
      var head := list[0];
      if head == 0 then Err(OverflowError)
      else if head < 0 then Err(ValueError)
      else
        var rest :- IndexList(list[1..]);
        Ok([Log2Floor(head)] + rest)
  }

  lemma {:induction false} Log2OfPower(e: nat)
    ensures Log2Floor(Pow2(e)) == e
  {
    if e > 0 {
      assert Pow2(e) / 2 == Pow2(e - 1);
      Log2OfPower(e - 1);
    }
  }

  /** Bit positions of the set bits of x, lowest first: the camera indices of a mask. */
  function SetBits(x: nat, p: nat): seq<nat>
    decreases x
  {
    if x == 0 then [] else (if x % 2 == 1 then [p] else []) + SetBits(x / 2, p + 1)
  }

  lemma {:induction false} IndexListOfPowers(x: nat, p: nat)
    ensures IndexList(PowersFrom(x, p)) == Ok(SetBits(x, p))
    decreases x
  {
    if x > 0 {
      IndexListOfPowers(x / 2, p + 1);
      var rest := PowersFrom(x / 2, p + 1);
      if x % 2 == 1 {
        Log2OfPower(p);
        assert ([Pow2(p)] + rest)[1..] == rest;
        assert IndexList([Pow2(p)] + rest) == Ok([p] + SetBits(x / 2, p + 1));
      } else {
        assert SetBits(x, p) == SetBits(x / 2, p + 1);
      }
    }
  }

  /** The index list of a composite mask is the ascending list of its set bit positions. */
  lemma CompositeIndexList(x: nat)
    ensures IndexList(CompositeToList(x).value) == Ok(SetBits(x, 0))
  {
    IndexListOfPowers(x, 0);
  }

  lemma {:induction false} SetBitsMembers(x: nat, p: nat, b: nat)
    ensures b in SetBits(x, p) <==> p <= b && BitSet(x, b - p)
    decreases x
  {
    if x == 0 {
      if p <= b {
        NoBitsOfZero(b - p);
      }
    } else {
      SetBitsMembers(x / 2, p + 1, b);
    }
  }

  lemma {:induction false} NoBitsOfZero(b: nat)
    ensures !BitSet(0, b)
  {
    if b > 0 {
      NoBitsOfZero(b - 1);
    }
  }

  /** A mask of N low bits, 2^N − 1, has exactly the set bits 0 .. N−1. */
  lemma {:induction false} LowMaskBits(n: nat, p: nat)
    ensures SetBits(Pow2(n) - 1, p) == seq(n, i => p + i)
    decreases n
  {
    if n > 0 {
      assert (Pow2(n) - 1) / 2 == Pow2(n - 1) - 1;
      assert (Pow2(n) - 1) % 2 == 1;
      LowMaskBits(n - 1, p + 1);
      assert [p] + seq(n - 1, i => p + 1 + i) == seq(n, i => p + i);
    }
  }
}

=== FILE: cards.dfy ===
/** The card-level parts of asdetector/detector/macie/io.py and apisimulator.py: which
    interface class `acadias_open` builds for each card the driver reports, the save-file
    name of an interface and how `load_interface` reads the class back from it, the dispatch
    of `download_file` on a load file's extension, the path rewrite of `mcf_abs_from_rel`,
    the module-level `gen_cam_names`, and `card_to_dict`. The driver calls (opening a
    handle, downloading a file) and the file system are not modelled: file contents and the
    save directory are parameters. */
module Cards {
  import opened Wrappers
  import opened Text
  import Utf8

  type UShort = x: int | 0 <= x < 0x1_0000

  // ---------------------------------------------------------------- interface classes

  /** `api.Connection`. */
  datatype Connection = NoConnection | Usb | GigE | Uart

  /** The integer value of each connection (macie.h's MACIE_Connection). */
  function ConnectionCode(c: Connection): (code: nat)
    ensures code < 4
  {
    match c
    case NoConnection => 0
    case Usb => 1
    case GigE => 2
    case Uart => 3
  }

  /** The interface classes of io.py, in the order `load_interface` tries them. */
  datatype InterfaceClass =
    | BaseMACIE | CamlinkMACIE | GigeMACIE | USBMACIE
    | BaseACADIA | CamlinkACADIA | GigeACADIA | USBACADIA

  const AllClasses: seq<InterfaceClass> :=
    [BaseMACIE, CamlinkMACIE, GigeMACIE, USBMACIE, BaseACADIA, CamlinkACADIA, GigeACADIA, USBACADIA]

  /** `self.connection` after construction: the transport subclass sets it over BaseMACIE's
      NONE; the ACADIA classes inherit it through the method resolution order. */
  function ConnectionOf(c: InterfaceClass): Connection
  {
    match c
    case BaseMACIE | BaseACADIA => NoConnection
    case USBMACIE | USBACADIA => Usb
    case GigeMACIE | GigeACADIA => GigE
    case CamlinkMACIE | CamlinkACADIA => Uart
  }

  /** `self.asic_type` after construction: 0, or 0xacda for the ACADIA classes. */
  function AsicTypeOf(c: InterfaceClass): nat
  {
    match c
    case BaseACADIA | CamlinkACADIA | GigeACADIA | USBACADIA => 0xacda
    case _ => 0
  }

  predicate IsAcadia(c: InterfaceClass) { AsicTypeOf(c) == 0xacda }

  /** The ASIC type and connection code together tell every class apart. */
  lemma ClassTagInjective(a: InterfaceClass, b: InterfaceClass)
    ensures AsicTypeOf(a) == AsicTypeOf(b) && ConnectionCode(ConnectionOf(a)) == ConnectionCode(ConnectionOf(b)) ==> a == b
  {
  }

  // ---------------------------------------------------------------- card information

  /** `api.CardInfo`, with the C character arrays as their raw bytes. */
  datatype CardInfo = CardInfo(
    macieSerialNumber: UShort,
    bUart: bool,
    bGige: bool,
    bUsb: bool,
    ipAddress: seq<Utf8.Byte>,
    gigeSpeed: UShort,
    serialPortName: seq<Utf8.Byte>,
    usbSerialNumber: seq<Utf8.Byte>,
    firmwareSlot1: seq<Utf8.Byte>,
    firmwareSlot2: seq<Utf8.Byte>,
    usbSpeed: UShort)

  /** The array sizes of the C structure MACIE_CardInfo. */
  predicate WellSized(card: CardInfo) {
    |card.ipAddress| == 4 && |card.serialPortName| == 10 && |card.usbSerialNumber| == 16
    && |card.firmwareSlot1| == 100 && |card.firmwareSlot2| == 100
  }

  // ---------------------------------------------------------------- acadias_open

  /** The transport `acadias_open` builds for one card, by fastest link first: fast USB,
      fast GigE, any USB, any GigE, then the serial (Camlink) link; None skips the card. */
  function ChooseInterface(card: CardInfo): (r: Option<InterfaceClass>)
    ensures r.Some? ==> IsAcadia(r.value)
  {
    if card.bUsb && card.usbSpeed >= 3 then Some(USBACADIA)
    else if card.bGige && card.gigeSpeed >= 1000 then Some(GigeACADIA)
    else if card.bUsb then Some(USBACADIA)
    else if card.bGige then Some(GigeACADIA)
    else if card.bUart then Some(CamlinkACADIA)
    else None
  }

  /** Whether the card reports the link. */
  predicate Supports(card: CardInfo, c: Connection) {
    match c
    case Usb => card.bUsb
    case GigE => card.bGige
    case Uart => card.bUart
    case NoConnection => false
  }

  /** The preference order among the links a card reports: lower is preferred. */
  function Preference(card: CardInfo, c: Connection): nat
  {
    if c == Usb && card.usbSpeed >= 3 then 0
    else if c == GigE && card.gigeSpeed >= 1000 then 1
    else if c == Usb then 2
    else if c == GigE then 3
    else 4
  }

  /** The chosen transport is one the card reports and no reported link is preferred to it;
      a card is skipped exactly when it reports no link. */
  lemma ChooseInterfaceBest(card: CardInfo)
    ensures ChooseInterface(card).None? <==> !card.bUsb && !card.bGige && !card.bUart
    ensures ChooseInterface(card).Some? ==>
      var c := ConnectionOf(ChooseInterface(card).value);
      Supports(card, c) &&
      forall other :: Supports(card, other) ==> Preference(card, c) <= Preference(card, other)
  {
  }

  /** One interface built by `acadias_open`. */
  datatype Opened = Opened(card: CardInfo, kind: InterfaceClass)

  /** The interfaces built for the cards, in the order of the cards. */
  function Selected(cards: seq<CardInfo>): seq<Opened>
    decreases |cards|
  {
    if |cards| == 0 then []
    else
      var last := cards[|cards| - 1];
      Selected(cards[..|cards| - 1]) +
        (match ChooseInterface(last) case Some(c) => [Opened(last, c)] case None => [])
  }

  /** Every interface is built for one of the cards with the class its links call for, cards
      keep their order, and none is built only when no card reports a link. */
  lemma {:induction false} SelectedSpec(cards: seq<CardInfo>)
    ensures |Selected(cards)| <= |cards|
    ensures forall i :: 0 <= i < |Selected(cards)| ==>
      Selected(cards)[i].card in cards && ChooseInterface(Selected(cards)[i].card) == Some(Selected(cards)[i].kind)
    ensures |Selected(cards)| == 0 <==> forall i :: 0 <= i < |cards| ==> ChooseInterface(cards[i]).None?
    decreases |cards|
  {
    if |cards| > 0 {
      var init := cards[..|cards| - 1];
      SelectedSpec(init);
      forall i | 0 <= i < |Selected(init)|
        ensures Selected(init)[i].card in cards
      {
        assert Selected(init)[i].card in init;
      }
      if |Selected(cards)| == 0 {
        forall i | 0 <= i < |cards|
          ensures ChooseInterface(cards[i]).None?
        {
          if i < |cards| - 1 {
            assert cards[i] == init[i];
          }
        }
      }
    }
  }

  /** Interfaces for a batch of cards are those of its parts, one after the other. */
  lemma {:induction false} SelectedConcat(a: seq<CardInfo>, b: seq<CardInfo>)
    ensures Selected(a + b) == Selected(a) + Selected(b)
    decreases |b|
  {
    if |b| == 0 {
      assert a + b == a;
    } else {
      assert (a + b)[..|a + b| - 1] == a + b[..|b| - 1];
      SelectedConcat(a, b[..|b| - 1]);
    }
  }

  /** `acadias_open`'s loop over the cards `api.check_interfaces` reports. Opening each
      interface on the driver is not modelled. */
  method AcadiasOpen(cards: seq<CardInfo>) returns (r: Result<seq<Opened>>)
    ensures r.Err? <==> forall i :: 0 <= i < |cards| ==> ChooseInterface(cards[i]).None?
    ensures r.Err? ==> r.error == MissingMACIEError
    ensures r.Ok? ==> r.value == Selected(cards)
  {
    var interfaces: seq<Opened> := [];
    for i := 0 to |cards|
      invariant interfaces == Selected(cards[..i])
    {
      assert cards[..i + 1][..i] == cards[..i];
      var card := cards[i];
      match ChooseInterface(card)
      case Some(c) =>
        interfaces := interfaces + [Opened(card, c)];
      case None =>
    }
    assert cards[..|cards|] == cards;
    SelectedSpec(cards);
    if |interfaces| == 0 {
      r := Err(MissingMACIEError);
    } else {
      r := Ok(interfaces);
    }
  }

  // ---------------------------------------------------------------- save names

  /** `gen_save_name`: the save directory joined with
      `macie_interface.sn.conn.asic.{sn}.{conn}.{asic}.json`. */
  function SaveFileName(dir: string, serial: nat, c: InterfaceClass): string
  {
    PathJoin(dir, "macie_interface.sn.conn.asic." + SaveTag(serial, c))
  }

  /** The `{sn}.{conn}.{asic}.json` tail of a save name. */
  function SaveTag(serial: nat, c: InterfaceClass): string
  {
    DecimalString(serial) + "." + DecimalString(ConnectionCode(ConnectionOf(c))) + "." + HexString(AsicTypeOf(c)) + ".json"
  }

  /** The class `load_interface` instantiates for an ASIC type and a connection code: the
      first in the list whose fresh instance has both. */
  function MatchingClass(classes: seq<InterfaceClass>, asic: int, conn: int): (r: Option<InterfaceClass>)
    ensures r.Some? ==> r.value in classes && AsicTypeOf(r.value) == asic && ConnectionCode(ConnectionOf(r.value)) == conn
    ensures r.None? ==> forall c :: c in classes ==> AsicTypeOf(c) != asic || ConnectionCode(ConnectionOf(c)) != conn
  {
    if |classes| == 0 then None
    else if AsicTypeOf(classes[0]) == asic && ConnectionCode(ConnectionOf(classes[0])) == conn then Some(classes[0])
    else MatchingClass(classes[1..], asic, conn)
  }

  /** `load_interface`'s reading of the file name: the second-to-last '.'-part is the ASIC type
      in base 16, the third-to-last the connection code; IndexError when the name has too few
      parts, ValueError when a part does not parse; Ok(None) when no class matches (the source
      then returns None). */
  function LoadInterfaceClass(fileName: string): Result<Option<InterfaceClass>>
  {
    var parts := Split(fileName, '.');
    if |parts| < 2 then Err(IndexError)
    else
      match ParseHex(parts[|parts| - 2])
      case None => Err(ValueError)
      case Some(asic) =>
        if |parts| < 3 then Err(IndexError)
        else
          match ParseInt(parts[|parts| - 3])
          case None => Err(ValueError)
          case Some(conn) => Ok(MatchingClass(AllClasses, asic, conn))
  }

  lemma DecimalNoDot(n: nat)
    ensures '.' !in DecimalString(n)
  {
    var s := DecimalString(n);
    assert forall i :: 0 <= i < |s| ==> IsDigit(s[i]);
  }

  lemma HexNoDot(n: nat)
    ensures '.' !in HexString(n)
  {
    var s := HexString(n);
    assert s == "0x" + HexDigits(n);
    assert forall i :: 0 <= i < |HexDigits(n)| ==> HexValue(HexDigits(n)[i]).Some?;
    assert forall i :: 2 <= i < |s| ==> s[i] == HexDigits(n)[i - 2];
  }

  /** Four dot-free parts joined by dots split back into those parts. */
  lemma SplitFourParts(a: string, b: string, c: string, d: string)
    requires '.' !in a && '.' !in b && '.' !in c && '.' !in d
    ensures Split(a + "." + b + "." + c + "." + d, '.') == [a, b, c, d]
  {
    assert a + "." + b + "." + c + "." + d == a + ['.'] + (b + ['.'] + (c + ['.'] + d));
    SplitConcat(c, '.', d);
    SplitNoSeparator(c, '.');
    SplitNoSeparator(d, '.');
    SplitConcat(b, '.', c + ['.'] + d);
    SplitNoSeparator(b, '.');
    SplitConcat(a, '.', b + ['.'] + (c + ['.'] + d));
    SplitNoSeparator(a, '.');
  }

  /** The '.'-parts of a save tag: serial, connection, ASIC type and "json". */
  lemma SplitSaveTag(serial: nat, c: InterfaceClass)
    ensures Split(SaveTag(serial, c), '.') ==
      [DecimalString(serial), DecimalString(ConnectionCode(ConnectionOf(c))), HexString(AsicTypeOf(c)), "json"]
  {
    DecimalNoDot(serial);
    DecimalNoDot(ConnectionCode(ConnectionOf(c)));
    HexNoDot(AsicTypeOf(c));
    assert '.' !in "json";
    var sn, conn, asic := DecimalString(serial), DecimalString(ConnectionCode(ConnectionOf(c))), HexString(AsicTypeOf(c));
    assert SaveTag(serial, c) == sn + "." + conn + "." + asic + "." + "json";
    SplitFourParts(DecimalString(serial), DecimalString(ConnectionCode(ConnectionOf(c))), HexString(AsicTypeOf(c)), "json");
  }

  /** `load_interface` reads back the class of every saved interface, whatever the save
      directory (even one with dots in it) and the card's serial number. */
  lemma LoadSavedInterface(dir: string, serial: nat, c: InterfaceClass)
    ensures LoadInterfaceClass(SaveFileName(dir, serial, c)) == Ok(Some(c))
  {
    var pre := SplitSaveFileName(dir, serial, c);
    ParseHexRoundTrip(AsicTypeOf(c));
    ParseIntDecimal(ConnectionCode(ConnectionOf(c)));
    LoadFromParts(SaveFileName(dir, serial, c), pre, DecimalString(ConnectionCode(ConnectionOf(c))), HexString(AsicTypeOf(c)), "json");
    MatchingClassOf(c);
  }

  /** A save name ends in the '.'-parts connection code, ASIC type and "json". */
  lemma SplitSaveFileName(dir: string, serial: nat, c: InterfaceClass) returns (pre: seq<string>)
    ensures Split(SaveFileName(dir, serial, c), '.') ==
      pre + [DecimalString(ConnectionCode(ConnectionOf(c))), HexString(AsicTypeOf(c)), "json"]
  {
    var name := SaveFileName(dir, serial, c);
    var head := (if |dir| == 0 || dir[|dir| - 1] == '/' then dir else dir + "/") + "macie_interface.sn.conn.asic";
    assert name == head + ['.'] + SaveTag(serial, c);
    SplitConcat(head, '.', SaveTag(serial, c));
    SplitSaveTag(serial, c);
    pre := Split(head, '.') + [DecimalString(serial)];
  }

  /** How `load_interface` reads a name from its last three '.'-parts: connection code, ASIC
      type, extension. */
  lemma LoadFromParts(name: string, pre: seq<string>, conn: string, asic: string, ext: string)
    requires Split(name, '.') == pre + [conn, asic, ext]
    requires ParseHex(asic).Some? && ParseInt(conn).Some?
    ensures LoadInterfaceClass(name) == Ok(MatchingClass(AllClasses, ParseHex(asic).value, ParseInt(conn).value))
  {
    var parts := Split(name, '.');
    assert parts[|parts| - 2] == asic && parts[|parts| - 3] == conn;
  }

  /** Each class is the one `load_interface` picks for its own ASIC type and connection. */
  lemma MatchingClassOf(c: InterfaceClass)
    ensures MatchingClass(AllClasses, AsicTypeOf(c), ConnectionCode(ConnectionOf(c))) == Some(c)
  {
    var r := MatchingClass(AllClasses, AsicTypeOf(c), ConnectionCode(ConnectionOf(c)));
    assert c in AllClasses;
    ClassTagInjective(c, r.value);
  }

  /** A name whose ASIC type parses to anything but 0 or 0xacda, and whose connection code
      parses, loads nothing. */
  lemma LoadUnknownClass(name: string, pre: seq<string>, conn: string, asic: string, ext: string)
    requires Split(name, '.') == pre + [conn, asic, ext]
    requires ParseHex(asic).Some? && ParseHex(asic).value != 0 && ParseHex(asic).value != 0xacda
    requires ParseInt(conn).Some?
    ensures LoadInterfaceClass(name) == Ok(None)
  {
    LoadFromParts(name, pre, conn, asic, ext);
    NoClassOfType(AllClasses, ParseHex(asic).value, ParseInt(conn).value);
  }

  /** No class carries an ASIC type other than 0 and 0xacda. */
  lemma NoClassOfType(classes: seq<InterfaceClass>, asic: int, conn: int)
    requires asic != 0 && asic != 0xacda
    ensures MatchingClass(classes, asic, conn) == None
  {
    var r := MatchingClass(classes, asic, conn);
    if r.Some? {
      assert false;
    }
  }

  // ---------------------------------------------------------------- download_file

  /** The driver call `download_file` makes for a load file. */
  datatype Download = LoadFile | MacieFile | AsicFile | NoDownload

  function DownloadKind(fileName: string): (d: Download)
  {
    if EndsWith(fileName, ".mcf") || EndsWith(fileName, ".glf") || EndsWith(fileName, ".ald") then LoadFile
    else if EndsWith(fileName, ".mrf") then MacieFile
    else if EndsWith(fileName, ".mcd") then AsicFile
    else NoDownload
  }

  /** The extensions and the download each calls for. */
  const Extensions: seq<(string, Download)> :=
    [(".mcf", LoadFile), (".glf", LoadFile), (".ald", LoadFile), (".mrf", MacieFile), (".mcd", AsicFile)]

  /** The download depends only on the file's extension: a file with one of the known
      extensions gets that extension's download, and any other file gets none. */
  lemma DownloadByExtension(stem: string, i: nat)
    requires i < |Extensions|
    ensures DownloadKind(stem + Extensions[i].0) == Extensions[i].1
  {
    var name := stem + Extensions[i].0;
    assert name[|name| - 4..] == Extensions[i].0;
  }

  lemma NoDownloadOtherwise(fileName: string)
    ensures DownloadKind(fileName) == NoDownload <==>
      forall i :: 0 <= i < |Extensions| ==> !EndsWith(fileName, Extensions[i].0)
  {
    if DownloadKind(fileName) == NoDownload {
      forall i | 0 <= i < |Extensions|
        ensures !EndsWith(fileName, Extensions[i].0)
      {
        assert Extensions[i].0 in [".mcf", ".glf", ".ald", ".mrf", ".mcd"];
      }
    } else {
      assert EndsWith(fileName, Extensions[0].0) || EndsWith(fileName, Extensions[1].0)
        || EndsWith(fileName, Extensions[2].0) || EndsWith(fileName, Extensions[3].0)
        || EndsWith(fileName, Extensions[4].0);
    }
  }

  // ---------------------------------------------------------------- mcf_abs_from_rel

  /** `line.upper().startswith('LOAD')`. */
  predicate IsLoadLine(line: string) {
    StartsWith(Upper(line), "LOAD")
  }

  /** The rewrite of a LOAD line: its first token, a space, and its second token joined to the
      directory of the input file; IndexError when the line has a single token. */
  function AbsoluteLoadLine(dir: string, line: string): Result<string>
  {
    var tokens := SplitWhitespace(line);
    if |tokens| < 2 then Err(IndexError)
    else Ok(tokens[0] + " " + PathJoin(dir, tokens[1]))
  }

  /** One line as `mcf_abs_from_rel` writes it: the rewritten LOAD line loses the newline
      that `readlines` left at its end. */
  function RewriteLineAsWritten(dir: string, line: string): Result<string>
  {
    if IsLoadLine(line) then AbsoluteLoadLine(dir, line) else Ok(line)
  }

  /** The evident intent: the rewritten LOAD line keeps its line ending. */
  function RewriteLine(dir: string, line: string): Result<string>
  {
    if IsLoadLine(line) then
      match AbsoluteLoadLine(dir, line)
      case Err(e) => Err(e)
      case Ok(text) => Ok(text + (if EndsWith(line, "\n") then "\n" else ""))
    else Ok(line)
  }

  /** `''.join(parts)`. */
  function Concat(parts: seq<string>): string
  {
    if |parts| == 0 then "" else parts[0] + Concat(parts[1..])
  }

  /** Every line rewritten; the first failure is the result. */
  function RewriteAll(rewrite: string -> Result<string>, lines: seq<string>): Result<seq<string>>
  {
    if |lines| == 0 then Ok([])
    else
      match rewrite(lines[0])
      case Err(e) => Err(e)
      case Ok(first) =>
        match RewriteAll(rewrite, lines[1..])
        case Err(e) => Err(e)
        case Ok(rest) => Ok([first] + rest)
  }

  /** The text `mcf_abs_from_rel` writes, as written, for the lines `readlines` returns. */
  function McfAbsFromRelAsWritten(inputPath: string, lines: seq<string>): Result<string>
  {
    match RewriteAll(line => RewriteLineAsWritten(DirName(inputPath), line), lines)
    case Err(e) => Err(e)
    case Ok(out) => Ok(Concat(out))
  }

  /** `mcf_abs_from_rel`, corrected: lines are rewritten one by one and joined. */
  method McfAbsFromRel(inputPath: string, lines: seq<string>) returns (r: Result<string>)
    ensures r.Ok? <==> forall i :: 0 <= i < |lines| ==> RewriteLine(DirName(inputPath), lines[i]).Ok?
    ensures r.Err? ==> r.error == IndexError
    ensures r.Ok? ==> r.value == Concat(seq(|lines|, i requires 0 <= i < |lines| => RewriteLine(DirName(inputPath), lines[i]).value))
  {
    var dir := DirName(inputPath);
    var output: seq<string> := [];
    for i := 0 to |lines|
      invariant |output| == i
      invariant forall j :: 0 <= j < i ==> RewriteLine(dir, lines[j]).Ok? && output[j] == RewriteLine(dir, lines[j]).value
    {
      match RewriteLine(dir, lines[i])
      case Err(e) =>
        return Err(e);
      case Ok(text) =>
        output := output + [text];
    }
    assert output == seq(|lines|, i requires 0 <= i < |lines| => RewriteLine(dir, lines[i]).value);
    r := Ok(Concat(output));
  }

  /** The text of a line without its newline. */
  function Body(line: string): string
  {
    if EndsWith(line, "\n") then line[..|line| - 1] else line
  }

  /** A line as `readlines` returns it: ending in its one newline. */
  predicate IsReadLine(line: string) {
    EndsWith(line, "\n") && '\n' !in line[..|line| - 1]
  }

  lemma LoadLineBody(dir: string, line: string)
    requires '\n' !in dir && IsReadLine(line) && RewriteLine(dir, line).Ok?
    ensures IsReadLine(RewriteLine(dir, line).value)
    ensures Body(RewriteLine(dir, line).value) == if IsLoadLine(line) then AbsoluteLoadLine(dir, line).value else Body(line)
  {
    if IsLoadLine(line) {
      var tokens := SplitWhitespace(line);
      var text := AbsoluteLoadLine(dir, line).value;
      assert IsSpace('\n');
      assert '\n' !in tokens[0] && '\n' !in tokens[1];
      assert '\n' !in PathJoin(dir, tokens[1]);
      assert '\n' !in text;
      assert (text + "\n")[..|text|] == text;
    }
  }

  /** Lines that each end in their one newline, joined, split back at newlines into their
      texts followed by the empty text after the last newline. */
  lemma {:induction false} SplitReadLines(out: seq<string>)
    requires forall i :: 0 <= i < |out| ==> IsReadLine(out[i])
    ensures Split(Concat(out), '\n') == seq(|out|, i requires 0 <= i < |out| => Body(out[i])) + [""]
    decreases |out|
  {
    if |out| > 0 {
      var body := Body(out[0]);
      var rest := Concat(out[1..]);
      var bodies := seq(|out| - 1, i requires 0 <= i < |out| - 1 => Body(out[1..][i]));
      assert Split(rest, '\n') == bodies + [""] by {
        SplitReadLines(out[1..]);
      }
      assert Split(Concat(out), '\n') == [body] + Split(rest, '\n') by {
        assert out[0] == body + ['\n'];
        assert Concat(out) == body + ['\n'] + rest;
        SplitConcat(body, '\n', rest);
        SplitNoSeparator(body, '\n');
      }
      assert seq(|out|, i requires 0 <= i < |out| => Body(out[i])) == [body] + bodies;
    }
  }

  /** With the correction the output has the input's lines, one for one: split at newlines it
      gives each line's rewritten text, then the empty text after the last newline. */
  lemma McfKeepsLines(dir: string, lines: seq<string>)
    requires '\n' !in dir
    requires forall i :: 0 <= i < |lines| ==> IsReadLine(lines[i]) && RewriteLine(dir, lines[i]).Ok?
    ensures Split(Concat(seq(|lines|, i requires 0 <= i < |lines| => RewriteLine(dir, lines[i]).value)), '\n')
      == seq(|lines|, i requires 0 <= i < |lines| => Body(RewriteLine(dir, lines[i]).value)) + [""]
  {
    var out := seq(|lines|, i requires 0 <= i < |lines| => RewriteLine(dir, lines[i]).value);
    forall i | 0 <= i < |lines|
      ensures IsReadLine(out[i])
    {
      LoadLineBody(dir, lines[i]);
    }
    SplitReadLines(out);
  }

  /** As written, a file made only of LOAD lines comes out as a single line. */
  lemma {:induction false} McfAsWrittenOneLine(inputPath: string, lines: seq<string>)
    requires '\n' !in inputPath
    requires forall i :: 0 <= i < |lines| ==> IsLoadLine(lines[i])
    requires McfAbsFromRelAsWritten(inputPath, lines).Ok?
    ensures '\n' !in McfAbsFromRelAsWritten(inputPath, lines).value
    decreases |lines|
  {
    var dir := DirName(inputPath);
    assert '\n' !in dir by {
      var i := LastSlash(inputPath);
      if i >= 0 {
        assert forall k :: 0 <= k < |TrimTrailingSlashes(inputPath[..i + 1])| ==>
          TrimTrailingSlashes(inputPath[..i + 1])[k] == inputPath[k];
      }
    }
    if |lines| > 0 {
      var tokens := SplitWhitespace(lines[0]);
      assert IsSpace('\n');
      assert '\n' !in tokens[0] && '\n' !in tokens[1];
      assert '\n' !in PathJoin(dir, tokens[1]);
      McfAsWrittenOneLine(inputPath, lines[1..]);
    }
  }

  // ---------------------------------------------------------------- gen_cam_names

  /** `[cam_name_list[index] for index in index_list]`, with Python's negative indices;
      IndexError on the first index out of range. */
  function GenCamNames(indices: seq<int>, names: seq<string>): Result<seq<string>>
  {
    if |indices| == 0 then Ok([])
    else
      match PyIndex(|names|, indices[0])
      case None => Err(IndexError)
      case Some(k) =>
        match GenCamNames(indices[1..], names)
        case Err(e) => Err(e)
        case Ok(rest) => Ok([names[k]] + rest)
  }

  /** The names are found exactly when every index is in range, and then the i-th name is the
      one the i-th index selects. */
  lemma {:induction false} GenCamNamesSpec(indices: seq<int>, names: seq<string>)
    ensures GenCamNames(indices, names).Ok? <==> forall i :: 0 <= i < |indices| ==> PyIndex(|names|, indices[i]).Some?
    ensures GenCamNames(indices, names).Err? ==> GenCamNames(indices, names).error == IndexError
    ensures GenCamNames(indices, names).Ok? ==>
      |GenCamNames(indices, names).value| == |indices| &&
      forall i :: 0 <= i < |indices| ==> GenCamNames(indices, names).value[i] == names[PyIndex(|names|, indices[i]).value]
    decreases |indices|
  {
    if |indices| > 0 {
      GenCamNamesSpec(indices[1..], names);
      if PyIndex(|names|, indices[0]).Some? && GenCamNames(indices[1..], names).Ok? {
        forall i | 0 <= i < |indices|
          ensures PyIndex(|names|, indices[i]).Some?
        {
          if i > 0 {
            assert indices[i] == indices[1..][i - 1];
          }
        }
      }
      if !(forall i :: 0 <= i < |indices| ==> PyIndex(|names|, indices[i]).Some?) {
        var i :| 0 <= i < |indices| && PyIndex(|names|, indices[i]).None?;
        if i > 0 {
          assert indices[1..][i - 1] == indices[i];
        }
      }
    }
  }

  /** The cameras 0 .. N−1 of a contiguous mask get the first N names. */
  lemma FirstCameraNames(n: nat, names: seq<string>)
    requires n <= |names|
    ensures GenCamNames(seq(n, i => i), names) == Ok(names[..n])
  {
    var indices := seq(n, i => i);
    assert forall i :: 0 <= i < n ==> PyIndex(|names|, indices[i]) == Some(i);
    GenCamNamesSpec(indices, names);
    var r := GenCamNames(indices, names).value;
    assert forall i :: 0 <= i < n ==> r[i] == names[..n][i];
    assert r == names[..n];
  }

  // ---------------------------------------------------------------- card_to_dict

  /** The value of a ctypes `c_char` array: its bytes up to the first NUL. */
  function CString(raw: seq<Utf8.Byte>): (s: seq<Utf8.Byte>)
    ensures |s| <= |raw| && s == raw[..|s|]
    ensures forall i :: 0 <= i < |s| ==> s[i] != 0
    ensures |s| < |raw| ==> raw[|s|] == 0
  {
    if |raw| == 0 || raw[0] == 0 then [] else [raw[0]] + CString(raw[1..])
  }

  /** The dictionary `card_to_dict` builds. */
  datatype CardDict = CardDict(
    macieSerialNumber: UShort,
    bUart: bool,
    bGige: bool,
    bUsb: bool,
    ipAddress: seq<int>,
    gigeSpeed: UShort,
    usbSerialNumber: string,
    firmwareSlot1: string,
    firmwareSlot2: string,
    usbSpeed: UShort,
    serialPortName: Option<string>)

  /** `card_to_dict`: the USB serial number and the firmware slots must decode as UTF-8
      (UnicodeDecodeError otherwise); the serial port name is None when it does not. */
  function CardToDict(card: CardInfo): Result<CardDict>
    requires WellSized(card)
  {
    var usb := Utf8.Decode(CString(card.usbSerialNumber));
    var slot1 := Utf8.Decode(CString(card.firmwareSlot1));
    var slot2 := Utf8.Decode(CString(card.firmwareSlot2));
    if usb.None? || slot1.None? || slot2.None? then Err(UnicodeDecodeError)
    else
      Ok(CardDict(card.macieSerialNumber, card.bUart, card.bGige, card.bUsb,
        seq(4, i requires 0 <= i < 4 => card.ipAddress[i] as int),
        card.gigeSpeed, usb.value, slot1.value, slot2.value, card.usbSpeed,
        Utf8.Decode(CString(card.serialPortName))))
  }

  /** The bytes of a C string field holding text: its UTF-8 encoding, padded with NULs. */
  function Field(text: string, size: nat): seq<Utf8.Byte>
    requires |Utf8.Encode(text)| <= size
  {
    Utf8.Encode(text) + seq(size - |Utf8.Encode(text)|, _ => 0)
  }

  predicate NoNul(s: string) {
    forall i :: 0 <= i < |s| ==> s[i] != '\0'
  }

  /** The C string of NUL-free bytes padded with NULs is those bytes. */
  lemma {:induction false} CStringOfPadded(e: seq<Utf8.Byte>, pad: nat)
    requires forall k :: 0 <= k < |e| ==> e[k] != 0
    ensures CString(e + seq(pad, _ => 0)) == e
    decreases |e|
  {
    var raw := e + seq(pad, _ => 0);
    if |e| == 0 {
      assert raw == seq(pad, _ => 0);
    } else {
      assert raw[1..] == e[1..] + seq(pad, _ => 0);
      CStringOfPadded(e[1..], pad);
      assert [e[0]] + e[1..] == e;
    }
  }

  lemma FieldText(text: string, size: nat)
    requires |Utf8.Encode(text)| <= size && NoNul(text)
    ensures Utf8.Decode(CString(Field(text, size))) == Some(text)
  {
    Utf8.EncodeNoZero(text);
    CStringOfPadded(Utf8.Encode(text), size - |Utf8.Encode(text)|);
    Utf8.DecodeEncode(text);
  }

  /** A card whose text fields hold NUL-free text gives that text back in its dictionary,
      together with its numbers and its four address bytes. */
  lemma CardToDictText(card: CardInfo, usb: string, slot1: string, slot2: string, port: string)
    requires WellSized(card)
    requires NoNul(usb) && NoNul(slot1) && NoNul(slot2) && NoNul(port)
    requires |Utf8.Encode(usb)| <= 16 && card.usbSerialNumber == Field(usb, 16)
    requires |Utf8.Encode(slot1)| <= 100 && card.firmwareSlot1 == Field(slot1, 100)
    requires |Utf8.Encode(slot2)| <= 100 && card.firmwareSlot2 == Field(slot2, 100)
    requires |Utf8.Encode(port)| <= 10 && card.serialPortName == Field(port, 10)
    ensures CardToDict(card) == Ok(CardDict(card.macieSerialNumber, card.bUart, card.bGige, card.bUsb,
      card.ipAddress, card.gigeSpeed, usb, slot1, slot2, card.usbSpeed, Some(port)))
  {
    assert seq(4, i requires 0 <= i < 4 => card.ipAddress[i] as int) == card.ipAddress;
    FieldText(usb, 16);
    FieldText(slot1, 100);
    FieldText(slot2, 100);
    FieldText(port, 10);
  }

  /** An undecodable USB serial number fails the whole conversion; an undecodable serial port
      name only leaves that entry None. */
  lemma CardToDictDecodeErrors(card: CardInfo)
    requires WellSized(card)
    ensures Utf8.Decode(CString(card.usbSerialNumber)).None? ==> CardToDict(card) == Err(UnicodeDecodeError)
    ensures CardToDict(card).Ok? ==>
      (CardToDict(card).value.serialPortName.None? <==> Utf8.Decode(CString(card.serialPortName)).None?)
  {
  }
}

=== FILE: deinterlace.dfy ===
/** `BaseImage.deinterlace` (asdetector/utils/image.py): the columns after the science
    headers of each row arrive interleaved across `nch` readout channels; channel i's reads
    are columns i, i + nch, i + 2·nch, …. Deinterlacing gathers each channel into its own
    block of p = width / nch columns, reversing the odd channels, and writes the result back
    over the data columns in place. */
module Deinterlace {
  import opened Wrappers
  import opened Arith

  /** Width of `image[:, nheaders:]`. */
  function DataWidth(cols: nat, nheaders: nat): nat
  {
    if nheaders >= cols then 0 else cols - nheaders
  }

  /** Block column that read m of channel i is written to. */
  function DestColumn(i: nat, m: nat, p: nat): (c: nat)
    requires m < p
    ensures i * p <= c < i * p + p
  {
    if i % 2 == 0 then i * p + m else i * p + p - 1 - m
  }

  /** The data column that block column c is read from. */
  function SourceColumn(c: nat, nch: nat, p: nat): (s: nat)
    requires nch > 0 && p > 0 && c < nch * p
    ensures s < nch * p
  {
    var i := c / p;
    var off := c % p;
    var m := if i % 2 == 0 then off else p - 1 - off;
    QuotientBound(c, p, nch);
    LayoutBound(i, nch, m, p);
    i + m * nch
  }

  /** The block column that data column s is written to. */
  function TargetColumn(s: nat, nch: nat, p: nat): (c: nat)
    requires nch > 0 && p > 0 && s < nch * p
    ensures c < nch * p
  {
    var i, m := s % nch, s / nch;
    QuotientBound(s, nch, p);
    BlockBound(i, nch, p);
    DestColumn(i, m, p)
  }

  /** Even channel i puts read m at column i·p + m, odd channel i at (i+1)·p − 1 − m; either
      way that column is read from data column i + m·nch. */
  lemma ChannelPlacement(i: nat, m: nat, nch: nat, p: nat)
    requires i < nch && m < p
    ensures i * p + p <= nch * p && DestColumn(i, m, p) < nch * p
    ensures i % 2 == 0 ==> DestColumn(i, m, p) == i * p + m
    ensures i % 2 == 1 ==> DestColumn(i, m, p) == (i + 1) * p - 1 - m
    ensures SourceColumn(DestColumn(i, m, p), nch, p) == i + m * nch
  {
    BlockBound(i, nch, p);
    var c := DestColumn(i, m, p);
    var off := if i % 2 == 0 then m else p - 1 - m;
    assert c == i * p + off;
    DivModUnique(c, p, i, off);
  }

  /** Every data column lands in exactly one block column and is read back from there. */
  lemma TargetThenSource(s: nat, nch: nat, p: nat)
    requires nch > 0 && p > 0 && s < nch * p
    ensures SourceColumn(TargetColumn(s, nch, p), nch, p) == s
  {
    var i, m := s % nch, s / nch;
    assert s == i + m * nch;
    QuotientBound(s, nch, p);
    var c := TargetColumn(s, nch, p);
    assert c == DestColumn(i, m, p);
    ChannelPlacement(i, m, nch, p);
  }

  /** Every block column is filled from exactly one data column. */
  lemma SourceThenTarget(c: nat, nch: nat, p: nat)
    requires nch > 0 && p > 0 && c < nch * p
    ensures TargetColumn(SourceColumn(c, nch, p), nch, p) == c
  {
    var i := c / p;
    var off := c % p;
    var m := if i % 2 == 0 then off else p - 1 - off;
    QuotientBound(c, p, nch);
    var s := SourceColumn(c, nch, p);
    assert s == i + m * nch;
    DivModUnique(s, nch, m, i);
    assert c == i * p + off;
  }

  /** `len(range(i, width, nch))`: how many columns the slice `[:, i::nch]` has. */
  function SliceCount(width: nat, i: nat, nch: nat): nat
    requires nch > 0
  {
    if i >= width then 0 else (width - i - 1) / nch + 1
  }

  /** What the slice assignment of channel i raises: numpy copies a source of `count` columns
      into a slot of p columns only when the counts agree or the source has one column. */
  function ChannelError(width: nat, i: nat, nch: nat): (e: Option<Exception>)
    requires nch > 0
  {
    var count := SliceCount(width, i, nch);
    if count == width / nch || count == 1 then None else Some(ValueError)
  }

  /** The outcome as a whole: a zero channel count divides by zero; a width that is not a
      multiple of nch, with at least one column per channel, cannot be broadcast. */
  function Check(width: nat, nch: nat): Option<Exception>
  {
    if nch == 0 then Some(ZeroDivisionError)
    else if width / nch >= 1 && width % nch != 0 then Some(ValueError)
    else None
  }

  /** The channel loop fails exactly when `Check` says so, and then already at channel 0. */
  lemma ChannelErrors(width: nat, nch: nat)
    requires nch > 0
    ensures Check(width, nch).Some? ==> ChannelError(width, 0, nch) == Check(width, nch)
    ensures Check(width, nch).None? ==> forall i :: 0 <= i < nch ==> ChannelError(width, i, nch).None?
  {
    if Check(width, nch).Some? {
      FirstChannelFails(width, nch);
    } else {
      forall i | 0 <= i < nch
        ensures ChannelError(width, i, nch).None?
      {
        ChannelFits(width, i, nch);
      }
    }
  }

  /** A width that is not a multiple of nch, with p >= 1 columns per channel, gives channel 0
      p + 1 columns. */
  lemma FirstChannelFails(width: nat, nch: nat)
    requires nch > 0 && Check(width, nch).Some?
    ensures ChannelError(width, 0, nch) == Some(ValueError)
  {
    var p, rem := width / nch, width % nch;
    assert width == p * nch + rem;
    DivModUnique(width - 1, nch, p, rem - 1);
    assert SliceCount(width, 0, nch) == p + 1;
  }

  /** When `Check` passes, channel i has either p columns or (with p = 0) at most one. */
  lemma ChannelFits(width: nat, i: nat, nch: nat)
    requires nch > 0 && Check(width, nch).None? && i < nch
    ensures ChannelError(width, i, nch).None?
  {
    var p, rem := width / nch, width % nch;
    assert width == p * nch + rem;
    if p >= 1 && i < width {
      assert rem == 0;
      DivModUnique(width - i - 1, nch, p - 1, nch - i - 1);
    } else if i < width {
      DivModUnique(width - i - 1, nch, 0, width - i - 1);
    }
  }

  /** A row after `deinterlace` (when `Check` passes): the header columns are kept and block
      column c of the data holds data column SourceColumn(c); with fewer data columns than
      channels (p = 0) every data column becomes 0. */
  function DeinterlaceRow(row: seq<int>, nheaders: nat, nch: nat): (out: seq<int>)
    requires Check(DataWidth(|row|, nheaders), nch).None?
    ensures |out| == |row|
  {
    var h := |row| - DataWidth(|row|, nheaders);
    var w := DataWidth(|row|, nheaders);
    var p := w / nch;
    if p == 0 then row[..h] + seq(w, _ => 0)
    else
      ExactDiv(w, nch);
      row[..h] + seq(w, c requires 0 <= c < w => row[h + SourceColumn(c, nch, p)])
  }

  /** The header columns are untouched and each channel's reads are placed as the
      specification of the readout says. */
  lemma DeinterlaceRowPlacement(row: seq<int>, nheaders: nat, nch: nat, i: nat, m: nat)
    requires Check(DataWidth(|row|, nheaders), nch).None?
    requires DataWidth(|row|, nheaders) / nch >= 1
    requires i < nch && m < DataWidth(|row|, nheaders) / nch
    ensures forall j :: 0 <= j < nheaders && j < |row| ==> DeinterlaceRow(row, nheaders, nch)[j] == row[j]
    ensures var p := DataWidth(|row|, nheaders) / nch;
      i * p + p <= nch * p && i + m * nch < nch * p && nheaders + nch * p == |row|
    ensures var out, p := DeinterlaceRow(row, nheaders, nch), DataWidth(|row|, nheaders) / nch;
      out[nheaders + DestColumn(i, m, p)] == row[nheaders + i + m * nch]
  {
    var w := DataWidth(|row|, nheaders);
    var p := w / nch;
    assert w == nch * p;
    LayoutBound(i, nch, m, p);
    ChannelPlacement(i, m, nch, p);
    var out := DeinterlaceRow(row, nheaders, nch);
    var c := DestColumn(i, m, p);
    assert out[nheaders + c] == row[nheaders + SourceColumn(c, nch, p)];
  }

  /** Each row's data part is a permutation of the input's: SourceColumn is a bijection on the
      data columns with inverse TargetColumn, and the output at c is the input at SourceColumn(c). */
  lemma DeinterlaceRowPermutes(row: seq<int>, nheaders: nat, nch: nat)
    requires Check(DataWidth(|row|, nheaders), nch).None?
    requires DataWidth(|row|, nheaders) / nch >= 1
    ensures var w, p := DataWidth(|row|, nheaders), DataWidth(|row|, nheaders) / nch;
      w == nch * p &&
      (forall s :: 0 <= s < w ==>
        DeinterlaceRow(row, nheaders, nch)[nheaders + TargetColumn(s, nch, p)] == row[nheaders + s])
  {
    var w, p := DataWidth(|row|, nheaders), DataWidth(|row|, nheaders) / nch;
    assert w == nch * p;
    forall s | 0 <= s < w
      ensures DeinterlaceRow(row, nheaders, nch)[nheaders + TargetColumn(s, nch, p)] == row[nheaders + s]
    {
      TargetThenSource(s, nch, p);
    }
  }

  /** Data column c of a deinterlaced row, read off the input row. */
  lemma DeinterlaceRowAt(row: seq<int>, nheaders: nat, nch: nat, c: nat)
    requires Check(DataWidth(|row|, nheaders), nch).None?
    requires c < DataWidth(|row|, nheaders)
    ensures var w := DataWidth(|row|, nheaders); var p := w / nch; var h := |row| - w;
      p >= 1 ==> w == nch * p
    ensures var w := DataWidth(|row|, nheaders); var p := w / nch; var h := |row| - w;
      DeinterlaceRow(row, nheaders, nch)[h + c] == if p == 0 then 0 else row[h + SourceColumn(c, nch, p)]
  {
    var w := DataWidth(|row|, nheaders);
    if w / nch >= 1 {
      ExactDiv(w, nch);
    }
  }

  /** With at least one column per channel a deinterlaced row holds exactly the values of the
      input row; with none (p = 0) its data columns are all 0. */
  lemma DeinterlaceRowValues(row: seq<int>, nheaders: nat, nch: nat)
    requires Check(DataWidth(|row|, nheaders), nch).None?
    ensures DataWidth(|row|, nheaders) / nch >= 1 ==>
      forall x :: x in DeinterlaceRow(row, nheaders, nch) <==> x in row
    ensures forall x :: x in DeinterlaceRow(row, nheaders, nch) ==> x in row || x == 0
  {
    forall x | x in DeinterlaceRow(row, nheaders, nch)
      ensures x in row || (DataWidth(|row|, nheaders) / nch == 0 && x == 0)
    {
      ValueFrom(row, nheaders, nch, x);
    }
    if DataWidth(|row|, nheaders) / nch >= 1 {
      forall x | x in row
        ensures x in DeinterlaceRow(row, nheaders, nch)
      {
        ValueTo(row, nheaders, nch, x);
      }
    }
  }

  lemma ValueFrom(row: seq<int>, nheaders: nat, nch: nat, x: int)
    requires Check(DataWidth(|row|, nheaders), nch).None?
    requires x in DeinterlaceRow(row, nheaders, nch)
    ensures x in row || (DataWidth(|row|, nheaders) / nch == 0 && x == 0)
  {
    var out := DeinterlaceRow(row, nheaders, nch);
    var h := |row| - DataWidth(|row|, nheaders);
    var c :| 0 <= c < |out| && out[c] == x;
    if c >= h {
      DataValueFrom(row, nheaders, nch, c - h);
    } else {
      DeinterlaceRowHeaders(row, nheaders, nch, c);
    }
  }

  /** A data column of a deinterlaced row holds a value of the input row, or 0 when p = 0. */
  lemma DataValueFrom(row: seq<int>, nheaders: nat, nch: nat, c: nat)
    requires Check(DataWidth(|row|, nheaders), nch).None?
    requires c < DataWidth(|row|, nheaders)
    ensures var w := DataWidth(|row|, nheaders); var x := DeinterlaceRow(row, nheaders, nch)[|row| - w + c];
      x in row || (w / nch == 0 && x == 0)
  {
    var w := DataWidth(|row|, nheaders);
    var h, p := |row| - w, w / nch;
    DeinterlaceRowAt(row, nheaders, nch, c);
    if p >= 1 {
      var s := SourceColumn(c, nch, p);
      assert DeinterlaceRow(row, nheaders, nch)[h + c] == row[h + s];
    }
  }

  /** The header columns of a deinterlaced row are those of the input row. */
  lemma DeinterlaceRowHeaders(row: seq<int>, nheaders: nat, nch: nat, c: nat)
    requires Check(DataWidth(|row|, nheaders), nch).None?
    requires c < |row| - DataWidth(|row|, nheaders)
    ensures DeinterlaceRow(row, nheaders, nch)[c] == row[c]
  {
  }

  lemma ValueTo(row: seq<int>, nheaders: nat, nch: nat, x: int)
    requires Check(DataWidth(|row|, nheaders), nch).None?
    requires DataWidth(|row|, nheaders) / nch >= 1
    requires x in row
    ensures x in DeinterlaceRow(row, nheaders, nch)
  {
    var out := DeinterlaceRow(row, nheaders, nch);
    var p := DataWidth(|row|, nheaders) / nch;
    var s :| 0 <= s < |row| && row[s] == x;
    DeinterlaceRowPermutes(row, nheaders, nch);
    if s >= nheaders {
      assert out[nheaders + TargetColumn(s - nheaders, nch, p)] == x;
    } else {
      assert out[s] == x;
    }
  }

  ghost function Row(a: array2<int>, r: nat): seq<int>
    requires r < a.Length0
    reads a
  {
    seq(a.Length1, c requires 0 <= c < a.Length1 reads a => a[r, c])
  }

  /** The slice assignment of one channel: for every row, `dein[:, block of i]` receives
      `image[:, nheaders + i :: nch]`, odd channels reversed. */
  method CopyChannel(dein: array2<int>, image: array2<int>, i: nat, nheaders: nat, nch: nat, p: nat)
    requires dein != image && i < nch && p >= 1
    requires dein.Length0 == image.Length0 && dein.Length1 == nch * p
    requires nheaders + nch * p <= image.Length1
    modifies dein
    ensures forall r, c :: 0 <= r < dein.Length0 && 0 <= c < dein.Length1 ==>
      dein[r, c] == if i * p <= c < i * p + p then image[r, nheaders + SourceColumn(c, nch, p)]
                    else old(dein[r, c])
  {
    BlockBound(i, nch, p);
    var r := 0;
    while r < dein.Length0
      invariant 0 <= r <= dein.Length0
      invariant forall r', c :: 0 <= r' < dein.Length0 && 0 <= c < dein.Length1 ==>
        dein[r', c] == if r' < r && i * p <= c < i * p + p then image[r', nheaders + SourceColumn(c, nch, p)]
                       else old(dein[r', c])
    {
      var m := 0;
      while m < p
        invariant 0 <= m <= p
        invariant forall r', c :: 0 <= r' < dein.Length0 && 0 <= c < dein.Length1 ==>
          dein[r', c] == if (r' < r || (r' == r && Written(c, i, p, m))) && i * p <= c < i * p + p
                         then image[r', nheaders + SourceColumn(c, nch, p)]
                         else old(dein[r', c])
      {
        ChannelPlacement(i, m, nch, p);
        LayoutBound(i, nch, m, p);
        dein[r, DestColumn(i, m, p)] := image[r, nheaders + i + m * nch];
        m := m + 1;
      }
      r := r + 1;
    }
  }

  /** Block column c of channel i has been written once reads 0 .. m−1 are placed. */
  predicate Written(c: nat, i: nat, p: nat, m: nat)
  {
    if i % 2 == 0 then c < i * p + m else c + m >= i * p + p
  }

  /** `image[:, h:] = dein`. */
  method CopyBack(image: array2<int>, dein: array2<int>, h: nat)
    requires dein != image && dein.Length0 == image.Length0 && h + dein.Length1 == image.Length1
    modifies image
    ensures forall r, c :: 0 <= r < image.Length0 && 0 <= c < image.Length1 ==>
      image[r, c] == if c >= h then dein[r, c - h] else old(image[r, c])
  {
    var r := 0;
    while r < image.Length0
      invariant 0 <= r <= image.Length0
      invariant forall r', c :: 0 <= r' < image.Length0 && 0 <= c < image.Length1 ==>
        image[r', c] == if r' < r && c >= h then dein[r', c - h] else old(image[r', c])
    {
      var c := 0;
      while c < dein.Length1
        invariant 0 <= c <= dein.Length1
        invariant forall r', c' :: 0 <= r' < image.Length0 && 0 <= c' < image.Length1 ==>
          image[r', c'] == if (r' < r || (r' == r && c' < h + c)) && c' >= h then dein[r', c' - h]
                           else old(image[r', c'])
      {
        image[r, h + c] := dein[r, c];
        c := c + 1;
      }
      r := r + 1;
    }
  }

  /** Once every channel is placed, `dein` holds the data part of each deinterlaced row. */
  lemma GatheredRows(image: array2<int>, dein: array2<int>, nch: nat, nheaders: nat)
    requires nch > 0 && Check(DataWidth(image.Length1, nheaders), nch).None?
    requires dein.Length0 == image.Length0 && dein.Length1 == DataWidth(image.Length1, nheaders)
    requires var w := dein.Length1; var p := w / nch; var h := image.Length1 - w;
      p >= 1 ==> w == nch * p && forall r, c :: 0 <= r < dein.Length0 && 0 <= c < dein.Length1 ==>
        dein[r, c] == image[r, h + SourceColumn(c, nch, p)]
    requires dein.Length1 / nch == 0 ==> forall r, c :: 0 <= r < dein.Length0 && 0 <= c < dein.Length1 ==> dein[r, c] == 0
    ensures forall r, c :: 0 <= r < dein.Length0 && 0 <= c < dein.Length1 ==>
      dein[r, c] == DeinterlaceRow(Row(image, r), nheaders, nch)[image.Length1 - dein.Length1 + c]
  {
    forall r, c | 0 <= r < dein.Length0 && 0 <= c < dein.Length1
      ensures dein[r, c] == DeinterlaceRow(Row(image, r), nheaders, nch)[image.Length1 - dein.Length1 + c]
    {
      DeinterlaceRowAt(Row(image, r), nheaders, nch, c);
    }
  }

  /** The channel loop of `deinterlace`: builds `data_dein` from the data columns, or stops
      with the error the first failing slice assignment raises. */
  method GatherChannels(image: array2<int>, nch: nat, nheaders: nat) returns (error: Option<Exception>, dein: array2<int>)
    requires nch > 0
    ensures fresh(dein)
    ensures dein.Length0 == image.Length0 && dein.Length1 == DataWidth(image.Length1, nheaders)
    ensures error == Check(DataWidth(image.Length1, nheaders), nch)
    ensures error.None? ==> forall r, c :: 0 <= r < dein.Length0 && 0 <= c < dein.Length1 ==>
      dein[r, c] == DeinterlaceRow(Row(image, r), nheaders, nch)[image.Length1 - dein.Length1 + c]
  {
    var w := DataWidth(image.Length1, nheaders);
    dein := new int[image.Length0, w]((_, _) => 0);
    error := PlaceChannels(image, dein, nch, image.Length1 - w);
    if error.None? {
      GatheredRows(image, dein, nch, nheaders);
    }
  }

  /** The loop over the channels, writing each channel's block of `dein` in turn. */
  method PlaceChannels(image: array2<int>, dein: array2<int>, nch: nat, h: nat) returns (error: Option<Exception>)
    requires nch > 0 && dein != image
    requires dein.Length0 == image.Length0 && h + dein.Length1 == image.Length1
    requires forall r, c :: 0 <= r < dein.Length0 && 0 <= c < dein.Length1 ==> dein[r, c] == 0
    modifies dein
    ensures error == Check(dein.Length1, nch)
    ensures error.None? && dein.Length1 / nch >= 1 ==> dein.Length1 == nch * (dein.Length1 / nch)
    ensures error.None? && dein.Length1 / nch >= 1 ==> forall r, c :: 0 <= r < dein.Length0 && 0 <= c < dein.Length1 ==>
      dein[r, c] == image[r, h + SourceColumn(c, nch, dein.Length1 / nch)]
    ensures dein.Length1 / nch == 0 ==> forall r, c :: 0 <= r < dein.Length0 && 0 <= c < dein.Length1 ==> dein[r, c] == 0
  {
    var w := dein.Length1;
    var p := w / nch;
    ChannelErrors(w, nch);
    ghost var full := Check(w, nch).None? && p >= 1;
    if full {
      ExactDiv(w, nch);
    }
    var i, done := 0, 0;
    while i < nch
      invariant 0 <= i <= nch && done == i * p
      invariant Check(w, nch).Some? ==> i == 0
      invariant full ==> forall r, c :: 0 <= r < dein.Length0 && 0 <= c < dein.Length1 ==>
        dein[r, c] == if c < done then image[r, h + SourceColumn(c, nch, p)] else 0
      invariant p == 0 ==> forall r, c :: 0 <= r < dein.Length0 && 0 <= c < dein.Length1 ==> dein[r, c] == 0
    {
      var e := ChannelError(w, i, nch);
      if e.Some? {
        return e;
      }
      if p >= 1 {
        CopyChannel(dein, image, i, h, nch, p);
      }
      i, done := i + 1, done + p;
    }
    return None;
  }

  /** `BaseImage.deinterlace(nch, nheaders)` on the image in place. On an error nothing has
      been written; otherwise every row becomes `DeinterlaceRow` of the old row. */
  method Deinterlace(image: array2<int>, nch: nat, nheaders: nat) returns (error: Option<Exception>)
    modifies image
    ensures error == Check(DataWidth(image.Length1, nheaders), nch)
    ensures error.Some? ==> forall r, c :: 0 <= r < image.Length0 && 0 <= c < image.Length1 ==>
      image[r, c] == old(image[r, c])
    ensures error.None? ==> forall r :: 0 <= r < image.Length0 ==>
      Row(image, r) == DeinterlaceRow(old(Row(image, r)), nheaders, nch)
  {
    if nch == 0 {
      return Some(ZeroDivisionError);
    }
    var dein;
    error, dein := GatherChannels(image, nch, nheaders);
    if error.Some? {
      return;
    }
    var h := image.Length1 - dein.Length1;
    ghost var before := seq(image.Length0, r requires 0 <= r < image.Length0 reads image => Row(image, r));
    CopyBack(image, dein, h);
    forall r | 0 <= r < image.Length0
      ensures Row(image, r) == DeinterlaceRow(before[r], nheaders, nch)
    {
      var out := DeinterlaceRow(before[r], nheaders, nch);
      forall c | 0 <= c < image.Length1
        ensures Row(image, r)[c] == out[c]
      {
      }
    }
  }
}

=== FILE: deinterleave.dfy ===
/** The deinterleaving partition of BaseMACIE (asdetector/detector/macie/io.py): the
    multiplexed buffer read from the MACIE holds, block after block of r = science_read_block_size
    words, one block of each of the n ASICs in turn. Camera i's frame is made of its blocks in
    order, so its j-th word sits at Position(i, j). */
module Deinterleave {
  import opened Wrappers
  import opened Arith
  import Deinterlace

  /** Where word j of camera i lies in the buffer: block i + (j div r)·n, offset j mod r. */
  function Position(i: nat, j: nat, n: nat, r: nat): nat
    requires r > 0
  {
    (i + (j / r) * n) * r + j % r
  }

  /** The camera that buffer word k belongs to. */
  function CameraOf(k: nat, n: nat, r: nat): nat
    requires n > 0 && r > 0
  {
    (k / r) % n
  }

  /** The place of buffer word k within its camera's frame. */
  function OffsetOf(k: nat, n: nat, r: nat): nat
    requires n > 0 && r > 0
  {
    ((k / r) / n) * r + k % r
  }

  /** `gen_asic_data_frame_deinterleaving_array` without the DEINTERLACE step: one index array
      of length frame_size per ASIC. The block count `int(frame_size / r)` divides by zero when
      r = 0, and reshaping the index range into blocks of r fails unless r divides frame_size
      (with no ASICs the range is empty and always reshapes). */
  function DeinterleavingArray(n: nat, frameSize: nat, r: nat): (res: Result<seq<seq<nat>>>)
    ensures res.Err? <==> r == 0 || (n > 0 && frameSize % r != 0)
    ensures r == 0 ==> res == Err(ZeroDivisionError)
    ensures res.Ok? ==> |res.value| == n && forall i :: 0 <= i < n ==> |res.value[i]| == frameSize
  {
    if r == 0 then Err(ZeroDivisionError)
    else if n > 0 && frameSize % r != 0 then Err(ValueError)
    else Ok(seq(n, i requires 0 <= i < n => seq(frameSize, j requires 0 <= j < frameSize => Position(i, j, n, r))))
  }

  /** Position decodes back to its camera and offset. */
  lemma CameraOfPosition(i: nat, j: nat, n: nat, r: nat)
    requires i < n && r > 0
    ensures CameraOf(Position(i, j, n, r), n, r) == i
    ensures OffsetOf(Position(i, j, n, r), n, r) == j
  {
    var b, o := j / r, j % r;
    var q := i + b * n;
    DivModUnique(Position(i, j, n, r), r, q, o);
    DivModUnique(q, n, b, i);
    assert j == b * r + o;
  }

  /** Every buffer word is the Position of its camera and offset. */
  lemma PositionOfCamera(k: nat, n: nat, r: nat)
    requires n > 0 && r > 0
    ensures Position(CameraOf(k, n, r), OffsetOf(k, n, r), n, r) == k
  {
    var q, o := k / r, k % r;
    var i, b := q % n, q / n;
    var j := OffsetOf(k, n, r);
    assert j == b * r + o;
    DivModUnique(j, r, b, o);
    assert q == i + b * n;
    assert k == q * r + o;
  }

  /** Words of a camera's frame lie inside the buffer of n frames. */
  lemma PositionInBuffer(i: nat, j: nat, n: nat, frameSize: nat, r: nat)
    requires r > 0 && frameSize % r == 0 && i < n && j < frameSize
    ensures Position(i, j, n, r) < n * frameSize
  {
    var bs := frameSize / r;
    ExactDiv(frameSize, r);
    var b := j / r;
    QuotientBound(j, r, bs);
    LayoutBound(i, n, b, bs);
    MulLess(i + b * n, n * bs, r);
    assert (n * bs) * r == n * frameSize;
  }

  /** Every word of the buffer of n frames belongs to a camera below n at an offset inside the frame. */
  lemma CameraInRange(k: nat, n: nat, frameSize: nat, r: nat)
    requires n > 0 && r > 0 && frameSize % r == 0 && k < n * frameSize
    ensures CameraOf(k, n, r) < n && OffsetOf(k, n, r) < frameSize
  {
    var bs := frameSize / r;
    ExactDiv(frameSize, r);
    assert k < (n * bs) * r;
    QuotientBound(k, r, n * bs);
    var q := k / r;
    assert q < bs * n;
    QuotientBound(q, n, bs);
    BlockBound(q / n, bs, r);
  }

  /** The index arrays partition the buffer: every entry lies in [0, n·frame_size), two entries
      coincide only at the same camera and offset, and every word of the buffer is some
      camera's entry. */
  lemma Partition(n: nat, frameSize: nat, r: nat)
    requires DeinterleavingArray(n, frameSize, r).Ok?
    ensures var a := DeinterleavingArray(n, frameSize, r).value;
      forall i, j :: 0 <= i < n && 0 <= j < frameSize ==> a[i][j] < n * frameSize
    ensures var a := DeinterleavingArray(n, frameSize, r).value;
      forall i, j, i', j' :: (0 <= i < n && 0 <= j < frameSize && 0 <= i' < n && 0 <= j' < frameSize &&
        a[i][j] == a[i'][j']) ==> i == i' && j == j'
    ensures var a := DeinterleavingArray(n, frameSize, r).value;
      forall k :: 0 <= k < n * frameSize ==>
        CameraOf(k, n, r) < n && OffsetOf(k, n, r) < frameSize && a[CameraOf(k, n, r)][OffsetOf(k, n, r)] == k
  {
    var a := DeinterleavingArray(n, frameSize, r).value;
    forall i, j | 0 <= i < n && 0 <= j < frameSize
      ensures a[i][j] < n * frameSize
    {
      PositionInBuffer(i, j, n, frameSize, r);
    }
    forall i, j, i', j' | 0 <= i < n && 0 <= j < frameSize && 0 <= i' < n && 0 <= j' < frameSize &&
        a[i][j] == a[i'][j']
      ensures i == i' && j == j'
    {
      CameraOfPosition(i, j, n, r);
      CameraOfPosition(i', j', n, r);
    }
    forall k | 0 <= k < n * frameSize
      ensures CameraOf(k, n, r) < n && OffsetOf(k, n, r) < frameSize && a[CameraOf(k, n, r)][OffsetOf(k, n, r)] == k
    {
      CameraInRange(k, n, frameSize, r);
      PositionOfCamera(k, n, r);
    }
  }

  /** `arr.reshape(frame_y, frame_x)`: row y is the words y·frame_x .. y·frame_x + frame_x − 1. */
  function Reshape<T>(arr: seq<T>, fy: nat, fx: nat): (img: seq<seq<T>>)
    requires |arr| == fx * fy
    ensures |img| == fy
    ensures forall y :: 0 <= y < fy ==> y * fx + fx <= |arr| && img[y] == arr[y * fx .. y * fx + fx]
  {
    RowsFit(fy, fx);
    seq(fy, y requires 0 <= y < fy => arr[y * fx .. y * fx + fx])
  }

  lemma RowsFit(fy: nat, fx: nat)
    ensures forall y: nat :: y < fy ==> y * fx + fx <= fx * fy
  {
    forall y: nat | y < fy
      ensures y * fx + fx <= fx * fy
    {
      BlockBound(y, fy, fx);
    }
  }

  /** Pixel (y, x) of the reshaped image is word y·frame_x + x, and every word is some pixel. */
  lemma ReshapePixel<T>(arr: seq<T>, fy: nat, fx: nat, k: nat)
    requires |arr| == fx * fy && k < |arr|
    ensures var img := Reshape(arr, fy, fx); var y, x := k / fx, k % fx;
      y < fy && x < fx && img[y][x] == arr[k]
  {
    var y, x := k / fx, k % fx;
    QuotientBound(k, fx, fy);
    BlockBound(y, fy, fx);
    assert k == y * fx + x;
  }

  /** `np.reshape(frame_size)` of an image: its rows one after another. */
  function Flatten<T>(img: seq<seq<T>>): (arr: seq<T>)
    ensures |img| == 0 ==> arr == []
  {
    if |img| == 0 then [] else Flatten(img[..|img| - 1]) + img[|img| - 1]
  }

  lemma {:induction false} FlattenMembers<T>(img: seq<seq<T>>, x: T)
    ensures x in Flatten(img) <==> exists y :: 0 <= y < |img| && x in img[y]
  {
    if |img| > 0 {
      var last := img[|img| - 1];
      FlattenMembers(img[..|img| - 1], x);
      assert Flatten(img) == Flatten(img[..|img| - 1]) + last;
      if x in Flatten(img[..|img| - 1]) {
        var y :| 0 <= y < |img| - 1 && x in img[..|img| - 1][y];
        assert x in img[y];
      }
      if exists y :: 0 <= y < |img| && x in img[y] {
        var y :| 0 <= y < |img| && x in img[y];
        if y < |img| - 1 {
          assert x in img[..|img| - 1][y];
        }
      }
    }
  }

  /** Every row of an image deinterlaced. */
  function DeinterlacedRows(img: seq<seq<int>>, nch: nat, nheaders: nat, fx: nat): (out: seq<seq<int>>)
    requires forall y :: 0 <= y < |img| ==> |img[y]| == fx
    requires Deinterlace.Check(Deinterlace.DataWidth(fx, nheaders), nch).None?
    ensures |out| == |img|
  {
    seq(|img|, y requires 0 <= y < |img| => Deinterlace.DeinterlaceRow(img[y], nheaders, nch))
  }

  /** The DEINTERLACE step of `gen_asic_data_frame_deinterleaving_array`: each camera's index
      array is viewed as a frame_y × frame_x image, deinterlaced row by row, and flattened back. */
  function DeinterlacedArray(arr: seq<int>, fy: nat, fx: nat, nch: nat, nheaders: nat): (res: Result<seq<int>>)
    requires |arr| == fx * fy
    ensures res.Err? <==> Deinterlace.Check(Deinterlace.DataWidth(fx, nheaders), nch).Some?
  {
    match Deinterlace.Check(Deinterlace.DataWidth(fx, nheaders), nch)
    case Some(e) => Err(e)
    case None => Ok(Flatten(DeinterlacedRows(Reshape(arr, fy, fx), nch, nheaders, fx)))
  }

  /** Deinterlacing keeps each camera's entries inside its own index array when every channel
      gets at least one column, so the partition survives it. */
  lemma DeinterlacedArrayEntries(arr: seq<int>, fy: nat, fx: nat, nch: nat, nheaders: nat)
    requires |arr| == fx * fy
    requires Deinterlace.Check(Deinterlace.DataWidth(fx, nheaders), nch).None?
    requires Deinterlace.DataWidth(fx, nheaders) / nch >= 1
    ensures DeinterlacedArray(arr, fy, fx, nch, nheaders).Ok?
    ensures forall v :: v in DeinterlacedArray(arr, fy, fx, nch, nheaders).value <==> v in arr
  {
    var img := Reshape(arr, fy, fx);
    var rows := DeinterlacedRows(img, nch, nheaders, fx);
    forall v
      ensures v in Flatten(rows) <==> v in arr
    {
      RowsValues(img, nch, nheaders, fx, v);
      ReshapeMembers(arr, fy, fx, v);
    }
  }

  lemma RowsValues(img: seq<seq<int>>, nch: nat, nheaders: nat, fx: nat, v: int)
    requires forall y :: 0 <= y < |img| ==> |img[y]| == fx
    requires Deinterlace.Check(Deinterlace.DataWidth(fx, nheaders), nch).None?
    requires Deinterlace.DataWidth(fx, nheaders) / nch >= 1
    ensures v in Flatten(DeinterlacedRows(img, nch, nheaders, fx)) <==> exists y :: 0 <= y < |img| && v in img[y]
  {
    var rows := DeinterlacedRows(img, nch, nheaders, fx);
    FlattenMembers(rows, v);
    forall y | 0 <= y < |img|
      ensures v in rows[y] <==> v in img[y]
    {
      Deinterlace.DeinterlaceRowValues(img[y], nheaders, nch);
    }
  }

  /** The reshaped image holds exactly the words of the array. */
  lemma ReshapeMembers<T>(arr: seq<T>, fy: nat, fx: nat, v: T)
    requires |arr| == fx * fy
    ensures var img := Reshape(arr, fy, fx);
      v in arr <==> exists y :: 0 <= y < fy && v in img[y]
  {
    var img := Reshape(arr, fy, fx);
    if v in arr {
      var k :| 0 <= k < |arr| && arr[k] == v;
      ReshapePixel(arr, fy, fx, k);
      assert v in img[k / fx];
    }
    if exists y :: 0 <= y < fy && v in img[y] {
      var y :| 0 <= y < fy && v in img[y];
      assert v in arr[y * fx .. y * fx + fx];
    }
  }

  /** `all_data_array[indices]` for one camera: numpy raises IndexError on an index past the
      end of the buffer. */
  function Gather(data: seq<int>, indices: seq<int>): (res: Result<seq<int>>)
    ensures res.Ok? <==> forall j :: 0 <= j < |indices| ==> -|data| <= indices[j] < |data|
    ensures res.Ok? ==> |res.value| == |indices|
    ensures res.Ok? ==> forall j :: 0 <= j < |indices| && 0 <= indices[j] ==> res.value[j] == data[indices[j]]
  {
    if forall j :: 0 <= j < |indices| ==> -|data| <= indices[j] < |data| then
      Ok(seq(|indices|, j requires 0 <= j < |indices| =>
        if indices[j] >= 0 then data[indices[j]] else data[|data| + indices[j]]))
    else Err(IndexError)
  }

  /** `deinterleave`: one frame_y × frame_x image per camera, taken from the buffer through
      that camera's index array; the first camera whose gather or reshape fails decides the
      error. */
  function DeinterleaveFrames(data: seq<int>, arrays: seq<seq<int>>, fy: nat, fx: nat): (res: Result<seq<seq<seq<int>>>>)
    ensures res.Ok? ==> |res.value| == |arrays|
    ensures res.Ok? ==> forall i :: 0 <= i < |arrays| ==>
      |arrays[i]| == fx * fy && Gather(data, arrays[i]).Ok? &&
      res.value[i] == Reshape(Gather(data, arrays[i]).value, fy, fx)
  {
    if |arrays| == 0 then Ok([])
    else
      var init :- DeinterleaveFrames(data, arrays[..|arrays| - 1], fy, fx);
      var flat :- Gather(data, arrays[|arrays| - 1]);
      if |flat| != fx * fy then Err(ValueError)
      else Ok(init + [Reshape(flat, fy, fx)])
  }
}

=== FILE: exposure.dfy ===
/** Frame counts for an exposure time and exposure times for a frame count, per readout
    mode (asdetector/utils/image.py). Times are exact reals; Python's `round` is
    round-half-to-even. */
module ExposureTiming {
  import opened Wrappers

  /** The keys of the reduction tables, in table order. */
  datatype Mode = CDS | SSR | MEAN | MEDIAN | MODE | MIN | MAX | FOWLER2 | FOWLER4 | FOWLER8 | FOWLER16
  {
    predicate IsFowler() {
      FOWLER2? || FOWLER4? || FOWLER8? || FOWLER16?
    }

    /** The number of reads averaged at each end of a Fowler ramp. */
    function FowlerNumber(): (k: nat)
      requires IsFowler()
      ensures k in {2, 4, 8, 16}
    {
      match this
      case FOWLER2 => 2
      case FOWLER4 => 4
      case FOWLER8 => 8
      case FOWLER16 => 16
    }
  }

  const ModeNames: seq<string> :=
    ["CDS", "SSR", "MEAN", "MEDIAN", "MODE", "MIN", "MAX", "FOWLER2", "FOWLER4", "FOWLER8", "FOWLER16"]

  function ModeName(m: Mode): (s: string)
    ensures s in ModeNames
  {
    match m
    case CDS => "CDS"
    case SSR => "SSR"
    case MEAN => "MEAN"
    case MEDIAN => "MEDIAN"
    case MODE => "MODE"
    case MIN => "MIN"
    case MAX => "MAX"
    case FOWLER2 => "FOWLER2"
    case FOWLER4 => "FOWLER4"
    case FOWLER8 => "FOWLER8"
    case FOWLER16 => "FOWLER16"
  }

  /** Lookup of a mode string in the tables: only an exact key is found. */
  function ParseMode(s: string): (m: Option<Mode>)
    ensures m.Some? <==> s in ModeNames
    ensures m.Some? ==> ModeName(m.value) == s
  {
    if s == "CDS" then Some(CDS)
    else if s == "SSR" then Some(SSR)
    else if s == "MEAN" then Some(MEAN)
    else if s == "MEDIAN" then Some(MEDIAN)
    else if s == "MODE" then Some(MODE)
    else if s == "MIN" then Some(MIN)
    else if s == "MAX" then Some(MAX)
    else if s == "FOWLER2" then Some(FOWLER2)
    else if s == "FOWLER4" then Some(FOWLER4)
    else if s == "FOWLER8" then Some(FOWLER8)
    else if s == "FOWLER16" then Some(FOWLER16)
    else None
  }

  lemma ParseModeName(m: Mode)
    ensures ParseMode(ModeName(m)) == Some(m)
  {
  }

  // ---------------------------------------------------------------- rounding

  /** Python's `round(x)`: the nearest integer, ties to the even one. */
  function Round(x: real): (r: int)
    ensures x - 0.5 <= r as real <= x + 0.5
    ensures (r as real - x == 0.5 || x - r as real == 0.5) ==> r % 2 == 0
  {
    var f := x.Floor;
    var d := x - f as real;
    if d < 0.5 then f
    else if d > 0.5 then f + 1
    else if f % 2 == 0 then f
    else f + 1
  }

  lemma RoundInteger(n: int)
    ensures Round(n as real) == n
  {
  }

  // ---------------------------------------------------------------- frames per exposure time

  /** `ssr_calc_frames`: `int(round(t / tpf))`; a zero frame time is a ZeroDivisionError. */
  function SsrFrames(t: real, tpf: real): (r: Result<int>)
    ensures r.Err? <==> tpf == 0.0
    ensures r.Err? ==> r.error == ZeroDivisionError
    ensures r.Ok? ==> t / tpf - 0.5 <= r.value as real <= t / tpf + 0.5
  {
    if tpf == 0.0 then Err(ZeroDivisionError) else Ok(Round(t / tpf))
  }

  /** `fowler_calc_frames`: below the minimum exposure k·tpf the ramp is just 2k reads
      (checked before dividing); otherwise the SSR count of the remaining time plus 2k. */
  function FowlerFrames(t: real, tpf: real, k: nat): (r: Result<int>)
    ensures r.Err? <==> tpf == 0.0 && t >= 0.0
    ensures r.Ok? && t - tpf * k as real < 0.0 ==> r.value == 2 * k
  {
    var remaining := t - tpf * k as real;
    if remaining < 0.0 then Ok(2 * k)
    else
      var n :- SsrFrames(remaining, tpf);
      Ok(n + 2 * k)
  }

  /** `FRAMES_PER_EXPOSURE_TIME[mode](t, tpf)`. */
  function CalcFrames(m: Mode, t: real, tpf: real): (r: Result<int>)
    ensures r.Err? <==> tpf == 0.0 && (!m.IsFowler() || t >= 0.0)
    ensures r.Err? ==> r.error == ZeroDivisionError
  {
    match m
    case CDS =>
      var n :- SsrFrames(t, tpf);
      Ok(n + 1)
    case SSR => SsrFrames(t, tpf)
    case MEAN => MeanFrames(t, tpf)
    case MEDIAN => MeanFrames(t, tpf)
    case MODE => MeanFrames(t, tpf)
    case MIN => SsrFrames(t, tpf)
    case MAX => SsrFrames(t, tpf)
    case FOWLER2 => FowlerFrames(t, tpf, 2)
    case FOWLER4 => FowlerFrames(t, tpf, 4)
    case FOWLER8 => FowlerFrames(t, tpf, 8)
    case FOWLER16 => FowlerFrames(t, tpf, 16)
  }

  /** `mean_calc_frames`: twice the SSR count. */
  function MeanFrames(t: real, tpf: real): (r: Result<int>)
    ensures r.Err? <==> tpf == 0.0
  {
    var n :- SsrFrames(t, tpf);
    Ok(n * 2)
  }

  /** How the table's counts relate: CDS is one more than SSR, MEAN/MEDIAN/MODE twice SSR,
      MIN and MAX use the SSR count. */
  lemma FramesRelateToSsr(t: real, tpf: real)
    requires tpf != 0.0
    ensures CalcFrames(CDS, t, tpf).value == CalcFrames(SSR, t, tpf).value + 1
    ensures CalcFrames(MEAN, t, tpf).value == 2 * CalcFrames(SSR, t, tpf).value
    ensures CalcFrames(MEDIAN, t, tpf) == CalcFrames(MEAN, t, tpf)
    ensures CalcFrames(MODE, t, tpf) == CalcFrames(MEAN, t, tpf)
    ensures CalcFrames(MIN, t, tpf) == CalcFrames(SSR, t, tpf)
    ensures CalcFrames(MAX, t, tpf) == CalcFrames(SSR, t, tpf)
  {
  }

  /** A Fowler ramp always has at least its 2k end reads. */
  lemma FowlerFramesAtLeastTwiceK(m: Mode, t: real, tpf: real)
    requires m.IsFowler() && tpf > 0.0
    ensures CalcFrames(m, t, tpf).Ok?
    ensures CalcFrames(m, t, tpf).value >= 2 * m.FowlerNumber()
  {
    var k := m.FowlerNumber();
    var remaining := t - tpf * k as real;
    if remaining >= 0.0 {
      DivNonNegative(remaining, tpf);
    }
  }

  lemma DivNonNegative(x: real, y: real)
    requires x >= 0.0 && y > 0.0
    ensures x / y >= 0.0
  {
  }

  /** For a non-negative exposure and a positive frame time no count is negative and CDS
      has at least one read. */
  lemma FramesNonNegative(m: Mode, t: real, tpf: real)
    requires t >= 0.0 && tpf > 0.0
    ensures CalcFrames(m, t, tpf).Ok?
    ensures CalcFrames(m, t, tpf).value >= 0
    ensures m == CDS ==> CalcFrames(m, t, tpf).value >= 1
  {
    DivNonNegative(t, tpf);
    if m.IsFowler() {
      FowlerFramesAtLeastTwiceK(m, t, tpf);
    }
  }

  // ---------------------------------------------------------------- exposure time per frames

  /** `fowler_calc_exposure`: k·tpf + (frames − 2k)·tpf. */
  function FowlerExposure(frames: int, tpf: real, k: nat): (e: real)
    ensures e == (frames - k) as real * tpf
  {
    k as real * tpf + (frames - 2 * k) as real * tpf
  }

  /** `EXPOSURE_TIME_PER_FRAMES[mode](frames, tpf)` as written: the FOWLER8 and FOWLER16
      entries pass a Fowler number of 4. */
  function CalcExposure(m: Mode, frames: int, tpf: real): real
  {
    match m
    case CDS => (frames - 1) as real * tpf
    case SSR => frames as real * tpf
    case MEAN => frames as real * tpf / 2.0
    case MEDIAN => frames as real * tpf / 2.0
    case MODE => frames as real * tpf / 2.0
    case MIN => frames as real * tpf
    case MAX => frames as real * tpf
    case FOWLER2 => FowlerExposure(frames, tpf, 2)
    case FOWLER4 => FowlerExposure(frames, tpf, 4)
    case FOWLER8 => FowlerExposure(frames, tpf, 4)
    case FOWLER16 => FowlerExposure(frames, tpf, 4)
  }

  /** The exposure table with each Fowler entry using its own Fowler number. */
  function IntendedExposure(m: Mode, frames: int, tpf: real): (e: real)
    ensures !m.IsFowler() || m.FowlerNumber() <= 4 ==> e == CalcExposure(m, frames, tpf)
    ensures m.IsFowler() ==> e == (frames - m.FowlerNumber()) as real * tpf
  {
    if m.IsFowler() then FowlerExposure(frames, tpf, m.FowlerNumber()) else CalcExposure(m, frames, tpf)
  }

  /** If `n` is within 1/2 of `t / tpf`, then `n·tpf` is within tpf/2 of `t`. */
  lemma ScaleRounding(t: real, tpf: real, n: int)
    requires tpf > 0.0
    requires t / tpf - 0.5 <= n as real <= t / tpf + 0.5
    ensures t - tpf / 2.0 <= n as real * tpf <= t + tpf / 2.0
  {
    var d := n as real - t / tpf;
    assert n as real * tpf == t + d * tpf by {
      assert (t / tpf) * tpf == t;
      assert n as real * tpf == (t / tpf + d) * tpf;
    }
    MulNonNegative(0.5 - d, tpf);
    MulNonNegative(d + 0.5, tpf);
  }

  lemma MulNonNegative(a: real, b: real)
    requires a >= 0.0 && b >= 0.0
    ensures a * b >= 0.0
  {
  }

  /** The SSR count times the frame time is within half a frame of the requested time. */
  lemma SsrRoundTrip(t: real, tpf: real)
    requires tpf > 0.0
    ensures SsrFrames(t, tpf).Ok?
    ensures t - tpf / 2.0 <= SsrFrames(t, tpf).value as real * tpf <= t + tpf / 2.0
  {
    ScaleRounding(t, tpf, SsrFrames(t, tpf).value);
  }

  /** Round trip: for CDS, SSR, MEAN, MEDIAN, MODE, MIN and MAX, and for FOWLER2/FOWLER4
      once the exposure reaches the Fowler minimum k·tpf, the exposure recomputed from the
      frame count is within half a frame time of the requested exposure. */
  lemma ExposureRoundTrip(m: Mode, t: real, tpf: real)
    requires tpf > 0.0
    requires m.IsFowler() ==> m.FowlerNumber() <= 4 && t >= m.FowlerNumber() as real * tpf
    ensures CalcFrames(m, t, tpf).Ok?
    ensures t - tpf / 2.0 <= CalcExposure(m, CalcFrames(m, t, tpf).value, tpf) <= t + tpf / 2.0
  {
    if m.IsFowler() {
      FowlerRoundTrip(m, t, tpf);
    } else {
      SsrRoundTrip(t, tpf);
    }
  }

  /** With the Fowler number k actually used for the frame count, the Fowler exposure
      recomputed from the count is within half a frame time of t whenever t >= k·tpf. */
  lemma FowlerRoundTrip(m: Mode, t: real, tpf: real)
    requires tpf > 0.0 && m.IsFowler()
    requires t >= m.FowlerNumber() as real * tpf
    ensures CalcFrames(m, t, tpf).Ok?
    ensures t - tpf / 2.0 <= IntendedExposure(m, CalcFrames(m, t, tpf).value, tpf) <= t + tpf / 2.0
  {
    var k := m.FowlerNumber();
    assert CalcFrames(m, t, tpf) == FowlerFrames(t, tpf, k);
    FowlerFramesRoundTrip(t, tpf, k);
  }

  lemma FowlerFramesRoundTrip(t: real, tpf: real, k: nat)
    requires tpf > 0.0 && t >= k as real * tpf
    ensures FowlerFrames(t, tpf, k).Ok?
    ensures t - tpf / 2.0 <= FowlerExposure(FowlerFrames(t, tpf, k).value, tpf, k) <= t + tpf / 2.0
  {
    var remaining := t - tpf * k as real;
    SsrRoundTrip(remaining, tpf);
    var n := SsrFrames(remaining, tpf).value;
    assert FowlerFrames(t, tpf, k).value == n + 2 * k;
    assert FowlerExposure(n + 2 * k, tpf, k) == (n + k) as real * tpf;
    assert (n + k) as real * tpf == n as real * tpf + k as real * tpf;
  }

  /** Below the Fowler minimum the count is 2k and the exposure is the minimum k·tpf. */
  lemma FowlerMinimumExposure(m: Mode, t: real, tpf: real)
    requires m.IsFowler() && t < m.FowlerNumber() as real * tpf
    ensures CalcFrames(m, t, tpf) == Ok(2 * m.FowlerNumber())
    ensures IntendedExposure(m, 2 * m.FowlerNumber(), tpf) == m.FowlerNumber() as real * tpf
  {
  }

  /** As written, FOWLER8 and FOWLER16 report an exposure (k − 4)·tpf longer than the round
      trip gives: within half a frame of t + 4·tpf for FOWLER8 and of t + 12·tpf for FOWLER16. */
  lemma WideFowlerExposureOvershoot(m: Mode, t: real, tpf: real)
    requires tpf > 0.0 && (m == FOWLER8 || m == FOWLER16)
    requires t >= m.FowlerNumber() as real * tpf
    ensures CalcFrames(m, t, tpf).Ok?
    ensures var over := (m.FowlerNumber() - 4) as real * tpf;
      var e := CalcExposure(m, CalcFrames(m, t, tpf).value, tpf);
      t + over - tpf / 2.0 <= e <= t + over + tpf / 2.0
  {
    FowlerRoundTrip(m, t, tpf);
    var f := CalcFrames(m, t, tpf).value;
    var k := m.FowlerNumber();
    var intended, over := (f - k) as real * tpf, (k - 4) as real * tpf;
    assert IntendedExposure(m, f, tpf) == intended;
    assert CalcExposure(m, f, tpf) == FowlerExposure(f, tpf, 4);
    ShiftedProduct(f - k, k - 4, tpf);
    assert CalcExposure(m, f, tpf) == intended + over;
  }

  /** Real multiplication distributes over an integer sum. */
  lemma ShiftedProduct(a: int, b: int, x: real)
    ensures (a + b) as real * x == a as real * x + b as real * x
  {
  }

  /** A concrete case: an 8-frame-time FOWLER8 exposure takes 16 reads, which the exposure
      table turns back into 12 frame times. */
  lemma Fowler8ExposureExample()
    ensures CalcFrames(FOWLER8, 8.0, 1.0) == Ok(16)
    ensures CalcExposure(FOWLER8, 16, 1.0) == 12.0
    ensures IntendedExposure(FOWLER8, 16, 1.0) == 8.0
  {
    RoundInteger(0);
    assert (8.0 - 1.0 * 8 as real) / 1.0 == 0 as real;
  }
}

=== FILE: files.dfy ===
/** Settings and output names of asdetector/utils/files.py. The settings file's content, the
    directory listing and the clock are parameters; reading and writing files is not modelled.
    A settings table is an insertion-ordered dict from key to JSON value. */
module Files {
  import opened Wrappers
  import opened Text
  import opened Json
  import opened Ordered

  type Settings = seq<(string, Json)>

  // ---------------------------------------------------------------- load_settings

  /** Each stored entry under its upper-cased key. */
  function UpperKeys(d: Settings): (u: Settings)
    ensures |u| == |d|
    ensures forall i :: 0 <= i < |d| ==> u[i] == (Upper(d[i].0), d[i].1)
  {
    seq(|d|, i requires 0 <= i < |d| => (Upper(d[i].0), d[i].1))
  }

  /** `settings_dict` of load_settings: the stored table, then every stored value assigned again
      under its upper-cased key. */
  function Merged(input: Settings): Settings
  {
    SetAll(input, UpperKeys(input))
  }

  /** `(k, settings_dict.get(k, v))` for each default `(k, v)`. */
  function Resolved(merged: Settings, defaults: Settings): (r: Settings)
    ensures |r| == |defaults| && Keys(r) == Keys(defaults)
    ensures forall i :: 0 <= i < |defaults| ==> r[i] == (defaults[i].0, GetOr(merged, defaults[i].0, defaults[i].1))
  {
    seq(|defaults|, i requires 0 <= i < |defaults| => (defaults[i].0, GetOr(merged, defaults[i].0, defaults[i].1)))
  }

  /** The stored table, or the empty one when the settings file is missing. */
  function Input(stored: Option<Settings>): Settings
  {
    if stored.Some? then stored.value else []
  }

  /** What `load_settings` returns for the stored table (None: no settings file) and the defaults. */
  function LoadedSettings(stored: Option<Settings>, defaults: Settings): Settings
  {
    var input := Input(stored);
    SetAll(input, Resolved(Merged(input), defaults))
  }

  /** `load_settings`. */
  method LoadSettings(stored: Option<Settings>, defaults: Settings) returns (settings: Settings)
    ensures settings == LoadedSettings(stored, defaults)
  {
    var input := if stored.Some? then stored.value else [];
    var merged := input;
    for i := 0 to |input|
      invariant merged == SetAll(input, UpperKeys(input)[..i])
    {
      assert UpperKeys(input)[..i + 1][..i] == UpperKeys(input)[..i];
      merged := Set(merged, Upper(input[i].0), input[i].1);
    }
    assert UpperKeys(input)[..|input|] == UpperKeys(input);
    settings := input;
    for i := 0 to |defaults|
      invariant settings == SetAll(input, Resolved(merged, defaults)[..i])
    {
      assert Resolved(merged, defaults)[..i + 1][..i] == Resolved(merged, defaults)[..i];
      settings := Set(settings, defaults[i].0, GetOr(merged, defaults[i].0, defaults[i].1));
    }
    assert Resolved(merged, defaults)[..|defaults|] == Resolved(merged, defaults);
  }

  /** Position of the last stored entry whose key upper-cases to k, or −1. */
  function LastUpper(input: Settings, k: string): (i: int)
    ensures -1 <= i < |input|
    ensures i >= 0 ==> Upper(input[i].0) == k && forall j :: i < j < |input| ==> Upper(input[j].0) != k
    ensures i < 0 ==> forall j :: 0 <= j < |input| ==> Upper(input[j].0) != k
  {
    var i := LastIndex(UpperKeys(input), k);
    assert forall j :: 0 <= j < |input| ==> Keys(UpperKeys(input))[j] == Upper(input[j].0);
    i
  }

  /** Every default key is in the loaded settings, after the stored keys, which keep their order. */
  lemma DefaultsPresent(stored: Option<Settings>, defaults: Settings)
    ensures Keys(Input(stored)) <= Keys(LoadedSettings(stored, defaults))
    ensures forall k :: k in Keys(LoadedSettings(stored, defaults)) <==> k in Keys(Input(stored)) || k in Keys(defaults)
  {
    var input := Input(stored);
    SetAllKeys(input, Resolved(Merged(input), defaults));
  }

  /** The value a default key loads: the last stored value whose key upper-cases to it, or the
      default when there is none. */
  lemma LoadedDefault(stored: Option<Settings>, defaults: Settings, i: nat)
    requires Valid(defaults) && i < |defaults|
    requires Upper(defaults[i].0) == defaults[i].0
    ensures var input := Input(stored); var j := LastUpper(input, defaults[i].0);
      Get(LoadedSettings(stored, defaults), defaults[i].0) == Some(if j >= 0 then input[j].1 else defaults[i].1)
  {
    var input := Input(stored);
    var k := defaults[i].0;
    var resolved := Resolved(Merged(input), defaults);
    GetSetAll(input, resolved, k);
    assert LastIndex(resolved, k) == i by {
      var li := LastIndex(resolved, k);
      assert Keys(resolved)[i] == k;
      assert li >= i;
      assert Keys(defaults)[li] == k;
    }
    GetSetAll(input, UpperKeys(input), k);
    assert LastIndex(UpperKeys(input), k) == LastUpper(input, k);
  }

  /** A stored key that is not a default key loads the value it was stored with. */
  lemma NonDefaultKept(stored: Option<Settings>, defaults: Settings, k: string)
    requires k !in Keys(defaults)
    ensures Get(LoadedSettings(stored, defaults), k) == Get(Input(stored), k)
  {
    var input := Input(stored);
    GetSetAll(input, Resolved(Merged(input), defaults), k);
  }

  /** With no settings file, the loaded settings are exactly the defaults. */
  lemma MissingFileGivesDefaults(defaults: Settings)
    requires Valid(defaults)
    ensures LoadedSettings(None, defaults) == defaults
  {
    assert Merged([]) == [];
    assert Resolved([], defaults) == defaults;
    SetAllFresh(defaults);
  }

  /** Loading keeps a well-formed stored table well formed. */
  lemma LoadedValid(stored: Option<Settings>, defaults: Settings)
    requires Valid(Input(stored))
    ensures Valid(LoadedSettings(stored, defaults))
  {
    var input := Input(stored);
    SetAllValid(input, Resolved(Merged(input), defaults));
  }

  // ---------------------------------------------------------------- update_setting

  /** The settings file after `update_setting(key, value)`. */
  function UpdatedSettings(stored: Option<Settings>, defaults: Settings, key: string, value: Json): Settings
  {
    Set(LoadedSettings(stored, defaults), Upper(key), value)
  }

  /** After `update_setting(key, value)` the key, upper-cased, loads the new value, provided no
      other loaded key upper-cases to the same text; every other key of the file keeps its
      value. */
  lemma UpdateSettingRoundTrip(stored: Option<Settings>, defaults: Settings, key: string, value: Json)
    requires Valid(Input(stored)) && Valid(defaults)
    requires forall q :: q in Keys(LoadedSettings(stored, defaults)) && Upper(q) == Upper(key) ==> q == Upper(key)
    ensures Get(LoadedSettings(Some(UpdatedSettings(stored, defaults, key, value)), defaults), Upper(key)) == Some(value)
    ensures forall q :: q != Upper(key) ==>
      Get(UpdatedSettings(stored, defaults, key, value), q) == Get(LoadedSettings(stored, defaults), q)
  {
    var loaded := LoadedSettings(stored, defaults);
    var k := Upper(key);
    var file := UpdatedSettings(stored, defaults, key, value);
    forall q | q != k
      ensures Get(file, q) == Get(loaded, q)
    {
      GetSet(loaded, k, value, q);
    }
    GetSet(loaded, k, value, k);
    LoadedValid(stored, defaults);
    SetValid(loaded, k, value);
    UpperIdempotent(key);
    if k in Keys(defaults) {
      var i :| 0 <= i < |defaults| && defaults[i].0 == k;
      LoadedDefault(Some(file), defaults, i);
      var j := LastUpper(file, k);
      assert Keys(file)[|file| - 1] == k || k in Keys(loaded);
      SetAllKeys(Input(stored), Resolved(Merged(Input(stored)), defaults));
      assert file[j].0 in Keys(file);
      assert file[j].0 == k;
      GetAt(file, j);
    } else {
      NonDefaultKept(Some(file), defaults, k);
    }
  }

  // ---------------------------------------------------------------- get_next_iteration

  /** `[int(i[1]) for i in [re.findall('\d+', f) for f in files] if i != []]`: IndexError when
      a name has a single digit group. */
  function Iterations(files: seq<string>): (r: Result<seq<nat>>)
    ensures r.Err? ==> r.error == IndexError
  {
    if |files| == 0 then Ok([])
    else
      var groups := DigitGroups(files[0]);
      var rest :- Iterations(files[1..]);
      if |groups| == 0 then Ok(rest)
      else if |groups| == 1 then Err(IndexError)
      else Ok([DigitsValue(groups[1])] + rest)
  }

  function MaxOf(s: seq<nat>): (m: nat)
    requires |s| > 0
    ensures m in s && forall i :: 0 <= i < |s| ==> s[i] <= m
  {
    if |s| == 1 then s[0]
    else var m := MaxOf(s[1..]); if s[0] >= m then s[0] else m
  }

  /** `get_next_iteration` on a directory listing. */
  function NextIteration(files: seq<string>): Result<nat>
  {
    var iterations :- Iterations(files);
    if |iterations| == 0 then Ok(0) else Ok(MaxOf(iterations) + 1)
  }

  /** The iteration number a name carries: its second group of digits. */
  predicate CarriesIteration(f: string, n: nat) {
    |DigitGroups(f)| >= 2 && DigitsValue(DigitGroups(f)[1]) == n
  }

  /** `get_next_iteration` fails exactly when some name has one digit group; otherwise it is 0
      when no name has digits and one more than the largest second digit group otherwise. */
  lemma {:induction false} NextIterationSpec(files: seq<string>)
    ensures NextIteration(files).Err? <==> exists i :: 0 <= i < |files| && |DigitGroups(files[i])| == 1
    ensures NextIteration(files).Err? ==> NextIteration(files).error == IndexError
    ensures (forall i :: 0 <= i < |files| ==> DigitGroups(files[i]) == []) ==> NextIteration(files) == Ok(0)
    ensures NextIteration(files).Ok? ==>
      (forall i :: 0 <= i < |files| && |DigitGroups(files[i])| >= 2 ==> DigitsValue(DigitGroups(files[i])[1]) < NextIteration(files).value) &&
      (NextIteration(files).value == 0 || exists i :: 0 <= i < |files| && CarriesIteration(files[i], NextIteration(files).value - 1))
  {
    IterationsSpec(files);
  }

  lemma {:induction false} IterationsSpec(files: seq<string>)
    ensures Iterations(files).Err? <==> exists i :: 0 <= i < |files| && |DigitGroups(files[i])| == 1
    ensures Iterations(files).Ok? ==>
      (|Iterations(files).value| == 0 <==> forall i :: 0 <= i < |files| ==> DigitGroups(files[i]) == []) &&
      (forall i :: 0 <= i < |files| && |DigitGroups(files[i])| >= 2 ==> DigitsValue(DigitGroups(files[i])[1]) in Iterations(files).value) &&
      (forall n :: n in Iterations(files).value ==> exists i :: 0 <= i < |files| && CarriesIteration(files[i], n))
    decreases |files|
  {
    if |files| > 0 {
      IterationsSpec(files[1..]);
      assert forall i :: 1 <= i < |files| ==> files[i] == files[1..][i - 1];
      if Iterations(files[1..]).Err? {
        var i :| 0 <= i < |files[1..]| && |DigitGroups(files[1..][i])| == 1;
        assert |DigitGroups(files[i + 1])| == 1;
      } else if Iterations(files).Ok? {
        var rest := Iterations(files[1..]).value;
        forall n | n in Iterations(files).value
          ensures exists i :: 0 <= i < |files| && CarriesIteration(files[i], n)
        {
          if n in rest {
            var i :| 0 <= i < |files[1..]| && CarriesIteration(files[1..][i], n);
            assert CarriesIteration(files[i + 1], n);
          } else {
            assert CarriesIteration(files[0], n);
          }
        }
        if |Iterations(files).value| == 0 {
          forall i | 0 <= i < |files|
            ensures DigitGroups(files[i]) == []
          {
            if i > 0 {
              assert files[i] == files[1..][i - 1];
            }
          }
        }
      }
    }
  }

  // ---------------------------------------------------------------- gen_file_name

  /** `'{}_'.format(prefix)`, or nothing when prefix is None. */
  function StampPrefix(prefix: Option<string>): string
  {
    if prefix.Some? then prefix.value + "_" else ""
  }

  /** The `'day'` stamp `'{prefix}{:04d}{:02d}{:02d}'` of a UTC date. */
  function DayStamp(prefix: Option<string>, year: nat, month: nat, day: nat): string
  {
    StampPrefix(prefix) + ZeroPadded(year, 4) + ZeroPadded(month, 2) + ZeroPadded(day, 2)
  }

  /** The file name `gen_file_name` returns beside the base directory: the day stamp, the local
      ISO time with ':' made '_' (the prefix is not used), or 'out'; then the suffix. */
  function GenFileName(prefix: Option<string>, stampType: string, suffix: string,
                       year: nat, month: nat, day: nat, isoNow: string): string
  {
    var name :=
      if stampType == "day" then DayStamp(prefix, year, month, day)
      else if stampType == "iso" then ReplaceChar(isoNow, ':', '_')
      else "out";
    name + suffix
  }

  function ReplaceChar(s: string, from: char, to: char): (r: string)
    ensures |r| == |s|
    ensures from != to ==> from !in r
    ensures forall i :: 0 <= i < |s| ==> r[i] == if s[i] == from then to else s[i]
  {
    seq(|s|, i requires 0 <= i < |s| => if s[i] == from then to else s[i])
  }

  /** Without a prefix a day stamp of a four-digit year is eight digits that read back as year,
      month and day; with a prefix it is the prefix, '_', then those digits. */
  lemma DayStampLayout(prefix: Option<string>, year: nat, month: nat, day: nat)
    requires year < 10000 && month < 100 && day < 100
    ensures var digits := DayStamp(None, year, month, day);
      |digits| == 8 && AllDigits(digits) &&
      DigitsValue(digits[..4]) == year && DigitsValue(digits[4..6]) == month && DigitsValue(digits[6..]) == day &&
      DayStamp(prefix, year, month, day) == StampPrefix(prefix) + digits
  {
    var y, m, d := ZeroPadded(year, 4), ZeroPadded(month, 2), ZeroPadded(day, 2);
    ZeroPaddedExact(year, 4);
    ZeroPaddedExact(month, 2);
    ZeroPaddedExact(day, 2);
    ZeroPaddedValue(year, 4);
    ZeroPaddedValue(month, 2);
    ZeroPaddedValue(day, 2);
    assert DayStamp(None, year, month, day) == y + m + d;
    ThreeParts(y, m, d);
  }

  lemma ThreeParts(a: string, b: string, c: string)
    ensures var s := a + b + c;
      s[..|a|] == a && s[|a|..|a| + |b|] == b && s[|a| + |b|..] == c
  {
  }

  // ---------------------------------------------------------------- gen_detector_file_name

  /** `{date}.{prefix}.{iteration:04d}.{cam}`, or `{iteration:04d}.{cam}` without a prefix. */
  function FilePrefix(date: string, prefix: Option<string>, iteration: nat, cam: string): string
  {
    (if prefix.Some? then date + "." + prefix.value + "." else "") + ZeroPadded(iteration, 4) + "." + cam
  }

  /** A raw (and res) frame: `{file prefix}.{frame:04d}.fits`. */
  function FrameFileName(date: string, prefix: Option<string>, iteration: nat, cam: string, frame: nat): string
  {
    FilePrefix(date, prefix, iteration, cam) + "." + ZeroPadded(frame, 4) + ".fits"
  }

  /** A reset frame: `reset.` then the frame's name. */
  function ResetFileName(date: string, prefix: Option<string>, iteration: nat, cam: string, frame: nat): string
  {
    "reset." + FrameFileName(date, prefix, iteration, cam, frame)
  }

  /** The reduced exposure: `{file prefix}.fits`. */
  function ReducedFileName(date: string, prefix: Option<string>, iteration: nat, cam: string): string
  {
    FilePrefix(date, prefix, iteration, cam) + ".fits"
  }

  /** The directories and the iteration `gen_detector_file_name` settles on. */
  datatype DetectorFiles = DetectorFiles(iteration: nat, reducedDir: string, rawDir: string, resDir: string)

  /** `gen_detector_file_name`: the output directories under the day stamp and the next iteration
      of the raw directory, whose listing is given. */
  function GenDetectorFiles(baseDir: string, date: string, rawListing: seq<string>): Result<DetectorFiles>
  {
    var output := PathJoin(baseDir, "output");
    var iteration :- NextIteration(rawListing);
    Ok(DetectorFiles(iteration,
      PathJoin(PathJoin(output, "reduced"), date),
      PathJoin(PathJoin(output, "raw"), date),
      PathJoin(PathJoin(output, "res"), date)))
  }

  /** A raw frame and a reset frame, both kept in the raw directory, never share a name: the
      first starts with a digit, the second with 'r'. */
  lemma RawAndResetNeverCollide(date: string, prefix: Option<string>, i: nat, cam: string, frame: nat,
                                i': nat, cam': string, frame': nat)
    requires AllDigits(date) && |date| > 0
    ensures FrameFileName(date, prefix, i, cam, frame) != ResetFileName(date, prefix, i', cam', frame')
  {
    var raw := FrameFileName(date, prefix, i, cam, frame);
    if prefix.Some? {
      assert raw[0] == date[0];
    } else {
      assert raw[0] == ZeroPadded(i, 4)[0];
    }
    assert ResetFileName(date, prefix, i', cam', frame')[0] == 'r';
  }

  /** When the day stamp is digits and the instrument name has none, every raw or reset frame
      name carries its iteration as its second digit group. */
  lemma FrameNameCarriesIteration(date: string, instrument: string, iteration: nat, cam: string, frame: nat)
    requires |date| > 0 && AllDigits(date) && NoDigits(instrument)
    ensures CarriesIteration(FrameFileName(date, Some(instrument), iteration, cam, frame), iteration)
    ensures CarriesIteration(ResetFileName(date, Some(instrument), iteration, cam, frame), iteration)
  {
    var name := FrameFileName(date, Some(instrument), iteration, cam, frame);
    RawNameGroups(date, instrument, iteration, cam, frame);
    assert ResetFileName(date, Some(instrument), iteration, cam, frame) == "reset." + name;
    DigitGroupsConcat("reset.", name);
    DigitGroupsNoDigits("reset.");
  }

  lemma RawNameGroups(date: string, instrument: string, iteration: nat, cam: string, frame: nat)
    requires |date| > 0 && AllDigits(date) && NoDigits(instrument)
    ensures CarriesIteration(FrameFileName(date, Some(instrument), iteration, cam, frame), iteration)
  {
    var pad := ZeroPadded(iteration, 4);
    var tail := "." + cam + "." + ZeroPadded(frame, 4) + ".fits";
    var mid := "." + instrument + ".";
    assert FrameFileName(date, Some(instrument), iteration, cam, frame) == date + mid + pad + tail;
    DotsAround(instrument);
    SecondDigitGroup(date, mid, pad, tail);
    ZeroPaddedValue(iteration, 4);
  }

  lemma DotsAround(s: string)
    requires NoDigits(s)
    ensures NoDigits("." + s + ".")
  {
    var t := "." + s + ".";
    assert forall i :: 1 <= i < |t| - 1 ==> t[i] == s[i - 1];
  }

  /** `get_next_iteration` on names that each carry an iteration (as every frame name of a
      digit-free instrument does) returns one more than the largest iteration used, and 0 for an
      empty directory. */
  lemma NextIterationOfFrames(files: seq<string>, used: seq<nat>)
    requires |used| == |files|
    requires forall i :: 0 <= i < |files| ==> CarriesIteration(files[i], used[i])
    ensures NextIteration(files) == if |files| == 0 then Ok(0) else Ok(MaxOf(used) + 1)
  {
    if |files| > 0 {
      NextIterationOfSome(files, used);
    }
  }

  lemma NextIterationOfSome(files: seq<string>, used: seq<nat>)
    requires |used| == |files| > 0
    requires forall i :: 0 <= i < |files| ==> CarriesIteration(files[i], used[i])
    ensures NextIteration(files) == Ok(MaxOf(used) + 1)
  {
    IterationsOfFramesOk(files, used);
    var n := NextIteration(files).value;
    IterationsOfFramesBound(files, used);
    MaxFromBounds(used, n);
  }

  lemma IterationsOfFramesOk(files: seq<string>, used: seq<nat>)
    requires |used| == |files|
    requires forall i :: 0 <= i < |files| ==> CarriesIteration(files[i], used[i])
    ensures NextIteration(files).Ok?
  {
    NextIterationSpec(files);
    assert forall i :: 0 <= i < |files| ==> |DigitGroups(files[i])| != 1;
  }

  lemma IterationsOfFramesBound(files: seq<string>, used: seq<nat>)
    requires |used| == |files| > 0 && NextIteration(files).Ok?
    requires forall i :: 0 <= i < |files| ==> CarriesIteration(files[i], used[i])
    ensures forall i :: 0 <= i < |used| ==> used[i] < NextIteration(files).value
    ensures exists j :: 0 <= j < |used| && used[j] == NextIteration(files).value - 1
  {
    var n := NextIteration(files).value;
    NextIterationSpec(files);
    assert used[0] < n;
    var j :| 0 <= j < |files| && CarriesIteration(files[j], n - 1);
    assert used[j] == n - 1;
  }

  /** A bound one above some element and above all of them is one more than the maximum. */
  lemma MaxFromBounds(s: seq<nat>, n: nat)
    requires |s| > 0
    requires forall i :: 0 <= i < |s| ==> s[i] < n
    requires exists j :: 0 <= j < |s| && s[j] == n - 1
    ensures n == MaxOf(s) + 1
  {
  }
}

=== FILE: header.dfy ===
/** The FITS header template of asdetector/detector/macie/header.py: an insertion-ordered table
    from keyword to entry (value, comment and one of the four header modes), built once from
    the settings; and the table that renames bias voltages to header keywords. A built-in keyword
    is its position in the template, so two different keywords are different values; `Name`
    gives the keyword text. */
module Header {
  import opened Wrappers
  import opened Ordered
  import opened Text

  /** Number of keywords the template defines besides the science words. */
  const FixedCount: nat := 78

  type FixedIndex = i: nat | i < FixedCount

  /** A built-in keyword, named by its position in the template's own order (the constants
      below); a science word SCIWRDn; or a keyword only a FITSHEADER setting introduces. */
  datatype HeaderKey = Fixed(ord: FixedIndex) | SCIWRD(index: nat) | Custom(name: string)

  /** The built-in keywords of the template, in insertion order. */
  const NFRAMES: HeaderKey := Fixed(0)
  const FRAME: HeaderKey := Fixed(1)
  const EXPTIME: HeaderKey := Fixed(2)
  const EXPTIMEC: HeaderKey := Fixed(3)
  const EXPTIMEE: HeaderKey := Fixed(4)
  const FRTIME: HeaderKey := Fixed(5)
  const TFRAME: HeaderKey := Fixed(6)
  const NRESETS: HeaderKey := Fixed(7)
  const ISRESET: HeaderKey := Fixed(8)
  const SIZAXIS1: HeaderKey := Fixed(9)
  const SIZAXIS2: HeaderKey := Fixed(10)
  const NCOLS: HeaderKey := Fixed(11)
  const NROWS: HeaderKey := Fixed(12)
  const REDXMODE: HeaderKey := Fixed(13)
  const REFOUT: HeaderKey := Fixed(14)
  const NOUTPUTS: HeaderKey := Fixed(15)
  const AMPMODE: HeaderKey := Fixed(16)
  const ASICINDX: HeaderKey := Fixed(17)
  const ASICADDR: HeaderKey := Fixed(18)
  const DETECTOR: HeaderKey := Fixed(19)
  const ASICSN: HeaderKey := Fixed(20)
  const FPAPOS: HeaderKey := Fixed(21)
  const MACIESN: HeaderKey := Fixed(22)
  const MACIEINT: HeaderKey := Fixed(23)
  const UTDATE: HeaderKey := Fixed(24)
  const UTSTART: HeaderKey := Fixed(25)
  const DATE: HeaderKey := Fixed(26)
  const DATE_BEG: HeaderKey := Fixed(27)
  const DATE_END: HeaderKey := Fixed(28)
  const MJD_BEG: HeaderKey := Fixed(29)
  const MJD_END: HeaderKey := Fixed(30)
  const JD_BEG: HeaderKey := Fixed(31)
  const JD_END: HeaderKey := Fixed(32)
  const EXPSTART: HeaderKey := Fixed(33)
  const EXPEND: HeaderKey := Fixed(34)
  const EXPMID: HeaderKey := Fixed(35)
  const TELAPSE: HeaderKey := Fixed(36)
  const TIMEUNIT: HeaderKey := Fixed(37)
  const DEINTERL: HeaderKey := Fixed(38)
  const ASDFNAME: HeaderKey := Fixed(39)
  const RSTSAVE: HeaderKey := Fixed(40)
  const RSTTYPE: HeaderKey := Fixed(41)
  const LODFIL0: HeaderKey := Fixed(42)
  const LODFIL1: HeaderKey := Fixed(43)
  const LODFIL2: HeaderKey := Fixed(44)
  const LODFIL3: HeaderKey := Fixed(45)
  const LODFIL4: HeaderKey := Fixed(46)
  const LODFIL5: HeaderKey := Fixed(47)
  const LODFIL6: HeaderKey := Fixed(48)
  const LODFIL7: HeaderKey := Fixed(49)
  const LODFIL8: HeaderKey := Fixed(50)
  const LODFIL9: HeaderKey := Fixed(51)
  const LODFIL10: HeaderKey := Fixed(52)
  const VRESET: HeaderKey := Fixed(53)
  const CELLDRAI: HeaderKey := Fixed(54)
  const VBIASGAT: HeaderKey := Fixed(55)
  const VBIASPOW: HeaderKey := Fixed(56)
  const SUB: HeaderKey := Fixed(57)
  const DSUB: HeaderKey := Fixed(58)
  const DRAIN: HeaderKey := Fixed(59)
  const VDDA: HeaderKey := Fixed(60)
  const VDD: HeaderKey := Fixed(61)
  const GND: HeaderKey := Fixed(62)
  const GNDA: HeaderKey := Fixed(63)
  const VREF: HeaderKey := Fixed(64)
  const CHIP: HeaderKey := Fixed(65)
  const NSCIHEAD: HeaderKey := Fixed(66)
  const RMVSCIHD: HeaderKey := Fixed(67)
  const ABLKLEN: HeaderKey := Fixed(68)
  const ABLKCNT: HeaderKey := Fixed(69)
  const AASICID: HeaderKey := Fixed(70)
  const AHDRLEN: HeaderKey := Fixed(71)
  const ASDPCNT: HeaderKey := Fixed(72)
  const AFF: HeaderKey := Fixed(73)
  const ARDFRM: HeaderKey := Fixed(74)
  const AEXPVIDL: HeaderKey := Fixed(75)
  const ASCIFRM: HeaderKey := Fixed(76)
  const ASCIXPID: HeaderKey := Fixed(77)

  /** The keyword as it appears in the FITS header. */
  function Name(k: HeaderKey): string
  {
    match k
    case Fixed(_) => FixedName(k)
    case SCIWRD(n) => "SCIWRD" + DecimalString(n)
    case Custom(name) => name
  }

  /** The text of each built-in keyword. */
  function FixedName(k: HeaderKey): string
    requires k.Fixed?
  {
    var i := k.ord;
    if i == 0 then "NFRAMES"
    else if i == 1 then "FRAME"
    else if i == 2 then "EXPTIME"
    else if i == 3 then "EXPTIMEC"
    else if i == 4 then "EXPTIMEE"
    else if i == 5 then "FRTIME"
    else if i == 6 then "TFRAME"
    else if i == 7 then "NRESETS"
    else if i == 8 then "ISRESET"
    else if i == 9 then "SIZAXIS1"
    else if i == 10 then "SIZAXIS2"
    else if i == 11 then "NCOLS"
    else if i == 12 then "NROWS"
    else if i == 13 then "REDXMODE"
    else if i == 14 then "REFOUT"
    else if i == 15 then "NOUTPUTS"
    else if i == 16 then "AMPMODE"
    else if i == 17 then "ASICINDX"
    else if i == 18 then "ASICADDR"
    else if i == 19 then "DETECTOR"
    else if i == 20 then "ASICSN"
    else if i == 21 then "FPAPOS"
    else if i == 22 then "MACIESN"
    else if i == 23 then "MACIEINT"
    else if i == 24 then "UTDATE"
    else if i == 25 then "UTSTART"
    else if i == 26 then "DATE"
    else if i == 27 then "DATE-BEG"
    else if i == 28 then "DATE-END"
    else if i == 29 then "MJD-BEG"
    else if i == 30 then "MJD-END"
    else if i == 31 then "JD-BEG"
    else if i == 32 then "JD-END"
    else if i == 33 then "EXPSTART"
    else if i == 34 then "EXPEND"
    else if i == 35 then "EXPMID"
    else if i == 36 then "TELAPSE"
    else if i == 37 then "TIMEUNIT"
    else if i == 38 then "DEINTERL"
    else if i == 39 then "ASDFNAME"
    else if i == 40 then "RSTSAVE"
    else if i == 41 then "RSTTYPE"
    else if i == 42 then "LODFIL0"
    else if i == 43 then "LODFIL1"
    else if i == 44 then "LODFIL2"
    else if i == 45 then "LODFIL3"
    else if i == 46 then "LODFIL4"
    else if i == 47 then "LODFIL5"
    else if i == 48 then "LODFIL6"
    else if i == 49 then "LODFIL7"
    else if i == 50 then "LODFIL8"
    else if i == 51 then "LODFIL9"
    else if i == 52 then "LODFIL10"
    else if i == 53 then "VRESET"
    else if i == 54 then "CELLDRAI"
    else if i == 55 then "VBIASGAT"
    else if i == 56 then "VBIASPOW"
    else if i == 57 then "SUB"
    else if i == 58 then "DSUB"
    else if i == 59 then "DRAIN"
    else if i == 60 then "VDDA"
    else if i == 61 then "VDD"
    else if i == 62 then "GND"
    else if i == 63 then "GNDA"
    else if i == 64 then "VREF"
    else if i == 65 then "CHIP"
    else if i == 66 then "NSCIHEAD"
    else if i == 67 then "RMVSCIHD"
    else if i == 68 then "ABLKLEN"
    else if i == 69 then "ABLKCNT"
    else if i == 70 then "AASICID"
    else if i == 71 then "AHDRLEN"
    else if i == 72 then "ASDPCNT"
    else if i == 73 then "AFF"
    else if i == 74 then "ARDFRM"
    else if i == 75 then "AEXPVIDL"
    else if i == 76 then "ASCIFRM"
    else "ASCIXPID"
  }

  datatype Value = IntValue(i: int) | RealValue(r: real) | BoolValue(b: bool) | TextValue(s: string)

  /** A header entry, a dict with 'value', 'comment' and 'mode'; entries given by the FITSHEADER
      setting may lack any of them. */
  datatype Entry = Entry(value: Option<Value>, comment: Option<string>, mode: Option<int>)

  function Builtin(v: Value, comment: string, mode: int): Entry {
    Entry(Some(v), Some(comment), Some(mode))
  }

  /** `header_modes`. */
  const HeaderModes: map<int, string> := map[
    0 := "Stays the same with settings",
    1 := "Stays the same after initialization",
    2 := "Changes with each exposure",
    3 := "Changes with each frame"]

  /** The settings the template reads. */
  datatype HeaderSettings = HeaderSettings(
    frameTimeSec: real,
    removeScienceHeaders: bool,
    frameX: int,
    frameY: int,
    scienceHeaders: int,
    mode: string,
    readoutChannels: int,
    fitsHeader: seq<(HeaderKey, Entry)>)

  /** Columns left once the science header columns are cut from each row. */
  function Columns(s: HeaderSettings): (ncols: int)
    ensures s.removeScienceHeaders ==> ncols + s.scienceHeaders == s.frameX
    ensures !s.removeScienceHeaders ==> ncols == s.frameX
  {
    if s.removeScienceHeaders then s.frameX - s.scienceHeaders else s.frameX
  }

  /** The entry the template gives each built-in keyword; a keyword only FITSHEADER knows has
      none of its own. */
  function FixedEntry(k: HeaderKey, s: HeaderSettings): Entry
  {
    if k.Custom? then Entry(None, None, None)
    else if k.SCIWRD? then ScienceWordEntry
    else Builtin(FixedValue(k, s), FixedComment(k), FixedMode(k))
  }

  /** The initial value of each built-in keyword. */
  function FixedValue(k: HeaderKey, s: HeaderSettings): Value
    requires Ord(k) < FixedCount
  {
    var i := k.ord;
    if i == 0 then IntValue(0)  // NFRAMES
    else if i == 1 then IntValue(0)  // FRAME
    else if i == 2 then IntValue(0)  // EXPTIME
    else if i == 3 then IntValue(0)  // EXPTIMEC
    else if i == 4 then IntValue(0)  // EXPTIMEE
    else if i == 5 then RealValue(s.frameTimeSec)  // FRTIME
    else if i == 6 then RealValue(s.frameTimeSec)  // TFRAME
    else if i == 7 then IntValue(0)  // NRESETS
    else if i == 8 then BoolValue(false)  // ISRESET
    else if i == 9 then IntValue(Columns(s))  // SIZAXIS1
    else if i == 10 then IntValue(s.frameY)  // SIZAXIS2
    else if i == 11 then IntValue(Columns(s))  // NCOLS
    else if i == 12 then IntValue(s.frameY)  // NROWS
    else if i == 13 then TextValue(s.mode)  // REDXMODE
    else if i == 14 then TextValue("")  // REFOUT
    else if i == 15 then IntValue(s.readoutChannels)  // NOUTPUTS
    else if i == 16 then TextValue("")  // AMPMODE
    else if i == 17 then IntValue(0)  // ASICINDX
    else if i == 18 then IntValue(0)  // ASICADDR
    else if i == 19 then TextValue("")  // DETECTOR
    else if i == 20 then IntValue(0)  // ASICSN
    else if i == 21 then IntValue(0)  // FPAPOS
    else if i == 22 then IntValue(0)  // MACIESN
    else if i == 23 then TextValue("")  // MACIEINT
    else if i == 24 then TextValue("")  // UTDATE
    else if i == 25 then TextValue("")  // UTSTART
    else if i == 26 then TextValue("")  // DATE
    else if i == 27 then TextValue("")  // DATE_BEG
    else if i == 28 then TextValue("")  // DATE_END
    else if i == 29 then TextValue("")  // MJD_BEG
    else if i == 30 then TextValue("")  // MJD_END
    else if i == 31 then TextValue("")  // JD_BEG
    else if i == 32 then TextValue("")  // JD_END
    else if i == 33 then TextValue("")  // EXPSTART
    else if i == 34 then TextValue("")  // EXPEND
    else if i == 35 then TextValue("")  // EXPMID
    else if i == 36 then TextValue("")  // TELAPSE
    else if i == 37 then TextValue("s")  // TIMEUNIT
    else if i == 38 then BoolValue(true)  // DEINTERL
    else if i == 39 then IntValue(0)  // ASDFNAME
    else if i == 40 then BoolValue(false)  // RSTSAVE
    else if i == 41 then TextValue("line")  // RSTTYPE
    else if i == 42 then TextValue("")  // LODFIL0
    else if i == 43 then TextValue("")  // LODFIL1
    else if i == 44 then TextValue("")  // LODFIL2
    else if i == 45 then TextValue("")  // LODFIL3
    else if i == 46 then TextValue("")  // LODFIL4
    else if i == 47 then TextValue("")  // LODFIL5
    else if i == 48 then TextValue("")  // LODFIL6
    else if i == 49 then TextValue("")  // LODFIL7
    else if i == 50 then TextValue("")  // LODFIL8
    else if i == 51 then TextValue("")  // LODFIL9
    else if i == 52 then TextValue("")  // LODFIL10
    else if i == 53 then IntValue(0)  // VRESET
    else if i == 54 then IntValue(0)  // CELLDRAI
    else if i == 55 then IntValue(0)  // VBIASGAT
    else if i == 56 then IntValue(0)  // VBIASPOW
    else if i == 57 then IntValue(0)  // SUB
    else if i == 58 then IntValue(0)  // DSUB
    else if i == 59 then IntValue(0)  // DRAIN
    else if i == 60 then IntValue(0)  // VDDA
    else if i == 61 then IntValue(0)  // VDD
    else if i == 62 then IntValue(0)  // GND
    else if i == 63 then IntValue(0)  // GNDA
    else if i == 64 then IntValue(0)  // VREF
    else if i == 65 then IntValue(0)  // CHIP
    else if i == 66 then IntValue(s.scienceHeaders)  // NSCIHEAD
    else if i == 67 then BoolValue(s.removeScienceHeaders)  // RMVSCIHD
    else if i == 68 then IntValue(0)  // ABLKLEN
    else if i == 69 then IntValue(0)  // ABLKCNT
    else if i == 70 then IntValue(0)  // AASICID
    else if i == 71 then IntValue(0)  // AHDRLEN
    else if i == 72 then IntValue(0)  // ASDPCNT
    else if i == 73 then IntValue(0)  // AFF
    else if i == 74 then IntValue(0)  // ARDFRM
    else if i == 75 then IntValue(0)  // AEXPVIDL
    else if i == 76 then IntValue(0)  // ASCIFRM
    else IntValue(0)  // ASCIXPID
  }

  /** The comment of each built-in keyword. */
  function FixedComment(k: HeaderKey): string
    requires Ord(k) < FixedCount
  {
    var i := k.ord;
    if i == 0 then "number of frame in exposure"  // NFRAMES
    else if i == 1 then "current frame number"  // FRAME
    else if i == 2 then "[s] exposure time of all frames including frame 1"  // EXPTIME
    else if i == 3 then "[s] exposure time commanded"  // EXPTIMEC
    else if i == 4 then "[s] effective exposure time given the mode and number of frames"  // EXPTIMEE
    else if i == 5 then "[s] approximate time to read one frame"  // FRTIME
    else if i == 6 then "[s] time between successive starts of frames"  // TFRAME
    else if i == 7 then "number of reset frames before exposure"  // NRESETS
    else if i == 8 then "determines if current frame is a reset frame"  // ISRESET
    else if i == 9 then ""  // SIZAXIS1
    else if i == 10 then ""  // SIZAXIS2
    else if i == 11 then ""  // NCOLS
    else if i == 12 then ""  // NROWS
    else if i == 13 then "reduction mode used to calculate number of frames"  // REDXMODE
    else if i == 14 then "reference output included in the data"  // REFOUT
    else if i == 15 then "number of detector readout channels"  // NOUTPUTS
    else if i == 16 then "Preamplifier mode SE: single-ended mode, DIFF: differential mode"  // AMPMODE
    else if i == 17 then "ASIC index number"  // ASICINDX
    else if i == 18 then "ASIC address number"  // ASICADDR
    else if i == 19 then "name of the SCA"  // DETECTOR
    else if i == 20 then "ASIC serial number"  // ASICSN
    else if i == 21 then "location of sca within the dewar"  // FPAPOS
    else if i == 22 then "MACIE serial used for interface"  // MACIESN
    else if i == 23 then "MACIE interface type"  // MACIEINT
    else if i == 24 then "universal date, YYYY-MM-DD"  // UTDATE
    else if i == 25 then "universal time at start of exposure, hh:mm:ss.ssssss"  // UTSTART
    else if i == 26 then "universal datetime when file was created, hh:mm:ss.ssssss"  // DATE
    else if i == 27 then "universal datetime at start of exposure, YYYY-MM-DDThh:mm:ss.ssssss"  // DATE_BEG
    else if i == 28 then "universal time at end of exposure, YYYY-MM-DDThh:mm:ss.ssssss"  // DATE_END
    else if i == 29 then "modified Julian Date at start of exposure"  // MJD_BEG
    else if i == 30 then "modified Julian Date at end of exposure"  // MJD_END
    else if i == 31 then "Julian Date at start of exposure"  // JD_BEG
    else if i == 32 then "Julian Date at end of exposure"  // JD_END
    else if i == 33 then "universal time at start of exposure"  // EXPSTART
    else if i == 34 then "modified Julian Date at end of exposure"  // EXPEND
    else if i == 35 then "modified Julian Date at middle of exposure"  // EXPMID
    else if i == 36 then "[s] time between start and end of exposure]"  // TELAPSE
    else if i == 37 then "specifies time unit (always seconds)"  // TIMEUNIT
    else if i == 38 then "determines whether the frames are deinterlaced or not"  // DEINTERL
    else if i == 39 then "original filename from asdetector software"  // ASDFNAME
    else if i == 40 then "determines if reset frames are saved"  // RSTSAVE
    else if i == 41 then "pixel or line reset mode"  // RSTTYPE
    else if i == 42 then "load file used to initialize MACIE-ASIC system"  // LODFIL0
    else if i == 43 then "load file used to initialize MACIE-ASIC system"  // LODFIL1
    else if i == 44 then "load file used to initialize MACIE-ASIC system"  // LODFIL2
    else if i == 45 then "load file used to initialize MACIE-ASIC system"  // LODFIL3
    else if i == 46 then "load file used to initialize MACIE-ASIC system"  // LODFIL4
    else if i == 47 then "load file used to initialize MACIE-ASIC system"  // LODFIL5
    else if i == 48 then "load file used to initialize MACIE-ASIC system"  // LODFIL6
    else if i == 49 then "load file used to initialize MACIE-ASIC system"  // LODFIL7
    else if i == 50 then "load file used to initialize MACIE-ASIC system"  // LODFIL8
    else if i == 51 then "load file used to initialize MACIE-ASIC system"  // LODFIL9
    else if i == 52 then "load file used to initialize MACIE-ASIC system"  // LODFIL10
    else if i == 53 then "[dac] vreset bias applied to detector"  // VRESET
    else if i == 54 then "[dac] celldrain bias applied to detector"  // CELLDRAI
    else if i == 55 then "[dac] vbiasgate bias applied to detector"  // VBIASGAT
    else if i == 56 then "[dac] vbiaspower bias applied to detector"  // VBIASPOW
    else if i == 57 then "[dac] sub bias applied to detector"  // SUB
    else if i == 58 then "[dac] dsub bias applied to detector"  // DSUB
    else if i == 59 then "[dac] drain bias applied to detector"  // DRAIN
    else if i == 60 then "[dac] vdda bias applied to detector"  // VDDA
    else if i == 61 then "[dac] vdd bias applied to detector"  // VDD
    else if i == 62 then "[dac] digital ground bias applied to detector"  // GND
    else if i == 63 then "[dac] analog ground bias applied to detector"  // GNDA
    else if i == 64 then "[dac] vref bias applied to detector"  // VREF
    else if i == 65 then "detector/asic chip number"  // CHIP
    else if i == 66 then "number science headers per row"  // NSCIHEAD
    else if i == 67 then "remove science headers from final image"  // RMVSCIHD
    else if i == 68 then "ASIC generated block length"  // ABLKLEN
    else if i == 69 then "ASIC generated block count"  // ABLKCNT
    else if i == 70 then "ASIC generated asic ID"  // AASICID
    else if i == 71 then "ASIC generated  header length"  // AHDRLEN
    else if i == 72 then "ASIC generated science data packet count"  // ASDPCNT
    else if i == 73 then "ASIC generated full frame[1] or guide window frame[0]"  // AFF
    else if i == 74 then "ASIC generated read[1] or reset[0] frame"  // ARDFRM
    else if i == 75 then "ASIC generated exposure[1] or idle[0]"  // AEXPVIDL
    else if i == 76 then "ASIC generated frame counter within exposure rolls over at 511"  // ASCIFRM
    else "ASIC generated exposure ID number rolls over at 127"  // ASCIXPID
  }

  /** The header mode of each built-in keyword, always one of header_modes. */
  function FixedMode(k: HeaderKey): (m: int)
    requires Ord(k) < FixedCount
    ensures m in HeaderModes
  {
    var i := k.ord;
    if i == 0 then 2  // NFRAMES
    else if i == 1 then 3  // FRAME
    else if i == 2 then 2  // EXPTIME
    else if i == 3 then 2  // EXPTIMEC
    else if i == 4 then 2  // EXPTIMEE
    else if i == 5 then 0  // FRTIME
    else if i == 6 then 0  // TFRAME
    else if i == 7 then 2  // NRESETS
    else if i == 8 then 3  // ISRESET
    else if i == 9 then 0  // SIZAXIS1
    else if i == 10 then 0  // SIZAXIS2
    else if i == 11 then 0  // NCOLS
    else if i == 12 then 0  // NROWS
    else if i == 13 then 2  // REDXMODE
    else if i == 14 then 3  // REFOUT
    else if i == 15 then 0  // NOUTPUTS
    else if i == 16 then 1  // AMPMODE
    else if i == 17 then 1  // ASICINDX
    else if i == 18 then 1  // ASICADDR
    else if i == 19 then 1  // DETECTOR
    else if i == 20 then 1  // ASICSN
    else if i == 21 then 1  // FPAPOS
    else if i == 22 then 1  // MACIESN
    else if i == 23 then 1  // MACIEINT
    else if i == 24 then 2  // UTDATE
    else if i == 25 then 2  // UTSTART
    else if i == 26 then 3  // DATE
    else if i == 27 then 2  // DATE_BEG
    else if i == 28 then 3  // DATE_END
    else if i == 29 then 2  // MJD_BEG
    else if i == 30 then 3  // MJD_END
    else if i == 31 then 2  // JD_BEG
    else if i == 32 then 3  // JD_END
    else if i == 33 then 2  // EXPSTART
    else if i == 34 then 3  // EXPEND
    else if i == 35 then 3  // EXPMID
    else if i == 36 then 3  // TELAPSE
    else if i == 37 then 0  // TIMEUNIT
    else if i == 38 then 1  // DEINTERL
    else if i == 39 then 3  // ASDFNAME
    else if i == 40 then 2  // RSTSAVE
    else if i == 41 then 0  // RSTTYPE
    else if i == 42 then 1  // LODFIL0
    else if i == 43 then 1  // LODFIL1
    else if i == 44 then 1  // LODFIL2
    else if i == 45 then 1  // LODFIL3
    else if i == 46 then 1  // LODFIL4
    else if i == 47 then 1  // LODFIL5
    else if i == 48 then 1  // LODFIL6
    else if i == 49 then 1  // LODFIL7
    else if i == 50 then 1  // LODFIL8
    else if i == 51 then 1  // LODFIL9
    else if i == 52 then 1  // LODFIL10
    else if i == 53 then 1  // VRESET
    else if i == 54 then 1  // CELLDRAI
    else if i == 55 then 1  // VBIASGAT
    else if i == 56 then 1  // VBIASPOW
    else if i == 57 then 1  // SUB
    else if i == 58 then 1  // DSUB
    else if i == 59 then 1  // DRAIN
    else if i == 60 then 1  // VDDA
    else if i == 61 then 1  // VDD
    else if i == 62 then 1  // GND
    else if i == 63 then 1  // GNDA
    else if i == 64 then 1  // VREF
    else if i == 65 then 1  // CHIP
    else if i == 66 then 0  // NSCIHEAD
    else if i == 67 then 0  // RMVSCIHD
    else if i == 68 then 3  // ABLKLEN
    else if i == 69 then 3  // ABLKCNT
    else if i == 70 then 3  // AASICID
    else if i == 71 then 3  // AHDRLEN
    else if i == 72 then 3  // ASDPCNT
    else if i == 73 then 3  // AFF
    else if i == 74 then 3  // ARDFRM
    else if i == 75 then 3  // AEXPVIDL
    else if i == 76 then 3  // ASCIFRM
    else 3  // ASCIXPID
  }

  const ScienceWordEntry: Entry := Builtin(IntValue(0), "first row science word value", 3)

  /** Keywords up to and including RMVSCIHD come before the science words. */
  const BeforeScienceWords: nat := 68

  /** Position of a built-in keyword in the template's own order. */
  function Ord(k: HeaderKey): nat
  {
    if k.Fixed? then k.ord else FixedCount
  }

  /** The built-in keywords at positions lo .. hi−1, in order. */
  function FixedKeys(lo: nat, hi: nat): (run: seq<HeaderKey>)
    requires lo <= hi <= FixedCount
    ensures |run| == hi - lo
    ensures forall j :: 0 <= j < |run| ==> run[j] == Fixed(lo + j)
  {
    seq(hi - lo, j requires 0 <= j < hi - lo => Fixed(lo + j))
  }

  lemma FixedKeysOrd(lo: nat, hi: nat)
    requires lo <= hi <= FixedCount
    ensures forall j :: 0 <= j < hi - lo ==> Ord(FixedKeys(lo, hi)[j]) == lo + j
  {
    forall j | 0 <= j < hi - lo
      ensures Ord(FixedKeys(lo, hi)[j]) == lo + j
    {
    }
  }

  /** `'SCIWRD{}'.format(i + 1) for i in range(n)`: nothing for n <= 0. */
  function ScienceKeys(n: int): (ks: seq<HeaderKey>)
    ensures |ks| == if n <= 0 then 0 else n
    ensures forall j :: 0 <= j < |ks| ==> ks[j] == SCIWRD(j + 1)
  {
    if n <= 0 then [] else seq(n, j requires 0 <= j < n => SCIWRD(j + 1))
  }

  /** The keywords of the template in order, for n science words. */
  function TemplateKeys(n: int): seq<HeaderKey>
  {
    FixedKeys(0, BeforeScienceWords) + ScienceKeys(n) + FixedKeys(BeforeScienceWords, FixedCount)
  }

  /** Each keyword with the entry the template gives it. */
  function Entries(ks: seq<HeaderKey>, s: HeaderSettings): (d: seq<(HeaderKey, Entry)>)
    ensures |d| == |ks|
    ensures forall j :: 0 <= j < |ks| ==> d[j] == (ks[j], FixedEntry(ks[j], s))
  {
    seq(|ks|, j requires 0 <= j < |ks| => (ks[j], FixedEntry(ks[j], s)))
  }

  lemma EntriesKeys(ks: seq<HeaderKey>, s: HeaderSettings)
    ensures Keys(Entries(ks, s)) == ks
  {
  }

  lemma EntriesSnoc(ks: seq<HeaderKey>, k: HeaderKey, s: HeaderSettings)
    ensures Entries(ks + [k], s) == Entries(ks, s) + [(k, FixedEntry(k, s))]
  {
  }

  /** The template before the FITSHEADER overrides. */
  function Template(s: HeaderSettings): seq<(HeaderKey, Entry)>
  {
    Entries(TemplateKeys(s.scienceHeaders), s)
  }

  /** `header_format` as the module leaves it. */
  function HeaderFormat(s: HeaderSettings): seq<(HeaderKey, Entry)>
  {
    SetAll(Template(s), s.fitsHeader)
  }

  /** Building `header_format`: one insertion per keyword, in the order of header.py. */
  method BuildHeaderFormat(s: HeaderSettings) returns (format: seq<(HeaderKey, Entry)>)
    ensures format == HeaderFormat(s)
  {
    format := InsertLeadingKeywords(s);
    format := InsertScienceWords(s, format);
    format := InsertTrailingKeywords(s, format);
    format := Update(format, s.fitsHeader);
  }

  /** Inserting a keyword the table does not hold yet appends it with its entry. */
  method Insert(s: HeaderSettings, ks: seq<HeaderKey>, format: seq<(HeaderKey, Entry)>, k: HeaderKey)
    returns (format': seq<(HeaderKey, Entry)>)
    requires format == Entries(ks, s) && k !in ks
    ensures format' == Entries(ks + [k], s)
  {
    EntriesKeys(ks, s);
    format' := Set(format, k, FixedEntry(k, s));
    EntriesSnoc(ks, k, s);
  }

  /** The keywords NFRAMES .. RMVSCIHD, inserted into an empty table. */
  method InsertLeadingKeywords(s: HeaderSettings) returns (format: seq<(HeaderKey, Entry)>)
    ensures format == Entries(FixedKeys(0, BeforeScienceWords), s)
  {
    format := [];
    for i := 0 to BeforeScienceWords
      invariant format == Entries(FixedKeys(0, i), s)
    {
      FixedKeysOrd(0, i);
      format := Insert(s, FixedKeys(0, i), format, Fixed(i));
      assert FixedKeys(0, i + 1) == FixedKeys(0, i) + [Fixed(i)];
    }
  }

  /** `for i in range(NUMBEROFSCIENCEHEADERSPERROW)`: SCIWRD1, SCIWRD2, ... in order. */
  method InsertScienceWords(s: HeaderSettings, prefix: seq<(HeaderKey, Entry)>) returns (format: seq<(HeaderKey, Entry)>)
    requires prefix == Entries(FixedKeys(0, BeforeScienceWords), s)
    ensures format == Entries(FixedKeys(0, BeforeScienceWords) + ScienceKeys(s.scienceHeaders), s)
  {
    var lead := FixedKeys(0, BeforeScienceWords);
    format := prefix;
    assert lead + ScienceKeys(0) == lead;
    var w := 0;
    while w < s.scienceHeaders
      invariant 0 <= w && (w == 0 || w <= s.scienceHeaders)
      invariant format == Entries(lead + ScienceKeys(w), s)
    {
      FixedKeysOrd(0, BeforeScienceWords);
      assert SCIWRD(w + 1) !in lead + ScienceKeys(w);
      format := Insert(s, lead + ScienceKeys(w), format, SCIWRD(w + 1));
      assert ScienceKeys(w + 1) == ScienceKeys(w) + [SCIWRD(w + 1)];
      assert lead + ScienceKeys(w + 1) == lead + ScienceKeys(w) + [SCIWRD(w + 1)];
      w := w + 1;
    }
  }

  /** The keywords ABLKLEN .. ASCIXPID, inserted after the science words. */
  method InsertTrailingKeywords(s: HeaderSettings, middle: seq<(HeaderKey, Entry)>) returns (format: seq<(HeaderKey, Entry)>)
    requires middle == Entries(FixedKeys(0, BeforeScienceWords) + ScienceKeys(s.scienceHeaders), s)
    ensures format == Template(s)
  {
    var before := FixedKeys(0, BeforeScienceWords) + ScienceKeys(s.scienceHeaders);
    format := middle;
    assert before + FixedKeys(BeforeScienceWords, BeforeScienceWords) == before;
    for i := BeforeScienceWords to FixedCount
      invariant format == Entries(before + FixedKeys(BeforeScienceWords, i), s)
    {
      FixedKeyFresh(s.scienceHeaders, i);
      format := Insert(s, before + FixedKeys(BeforeScienceWords, i), format, Fixed(i));
      assert FixedKeys(BeforeScienceWords, i + 1) == FixedKeys(BeforeScienceWords, i) + [Fixed(i)];
      assert before + FixedKeys(BeforeScienceWords, i + 1) == before + FixedKeys(BeforeScienceWords, i) + [Fixed(i)];
    }
  }

  /** The ten keywords after the science words are new when they are inserted. */
  lemma FixedKeyFresh(n: int, i: nat)
    requires BeforeScienceWords <= i < FixedCount
    ensures Fixed(i) !in FixedKeys(0, BeforeScienceWords) + ScienceKeys(n) + FixedKeys(BeforeScienceWords, i)
  {
    FixedKeysOrd(0, BeforeScienceWords);
    FixedKeysOrd(BeforeScienceWords, i);
  }

  // ---------------------------------------------------------------- properties of the table

  /** What sits at each position of the template: built-in keyword i at position i, then the
      science words SCIWRD1 .. SCIWRDn, then built-in keywords 68 .. 77. */
  lemma TemplateKeyAt(n: int, i: int)
    requires 0 <= i < |TemplateKeys(n)|
    ensures var m := |ScienceKeys(n)|; var k := TemplateKeys(n)[i];
      (i < BeforeScienceWords ==> Ord(k) == i) &&
      (BeforeScienceWords <= i < BeforeScienceWords + m ==> k == SCIWRD(i - BeforeScienceWords + 1)) &&
      (BeforeScienceWords + m <= i ==> Ord(k) == i - m)
  {
    var a, b, c := FixedKeys(0, BeforeScienceWords), ScienceKeys(n), FixedKeys(BeforeScienceWords, FixedCount);
    var t := TemplateKeys(n);
    if i < |a| {
      assert t[i] == a[i];
    } else if i < |a| + |b| {
      assert t[i] == b[i - |a|];
    } else {
      assert t[i] == c[i - |a| - |b|];
    }
  }

  /** Every keyword of the template occurs once. */
  lemma TemplateValid(s: HeaderSettings)
    ensures Valid(Template(s))
  {
    var ks := TemplateKeys(s.scienceHeaders);
    forall i, j | 0 <= i < j < |ks|
      ensures ks[i] != ks[j]
    {
      TemplateKeyAt(s.scienceHeaders, i);
      TemplateKeyAt(s.scienceHeaders, j);
    }
    EntriesKeys(ks, s);
  }

  /** The science words SCIWRD1..SCIWRDn follow RMVSCIHD in order and precede ABLKLEN; the
      template ends with ASCIXPID. */
  lemma TemplateLayout(s: HeaderSettings)
    ensures var n := if s.scienceHeaders <= 0 then 0 else s.scienceHeaders;
      var ks := Keys(Template(s));
      |ks| == FixedCount + n &&
      ks[BeforeScienceWords - 1] == RMVSCIHD &&
      (forall j :: BeforeScienceWords <= j < BeforeScienceWords + n ==> ks[j] == SCIWRD(j - BeforeScienceWords + 1)) &&
      ks[BeforeScienceWords + n] == ABLKLEN &&
      ks[|ks| - 1] == ASCIXPID
  {
    var n := |ScienceKeys(s.scienceHeaders)|;
    var ks := TemplateKeys(s.scienceHeaders);
    EntriesKeys(ks, s);
    forall j | BeforeScienceWords <= j < BeforeScienceWords + n
      ensures ks[j] == SCIWRD(j - BeforeScienceWords + 1)
    {
      TemplateKeyAt(s.scienceHeaders, j);
    }
    TemplateKeyAt(s.scienceHeaders, BeforeScienceWords - 1);
    TemplateKeyAt(s.scienceHeaders, BeforeScienceWords + n);
    TemplateKeyAt(s.scienceHeaders, |ks| - 1);
  }

  /** The entry the template holds for a built-in keyword is its table entry. */
  lemma TemplateFixedEntry(s: HeaderSettings, k: HeaderKey)
    requires Ord(k) < FixedCount
    ensures Get(Template(s), k) == Some(FixedEntry(k, s))
  {
    var i := Ord(k);
    var n := s.scienceHeaders;
    var p := if i < BeforeScienceWords then i else i + |ScienceKeys(n)|;
    TemplateValid(s);
    TemplateKeyAt(n, p);
    GetAt(Template(s), p);
  }

  /** SIZAXIS1 and NCOLS hold FRAMEX less the science header columns when those are removed,
      FRAMEX otherwise; SIZAXIS2 and NROWS hold FRAMEY; unless FITSHEADER overrides them. */
  lemma ColumnGeometry(s: HeaderSettings)
    ensures SIZAXIS1 !in Keys(s.fitsHeader) ==> Get(HeaderFormat(s), SIZAXIS1) == Some(Builtin(IntValue(Columns(s)), "", 0))
    ensures NCOLS !in Keys(s.fitsHeader) ==> Get(HeaderFormat(s), NCOLS) == Some(Builtin(IntValue(Columns(s)), "", 0))
    ensures SIZAXIS2 !in Keys(s.fitsHeader) ==> Get(HeaderFormat(s), SIZAXIS2) == Some(Builtin(IntValue(s.frameY), "", 0))
    ensures NROWS !in Keys(s.fitsHeader) ==> Get(HeaderFormat(s), NROWS) == Some(Builtin(IntValue(s.frameY), "", 0))
  {
    GeometryKept(s, SIZAXIS1, Columns(s));
    GeometryKept(s, NCOLS, Columns(s));
    GeometryKept(s, SIZAXIS2, s.frameY);
    GeometryKept(s, NROWS, s.frameY);
  }

  lemma GeometryKept(s: HeaderSettings, k: HeaderKey, v: int)
    requires ((k == SIZAXIS1 || k == NCOLS) && v == Columns(s)) || ((k == SIZAXIS2 || k == NROWS) && v == s.frameY)
    ensures k !in Keys(s.fitsHeader) ==> Get(HeaderFormat(s), k) == Some(Builtin(IntValue(v), "", 0))
  {
    BuiltinKept(s, k);
  }

  /** A built-in keyword that FITSHEADER does not mention keeps its table entry. */
  lemma BuiltinKept(s: HeaderSettings, k: HeaderKey)
    requires Ord(k) < FixedCount
    ensures k !in Keys(s.fitsHeader) ==> Get(HeaderFormat(s), k) == Some(FixedEntry(k, s))
  {
    GetSetAll(Template(s), s.fitsHeader, k);
    TemplateFixedEntry(s, k);
  }

  /** FITSHEADER entries are applied last: every template keyword keeps its position, a new
      keyword is appended, nothing else appears, and each keyword looks up the last value
      FITSHEADER gives it, or the template's. */
  lemma HeaderOverrides(s: HeaderSettings, k: HeaderKey)
    ensures Keys(Template(s)) <= Keys(HeaderFormat(s))
    ensures k in Keys(HeaderFormat(s)) <==> k in Keys(Template(s)) || k in Keys(s.fitsHeader)
    ensures Get(HeaderFormat(s), k) ==
      if LastIndex(s.fitsHeader, k) < 0 then Get(Template(s), k) else Some(s.fitsHeader[LastIndex(s.fitsHeader, k)].1)
  {
    SetAllKeys(Template(s), s.fitsHeader);
    GetSetAll(Template(s), s.fitsHeader, k);
  }

  /** The finished table still holds every keyword once. */
  lemma HeaderFormatValid(s: HeaderSettings)
    ensures Valid(HeaderFormat(s))
  {
    TemplateValid(s);
    SetAllValid(Template(s), s.fitsHeader);
  }

  /** A built-in entry has a value, a comment and a mode, and the mode is a key of header_modes. */
  predicate CompleteEntry(e: Entry) {
    e.value.Some? && e.comment.Some? && e.mode.Some? && e.mode.value in HeaderModes
  }

  lemma FixedEntryComplete(k: HeaderKey, s: HeaderSettings)
    ensures !k.Custom? ==> CompleteEntry(FixedEntry(k, s))
  {
    if !k.Custom? && !k.SCIWRD? {
      var m := FixedMode(k);
    }
  }

  lemma TemplateEntriesComplete(s: HeaderSettings)
    ensures forall i :: 0 <= i < |Template(s)| ==> CompleteEntry(Template(s)[i].1)
  {
    var ks := TemplateKeys(s.scienceHeaders);
    forall i | 0 <= i < |Template(s)|
      ensures CompleteEntry(Template(s)[i].1)
    {
      TemplateKeyAt(s.scienceHeaders, i);
      FixedEntryComplete(ks[i], s);
    }
  }

  /** Built-in keywords fit the eight characters a FITS keyword may have (section 4.1.2.1 of
      the FITS standard, version 4.0). */
  lemma FixedNamesFit(k: HeaderKey)
    requires Ord(k) < FixedCount
    ensures 0 < |Name(k)| <= 8
  {
  }

  // ---------------------------------------------------------------- bias voltages

  /** The bias voltages of the ASICBIASVOLTAGEADDRESS setting. */
  datatype BiasVoltage = Vdda | Vdd | Gnd | Gnda | Sub | Dsub | CellDrain | Vreset | Drain | VbiasPower | VbiasGate | Vref

  /** The setting's key for a bias voltage. */
  function BiasSettingName(b: BiasVoltage): string
  {
    match b
    case Vdda => "VDDA"
    case Vdd => "VDD"
    case Gnd => "GND"
    case Gnda => "GNDA"
    case Sub => "SUB"
    case Dsub => "DSUB"
    case CellDrain => "CELLDRAIN"
    case Vreset => "VRESET"
    case Drain => "DRAIN"
    case VbiasPower => "VBIASPOWER"
    case VbiasGate => "VBIASGATE"
    case Vref => "VREF"
  }

  /** `asic_bias_address_to_fits_header_translation_dict`. */
  function BiasHeaderKey(b: BiasVoltage): HeaderKey
  {
    match b
    case Vdda => VDDA
    case Vdd => VDD
    case Gnd => GND
    case Gnda => GNDA
    case Sub => SUB
    case Dsub => DSUB
    case CellDrain => CELLDRAI
    case Vreset => VRESET
    case Drain => DRAIN
    case VbiasPower => VBIASPOW
    case VbiasGate => VBIASGAT
    case Vref => VREF
  }

  /** No two bias voltages share a header keyword. */
  lemma BiasTranslationInjective(a: BiasVoltage, b: BiasVoltage)
    ensures BiasHeaderKey(a) == BiasHeaderKey(b) ==> a == b
  {
  }

  /** Every bias keyword is in the finished header, so writing its value never misses, and
      its name is a legal FITS keyword. */
  lemma BiasKeysPresent(s: HeaderSettings, b: BiasVoltage)
    ensures BiasHeaderKey(b) in Keys(HeaderFormat(s))
    ensures Get(Template(s), BiasHeaderKey(b)) == Some(FixedEntry(BiasHeaderKey(b), s))
    ensures |Name(BiasHeaderKey(b))| <= 8
  {
    var k := BiasHeaderKey(b);
    TemplateFixedEntry(s, k);
    SetAllKeys(Template(s), s.fitsHeader);
    FixedNamesFit(k);
  }

  // ---------------------------------------------------------------- FITS cards

  datatype Card = Card(keyword: string, value: Value, comment: string)

  predicate HasCard(e: Entry) {
    e.value.Some? && e.comment.Some?
  }

  /** `gen_fits_header`: one card per entry, in the table's order; an entry without a value or
      a comment raises KeyError. */
  method GenFitsHeader(header: seq<(HeaderKey, Entry)>) returns (r: Result<seq<Card>>)
    ensures r.Ok? <==> forall i :: 0 <= i < |header| ==> HasCard(header[i].1)
    ensures r.Err? ==> r.error == KeyError
    ensures r.Ok? ==> |r.value| == |header| && forall i :: 0 <= i < |header| ==>
      r.value[i] == Card(Name(header[i].0), header[i].1.value.value, header[i].1.comment.value)
  {
    var cards := [];
    for i := 0 to |header|
      invariant forall j :: 0 <= j < i ==> HasCard(header[j].1)
      invariant |cards| == i
      invariant forall j :: 0 <= j < i ==> cards[j] == Card(Name(header[j].0), header[j].1.value.value, header[j].1.comment.value)
    {
      var e := header[i].1;
      if e.value.None? || e.comment.None? {
        return Err(KeyError);
      }
      cards := cards + [Card(Name(header[i].0), e.value.value, e.comment.value)];
    }
    return Ok(cards);
  }

  /** The finished header always yields cards when FITSHEADER's entries carry a value and a
      comment. */
  lemma HeaderFormatHasCards(s: HeaderSettings)
    requires forall i :: 0 <= i < |s.fitsHeader| ==> HasCard(s.fitsHeader[i].1)
    ensures forall i :: 0 <= i < |HeaderFormat(s)| ==> HasCard(HeaderFormat(s)[i].1)
  {
    TemplateEntriesComplete(s);
    UpdatesKeepCards(Template(s), s.fitsHeader);
  }

  lemma {:induction false} UpdatesKeepCards(d: seq<(HeaderKey, Entry)>, entries: seq<(HeaderKey, Entry)>)
    requires forall i :: 0 <= i < |d| ==> HasCard(d[i].1)
    requires forall i :: 0 <= i < |entries| ==> HasCard(entries[i].1)
    ensures forall i :: 0 <= i < |SetAll(d, entries)| ==> HasCard(SetAll(d, entries)[i].1)
    decreases |entries|
  {
    if |entries| > 0 {
      var init := entries[..|entries| - 1];
      UpdatesKeepCards(d, init);
    }
  }
}

=== FILE: interface.dfy ===
/** The command interface of asdetector/interface/interface.py: a text command is split into
    whitespace tokens, its first token is upper-cased and looked up in the command table, the
    command runs between two status updates, and failures are mapped to the reply. The socket
    server, logging and the device calls are not modelled; the outcome of a command's device and
    file calls is a parameter. */
module Interface {
  import opened Wrappers
  import opened Text
  import opened Json
  import ExposureTiming
  import StatusSink
  import Ordered
  import Files

  // ---------------------------------------------------------------- command table

  /** The entries of `COMMANDS`. SYNC, UNLOCK, CONFIG and CONFIGFROMFILE are commented out of
      the table and therefore cannot be dispatched. */
  datatype Command = Open | Init | Start | Close | Test | Status | Mode

  function CommandName(c: Command): string
  {
    match c
    case Open => "OPEN"
    case Init => "INIT"
    case Start => "START"
    case Close => "CLOSE"
    case Test => "TEST"
    case Status => "STATUS"
    case Mode => "MODE"
  }

  /** `COMMANDS[name]`, None where Python raises KeyError. */
  function LookupCommand(name: string): (c: Option<Command>)
    ensures c.Some? ==> CommandName(c.value) == name
  {
    if name == "OPEN" then Some(Open)
    else if name == "INIT" then Some(Init)
    else if name == "START" then Some(Start)
    else if name == "CLOSE" then Some(Close)
    else if name == "TEST" then Some(Test)
    else if name == "STATUS" then Some(Status)
    else if name == "MODE" then Some(Mode)
    else None
  }

  /** The table holds exactly the seven command names, each under its own command. */
  lemma LookupCommandNames(name: string)
    ensures LookupCommand(name).None? <==> forall c: Command :: CommandName(c) != name
    ensures forall c: Command :: LookupCommand(CommandName(c)) == Some(c)
  {
    forall c: Command
      ensures LookupCommand(CommandName(c)) == Some(c)
    {
      match c
      case Open =>
      case Init =>
      case Start =>
      case Close =>
      case Test =>
      case Status =>
      case Mode =>
    }
  }

  /** The commands that are commented out of the table are not dispatchable. */
  lemma DisabledCommands()
    ensures LookupCommand("SYNC").None? && LookupCommand("UNLOCK").None?
    ensures LookupCommand("CONFIG").None? && LookupCommand("CONFIGFROMFILE").None?
  {
  }

  // ---------------------------------------------------------------- io_start argument binding

  /** The values a call to `io_start` can receive: a number, the command's request or status
      object, or None. */
  datatype Arg = Number(x: real) | RequestObject | StatusObject | NoneValue

  datatype IoStartCall = IoStartCall(exposureTime: Arg, skipTime: Arg, request: Arg, status: Arg)

  /** Python's binding of positional and keyword arguments to
      `io_start(exposure_time, skip_time=0, request=None, status=None)`: TypeError for a missing
      first argument, too many positional arguments, or a keyword also given positionally. */
  function BindIoStart(positional: seq<Arg>, skipTime: Option<Arg>, request: Option<Arg>, status: Option<Arg>): (r: Result<IoStartCall>)
    ensures r.Ok? <==> (1 <= |positional| <= 4 && (skipTime.Some? ==> |positional| < 2)
      && (request.Some? ==> |positional| < 3) && (status.Some? ==> |positional| < 4))
    ensures r.Ok? ==> r.value.exposureTime == positional[0]
    ensures r.Err? ==> r.error == TypeError
  {
    if |positional| == 0 || |positional| > 4 then Err(TypeError)
    else if (skipTime.Some? && |positional| >= 2) || (request.Some? && |positional| >= 3)
      || (status.Some? && |positional| >= 4) then Err(TypeError)
    else
      var at := (i: nat, keyword: Option<Arg>, default: Arg) =>
        if i < |positional| then positional[i] else if keyword.Some? then keyword.value else default;
      Ok(IoStartCall(positional[0], at(1, skipTime, Number(0.0)), at(2, request, NoneValue), at(3, status, NoneValue)))
  }

  /** `start` turns `skip_time` into a frame count by dividing it by the frame time; anything
      but a number raises TypeError there. */
  function SkipTimeOf(call: IoStartCall): Result<real>
  {
    match call.skipTime
    case Number(x) => Ok(x)
    case _ => Err(TypeError)
  }

  /** The call `Start` makes for every exposure, with keyword arguments. */
  function StartCall(exposureTime: real, skipTime: real): Result<IoStartCall>
  {
    BindIoStart([Number(exposureTime)], Some(Number(skipTime)), Some(RequestObject), Some(StatusObject))
  }

  lemma StartCallBinds(exposureTime: real, skipTime: real)
    ensures StartCall(exposureTime, skipTime) ==
      Ok(IoStartCall(Number(exposureTime), Number(skipTime), RequestObject, StatusObject))
    ensures SkipTimeOf(StartCall(exposureTime, skipTime).value) == Ok(skipTime)
  {
  }

  /** `Test.execute_command` as written: `io_start(6, self.request, self.status)`. */
  function TestStartCallAsWritten(): Result<IoStartCall>
  {
    BindIoStart([Number(6.0), RequestObject, StatusObject], None, None, None)
  }

  /** As written, the request lands in `skip_time` and the status in `request`, so TEST fails
      with TypeError as soon as `start` uses the skip time. */
  lemma TestStartCallMisbinds()
    ensures TestStartCallAsWritten().Ok?
    ensures TestStartCallAsWritten().value == IoStartCall(Number(6.0), RequestObject, StatusObject, NoneValue)
    ensures SkipTimeOf(TestStartCallAsWritten().value) == Err(TypeError)
  {
  }

  /** The evidently intended call: `io_start(6, request=self.request, status=self.status)`. */
  function TestStartCall(): Result<IoStartCall>
  {
    BindIoStart([Number(6.0)], None, Some(RequestObject), Some(StatusObject))
  }

  /** The intended call passes a 6 second exposure with the default skip time of 0 and hands
      the request and status objects to their own parameters. */
  lemma TestStartCallBinds()
    ensures TestStartCall() == Ok(IoStartCall(Number(6.0), Number(0.0), RequestObject, StatusObject))
    ensures SkipTimeOf(TestStartCall().value) == Ok(0.0)
  {
  }

  // ---------------------------------------------------------------- Start

  datatype StartArgs = StartArgs(exposureTime: real, skipTime: real, numExposures: int)

  /** `Start.parse_arguments`: each of the first three arguments, when given, replaces its
      default (3 seconds, 0 seconds, 1 exposure); a value `float`/`int` rejects is a ValueError.
      Further arguments are ignored. */
  function ParseStart(args: seq<string>): (r: Result<StartArgs>)
    ensures r.Err? ==> r.error == ValueError
  {
    var exposure := if |args| > 0 then ParseFloat(args[0]) else Some(3.0);
    var skip := if |args| > 1 then ParseFloat(args[1]) else Some(0.0);
    var count := if |args| > 2 then ParseInt(args[2]) else Some(1);
    if exposure.None? || skip.None? || count.None? then Err(ValueError)
    else Ok(StartArgs(exposure.value, skip.value, count.value))
  }

  /** Without arguments Start takes a 3 second exposure without skipping, once. */
  lemma StartDefaults()
    ensures ParseStart([]) == Ok(StartArgs(3.0, 0.0, 1))
  {
  }

  /** The printed forms of the three values parse back to them, whatever follows. */
  lemma StartArgumentsRoundTrip(exposureTime: nat, skipTime: nat, numExposures: int, rest: seq<string>)
    ensures ParseStart([DecimalString(exposureTime), DecimalString(skipTime), IntString(numExposures)] + rest)
      == Ok(StartArgs(exposureTime as real, skipTime as real, numExposures))
  {
    ParseFloatDecimal(exposureTime);
    ParseFloatDecimal(skipTime);
    ParseIntString(numExposures);
  }

  /** A single argument overrides the exposure time alone. */
  lemma StartExposureOnly(exposureTime: nat)
    ensures ParseStart([DecimalString(exposureTime)]) == Ok(StartArgs(exposureTime as real, 0.0, 1))
  {
    ParseFloatDecimal(exposureTime);
  }

  /** The `io_start` calls of a Start command: one per exposure, none when the count is not
      positive (`range` of a negative number is empty). */
  function StartCalls(p: StartArgs): seq<IoStartCall>
  {
    seq(if p.numExposures > 0 then p.numExposures else 0,
        _ => IoStartCall(Number(p.exposureTime), Number(p.skipTime), RequestObject, StatusObject))
  }

  /** `Start`: its fields are set by `parse_arguments` one argument at a time. */
  class StartCommand {
    var exposureTime: real
    var skipTime: real
    var numExposures: int

    constructor()
      ensures exposureTime == 3.0 && skipTime == 0.0 && numExposures == 1
    {
      exposureTime := 3.0;
      skipTime := 0.0;
      numExposures := 1;
    }

    /** `parse_arguments`; an argument that does not parse stops the parse with ValueError and
        leaves the fields assigned so far in place. */
    method ParseArguments(args: seq<string>) returns (outcome: Outcome)
      modifies this
      ensures outcome == if ParseStart(args).Ok? then Pass else Fail(ValueError)
      ensures outcome.Pass? ==> StartArgs(exposureTime, skipTime, numExposures) == ParseStart(args).value
      ensures outcome.Fail? ==> numExposures == old(numExposures)
      ensures outcome.Fail? && |args| > 0 && ParseFloat(args[0]).None? ==>
        exposureTime == old(exposureTime) && skipTime == old(skipTime)
    {
      if |args| > 0 {
        match ParseFloat(args[0])
        case None =>
          return Fail(ValueError);
        case Some(x) =>
          exposureTime := x;
      } else {
        exposureTime := 3.0;
      }
      if |args| > 1 {
        match ParseFloat(args[1])
        case None =>
          return Fail(ValueError);
        case Some(x) =>
          skipTime := x;
      } else {
        skipTime := 0.0;
      }
      if |args| > 2 {
        match ParseInt(args[2])
        case None =>
          return Fail(ValueError);
        case Some(n) =>
          numExposures := n;
      } else {
        numExposures := 1;
      }
      outcome := Pass;
    }

    /** `execute_command`: parse, then call `io_start` once per exposure. The calls are
        returned in order; their effects are not modelled. */
    method Execute(args: seq<string>) returns (r: Result<seq<IoStartCall>>)
      modifies this
      ensures r == match ParseStart(args)
        case Ok(p) => Ok(StartCalls(p))
        case Err(e) => Err(e)
    {
      var parsed := ParseArguments(args);
      if parsed.Fail? {
        return Err(parsed.error);
      }
      var calls := StartExposures(exposureTime, skipTime, numExposures);
      r := Ok(calls);
    }
  }

  /** The loop of `Start.execute_command`: one `io_start` call per exposure, in order. */
  method StartExposures(time: real, skip: real, count: int) returns (calls: seq<IoStartCall>)
    ensures calls == StartCalls(StartArgs(time, skip, count))
  {
    ghost var p := StartArgs(time, skip, count);
    calls := [];
    var exposure := 0;
    while exposure < count
      invariant 0 <= exposure <= |StartCalls(p)|
      invariant calls == StartCalls(p)[..exposure]
    {
      StartCallBinds(time, skip);
      calls := calls + [StartCall(time, skip).value];
      exposure := exposure + 1;
    }
    assert StartCalls(p)[..|StartCalls(p)|] == StartCalls(p);
  }

  /** Start runs `io_start` exactly `num_exposures` times (no time when it is not positive),
      each with the parsed exposure and skip times. */
  lemma StartCallCount(p: StartArgs)
    ensures |StartCalls(p)| == if p.numExposures > 0 then p.numExposures else 0
    ensures forall i :: 0 <= i < |StartCalls(p)| ==>
      Ok(StartCalls(p)[i]) == StartCall(p.exposureTime, p.skipTime)
  {
  }

  // ---------------------------------------------------------------- Config

  /** Parses every text with `parse`; None as soon as one of them does not parse. */
  function ParseEach<T>(texts: seq<string>, parse: string -> Option<T>): (r: Option<seq<T>>)
    ensures r.Some? <==> forall i :: 0 <= i < |texts| ==> parse(texts[i]).Some?
    ensures r.Some? ==> (|r.value| == |texts| &&
      forall i :: 0 <= i < |texts| ==> parse(texts[i]) == Some(r.value[i]))
    decreases |texts|
  {
    if |texts| == 0 then Some([])
    else
      match parse(texts[0])
      case None => None
      case Some(v) =>
        match ParseEach(texts[1..], parse)
        case None => None
        case Some(vs) =>
          assert forall i :: 1 <= i < |texts| ==> texts[i] == texts[1..][i - 1];
          Some([v] + vs)
  }

  /** `int(offset.strip(), 16)`. */
  function OffsetValue(offset: string): Option<int>
  {
    ParseHex(Strip(offset))
  }

  /** One argument of Config: a comma-separated list of base-16 integers. */
  function ParseOffsetList(text: string): Option<seq<int>>
  {
    ParseEach(Split(text, ','), OffsetValue)
  }

  /** `Config.parse_arguments`: one offset list per argument; ValueError when any offset of any
      list is not a base-16 integer. */
  function ParseOffsets(args: seq<string>): (r: Result<seq<seq<int>>>)
    ensures r.Ok? <==> forall i :: 0 <= i < |args| ==> ParseOffsetList(args[i]).Some?
    ensures r.Ok? ==> (|r.value| == |args| &&
      forall i :: 0 <= i < |args| ==> ParseOffsetList(args[i]) == Some(r.value[i]))
    ensures r.Err? ==> r.error == ValueError
  {
    match ParseEach(args, ParseOffsetList)
    case None => Err(ValueError)
    case Some(lists) => Ok(lists)
  }

  /** `','.join(hex(o) for o in offsets)`. */
  function OffsetListText(offsets: seq<nat>): string
  {
    Join(seq(|offsets|, i requires 0 <= i < |offsets| => HexString(offsets[i])), ',')
  }

  lemma HexStringHasNoComma(n: nat)
    ensures ',' !in HexString(n)
    ensures Strip(HexString(n)) == HexString(n)
  {
    var s := HexString(n);
    assert forall i :: 2 <= i < |s| ==> HexValue(s[i]).Some?;
    assert !IsSpace(s[0]) && !IsSpace(s[|s| - 1]);
    assert StripLeft(s) == s;
    assert StripRight(s) == s;
  }

  lemma OffsetValueOfHex(n: nat)
    ensures ',' !in HexString(n) && OffsetValue(HexString(n)) == Some(n)
  {
    HexStringHasNoComma(n);
    ParseHexRoundTrip(n);
  }

  /** A non-empty offset list written in hexadecimal, comma-separated, parses back to itself. */
  lemma OffsetListRoundTrip(offsets: seq<nat>)
    requires |offsets| > 0
    ensures ParseOffsetList(OffsetListText(offsets)) == Some(offsets)
  {
    var parts := seq(|offsets|, i requires 0 <= i < |offsets| => HexString(offsets[i]));
    forall i | 0 <= i < |parts|
      ensures ',' !in parts[i] && OffsetValue(parts[i]) == Some(offsets[i])
    {
      OffsetValueOfHex(offsets[i]);
    }
    SplitJoin(parts, ',');
    var parsed := ParseEach(parts, OffsetValue);
    assert parsed.Some?;
    assert parsed.value == offsets;
  }

  /** Every camera's list printed this way is read back by Config unchanged. */
  lemma OffsetsRoundTrip(lists: seq<seq<nat>>)
    requires forall i :: 0 <= i < |lists| ==> |lists[i]| > 0
    ensures var args := seq(|lists|, i requires 0 <= i < |lists| => OffsetListText(lists[i]));
      ParseOffsets(args).Ok? && |ParseOffsets(args).value| == |lists| &&
      forall i :: 0 <= i < |lists| ==> ParseOffsets(args).value[i] == lists[i]
  {
    var args := seq(|lists|, i requires 0 <= i < |lists| => OffsetListText(lists[i]));
    forall i | 0 <= i < |lists|
      ensures ParseOffsetList(args[i]) == Some(lists[i])
    {
      OffsetListRoundTrip(lists[i]);
    }
  }

  /** An empty argument is not an offset list: `int('', 16)` raises ValueError. */
  lemma EmptyOffsetListRejected()
    ensures ParseOffsets([""]) == Err(ValueError)
  {
    assert Split("", ',') == [""];
    assert Strip("") == "";
    assert OffsetValue("") == None;
  }

  /** What `inspect_offsets` accepts: a list for each of the `numCams` cameras and, in every
      list, an offset for each of the `numOffsets` channels. Extra lists and extra offsets only
      warn. */
  predicate OffsetsAcceptable(offsets: seq<seq<int>>, numCams: int, numOffsets: int)
  {
    |offsets| >= numCams && forall i :: 0 <= i < |offsets| ==> |offsets[i]| >= numOffsets
  }

  /** `Config`: `offsets` holds the parsed lists. */
  class ConfigCommand {
    var offsets: seq<seq<int>>

    constructor()
      ensures offsets == []
    {
      offsets := [];
    }

    /** `parse_arguments`: the offsets are replaced only when every argument parses. */
    method ParseArguments(args: seq<string>) returns (outcome: Outcome)
      modifies this
      ensures outcome.Pass? <==> ParseOffsets(args).Ok?
      ensures outcome.Fail? ==> outcome.error == ValueError && offsets == old(offsets)
      ensures outcome.Pass? ==> offsets == ParseOffsets(args).value
    {
      match ParseOffsets(args)
      case Err(e) =>
        outcome := Fail(e);
      case Ok(parsed) =>
        offsets := parsed;
        outcome := Pass;
    }

    /** `inspect_offsets` with NUMBEROFCAMERAS and NUMBEROFREADOUTCHANNELS passed in: SyntaxError
        for too few lists, or, when there are enough, at the first list that is too short. */
    method InspectOffsets(numCams: int, numOffsets: int) returns (outcome: Outcome)
      ensures outcome.Pass? <==> OffsetsAcceptable(offsets, numCams, numOffsets)
      ensures outcome.Fail? ==> outcome.error == SyntaxError
    {
      if |offsets| < numCams {
        return Fail(SyntaxError);
      }
      var i := 0;
      while i < |offsets|
        invariant 0 <= i <= |offsets|
        invariant forall j :: 0 <= j < i ==> |offsets[j]| >= numOffsets
      {
        if |offsets[i]| < numOffsets {
          return Fail(SyntaxError);
        }
        i := i + 1;
      }
      outcome := Pass;
    }
  }

  // ---------------------------------------------------------------- Mode

  /** The reduction mode a Mode command selects: its first argument upper-cased, which must be
      a FRAME_REDUCE_METHODS key (AssertionError otherwise); 'CDS' without arguments. */
  function SelectedMode(args: seq<string>): (r: Result<ExposureTiming.Mode>)
    ensures r.Err? <==> |args| > 0 && Upper(args[0]) !in ExposureTiming.ModeNames
    ensures r.Err? ==> r.error == AssertionError
    ensures r.Ok? && |args| > 0 ==> ExposureTiming.ModeName(r.value) == Upper(args[0])
  {
    if |args| == 0 then Ok(ExposureTiming.CDS)
    else match ExposureTiming.ParseMode(Upper(args[0]))
      case Some(m) => Ok(m)
      case None => Err(AssertionError)
  }

  /** Any spelling of a mode name that upper-cases to it selects that mode. */
  lemma SelectedModeAnyCase(m: ExposureTiming.Mode, arg: string, rest: seq<string>)
    requires Upper(arg) == ExposureTiming.ModeName(m)
    ensures SelectedMode([arg] + rest) == Ok(m)
  {
    ExposureTiming.ParseModeName(m);
  }

  /** `Mode`: `mode` starts as 'CDS'. */
  class ModeCommand {
    var mode: string

    constructor()
      ensures mode == "CDS"
    {
      mode := "CDS";
    }

    /** `parse_arguments`: the upper-cased argument is stored before it is checked. */
    method ParseArguments(args: seq<string>) returns (outcome: Outcome)
      modifies this
      ensures |args| == 0 ==> mode == old(mode) && outcome == Pass
      ensures |args| > 0 ==> mode == Upper(args[0])
      ensures outcome.Pass? <==> SelectedMode(args).Ok?
      ensures outcome.Fail? ==> outcome.error == AssertionError
    {
      if |args| > 0 {
        mode := Upper(args[0]);
        if mode !in ExposureTiming.ModeNames {
          return Fail(AssertionError);
        }
      }
      outcome := Pass;
    }
  }

  lemma UpperModeKey()
    ensures Upper("MODE") == "MODE"
  {
  }

  /** After a successful Mode command, `update_setting('MODE', mode)` makes the settings load the
      selected mode's name under MODE, provided no other loaded key upper-cases to MODE. */
  lemma ModeIsPersisted(args: seq<string>, stored: Option<Files.Settings>, defaults: Files.Settings)
    requires |args| > 0 && SelectedMode(args).Ok?
    requires Ordered.Valid(Files.Input(stored)) && Ordered.Valid(defaults)
    requires forall q :: q in Ordered.Keys(Files.LoadedSettings(stored, defaults)) && Upper(q) == "MODE" ==> q == "MODE"
    ensures var file := Files.UpdatedSettings(stored, defaults, "MODE", JString(Upper(args[0])));
      Ordered.Get(Files.LoadedSettings(Some(file), defaults), "MODE")
        == Some(JString(ExposureTiming.ModeName(SelectedMode(args).value)))
  {
    UpperModeKey();
    Files.UpdateSettingRoundTrip(stored, defaults, "MODE", JString(Upper(args[0])));
  }

  // ---------------------------------------------------------------- dispatch

  /** What `execute_command` hands back: the command's response (None for the commands whose
      `execute_command` returns nothing), the traceback text, or an exception it raises. */
  datatype Reply = Response(text: Option<string>) | Traceback | Raise(error: Exception)

  /** The status updates `execute_command` makes, in order. */
  datatype StatusEvent = CommandStarted(command: string) | CommandCompleted

  /** The error a command's argument parsing raises, if any: Start's ValueError and Mode's
      AssertionError; the other dispatchable commands take no arguments. */
  function ParseFailure(c: Command, args: seq<string>): Option<Exception>
  {
    match c
    case Start => if ParseStart(args).Err? then Some(ParseStart(args).error) else None
    case Mode => if SelectedMode(args).Err? then Some(SelectedMode(args).error) else None
    case _ => None
  }

  /** The commands whose `execute_command` has no return statement, so they answer None. */
  predicate AnswersNone(c: Command)
  {
    c == Test || c == Mode
  }

  /** The end of TEST's `io_start(6, self.request, self.status)` as written: the request
      object is bound to `skip_time`, and `start` raises when it divides it by the frame time. */
  function TestStart(): (r: Result<Option<string>>)
  {
    match TestStartCallAsWritten()
    case Err(e) => Err(e)
    case Ok(call) => if SkipTimeOf(call).Err? then Err(SkipTimeOf(call).error) else Ok(None)
  }

  /** A command's own work: its argument parsing, then `effects`, the outcome of its device and
      file calls together with the response it renders (for TEST: `io_open`, `io_init` and the
      frame count `start` computes before the skip time); TEST then fails in `start`, and MODE
      answers None when its calls go through. */
  function Run(c: Command, args: seq<string>, effects: Result<Option<string>>): Result<Option<string>>
  {
    match ParseFailure(c, args)
    case Some(e) => Err(e)
    case None =>
      if effects.Err? then effects
      else if c == Test then TestStart()
      else if AnswersNone(c) then Ok(None)
      else effects
  }

  /** How a failure of the command reaches the client. */
  function FailureReply(e: Exception, errorNak: bool): (reply: Reply)
  {
    if e == ConnectionAbortedError then Raise(ConnectionAbortedError)
    else if errorNak then Raise(ExecutionError)
    else Traceback
  }

  /** `execute_command(text)` with ERRORNAK as `errorNak`: the reply and the status events. */
  function ExecuteCommand(text: string, errorNak: bool, effects: Result<Option<string>>): (Reply, seq<StatusEvent>)
  {
    var tokens := SplitWhitespace(text);
    if |tokens| == 0 then (Raise(IndexError), [])
    else
      var command := Upper(tokens[0]);
      var bracketed := command != "STATUS";
      var result := match LookupCommand(command)
        case None => Err(KeyError)
        case Some(c) => Run(c, tokens[1..], effects);
      var reply := match result
        case Ok(response) => Response(response)
        case Err(e) => FailureReply(e, errorNak);
      (reply, if bracketed then [CommandStarted(command), CommandCompleted] else [])
  }

  /** The status changes the events make, starting from `before`; `template` is the status
      template file and `started`/`completed` the ISO times of the two updates. */
  function ApplyEvents(before: StatusSink.Status, events: seq<StatusEvent>, template: StatusSink.Status,
                       started: string, completed: string): StatusSink.Status
    decreases |events|
  {
    if |events| == 0 then before
    else
      var next := match events[0]
        case CommandStarted(c) => template["CurrentCommand" := JString(c)]["CommandStartTime" := JString(started)]
        case CommandCompleted => before["CommandComplete" := JBool(true)]["CommandCompleteTime" := JString(completed)];
      ApplyEvents(next, events[1..], template, started, completed)
  }

  /** An empty command fails with IndexError before any status update. Every other command but
      STATUS is bracketed by exactly one start and one completion, whatever its outcome; STATUS
      updates nothing. */
  lemma StatusBracketing(text: string, errorNak: bool, effects: Result<Option<string>>)
    ensures SplitWhitespace(text) == [] ==> ExecuteCommand(text, errorNak, effects) == (Raise(IndexError), [])
    ensures SplitWhitespace(text) != [] && Upper(SplitWhitespace(text)[0]) == "STATUS" ==>
      ExecuteCommand(text, errorNak, effects).1 == []
    ensures SplitWhitespace(text) != [] && Upper(SplitWhitespace(text)[0]) != "STATUS" ==>
      ExecuteCommand(text, errorNak, effects).1 ==
        [CommandStarted(Upper(SplitWhitespace(text)[0])), CommandCompleted]
  {
  }

  /** The status a bracketed command leaves behind is the template with the command, its start
      time and its completion recorded, whether it succeeded or failed; STATUS leaves the status
      as it was. */
  lemma BracketedStatus(text: string, errorNak: bool, effects: Result<Option<string>>,
                        before: StatusSink.Status, template: StatusSink.Status, started: string, completed: string)
    requires SplitWhitespace(text) != []
    ensures var command := Upper(SplitWhitespace(text)[0]);
      ApplyEvents(before, ExecuteCommand(text, errorNak, effects).1, template, started, completed) ==
        if command == "STATUS" then before
        else template["CurrentCommand" := JString(command)]["CommandStartTime" := JString(started)]
               ["CommandComplete" := JBool(true)]["CommandCompleteTime" := JString(completed)]
  {
    var command := Upper(SplitWhitespace(text)[0]);
    var events := ExecuteCommand(text, errorNak, effects).1;
    if command != "STATUS" {
      var afterStart := template["CurrentCommand" := JString(command)]["CommandStartTime" := JString(started)];
      assert events[1..] == [CommandCompleted];
      assert events[1..][1..] == [];
      assert ApplyEvents(before, events, template, started, completed)
        == ApplyEvents(afterStart, [CommandCompleted], template, started, completed);
    }
  }

  /** Failures: an unknown command is a KeyError, a bad Start argument a ValueError and a bad
      Mode argument an AssertionError; each is reported as the traceback text, or raised as
      ExecutionError when ERRORNAK is set. ConnectionAbortedError is always re-raised. */
  lemma FailureReplies(text: string, errorNak: bool, effects: Result<Option<string>>)
    requires SplitWhitespace(text) != []
    ensures var tokens := SplitWhitespace(text);
      var reply := ExecuteCommand(text, errorNak, effects).0;
      var nak := if errorNak then Raise(ExecutionError) else Traceback;
      (LookupCommand(Upper(tokens[0])).None? ==> reply == nak) &&
      (LookupCommand(Upper(tokens[0])) == Some(Start) && ParseStart(tokens[1..]).Err? ==> reply == nak) &&
      (LookupCommand(Upper(tokens[0])) == Some(Mode) && SelectedMode(tokens[1..]).Err? ==> reply == nak) &&
      (LookupCommand(Upper(tokens[0])).Some? && ParseFailure(LookupCommand(Upper(tokens[0])).value, tokens[1..]).None? ==>
        (effects == Err(ConnectionAbortedError) ==> reply == Raise(ConnectionAbortedError)) &&
        (effects.Err? && effects.error != ConnectionAbortedError ==> reply == nak) &&
        (effects.Ok? && !AnswersNone(LookupCommand(Upper(tokens[0])).value) ==> reply == Response(effects.value)))
  {
  }

  /** A dispatched command whose arguments parse and whose calls go through answers with its
      rendered response, except MODE, which answers None, and TEST, whose `io_start` call raises
      TypeError, reported as any failure is. */
  lemma Responses(text: string, errorNak: bool, response: Option<string>)
    requires SplitWhitespace(text) != [] && LookupCommand(Upper(SplitWhitespace(text)[0])).Some?
    ensures var tokens := SplitWhitespace(text);
      var c := LookupCommand(Upper(tokens[0])).value;
      var reply := ExecuteCommand(text, errorNak, Ok(response)).0;
      ParseFailure(c, tokens[1..]).None? ==>
        (c == Test ==> reply == FailureReply(TypeError, errorNak)) &&
        (c == Mode ==> reply == Response(None)) &&
        (c in {Open, Init, Start, Close, Status} ==> reply == Response(response))
  {
    TestStartCallMisbinds();
  }

  /** Dispatch depends only on the upper-cased command word and the other tokens (and so, by
      `SpacingIgnored`, not on the spacing). */
  lemma CaseInsensitive(a: string, b: string, errorNak: bool, effects: Result<Option<string>>)
    requires SplitWhitespace(a) != [] && SplitWhitespace(b) != []
    requires Upper(SplitWhitespace(a)[0]) == Upper(SplitWhitespace(b)[0])
    requires SplitWhitespace(a)[1..] == SplitWhitespace(b)[1..]
    ensures ExecuteCommand(a, errorNak, effects) == ExecuteCommand(b, errorNak, effects)
  {
  }

  /** The same words with different whitespace between, before or after them make the same
      command. */
  lemma SpacingIgnored(words: seq<string>, gaps: seq<string>, gaps': seq<string>, errorNak: bool,
                       effects: Result<Option<string>>)
    requires WellSpaced(words, gaps) && WellSpaced(words, gaps')
    ensures ExecuteCommand(Spaced(words, gaps), errorNak, effects) == ExecuteCommand(Spaced(words, gaps'), errorNak, effects)
  {
    SplitWhitespaceSpaced(words, gaps);
    SplitWhitespaceSpaced(words, gaps');
  }

  /** `execute_command` against the status object: the status updates happen around the
      command exactly as the events say. */
  method ExecuteCommandOn(status: StatusSink.StatusHandler, text: string, errorNak: bool,
                          effects: Result<Option<string>>, template: StatusSink.Status,
                          started: string, completed: string) returns (reply: Reply)
    modifies status
    ensures reply == ExecuteCommand(text, errorNak, effects).0
    ensures status.status ==
      ApplyEvents(old(status.status), ExecuteCommand(text, errorNak, effects).1, template, started, completed)
  {
    var tokens := SplitWhitespace(text);
    if |tokens| == 0 {
      return Raise(IndexError);
    }
    var command := Upper(tokens[0]);
    if command != "STATUS" {
      status.UpdateCurrentCommand(command, template, started);
    }
    var arguments := tokens[1..];
    var result := match LookupCommand(command)
      case None => Err(KeyError)
      case Some(c) => Run(c, arguments, effects);
    if command != "STATUS" {
      status.UpdateCommandComplete(true, completed);
    }
    reply := match result
      case Ok(response) => Response(response)
      case Err(e) => FailureReply(e, errorNak);
    BracketedStatus(text, errorNak, effects, old(status.status), template, started, completed);
  }
}

=== FILE: json.dfy ===
/** JSON values as Python's `json` module loads them. Objects are maps from key to value;
    the key order of a loaded object is not part of the model. */
module Json {

  datatype Json =
    | JNull
    | JBool(b: bool)
    | JInt(i: int)
    | JReal(r: real)
    | JString(s: string)
    | JArray(items: seq<Json>)
    | JObject(fields: map<string, Json>)
}

=== FILE: macie.dfy ===
/** BaseMACIE (asdetector/detector/macie/io.py) as an object: the fields the acquisition reads
    and updates, and the methods that update them, each proved to do what the functions of
    module Acquisition say. The telemetry parse is BaseACADIA's; with other than six science
    headers it is BaseMACIE's, which keeps the camera and adds no keywords. */
module MacieSession {
  import opened Wrappers
  import opened Text
  import opened Header
  import opened Acquisition
  import Ordered
  import Telemetry
  import Slices
  import StatusSink
  import Cards
  import ExposureTiming
  import Json

  // ---------------------------------------------------------------- gen_asic_info_headers

  /** `for asic in list_asics_index: asic_info_header[str(asic)] = {}`. */
  function EmptyInfo(info: map<string, seq<(HeaderKey, Value)>>, indices: seq<int>): map<string, seq<(HeaderKey, Value)>>
    decreases |indices|
  {
    if |indices| == 0 then info
    else EmptyInfo(info, indices[..|indices| - 1])[IntString(indices[|indices| - 1]) := []]
  }

  /** A row of ASICLOOKUPTABLE. */
  datatype LookupRow = LookupRow(sca: int, position: int, sce: int)

  /** The keywords `gen_asic_info_headers` records for one ASIC, in the order it writes them. */
  function AsicEntries(address: int, index: int, row: LookupRow): seq<(HeaderKey, Value)>
  {
    [(ASICINDX, IntValue(index)), (ASICADDR, IntValue(address)), (DETECTOR, IntValue(row.sca)),
     (ASICSN, IntValue(row.sce)), (FPAPOS, IntValue(row.position)), (CHIP, IntValue(row.position))]
  }

  /** The ASIC information and whether `gen_asic_info_headers` has raised. */
  datatype InfoRun = InfoRun(info: map<string, seq<(HeaderKey, Value)>>, outcome: Outcome)

  /** One ASIC: KeyError when its entry was not created; ASICINDX and ASICADDR are written
      before the table row is looked up, so an IndexError there leaves them written. */
  function AsicInfoStep(info: map<string, seq<(HeaderKey, Value)>>, address: int, index: int, table: seq<LookupRow>): InfoRun
  {
    var key := IntString(index);
    if key !in info then InfoRun(info, Fail(KeyError))
    else match Slices.At(table, index)
      case Err(e) =>
        InfoRun(info[key := Ordered.SetAll(info[key], [(ASICINDX, IntValue(index)), (ASICADDR, IntValue(address))])], Fail(e))
      case Ok(row) => InfoRun(info[key := Ordered.SetAll(info[key], AsicEntries(address, index, row))], Pass)
  }

  function MinLength(a: seq<int>, b: seq<int>): nat
  {
    if |a| < |b| then |a| else |b|
  }

  /** The first k turns of `for address, index in zip(list_asics, list_asics_index)`. */
  function AsicInfoRun(info: map<string, seq<(HeaderKey, Value)>>, addresses: seq<int>, indices: seq<int>,
                       table: seq<LookupRow>, k: nat): InfoRun
    requires k <= MinLength(addresses, indices)
    decreases k
  {
    if k == 0 then InfoRun(info, Pass)
    else
      var r := AsicInfoRun(info, addresses, indices, table, k - 1);
      if r.outcome.Fail? then r else AsicInfoStep(r.info, addresses[k - 1], indices[k - 1], table)
  }

  lemma AsicEntriesValid(address: int, index: int, row: LookupRow)
    ensures Ordered.Valid(AsicEntries(address, index, row))
  {
    var e := AsicEntries(address, index, row);
    assert Ordered.Keys(e) == [ASICINDX, ASICADDR, DETECTOR, ASICSN, FPAPOS, CHIP];
  }

  /** Every ASIC has an entry after `init`, and it is empty. */
  lemma {:induction false} EmptyInfoHas(info: map<string, seq<(HeaderKey, Value)>>, indices: seq<int>)
    ensures forall i :: 0 <= i < |indices| ==>
      IntString(indices[i]) in EmptyInfo(info, indices) && EmptyInfo(info, indices)[IntString(indices[i])] == []
    decreases |indices|
  {
    if |indices| > 0 {
      var front := indices[..|indices| - 1];
      EmptyInfoHas(info, front);
      forall i | 0 <= i < |indices|
        ensures IntString(indices[i]) in EmptyInfo(info, indices) && EmptyInfo(info, indices)[IntString(indices[i])] == []
      {
        if i < |indices| - 1 {
          assert indices[i] == front[i];
        }
      }
    }
  }

  /** What the ASIC information holds after the first k turns: each of the first k ASICs its
      own entries, the others still nothing. */
  predicate InfoAfter(info: map<string, seq<(HeaderKey, Value)>>, addresses: seq<int>, indices: seq<int>,
                      table: seq<LookupRow>, k: nat)
    requires k <= MinLength(addresses, indices)
  {
    (forall i :: 0 <= i < |indices| ==> IntString(indices[i]) in info) &&
    (forall i :: 0 <= i < k ==>
      Slices.At(table, indices[i]).Ok? &&
      info[IntString(indices[i])] == AsicEntries(addresses[i], indices[i], Slices.At(table, indices[i]).value)) &&
    (forall i :: k <= i < |indices| ==> |info[IntString(indices[i])]| == 0)
  }

  /** The turns of `gen_asic_info_headers` from entries that are all still empty. */
  lemma {:induction false} AsicInfoFrom(start: map<string, seq<(HeaderKey, Value)>>, addresses: seq<int>,
                                        indices: seq<int>, table: seq<LookupRow>, k: nat)
    requires Ordered.Distinct(indices) && k <= MinLength(addresses, indices)
    requires InfoAfter(start, addresses, indices, table, 0)
    ensures AsicInfoRun(start, addresses, indices, table, k).outcome.Pass? <==>
      forall i :: 0 <= i < k ==> -(|table| as int) <= indices[i] < |table|
    ensures AsicInfoRun(start, addresses, indices, table, k).outcome.Pass? ==>
      InfoAfter(AsicInfoRun(start, addresses, indices, table, k).info, addresses, indices, table, k)
    decreases k
  {
    if k > 0 {
      AsicInfoFrom(start, addresses, indices, table, k - 1);
      var r := AsicInfoRun(start, addresses, indices, table, k - 1);
      if r.outcome.Pass? {
        AsicInfoTurn(start, addresses, indices, table, k, r.info);
      } else {
        assert AsicInfoRun(start, addresses, indices, table, k) == r;
        var i :| 0 <= i < k - 1 && !(-(|table| as int) <= indices[i] < |table|);
      }
    }
  }

  /** Turn k after k − 1 turns that went through and left `info`. */
  lemma AsicInfoTurn(start: map<string, seq<(HeaderKey, Value)>>, addresses: seq<int>,
                     indices: seq<int>, table: seq<LookupRow>, k: nat, info: map<string, seq<(HeaderKey, Value)>>)
    requires Ordered.Distinct(indices) && 0 < k <= MinLength(addresses, indices)
    requires AsicInfoRun(start, addresses, indices, table, k - 1) == InfoRun(info, Pass)
    requires InfoAfter(info, addresses, indices, table, k - 1)
    ensures AsicInfoRun(start, addresses, indices, table, k).outcome.Pass? <==> -(|table| as int) <= indices[k - 1] < |table|
    ensures AsicInfoRun(start, addresses, indices, table, k).outcome.Pass? ==>
      InfoAfter(AsicInfoRun(start, addresses, indices, table, k).info, addresses, indices, table, k)
  {
    assert AsicInfoRun(start, addresses, indices, table, k) == AsicInfoStep(info, addresses[k - 1], indices[k - 1], table);
    AsicInfoStepKeeps(info, addresses, indices, table, k - 1);
  }

  /** After the entries are created, `gen_asic_info_headers` goes through exactly when every
      ASIC index is a position of ASICLOOKUPTABLE, and then, the indices being distinct, each
      ASIC's entry holds its index, its address, and its row's sca, sce and position, in
      that order, and nothing else. */
  lemma AsicInfoAfterInit(info: map<string, seq<(HeaderKey, Value)>>, addresses: seq<int>,
                          indices: seq<int>, table: seq<LookupRow>)
    requires Ordered.Distinct(indices)
    ensures AsicInfoRun(EmptyInfo(info, indices), addresses, indices, table, MinLength(addresses, indices)).outcome.Pass? <==>
      forall i :: 0 <= i < MinLength(addresses, indices) ==> -(|table| as int) <= indices[i] < |table|
    ensures AsicInfoRun(EmptyInfo(info, indices), addresses, indices, table, MinLength(addresses, indices)).outcome.Pass? ==>
      InfoAfter(AsicInfoRun(EmptyInfo(info, indices), addresses, indices, table, MinLength(addresses, indices)).info,
                addresses, indices, table, MinLength(addresses, indices))
  {
    EmptyInfoHas(info, indices);
    AsicInfoFrom(EmptyInfo(info, indices), addresses, indices, table, MinLength(addresses, indices));
  }

  /** One turn keeps every other ASIC's entry and fills in the ASIC's own. */
  lemma AsicInfoStepKeeps(info: map<string, seq<(HeaderKey, Value)>>, addresses: seq<int>, indices: seq<int>,
                          table: seq<LookupRow>, j: nat)
    requires Ordered.Distinct(indices) && j < MinLength(addresses, indices)
    requires InfoAfter(info, addresses, indices, table, j)
    ensures AsicInfoStep(info, addresses[j], indices[j], table).outcome.Pass? <==> -(|table| as int) <= indices[j] < |table|
    ensures AsicInfoStep(info, addresses[j], indices[j], table).outcome.Pass? ==>
      InfoAfter(AsicInfoStep(info, addresses[j], indices[j], table).info, addresses, indices, table, j + 1)
  {
    var key := IntString(indices[j]);
    match Slices.At(table, indices[j])
    case Err(_) =>
    case Ok(row) =>
      AsicEntriesValid(addresses[j], indices[j], row);
      Ordered.SetAllFresh(AsicEntries(addresses[j], indices[j], row));
      var info' := AsicInfoStep(info, addresses[j], indices[j], table).info;
      assert info' == info[key := AsicEntries(addresses[j], indices[j], row)];
      forall i | 0 <= i < |indices| && i != j
        ensures info'[IntString(indices[i])] == info[IntString(indices[i])]
      {
        IntStringInjective(indices[i], indices[j]);
      }
  }

  /** `for k, v in entries: fits_header[k]['value'] = v`. */
  method WriteAll(h: Fits, entries: seq<(HeaderKey, Value)>) returns (w: Written)
    ensures w == WriteValues(h, entries)
  {
    var cur := h;
    for i := 0 to |entries|
      invariant WriteValues(h, entries[..i]) == Written(cur, Pass)
    {
      assert entries[..i + 1][..i] == entries[..i];
      match Ordered.Get(cur, entries[i].0)
      case None =>
        WriteValuesFailStays(h, entries, i + 1);
        return Written(cur, Fail(KeyError));
      case Some(e) =>
        cur := Ordered.Set(cur, entries[i].0, e.(value := Some(entries[i].1)));
    }
    assert entries[..|entries|] == entries;
    return Written(cur, Pass);
  }

  /** What `gen_fits_header` returns is the header's cards. */
  lemma CardsOfHeader(h: Fits, r: Result<seq<Card>>)
    requires r.Ok? <==> forall i :: 0 <= i < |h| ==> HasCard(h[i].1)
    requires r.Err? ==> r.error == KeyError
    requires r.Ok? ==> |r.value| == |h| && forall i :: 0 <= i < |h| ==>
      r.value[i] == Card(Name(h[i].0), h[i].1.value.value, h[i].1.comment.value)
    ensures r == FitsCards(h)
  {
    if r.Ok? {
      assert r.value == FitsCards(h).value;
    }
  }

  /** The writes and the cards of `format_frame_info`, one write at a time. */
  method FormatParsedOn(c: Context, header: Fits, p: Telemetry.Parsed, n: nat, reset: bool)
    returns (r: (Fits, Result<FrameInfo>))
    ensures r == FormatParsed(c, header, p, n, reset)
  {
    var w := WriteAll(header, [(ISRESET, BoolValue(reset))]);
    var key := IntString(p.camIndex);
    if w.outcome.Fail? || key !in c.asicInfo {
      return (w.header, Err(KeyError));
    }
    w := WriteAll(w.header, c.asicInfo[key]);
    if w.outcome.Fail? {
      return (w.header, Err(KeyError));
    }
    w := WriteAll(w.header, IntEntries(p.header));
    if w.outcome.Fail? {
      return (w.header, Err(KeyError));
    }
    var cards := Header.GenFitsHeader(w.header);
    CardsOfHeader(w.header, cards);
    if cards.Err? {
      return (w.header, Err(cards.error));
    }
    r := (w.header, Ok(FrameInfo(FrameName(c.naming, p.camName, n, reset), p.camName, p.camIndex, cards.value)));
  }

  /** `format_frame_info` on values: the parse, then the writes and the cards. */
  method FormatOn(c: Context, header: Fits, frame: Image, n: nat, camName: string, camIndex: int, reset: bool)
    returns (f: Formatted)
    ensures f == FormatFrameInfo(c, header, frame, n, camName, camIndex, reset)
  {
    var parsed := Parse(c, frame, camName, camIndex);
    if parsed.Err? {
      return Formatted(header, Err(parsed.error));
    }
    var r := FormatParsedOn(c, header, parsed.value, n, reset);
    f := Formatted(r.0, r.1);
  }

  /** `for cam_name in cam_names: self.ramps[cam_name] = []`. */
  method EmptyRamps(ramps: map<string, seq<string>>, names: seq<string>) returns (r: map<string, seq<string>>)
    ensures r == FreshRamps(ramps, names)
  {
    r := ramps;
    for i := 0 to |names|
      invariant r == FreshRamps(ramps, names[..i])
    {
      FreshRampsSnoc(ramps, names, i);
      r := r[names[i] := []];
    }
    assert names[..|names|] == names;
  }

  // ---------------------------------------------------------------- steps of the loops

  /** One more turn of the `asic_info_header` initialisation loop. */
  lemma EmptyInfoSnoc(info: map<string, seq<(HeaderKey, Value)>>, indices: seq<int>, i: nat)
    requires i < |indices|
    ensures EmptyInfo(info, indices[..i + 1]) == EmptyInfo(info, indices[..i])[IntString(indices[i]) := []]
  {
    assert indices[..i + 1][..i] == indices[..i];
  }

  /** One more turn of `for cam_name in cam_names: self.ramps[cam_name] = []`. */
  lemma FreshRampsSnoc(ramps: map<string, seq<string>>, names: seq<string>, i: nat)
    requires i < |names|
    ensures FreshRamps(ramps, names[..i + 1]) == FreshRamps(ramps, names[..i])[names[i] := []]
  {
    assert forall x :: x in names[..i + 1] <==> x in names[..i] || x == names[i] by {
      assert names[..i + 1] == names[..i] + [names[i]];
    }
  }

  /** After an exception `gen_asic_info_headers` does nothing more. */
  lemma {:induction false} AsicInfoRunFailStays(info: map<string, seq<(HeaderKey, Value)>>, addresses: seq<int>,
                                                indices: seq<int>, table: seq<LookupRow>, k: nat, m: nat)
    requires k <= m <= MinLength(addresses, indices)
    requires AsicInfoRun(info, addresses, indices, table, k).outcome.Fail?
    ensures AsicInfoRun(info, addresses, indices, table, m) == AsicInfoRun(info, addresses, indices, table, k)
    decreases m
  {
    if m > k {
      AsicInfoRunFailStays(info, addresses, indices, table, k, m - 1);
    }
  }

  /** After an exception no reset capture does anything. */
  lemma {:induction false} ResetRunFailStays(c: Context, r0: Run, readout: nat -> seq<Image>, save: bool, total: int,
                                             k: nat, m: nat)
    requires k <= m && ResetRun(c, r0, readout, save, total, k).outcome.Fail?
    ensures ResetRun(c, r0, readout, save, total, m) == ResetRun(c, r0, readout, save, total, k)
    decreases m
  {
    if m > k {
      ResetRunFailStays(c, r0, readout, save, total, k, m - 1);
    }
  }

  /** After an exception no science capture does anything. */
  lemma {:induction false} ScienceRunFailStays(c: Context, r0: Run, readout: nat -> seq<Image>, resets: nat,
                                               skips: seq<bool>, save: bool, total: int, k: nat, m: nat)
    requires k <= m <= |skips| && ScienceRun(c, r0, readout, resets, skips, save, total, k).outcome.Fail?
    ensures ScienceRun(c, r0, readout, resets, skips, save, total, m) == ScienceRun(c, r0, readout, resets, skips, save, total, k)
    decreases m
  {
    if m > k {
      ScienceRunFailStays(c, r0, readout, resets, skips, save, total, k, m - 1);
    }
  }

  // ---------------------------------------------------------------- BaseMACIE

  /** The state of a BaseMACIE that acquisition reads and updates. `listAsics` and
      `listAsicsIndex` are what the card reported; `status` is the status file's handler. */
  class Macie {
    var settings: Settings
    var naming: Naming
    var listAsics: seq<int>
    var listAsicsIndex: seq<int>
    var camNames: seq<string>
    var asicInfoHeader: map<string, seq<(HeaderKey, Value)>>
    var header: Fits
    var ramps: map<string, seq<string>>
    var resync: bool
    var saved: seq<SavedFrame>
    var status: StatusSink.StatusHandler
    var imageArrays: map<string, Image>

    /** What acquisition reads. */
    function Ctx(): Context
      reads this
    {
      Context(settings, naming, camNames, listAsicsIndex, asicInfoHeader)
    }

    /** What acquisition changes. */
    function State(): Acq
      reads this, status
    {
      Acq(header, ramps, resync, saved, status.status, imageArrays)
    }

    /** `__init__`: no cameras named, no ASIC information, no ramps, no resync request. */
    constructor(settings: Settings, header: Fits, listAsics: seq<int>, listAsicsIndex: seq<int>)
      ensures this.settings == settings && this.header == header
      ensures this.listAsics == listAsics && this.listAsicsIndex == listAsicsIndex
      ensures camNames == [] && asicInfoHeader == map[] && ramps == map[] && !resync && saved == [] && imageArrays == map[]
      ensures fresh(status) && status.status == map[]
    {
      this.settings := settings;
      this.header := header;
      this.listAsics := listAsics;
      this.listAsicsIndex := listAsicsIndex;
      naming := Naming("", "", "", None, 0);
      camNames := [];
      asicInfoHeader := map[];
      ramps := map[];
      resync := false;
      saved := [];
      imageArrays := map[];
      status := new StatusSink.StatusHandler();
    }

    /** `gen_cam_names`: each ASIC's camera name from CAMERANAMES, IndexError for an index
        outside it (the names are then unchanged). */
    method GenCamNames(cameraNames: seq<string>) returns (outcome: Outcome)
      modifies this
      ensures outcome.Pass? <==> Cards.GenCamNames(listAsicsIndex, cameraNames).Ok?
      ensures outcome.Fail? ==> outcome.error == IndexError && camNames == old(camNames)
      ensures outcome.Pass? ==> camNames == Cards.GenCamNames(listAsicsIndex, cameraNames).value
      ensures Ctx() == old(Ctx()).(camNames := camNames) && State() == old(State())
      ensures listAsics == old(listAsics) && status == old(status)
    {
      Cards.GenCamNamesSpec(listAsicsIndex, cameraNames);
      match Cards.GenCamNames(listAsicsIndex, cameraNames)
      case Err(e) => outcome := Fail(e);
      case Ok(names) =>
        camNames := names;
        outcome := Pass;
    }

    /** `for asic in list_asics_index: asic_info_header[str(asic)] = {}` in `init`. */
    method InitAsicInfo()
      modifies this
      ensures asicInfoHeader == EmptyInfo(old(asicInfoHeader), listAsicsIndex)
      ensures Ctx() == old(Ctx()).(asicInfo := asicInfoHeader) && State() == old(State())
      ensures listAsics == old(listAsics) && status == old(status)
    {
      var info := asicInfoHeader;
      var indices := listAsicsIndex;
      for i := 0 to |indices|
        invariant info == EmptyInfo(old(asicInfoHeader), indices[..i])
        invariant Ctx() == old(Ctx()) && State() == old(State()) && listAsics == old(listAsics) && status == old(status)
      {
        EmptyInfoSnoc(old(asicInfoHeader), indices, i);
        info := info[IntString(indices[i]) := []];
      }
      assert indices[..|indices|] == indices;
      asicInfoHeader := info;
    }

    /** `gen_asic_info_headers` with ASICLOOKUPTABLE given as `table`. */
    method GenAsicInfoHeaders(table: seq<LookupRow>) returns (outcome: Outcome)
      modifies this
      ensures InfoRun(asicInfoHeader, outcome) ==
        AsicInfoRun(old(asicInfoHeader), listAsics, listAsicsIndex, table, MinLength(listAsics, listAsicsIndex))
      ensures Ctx() == old(Ctx()).(asicInfo := asicInfoHeader) && State() == old(State())
      ensures listAsics == old(listAsics) && status == old(status)
    {
      var addresses, indices := listAsics, listAsicsIndex;
      var n := MinLength(addresses, indices);
      for k := 0 to n
        invariant AsicInfoRun(old(asicInfoHeader), addresses, indices, table, k) == InfoRun(asicInfoHeader, Pass)
        invariant Ctx() == old(Ctx()).(asicInfo := asicInfoHeader) && State() == old(State())
        invariant listAsics == addresses && listAsicsIndex == indices && status == old(status)
      {
        assert AsicInfoRun(old(asicInfoHeader), addresses, indices, table, k + 1) ==
          AsicInfoStep(asicInfoHeader, addresses[k], indices[k], table);
        var key := IntString(indices[k]);
        if key !in asicInfoHeader {
          AsicInfoRunFailStays(old(asicInfoHeader), addresses, indices, table, k + 1, n);
          return Fail(KeyError);
        }
        match Slices.At(table, indices[k])
        case Err(e) =>
          asicInfoHeader := asicInfoHeader[key := Ordered.SetAll(asicInfoHeader[key],
            [(ASICINDX, IntValue(indices[k])), (ASICADDR, IntValue(addresses[k]))])];
          AsicInfoRunFailStays(old(asicInfoHeader), addresses, indices, table, k + 1, n);
          return Fail(e);
        case Ok(row) =>
          asicInfoHeader := asicInfoHeader[key := Ordered.SetAll(asicInfoHeader[key], AsicEntries(addresses[k], indices[k], row))];
      }
      outcome := Pass;
    }

    /** `format_frame_info` on a copy of `self.header`: the writes land in `self.header`, and
        the result is the frame's name, camera and cards, or the exception. */
    method FormatFrameInfo(frame: Image, n: nat, camName: string, camIndex: int, reset: bool)
      returns (info: Result<FrameInfo>)
      modifies this
      ensures var f := Acquisition.FormatFrameInfo(old(Ctx()), old(header), frame, n, camName, camIndex, reset);
        header == f.header && info == f.info
      ensures Ctx() == old(Ctx()) && resync == old(resync) && ramps == old(ramps) && saved == old(saved) && imageArrays == old(imageArrays)
      ensures listAsics == old(listAsics) && status == old(status)
    {
      var f := FormatOn(Ctx(), header, frame, n, camName, camIndex, reset);
      header := f.header;
      info := f.info;
    }

    /** `handle_frame` for frame number n: save the frame, and for a science frame record it in
        the status, append it to its camera's ramp and, under REDUCEINTERMEDIATEFRAMES, save and
        record the ramp's intermediate reduction; an exception ends the call. */
    method HandleFrame(info: FrameInfo, frame: Image, n: nat, reset: bool)
      modifies this, status
      ensures State() == Acquisition.HandleFrame(old(Ctx()), old(State()), info, frame, n, reset)
      ensures Ctx() == old(Ctx()) && listAsics == old(listAsics) && status == old(status)
    {
      saved := saved + [SavedFrame(info.fileName, Trimmed(settings, frame), info.cards)];
      if !reset {
        var outcome := status.UpdateExposureFrames(info.fileName, info.camIndex);
        if outcome.Pass? && info.camName in ramps {
          ramps := ramps[info.camName := ramps[info.camName] + [info.fileName]];
          if settings.reduceIntermediate {
            ReduceIntermediate(info, n);
          }
        }
      }
    }

    /** The REDUCEINTERMEDIATEFRAMES branch of `handle_frame`: reduce the camera's ramp from
        `image_arrays`, save it under the res name and record it in the status. */
    method ReduceIntermediate(info: FrameInfo, n: nat)
      requires info.camName in ramps
      modifies this, status
      ensures State() == Acquisition.ReduceIntermediate(old(Ctx()), old(State()), info, n, old(ramps[info.camName]))
      ensures Ctx() == old(Ctx()) && listAsics == old(listAsics) && status == old(status)
    {
      match IntermediateImage(settings, imageArrays, ramps[info.camName])
      case Err(_) =>
      case Ok(red) =>
        var name := ResName(naming, info.camName, n);
        saved := saved + [SavedReduced(name, TrimmedReduced(settings, red), info.cards)];
        var outcome := status.UpdateIntermediateReducedFrames(name, info.camIndex);
    }

    /** One camera's turn of `handle_frames`: format the frame, keep it in `image_arrays` and
        handle it; `ok` is false when the formatting raised, which ends the loop. */
    method HandleCameraFrame(frame: Image, n: nat, camName: string, camIndex: int, reset: bool) returns (ok: bool)
      modifies this, status
      ensures Step(State(), ok) == FrameStep(old(Ctx()), old(State()), frame, camName, camIndex, n, reset)
      ensures Ctx() == old(Ctx()) && listAsics == old(listAsics) && status == old(status)
    {
      var info := FormatFrameInfo(frame, n, camName, camIndex, reset);
      if info.Err? {
        return false;
      }
      imageArrays := imageArrays[info.value.fileName := frame];
      HandleFrame(info.value, frame, n, reset);
      ok := true;
    }

    /** `handle_frames` on a capture already split per camera; the cameras are handled one
        after the other, and an exception ends the loop. */
    method HandleFrames(frames: seq<Image>, n: nat, reset: bool, skip: bool, save: bool)
      modifies this, status
      ensures State() == Acquisition.HandleFrames(old(Ctx()), old(State()), frames, n, reset, skip, save)
      ensures Ctx() == old(Ctx()) && listAsics == old(listAsics) && status == old(status)
    {
      if !ShouldSave(settings, reset, skip, save) {
        return;
      }
      var c := Ctx();
      for i := 0 to ZipLength(c, frames)
        invariant Ctx() == c && listAsics == old(listAsics) && status == old(status)
        invariant HandleFramesFrom(c, State(), frames, n, reset, i) == HandleFramesFrom(c, old(State()), frames, n, reset, 0)
      {
        var ok := HandleCameraFrame(frames[i], n, camNames[i], listAsicsIndex[i], reset);
        if !ok {
          return;
        }
      }
    }

    /** `capture_frame`: FRAME is set, then the capture is handled. */
    method CaptureFrame(frames: seq<Image>, n: nat, reset: bool, skip: bool, save: bool) returns (outcome: Outcome)
      modifies this, status
      ensures Run(State(), outcome) == Acquisition.CaptureFrame(old(Ctx()), old(State()), frames, n, reset, skip, save)
      ensures Ctx() == old(Ctx()) && listAsics == old(listAsics) && status == old(status)
    {
      var w := WriteAll(header, [(FRAME, IntValue(n))]);
      header := w.header;
      if w.outcome.Fail? {
        return w.outcome;
      }
      HandleFrames(frames, n, reset, skip, save);
      outcome := Pass;
    }

    /** The preparation in `start`: the header values, an empty ramp for every camera, then
        the frame count and the whole acquisition time in the status. */
    method Prepare(plan: Plan, exposureTime: real) returns (outcome: Outcome)
      modifies this, status
      ensures Run(State(), outcome) == Prepared(old(Ctx()), old(State()), plan, exposureTime)
      ensures Ctx() == old(Ctx()) && listAsics == old(listAsics) && status == old(status)
    {
      var s := settings;
      var w := WriteAll(header, StartEntries(s, plan.science, exposureTime));
      header := w.header;
      if w.outcome.Fail? {
        return w.outcome;
      }
      ramps := EmptyRamps(ramps, camNames);
      status.UpdateTotalFrameCount(plan.science);
      var total := s.resetFrames + plan.science;
      status.UpdateExposureTimeRemaining(Seconds(total, s.tpf));
      outcome := Pass;
    }

    /** One capture of `start` and the time remaining after it. */
    method CountedCapture(frames: seq<Image>, n: nat, reset: bool, skip: bool, save: bool, t: real)
      returns (outcome: Outcome)
      modifies this, status
      ensures Run(State(), outcome) == Counted(old(Ctx()), Run(old(State()), Pass), frames, n, reset, skip, save, t)
      ensures Ctx() == old(Ctx()) && listAsics == old(listAsics) && status == old(status)
    {
      outcome := CaptureFrame(frames, n, reset, skip, save);
      if outcome.Pass? {
        status.UpdateExposureTimeRemaining(t);
      }
    }

    /** The reset capture numbered k, with `left` frames left after it. */
    method CaptureResetFrame(readout: nat -> seq<Image>, save: bool, total: int, k: nat, left: int, ghost r0: Run)
      returns (outcome: Outcome)
      modifies this, status
      requires left == total - k - 1
      requires Run(State(), Pass) == ResetRun(Ctx(), r0, readout, save, total, k)
      ensures Run(State(), outcome) == ResetRun(old(Ctx()), r0, readout, save, total, k + 1)
      ensures Ctx() == old(Ctx()) && listAsics == old(listAsics) && status == old(status)
    {
      ResetRunNext(Ctx(), r0, readout, save, total, k);
      outcome := CountedCapture(readout(k), k, true, false, save, Seconds(left, settings.tpf));
    }

    /** The reset captures of `start`, each followed by the time remaining; `after` is
        `before` with the times reported. */
    method CaptureResets(readout: nat -> seq<Image>, save: bool, total: int, before: seq<int>)
      returns (outcome: Outcome, after: seq<int>)
      modifies this, status
      requires CountsDown(before, total) && |before| == 1
      ensures Run(State(), outcome) ==
        ResetRun(old(Ctx()), Run(old(State()), Pass), readout, save, total, ResetCount(old(settings)))
      ensures CountsDown(after, total) && 1 <= |after| <= ResetCount(old(settings)) + 1
      ensures outcome.Pass? ==> |after| == ResetCount(old(settings)) + 1
      ensures Ctx() == old(Ctx()) && listAsics == old(listAsics) && status == old(status)
    {
      var s := settings;
      var resets := ResetCount(s);
      ghost var c := Ctx();
      ghost var r0 := Run(State(), Pass);
      var totalFrames := total;
      after := before;
      outcome := Pass;
      for k := 0 to resets
        invariant Ctx() == c && listAsics == old(listAsics) && status == old(status) && outcome == Pass
        invariant Run(State(), Pass) == ResetRun(c, r0, readout, save, total, k)
        invariant totalFrames == total - k && CountsDown(after, total) && |after| == k + 1
      {
        outcome := CaptureResetFrame(readout, save, total, k, totalFrames - 1, r0);
        if outcome.Fail? {
          ResetRunFailStays(c, r0, readout, save, total, k + 1, resets);
          return;
        }
        totalFrames := totalFrames - 1;
        after := after + [totalFrames];
      }
    }

    /** The science capture numbered j, with `left` frames left after it. */
    method CaptureScienceFrame(readout: nat -> seq<Image>, resets: nat, skips: seq<bool>, save: bool, total: int,
                               j: nat, left: int, ghost r1: Run)
      returns (outcome: Outcome)
      modifies this, status
      requires j < |skips| && left == total - resets - j - 1
      requires Run(State(), Pass) == ScienceRun(Ctx(), r1, readout, resets, skips, save, total, j)
      ensures Run(State(), outcome) == ScienceRun(old(Ctx()), r1, readout, resets, skips, save, total, j + 1)
      ensures Ctx() == old(Ctx()) && listAsics == old(listAsics) && status == old(status)
    {
      ScienceRunNext(Ctx(), r1, readout, resets, skips, save, total, j);
      outcome := CountedCapture(readout(resets + j), j, false, skips[j], save, Seconds(left, settings.tpf));
    }

    /** The science captures of `start`, numbered from 0 and reading after the `resets` reset
        captures, each followed by the time remaining. */
    method CaptureScience(readout: nat -> seq<Image>, resets: nat, skips: seq<bool>, save: bool, total: int,
                          before: seq<int>)
      returns (outcome: Outcome, after: seq<int>)
      modifies this, status
      requires CountsDown(before, total) && |before| == resets + 1
      ensures Run(State(), outcome) ==
        ScienceRun(old(Ctx()), Run(old(State()), Pass), readout, resets, skips, save, total, |skips|)
      ensures CountsDown(after, total) && resets + 1 <= |after| <= resets + |skips| + 1
      ensures outcome.Pass? ==> |after| == resets + |skips| + 1
      ensures Ctx() == old(Ctx()) && listAsics == old(listAsics) && status == old(status)
    {
      ghost var c := Ctx();
      ghost var r1 := Run(State(), Pass);
      var totalFrames := total - resets;
      after := before;
      outcome := Pass;
      for j := 0 to |skips|
        invariant Ctx() == c && listAsics == old(listAsics) && status == old(status) && outcome == Pass
        invariant Run(State(), Pass) == ScienceRun(c, r1, readout, resets, skips, save, total, j)
        invariant totalFrames == total - resets - j && CountsDown(after, total) && |after| == resets + j + 1
      {
        outcome := CaptureScienceFrame(readout, resets, skips, save, total, j, totalFrames - 1, r1);
        if outcome.Fail? {
          ScienceRunFailStays(c, r1, readout, resets, skips, save, total, j + 1, |skips|);
          return;
        }
        totalFrames := totalFrames - 1;
        after := after + [totalFrames];
      }
    }

    /** `start` once the frame counts are known: prepare, then the reset and the science
        captures; `remaining` lists the times remaining reported, in order. */
    method Acquire(plan: Plan, exposureTime: real, readout: nat -> seq<Image>, save: bool)
      returns (outcome: Outcome, remaining: seq<int>)
      modifies this, status
      ensures Run(State(), outcome) == StartRun(old(Ctx()), old(State()), plan, exposureTime, readout, save)
      ensures CountsDown(remaining, old(settings).resetFrames + plan.science)
      ensures |remaining| <= ResetCount(old(settings)) + |plan.skips| + 1
      ensures outcome.Pass? ==> |remaining| == ResetCount(old(settings)) + |plan.skips| + 1
      ensures Ctx() == old(Ctx()) && listAsics == old(listAsics) && status == old(status)
    {
      ghost var c, st0 := Ctx(), State();
      var s := settings;
      var total := s.resetFrames + plan.science;
      var resets := ResetCount(s);
      StartRunSteps(c, st0, plan, exposureTime, readout, save);
      outcome := Prepare(plan, exposureTime);
      ghost var prepared := Run(State(), outcome);
      if outcome.Fail? {
        ResetRunSpec(c, prepared, readout, save, total, resets);
        ScienceRunFailed(c, prepared, readout, resets, plan.skips, save, total, |plan.skips|);
        return outcome, [];
      }
      outcome, remaining := CaptureResets(readout, save, total, [total]);
      if outcome.Fail? {
        ScienceRunFailed(c, Run(State(), outcome), readout, resets, plan.skips, save, total, |plan.skips|);
        return;
      }
      outcome, remaining := CaptureScience(readout, resets, plan.skips, save, total, remaining);
    }

    /** `start`: the number of science frames and the skip schedule (ZeroDivisionError without
        a frame time), the file naming `nm`, then the acquisition; the i-th capture reads
        `readout(i)`, and `remaining` lists the times remaining reported, in order. Once the plan
        is made, `self.status` becomes the caller's status object `given`, or a fresh `Status()`
        (whose status is empty) when none is given. */
    method Start(exposureTime: real, skipTime: real, given: StatusSink.StatusHandler?, nm: Naming,
                 readout: nat -> seq<Image>, save: bool)
      returns (outcome: Outcome, remaining: seq<int>)
      modifies this, status, given
      ensures listAsics == old(listAsics)
      ensures match PlanOf(old(settings), exposureTime, skipTime)
        case Err(e) => outcome == Fail(e) && remaining == [] && Ctx() == old(Ctx()) && status == old(status)
          && State() == old(State())
        case Ok(plan) =>
          var c := old(Ctx()).(naming := nm);
          var captures := ResetCount(old(settings)) + |plan.skips|;
          var st0 := old(State()).(status := if given == null then map[] else old(given.status));
          (given != null ==> status == given) && (given == null ==> fresh(status)) &&
          Ctx() == c && Run(State(), outcome) == StartRun(c, st0, plan, exposureTime, readout, save) &&
          CountsDown(remaining, old(settings).resetFrames + plan.science) && |remaining| <= captures + 1 &&
          (outcome.Pass? ==> |remaining| == captures + 1)
    {
      var s := settings;
      var frames := ExposureTiming.CalcFrames(s.mode, exposureTime, s.tpf);
      if frames.Err? {
        return Fail(frames.error), [];
      }
      var skipFrames := ExposureTiming.SsrFrames(skipTime, s.tpf);
      if skipFrames.Err? {
        return Fail(skipFrames.error), [];
      }
      var skips := BuildSkips(frames.value, skipFrames.value);
      var plan := Plan(frames.value, skips);
      assert PlanOf(s, exposureTime, skipTime) == Ok(plan);
      if given == null {
        status := new StatusSink.StatusHandler();
      } else {
        status := given;
      }
      naming := nm;
      outcome, remaining := Acquire(plan, exposureTime, readout, save);
    }
  }
}

=== FILE: ordered.dfy ===
/** Python's insertion-ordered `dict`, as the sequence of its entries in insertion order.
    Assigning `d[k] = v` keeps k's position when k is present and appends otherwise. */
module Ordered {
  import opened Wrappers

  function Keys<K, V>(d: seq<(K, V)>): (ks: seq<K>)
    ensures |ks| == |d|
    ensures forall i :: 0 <= i < |d| ==> ks[i] == d[i].0
  {
    seq(|d|, i requires 0 <= i < |d| => d[i].0)
  }

  lemma KeysConcat<K, V>(a: seq<(K, V)>, b: seq<(K, V)>)
    ensures Keys(a + b) == Keys(a) + Keys(b)
  {
  }

  predicate Distinct<T(==)>(s: seq<T>) {
    forall i, j :: 0 <= i < j < |s| ==> s[i] != s[j]
  }

  /** A well-formed dict holds every key once. */
  predicate Valid<K(==), V>(d: seq<(K, V)>) {
    Distinct(Keys(d))
  }

  /** Position of the first entry with key k, or −1. */
  function Find<K(==), V>(d: seq<(K, V)>, k: K): (i: int)
    ensures -1 <= i < |d|
    ensures i == -1 <==> k !in Keys(d)
    ensures i >= 0 ==> d[i].0 == k
  {
    if |d| == 0 then -1
    else if d[0].0 == k then 0
    else
      var j := Find(d[1..], k);
      assert Keys(d) == [d[0].0] + Keys(d[1..]);
      if j < 0 then -1 else j + 1
  }

  /** No entry before the first one with key k has key k. */
  lemma {:induction false} FindFirst<K, V>(d: seq<(K, V)>, k: K, j: nat)
    requires j < Find(d, k)
    ensures d[j].0 != k
  {
    if j > 0 {
      FindFirst(d[1..], k, j - 1);
    }
  }

  /** `d.get(k)`: the value stored under k, if any. */
  function Get<K(==), V>(d: seq<(K, V)>, k: K): (r: Option<V>)
    ensures r.Some? <==> k in Keys(d)
    ensures r.Some? ==> d[Find(d, k)] == (k, r.value)
  {
    var i := Find(d, k);
    if i < 0 then None else Some(d[i].1)
  }

  /** `d.get(k, default)`. */
  function GetOr<K(==), V>(d: seq<(K, V)>, k: K, default: V): (v: V)
    ensures k !in Keys(d) ==> v == default
    ensures k in Keys(d) ==> Some(v) == Get(d, k)
  {
    match Get(d, k)
    case Some(v) => v
    case None => default
  }

  /** `d[k] = v`. */
  function Set<K(==), V>(d: seq<(K, V)>, k: K, v: V): (r: seq<(K, V)>)
    ensures k in Keys(d) ==> Keys(r) == Keys(d)
    ensures k !in Keys(d) ==> r == d + [(k, v)]
  {
    var i := Find(d, k);
    if i < 0 then d + [(k, v)] else d[i := (k, v)]
  }

  /** In a well-formed dict, the entry at position i is what its key looks up. */
  lemma GetAt<K, V>(d: seq<(K, V)>, i: nat)
    requires Valid(d) && i < |d|
    ensures Get(d, d[i].0) == Some(d[i].1)
  {
  }

  /** Assignment keeps a dict well formed. */
  lemma SetValid<K, V>(d: seq<(K, V)>, k: K, v: V)
    requires Valid(d)
    ensures Valid(Set(d, k, v))
  {
    var r := Set(d, k, v);
    if k !in Keys(d) {
      forall i, j | 0 <= i < j < |r|
        ensures Keys(r)[i] != Keys(r)[j]
      {
        if j == |d| {
          assert Keys(d)[i] == Keys(r)[i];
        } else {
          assert Keys(d)[i] == Keys(r)[i] && Keys(d)[j] == Keys(r)[j];
        }
      }
    }
  }

  /** Two dicts whose entries have key q at the same positions find q at the same place. */
  lemma {:induction false} FindSame<K, V>(d: seq<(K, V)>, e: seq<(K, V)>, q: K)
    requires |d| == |e| && forall j :: 0 <= j < |d| ==> (d[j].0 == q <==> e[j].0 == q)
    ensures Find(d, q) == Find(e, q)
  {
    if |d| > 0 && d[0].0 != q {
      FindSame(d[1..], e[1..], q);
    }
  }

  /** After `d[k] = v`, k looks up v and every other key looks up what it did before. */
  lemma GetSet<K, V>(d: seq<(K, V)>, k: K, v: V, q: K)
    ensures Get(Set(d, k, v), q) == if q == k then Some(v) else Get(d, q)
  {
    var r := Set(d, k, v);
    var i := Find(d, k);
    if i >= 0 {
      assert r == d[i := (k, v)];
      FindSame(d, r, q);
    } else if q != k && Find(d, q) >= 0 {
      FindExtended(d, [(k, v)], q);
    } else if q != k {
      assert Keys(r) == Keys(d) + [k];
    } else {
      assert Keys(r)[|d|] == k;
    }
  }

  /** Entries appended after a key's first occurrence do not move it. */
  lemma {:induction false} FindExtended<K, V>(d: seq<(K, V)>, e: seq<(K, V)>, q: K)
    requires Find(d, q) >= 0
    ensures Find(d + e, q) == Find(d, q)
  {
    if d[0].0 != q {
      assert (d + e)[1..] == d[1..] + e;
      FindExtended(d[1..], e, q);
    }
  }

  /** `for k, v in entries: d[k] = v`, applied from the first entry to the last. */
  function SetAll<K(==), V>(d: seq<(K, V)>, entries: seq<(K, V)>): (r: seq<(K, V)>)
    decreases |entries|
  {
    if |entries| == 0 then d
    else Set(SetAll(d, entries[..|entries| - 1]), entries[|entries| - 1].0, entries[|entries| - 1].1)
  }

  /** Bulk assignment never moves or drops a key that was already there: the old keys are a
      prefix of the new ones, and the keys added are exactly the entries' keys not yet present. */
  lemma {:induction false} SetAllKeys<K, V>(d: seq<(K, V)>, entries: seq<(K, V)>)
    ensures Keys(d) <= Keys(SetAll(d, entries))
    ensures forall k :: k in Keys(SetAll(d, entries)) <==> k in Keys(d) || k in Keys(entries)
    decreases |entries|
  {
    if |entries| > 0 {
      var init := entries[..|entries| - 1];
      var last := entries[|entries| - 1];
      var before := SetAll(d, init);
      SetAllKeys(d, init);
      assert Keys(entries) == Keys(init) + [last.0];
      if last.0 !in Keys(before) {
        assert Keys(before + [last]) == Keys(before) + [last.0];
      }
    }
  }

  /** Bulk assignment keeps a dict well formed. */
  lemma {:induction false} SetAllValid<K, V>(d: seq<(K, V)>, entries: seq<(K, V)>)
    requires Valid(d)
    ensures Valid(SetAll(d, entries))
    decreases |entries|
  {
    if |entries| > 0 {
      SetAllValid(d, entries[..|entries| - 1]);
      SetValid(SetAll(d, entries[..|entries| - 1]), entries[|entries| - 1].0, entries[|entries| - 1].1);
    }
  }

  /** Assigning distinct keys one by one into an empty dict gives those entries in order. */
  lemma {:induction false} SetAllFresh<K, V>(entries: seq<(K, V)>)
    requires Valid(entries)
    ensures SetAll([], entries) == entries
    decreases |entries|
  {
    if |entries| > 0 {
      var init := entries[..|entries| - 1];
      assert Keys(init) == Keys(entries)[..|entries| - 1];
      SetAllFresh(init);
      assert entries[|entries| - 1].0 !in Keys(init);
      assert init + [entries[|entries| - 1]] == entries;
    }
  }

  /** Position of the last entry with key q, or −1. */
  function LastIndex<K(==), V>(entries: seq<(K, V)>, q: K): (i: int)
    ensures -1 <= i < |entries|
    ensures i == -1 <==> q !in Keys(entries)
    ensures i >= 0 ==> entries[i].0 == q && forall j :: i < j < |entries| ==> entries[j].0 != q
    decreases |entries|
  {
    if |entries| == 0 then -1
    else if entries[|entries| - 1].0 == q then |entries| - 1
    else
      assert Keys(entries) == Keys(entries[..|entries| - 1]) + [entries[|entries| - 1].0];
      LastIndex(entries[..|entries| - 1], q)
  }

  /** After bulk assignment a key looks up the last value the entries give it, or its old
      value when the entries do not mention it. */
  lemma {:induction false} GetSetAll<K, V>(d: seq<(K, V)>, entries: seq<(K, V)>, q: K)
    ensures Get(SetAll(d, entries), q) ==
      if LastIndex(entries, q) < 0 then Get(d, q) else Some(entries[LastIndex(entries, q)].1)
    decreases |entries|
  {
    if |entries| > 0 {
      var init := entries[..|entries| - 1];
      var last := entries[|entries| - 1];
      GetSetAll(d, init, q);
      GetSet(SetAll(d, init), last.0, last.1, q);
    }
  }

  /** `for k, v in entries.items(): d[k] = v`. */
  method Update<K(==), V>(d: seq<(K, V)>, entries: seq<(K, V)>) returns (r: seq<(K, V)>)
    ensures r == SetAll(d, entries)
  {
    r := d;
    for i := 0 to |entries|
      invariant r == SetAll(d, entries[..i])
    {
      assert entries[..i + 1][..i] == entries[..i];
      r := Set(r, entries[i].0, entries[i].1);
    }
    assert entries[..|entries|] == entries;
  }
}

=== FILE: reduce.dfy ===
/** Reduction of a ramp — the stack of frames read during one exposure — to a single image
    (the `*_frame_reduce` functions and the two reduction tables of asdetector/utils/image.py).
    Pixels are integers of a numpy integer dtype; means are exact reals. */
module FrameReduce {
  import opened Wrappers
  import opened Slices
  import opened Bits
  import opened ExposureTiming

  type Image = seq<seq<int>>

  predicate IsImage<T>(img: seq<seq<T>>, rows: nat, cols: nat) {
    |img| == rows && forall y :: 0 <= y < rows ==> |img[y]| == cols
  }

  /** The 3-D array `images` of shape (len(frames), rows, cols). */
  datatype Ramp = Ramp(frames: seq<Image>, rows: nat, cols: nat)
  {
    predicate Valid() {
      forall j :: 0 <= j < |frames| ==> IsImage(frames[j], rows, cols)
    }

    /** The values one pixel takes through the ramp. */
    function Stack(y: nat, x: nat): (s: seq<int>)
      requires Valid() && y < rows && x < cols
      ensures |s| == |frames|
      ensures forall j :: 0 <= j < |frames| ==> s[j] == frames[j][y][x]
    {
      seq(|frames|, j requires 0 <= j < |frames| => frames[j][y][x])
    }

    /** `images[lo:hi]`. */
    function Sub(lo: int, hi: int): (r: Ramp)
      requires Valid()
      ensures r.Valid() && r.rows == rows && r.cols == cols
      ensures r.frames == Slice(frames, lo, hi)
    {
      Ramp(Slice(frames, lo, hi), rows, cols)
    }
  }

  /** numpy integer dtypes: `uintN` and `intN`. */
  datatype DType = UInt(bits: nat) | Int(bits: nat)
  {
    predicate Valid() {
      bits == 8 || bits == 16 || bits == 32 || bits == 64
    }

    predicate Holds(v: int) {
      match this
      case UInt(b) => 0 <= v < Pow2(b)
      case Int(b) => b >= 1 && -(Pow2(b - 1) as int) <= v < Pow2(b - 1)
    }
  }

  predicate RampHolds(r: Ramp, d: DType)
    requires r.Valid()
  {
    forall j, y, x :: 0 <= j < |r.frames| && 0 <= y < r.rows && 0 <= x < r.cols ==> d.Holds(r.frames[j][y][x])
  }

  /** The result of integer arithmetic in a `bits`-wide two's-complement dtype. */
  function Wrap(v: int, bits: nat): int
    requires bits >= 1
  {
    var h := Pow2(bits - 1);
    (v + h) % (2 * h) - h
  }

  /** The wrapped value is in the dtype's range and differs from v by a multiple of 2^bits. */
  lemma WrapSpec(v: int, bits: nat)
    requires bits >= 1
    ensures -(Pow2(bits - 1) as int) <= Wrap(v, bits) < Pow2(bits - 1)
    ensures v - Wrap(v, bits) == Pow2(bits) * ((v + Pow2(bits - 1)) / Pow2(bits))
  {
    var h := Pow2(bits - 1);
    WrapQuotient(v, h);
  }

  lemma WrapQuotient(v: int, h: int)
    requires h > 0
    ensures v - ((v + h) % (2 * h) - h) == 2 * h * ((v + h) / (2 * h))
  {
  }

  lemma ModSmall(a: int, m: int)
    requires 0 <= a < m
    ensures a % m == a
  {
  }

  lemma WrapInRange(v: int, bits: nat)
    requires bits >= 1 && -(Pow2(bits - 1) as int) <= v < Pow2(bits - 1)
    ensures Wrap(v, bits) == v
  {
    var h := Pow2(bits - 1);
    ModSmall(v + h, 2 * h);
  }

  /** The dtype `cds_frame_reduce` subtracts in: `uintN` becomes `int(2N)`, which numpy does
      not have for N = 64 (a TypeError); a signed dtype is kept. */
  function CdsType(d: DType): (r: Result<DType>)
    requires d.Valid()
    ensures r.Err? <==> d == UInt(64)
    ensures r.Err? ==> r.error == TypeError
    ensures r.Ok? ==> r.value.Int? && r.value.Valid()
    ensures r.Ok? && d.UInt? ==> r.value.bits == 2 * d.bits
    ensures r.Ok? && d.Int? ==> r.value == d
  {
    match d
    case UInt(b) => if b == 64 then Err(TypeError) else Ok(Int(2 * b))
    case Int(_) => Ok(d)
  }

  /** A reduced image: integer pixels, real pixels (means), or the all-NaN image numpy
      returns for the mean of an empty stack. */
  datatype Reduced = Ints(ints: Image) | Reals(reals: seq<seq<real>>) | NaNs(rows: nat, cols: nat)

  function Last(r: Ramp): Image
    requires |r.frames| > 0
  {
    r.frames[|r.frames| - 1]
  }

  /** `cds_frame_reduce`: last frame minus first frame in the widened dtype. */
  function CdsReduce(r: Ramp, d: DType): (out: Result<Reduced>)
    requires r.Valid() && d.Valid()
    ensures out.Ok? <==> |r.frames| > 0 && d != UInt(64)
    ensures out.Err? ==> out.error == (if |r.frames| == 0 then IndexError else TypeError)
    ensures out.Ok? ==> out.value.Ints? && IsImage(out.value.ints, r.rows, r.cols)
  {
    if |r.frames| == 0 then Err(IndexError)
    else
      var t :- CdsType(d);
      var first, last := r.frames[0], Last(r);
      Ok(Ints(seq(r.rows, y requires 0 <= y < r.rows =>
        seq(r.cols, x requires 0 <= x < r.cols => Wrap(last[y][x] - first[y][x], t.bits)))))
  }

  /** For an unsigned ramp the widened subtraction never wraps: each pixel is exactly
      last − first, negative when the pixel fell. */
  lemma CdsUnsignedExact(r: Ramp, d: DType)
    requires r.Valid() && d.Valid() && d.UInt? && d != UInt(64) && |r.frames| > 0
    requires RampHolds(r, d)
    ensures CdsReduce(r, d).Ok?
    ensures forall y, x :: 0 <= y < r.rows && 0 <= x < r.cols ==>
      CdsReduce(r, d).value.ints[y][x] == Last(r)[y][x] - r.frames[0][y][x]
  {
    var b := d.bits;
    var out := CdsReduce(r, d).value.ints;
    assert CdsType(d) == Ok(Int(2 * b));
    forall y, x | 0 <= y < r.rows && 0 <= x < r.cols
      ensures out[y][x] == Last(r)[y][x] - r.frames[0][y][x]
    {
      var hi, lo := Last(r)[y][x], r.frames[0][y][x];
      assert d.Holds(hi) && d.Holds(lo);
      assert out[y][x] == Wrap(hi - lo, 2 * b);
      UnsignedDifferenceFits(hi, lo, b);
    }
  }

  /** Two values of an unsigned b-bit dtype differ by an amount the 2b-bit signed dtype holds. */
  lemma UnsignedDifferenceFits(hi: int, lo: int, b: nat)
    requires 1 <= b && 0 <= hi < Pow2(b) && 0 <= lo < Pow2(b)
    ensures Wrap(hi - lo, 2 * b) == hi - lo
  {
    Pow2Monotone(b, 2 * b - 1);
    WrapInRange(hi - lo, 2 * b);
  }

  /** For a signed ramp the subtraction stays in the frame's dtype: each pixel is last − first
      reduced into the dtype's range. */
  lemma CdsSignedWraps(r: Ramp, d: DType)
    requires r.Valid() && d.Valid() && d.Int? && |r.frames| > 0
    ensures CdsReduce(r, d).Ok?
    ensures forall y, x :: 0 <= y < r.rows && 0 <= x < r.cols ==>
      var v := CdsReduce(r, d).value.ints[y][x];
      d.Holds(v) && Last(r)[y][x] - r.frames[0][y][x] - v ==
        Pow2(d.bits) * ((Last(r)[y][x] - r.frames[0][y][x] + Pow2(d.bits - 1)) / Pow2(d.bits))
  {
    var out := CdsReduce(r, d).value.ints;
    assert CdsType(d) == Ok(d);
    forall y, x | 0 <= y < r.rows && 0 <= x < r.cols
      ensures var v := out[y][x];
        d.Holds(v) && Last(r)[y][x] - r.frames[0][y][x] - v ==
          Pow2(d.bits) * ((Last(r)[y][x] - r.frames[0][y][x] + Pow2(d.bits - 1)) / Pow2(d.bits))
    {
      var diff := Last(r)[y][x] - r.frames[0][y][x];
      assert out[y][x] == Wrap(diff, d.bits);
      WrapSpec(diff, d.bits);
    }
  }

  /** The two u16 ramps [100, 150] and [150, 100] reduce to 50 and −50. */
  lemma CdsUint16Examples()
    ensures CdsReduce(Ramp([[[100]], [[150]]], 1, 1), UInt(16)) == Ok(Ints([[50]]))
    ensures CdsReduce(Ramp([[[150]], [[100]]], 1, 1), UInt(16)) == Ok(Ints([[-50]]))
  {
    var up, down := Ramp([[[100]], [[150]]], 1, 1), Ramp([[[150]], [[100]]], 1, 1);
    assert Pow2(16) == 65536 by {
      Pow2Add(8, 8);
      assert Pow2(8) == 256;
    }
    CdsUnsignedExact(up, UInt(16));
    CdsUnsignedExact(down, UInt(16));
    var o1, o2 := CdsReduce(up, UInt(16)).value.ints, CdsReduce(down, UInt(16)).value.ints;
    assert o1[0][0] == 50 && o1[0] == [50] && o1 == [[50]];
    assert o2[0][0] == -50 && o2[0] == [-50] && o2 == [[-50]];
  }

  /** `ssr_frame_reduce`: the last frame. */
  function SsrReduce(r: Ramp): (out: Result<Reduced>)
    requires r.Valid()
    ensures out.Ok? <==> |r.frames| > 0
    ensures out.Err? ==> out.error == IndexError
    ensures out.Ok? ==> out.value.Ints? && IsImage(out.value.ints, r.rows, r.cols)
  {
    if |r.frames| == 0 then Err(IndexError) else Ok(Ints(Last(r)))
  }

  /** SSR is the last frame, so CDS of an unsigned ramp is SSR minus the first frame. */
  lemma SsrIsCdsPlusFirst(r: Ramp, d: DType)
    requires r.Valid() && d.Valid() && d.UInt? && d != UInt(64) && |r.frames| > 0
    requires RampHolds(r, d)
    ensures forall y, x :: 0 <= y < r.rows && 0 <= x < r.cols ==>
      SsrReduce(r).value.ints[y][x] == CdsReduce(r, d).value.ints[y][x] + r.frames[0][y][x]
  {
    CdsUnsignedExact(r, d);
  }

  function MinOf(s: seq<int>): (m: int)
    requires |s| > 0
    ensures m in s
    ensures forall i :: 0 <= i < |s| ==> m <= s[i]
  {
    if |s| == 1 then s[0]
    else
      var rest := MinOf(s[1..]);
      if s[0] <= rest then s[0] else rest
  }

  function MaxOf(s: seq<int>): (m: int)
    requires |s| > 0
    ensures m in s
    ensures forall i :: 0 <= i < |s| ==> s[i] <= m
  {
    if |s| == 1 then s[0]
    else
      var rest := MaxOf(s[1..]);
      if s[0] >= rest then s[0] else rest
  }

  /** `min_frame_reduce`: the pixelwise minimum through the ramp; numpy refuses an empty
      ramp with ValueError. */
  function MinReduce(r: Ramp): (out: Result<Reduced>)
    requires r.Valid()
    ensures out.Ok? <==> |r.frames| > 0
    ensures out.Err? ==> out.error == ValueError
    ensures out.Ok? ==> out.value.Ints? && IsImage(out.value.ints, r.rows, r.cols)
    ensures out.Ok? ==> forall j, y, x :: 0 <= j < |r.frames| && 0 <= y < r.rows && 0 <= x < r.cols ==>
      out.value.ints[y][x] <= r.frames[j][y][x]
    ensures out.Ok? ==> forall y, x :: 0 <= y < r.rows && 0 <= x < r.cols ==>
      out.value.ints[y][x] in r.Stack(y, x)
  {
    if |r.frames| == 0 then Err(ValueError)
    else
      Ok(Ints(seq(r.rows, y requires 0 <= y < r.rows =>
        seq(r.cols, x requires 0 <= x < r.cols => MinOf(r.Stack(y, x))))))
  }

  /** `max_frame_reduce`: the pixelwise maximum through the ramp. */
  function MaxReduce(r: Ramp): (out: Result<Reduced>)
    requires r.Valid()
    ensures out.Ok? <==> |r.frames| > 0
    ensures out.Err? ==> out.error == ValueError
    ensures out.Ok? ==> out.value.Ints? && IsImage(out.value.ints, r.rows, r.cols)
    ensures out.Ok? ==> forall j, y, x :: 0 <= j < |r.frames| && 0 <= y < r.rows && 0 <= x < r.cols ==>
      r.frames[j][y][x] <= out.value.ints[y][x]
    ensures out.Ok? ==> forall y, x :: 0 <= y < r.rows && 0 <= x < r.cols ==>
      out.value.ints[y][x] in r.Stack(y, x)
  {
    if |r.frames| == 0 then Err(ValueError)
    else
      Ok(Ints(seq(r.rows, y requires 0 <= y < r.rows =>
        seq(r.cols, x requires 0 <= x < r.cols => MaxOf(r.Stack(y, x))))))
  }

  function MeanOf(s: seq<int>): real
    requires |s| > 0
  {
    Sum(s) as real / |s| as real
  }

  /** `mean_frame_reduce`: the pixelwise mean; an empty ramp gives NaN pixels. */
  function MeanReduce(r: Ramp): (out: Reduced)
    requires r.Valid()
    ensures |r.frames| == 0 <==> out.NaNs?
    ensures out.NaNs? ==> out == NaNs(r.rows, r.cols)
    ensures out.Reals? ==> IsImage(out.reals, r.rows, r.cols)
    ensures out.Reals? ==> forall y, x :: 0 <= y < r.rows && 0 <= x < r.cols ==>
      out.reals[y][x] * |r.frames| as real == Sum(r.Stack(y, x)) as real
  {
    if |r.frames| == 0 then NaNs(r.rows, r.cols)
    else
      Reals(seq(r.rows, y requires 0 <= y < r.rows =>
        seq(r.cols, x requires 0 <= x < r.cols => MeanOf(r.Stack(y, x)))))
  }

  lemma {:induction false} SumBounds(s: seq<int>)
    requires |s| > 0
    ensures |s| * MinOf(s) <= Sum(s) <= |s| * MaxOf(s)
    decreases |s|
  {
    var n := |s| - 1;
    var init, last := s[..n], s[n];
    if n > 0 {
      SumBounds(init);
      assert MinOf(s) <= MinOf(init) by {
        assert MinOf(init) in init;
      }
      assert MaxOf(init) <= MaxOf(s) by {
        assert MaxOf(init) in init;
      }
      MulLe(n, MinOf(s), MinOf(init));
      MulLe(n, MaxOf(init), MaxOf(s));
      Distribute(n, MinOf(s));
      Distribute(n, MaxOf(s));
    }
    assert Sum(s) == Sum(init) + last;
    assert MinOf(s) <= last <= MaxOf(s);
  }

  lemma MulLe(k: nat, a: int, b: int)
    requires a <= b
    ensures k * a <= k * b
  {
  }

  lemma Distribute(n: int, m: int)
    ensures (n + 1) * m == n * m + m
  {
  }

  /** Every mean pixel lies between the pixel's minimum and maximum over the ramp. */
  lemma MeanBetweenMinAndMax(r: Ramp, y: nat, x: nat)
    requires r.Valid() && |r.frames| > 0 && y < r.rows && x < r.cols
    ensures var s := r.Stack(y, x);
      MinOf(s) as real <= MeanReduce(r).reals[y][x] <= MaxOf(s) as real
  {
    var s := r.Stack(y, x);
    SumBounds(s);
    assert MeanReduce(r).reals[y][x] == MeanOf(s);
    DivBounds(MinOf(s), MaxOf(s), Sum(s), |s|);
  }

  lemma DivBounds(lo: int, hi: int, sum: int, n: nat)
    requires n > 0 && n * lo <= sum <= n * hi
    ensures lo as real <= sum as real / n as real <= hi as real
  {
    assert (lo as real) * (n as real) <= sum as real;
    assert sum as real <= (hi as real) * (n as real);
    DivLe(lo as real, sum as real, n as real);
    LeDiv(hi as real, sum as real, n as real);
  }

  lemma DivLe(lo: real, s: real, n: real)
    requires n > 0.0 && lo * n <= s
    ensures lo <= s / n
  {
  }

  lemma LeDiv(hi: real, s: real, n: real)
    requires n > 0.0 && s <= hi * n
    ensures s / n <= hi
  {
  }

  /** Pixelwise `a - b` of two means; NaN in either gives NaN. */
  function Difference(a: Reduced, b: Reduced, rows: nat, cols: nat): (out: Reduced)
    requires a.NaNs? || (a.Reals? && IsImage(a.reals, rows, cols))
    requires b.NaNs? || (b.Reals? && IsImage(b.reals, rows, cols))
    ensures out.NaNs? <==> a.NaNs? || b.NaNs?
    ensures out.Reals? ==> IsImage(out.reals, rows, cols)
    ensures out.Reals? ==> forall y, x :: 0 <= y < rows && 0 <= x < cols ==>
      out.reals[y][x] + b.reals[y][x] == a.reals[y][x]
  {
    if a.NaNs? || b.NaNs? then NaNs(rows, cols)
    else
      Reals(seq(rows, y requires 0 <= y < rows =>
        seq(cols, x requires 0 <= x < cols => a.reals[y][x] - b.reals[y][x])))
  }

  /** `fowler_frame_reduce` as written: mean of `images[-1-k:-1]` minus mean of
      `images[0:k]`. */
  function FowlerReduce(r: Ramp, k: nat): (out: Reduced)
    requires r.Valid()
    ensures out.NaNs? <==> k == 0 || |r.frames| <= 1
  {
    var n := |r.frames|;
    var start := MeanReduce(r.Sub(0, k));
    var end := MeanReduce(r.Sub(-1 - k, -1));
    Difference(end, start, r.rows, r.cols)
  }

  /** Fowler-k with the end window being the last k frames, `images[-k:]`. */
  function IntendedFowlerReduce(r: Ramp, k: nat): (out: Reduced)
    requires r.Valid()
    ensures out.NaNs? <==> k == 0 || |r.frames| == 0
  {
    var start := MeanReduce(r.Sub(0, k));
    var end := MeanReduce(r.Sub(-(k as int), |r.frames|));
    Difference(end, start, r.rows, r.cols)
  }

  /** The windows as written: the first k frames, and the k frames at indices
      n − 1 − k .. n − 2 of the n frames — the window stops short of index n − 1, the final
      frame. */
  lemma FowlerWindows(r: Ramp, k: nat)
    requires r.Valid() && |r.frames| >= k + 1
    ensures r.Sub(0, k).frames == r.frames[..k]
    ensures r.Sub(-1 - k, -1).frames == r.frames[|r.frames| - 1 - k..|r.frames| - 1]
  {
  }

  /** A ramp whose every pixel grows linearly: frame j is a + b·j. */
  predicate Linear(r: Ramp, a: Image, b: Image)
    requires r.Valid()
  {
    IsImage(a, r.rows, r.cols) && IsImage(b, r.rows, r.cols) &&
    forall j, y, x :: 0 <= j < |r.frames| && 0 <= y < r.rows && 0 <= x < r.cols ==>
      r.frames[j][y][x] == a[y][x] + b[y][x] * j
  }

  /** Twice the sum of k consecutive terms a + b·(lo + i). */
  lemma {:induction false} ArithmeticSum(s: seq<int>, a: int, b: int, lo: int)
    requires forall i :: 0 <= i < |s| ==> s[i] == a + b * (lo + i)
    ensures 2 * Sum(s) == |s| * (2 * a + b * (2 * lo + |s| - 1))
    decreases |s|
  {
    var k := |s|;
    if k > 0 {
      var init := s[..k - 1];
      assert forall i :: 0 <= i < |init| ==> init[i] == a + b * (lo + i);
      ArithmeticSum(init, a, b, lo);
      assert Sum(s) == Sum(init) + s[k - 1];
      ArithmeticStep(k, a, b, lo);
    }
  }

  lemma ArithmeticStep(k: int, a: int, b: int, lo: int)
    ensures (k - 1) * (2 * a + b * (2 * lo + k - 2)) + 2 * (a + b * (lo + k - 1))
      == k * (2 * a + b * (2 * lo + k - 1))
  {
  }

  /** For a linear ramp, the mean of k frames starting at frame lo is a + b·(lo + (k−1)/2);
      stated as: two such windows of the same length differ by b·(lo2 − lo1). */
  lemma WindowMeanDifference(r: Ramp, a: Image, b: Image, lo1: nat, lo2: nat, k: nat, y: nat, x: nat)
    requires r.Valid() && Linear(r, a, b) && k >= 1
    requires lo1 + k <= |r.frames| && lo2 + k <= |r.frames|
    requires y < r.rows && x < r.cols
    ensures var w1 := Ramp(r.frames[lo1..lo1 + k], r.rows, r.cols);
      var w2 := Ramp(r.frames[lo2..lo2 + k], r.rows, r.cols);
      MeanOf(w2.Stack(y, x)) - MeanOf(w1.Stack(y, x)) == (b[y][x] * (lo2 - lo1)) as real
  {
    var s1 := Ramp(r.frames[lo1..lo1 + k], r.rows, r.cols).Stack(y, x);
    var s2 := Ramp(r.frames[lo2..lo2 + k], r.rows, r.cols).Stack(y, x);
    WindowSum(r, a, b, lo1, k, y, x);
    WindowSum(r, a, b, lo2, k, y, x);
    SumDifference(Sum(s1), Sum(s2), k, a[y][x], b[y][x], lo1, lo2);
  }

  /** Twice the sum of a pixel over k frames of a linear ramp starting at frame lo. */
  lemma WindowSum(r: Ramp, a: Image, b: Image, lo: nat, k: nat, y: nat, x: nat)
    requires r.Valid() && Linear(r, a, b) && lo + k <= |r.frames| && y < r.rows && x < r.cols
    ensures var s := Ramp(r.frames[lo..lo + k], r.rows, r.cols).Stack(y, x);
      2 * Sum(s) == k * (2 * a[y][x] + b[y][x] * (2 * lo + k - 1))
  {
    var s := Ramp(r.frames[lo..lo + k], r.rows, r.cols).Stack(y, x);
    assert forall i :: 0 <= i < k ==> s[i] == a[y][x] + b[y][x] * (lo + i);
    ArithmeticSum(s, a[y][x], b[y][x], lo);
  }

  lemma SumDifference(s1: int, s2: int, k: nat, a: int, b: int, lo1: int, lo2: int)
    requires k >= 1
    requires 2 * s1 == k * (2 * a + b * (2 * lo1 + k - 1))
    requires 2 * s2 == k * (2 * a + b * (2 * lo2 + k - 1))
    ensures s2 as real / k as real - s1 as real / k as real == (b * (lo2 - lo1)) as real
  {
    assert s2 - s1 == k * (b * (lo2 - lo1));
    var kr := k as real;
    assert s2 as real / kr - s1 as real / kr == (s2 - s1) as real / kr;
  }

  /** As written, Fowler-k of a linear ramp of n >= k + 1 frames measures b·(n − 1 − k):
      one frame's worth of signal less than the n − k frames separating the two windows
      of the intended reduction. */
  lemma FowlerOfLinearRamp(r: Ramp, a: Image, b: Image, k: nat)
    requires r.Valid() && Linear(r, a, b) && k >= 1 && |r.frames| >= k + 1
    ensures FowlerReduce(r, k).Reals?
    ensures forall y, x :: 0 <= y < r.rows && 0 <= x < r.cols ==>
      FowlerReduce(r, k).reals[y][x] == (b[y][x] * (|r.frames| - 1 - k)) as real
  {
    var n := |r.frames|;
    FowlerWindows(r, k);
    var start, end := r.Sub(0, k), r.Sub(-1 - k, -1);
    assert start == Ramp(r.frames[0..0 + k], r.rows, r.cols);
    assert end == Ramp(r.frames[n - 1 - k..n - 1 - k + k], r.rows, r.cols);
    var first, last := MeanReduce(start), MeanReduce(end);
    var out := FowlerReduce(r, k);
    assert out == Difference(last, first, r.rows, r.cols);
    forall y, x | 0 <= y < r.rows && 0 <= x < r.cols
      ensures out.reals[y][x] == (b[y][x] * (n - 1 - k)) as real
    {
      WindowMeanDifference(r, a, b, 0, n - 1 - k, k, y, x);
      assert first.reals[y][x] == MeanOf(start.Stack(y, x));
      assert last.reals[y][x] == MeanOf(end.Stack(y, x));
    }
  }

  /** With the end window being the last k frames, a linear ramp of n >= k frames measures
      b·(n − k). */
  lemma IntendedFowlerOfLinearRamp(r: Ramp, a: Image, b: Image, k: nat)
    requires r.Valid() && Linear(r, a, b) && k >= 1 && |r.frames| >= k
    ensures IntendedFowlerReduce(r, k).Reals?
    ensures forall y, x :: 0 <= y < r.rows && 0 <= x < r.cols ==>
      IntendedFowlerReduce(r, k).reals[y][x] == (b[y][x] * (|r.frames| - k)) as real
  {
    var n := |r.frames|;
    var start, end := r.Sub(0, k), r.Sub(-(k as int), n);
    assert start.frames == r.frames[0..0 + k];
    assert end.frames == r.frames[n - k..n - k + k];
    forall y, x | 0 <= y < r.rows && 0 <= x < r.cols
      ensures IntendedFowlerReduce(r, k).reals[y][x] == (b[y][x] * (n - k)) as real
    {
      WindowMeanDifference(r, a, b, 0, n - k, k, y, x);
    }
  }

  // ---------------------------------------------------------------- reduction tables

  datatype Reducer =
    | CdsReducer | SsrReducer | MeanReducer | MedianReducer | ModeReducer | MinReducer | MaxReducer
    | FowlerReducer(k: nat)

  /** `FRAME_REDUCE_METHODS`. */
  function FinalReducer(m: Mode): (red: Reducer)
    ensures m.IsFowler() <==> red.FowlerReducer?
    ensures m.IsFowler() ==> red.k == m.FowlerNumber()
  {
    match m
    case CDS => CdsReducer
    case SSR => SsrReducer
    case MEAN => MeanReducer
    case MEDIAN => MedianReducer
    case MODE => ModeReducer
    case MIN => MinReducer
    case MAX => MaxReducer
    case FOWLER2 => FowlerReducer(2)
    case FOWLER4 => FowlerReducer(4)
    case FOWLER8 => FowlerReducer(8)
    case FOWLER16 => FowlerReducer(16)
  }

  /** `INTERMEDIATE_FRAME_REDUCE_METHODS`: every Fowler mode previews with CDS, every other
      mode with its final reduction. */
  function IntermediateReducer(m: Mode): (red: Reducer)
    ensures m.IsFowler() ==> red == CdsReducer
    ensures !m.IsFowler() ==> red == FinalReducer(m)
  {
    if m.IsFowler() then CdsReducer else FinalReducer(m)
  }

  /** Runs a table entry on a ramp. `ndarray` has no `median` or `mode` method, so those
      entries fail with AttributeError. */
  function Apply(red: Reducer, r: Ramp, d: DType): (out: Result<Reduced>)
    requires r.Valid() && d.Valid()
    ensures red.MedianReducer? || red.ModeReducer? ==> out == Err(AttributeError)
  {
    match red
    case CdsReducer => CdsReduce(r, d)
    case SsrReducer => SsrReduce(r)
    case MeanReducer => Ok(MeanReduce(r))
    case MedianReducer => Err(AttributeError)
    case ModeReducer => Err(AttributeError)
    case MinReducer => MinReduce(r)
    case MaxReducer => MaxReduce(r)
    case FowlerReducer(k) => Ok(FowlerReduce(r, k))
  }

  /** The intermediate preview of a one-frame ramp in a Fowler mode is the zero image. */
  lemma IntermediateOfSingleFrame(m: Mode, r: Ramp, d: DType)
    requires r.Valid() && d.Valid() && d != UInt(64) && |r.frames| == 1 && m.IsFowler()
    ensures Apply(IntermediateReducer(m), r, d) == Ok(Ints(seq(r.rows, _ => seq(r.cols, _ => 0))))
  {
    var t := CdsType(d).value;
    var out := Apply(IntermediateReducer(m), r, d).value.ints;
    forall y | 0 <= y < r.rows
      ensures out[y] == seq(r.cols, _ => 0)
    {
      forall x | 0 <= x < r.cols
        ensures out[y][x] == 0
      {
        WrapInRange(0, t.bits);
      }
    }
    assert out == seq(r.rows, _ => seq(r.cols, _ => 0));
  }
}

=== FILE: simulator.dfy ===
/** The simulated MACIE driver (asdetector/detector/macie/apisimulator.py): fixed masks of
    available cards and ASICs, a synthetic multiplexed science frame whose words carry the
    number of the ASIC they came from, constant register and telemetry reads, and the two
    status checks. The busy wait that paces a frame is not modelled. */
module Simulator {
  import opened Wrappers
  import opened Arith
  import opened Bits
  import opened Deinterleave

  /** The entries of the TLMItem enumeration, 0 .. 78. */
  const TelemetryItemCount: nat := 79

  /** The register value every simulated read returns. */
  const RegisterFill: int := 0x8000

  /** `get_available_macies`: always cards 0 and 1. */
  function AvailableMacies(): (mask: nat)
    ensures SetBits(mask, 0) == [0, 1]
  {
    LowMaskBits(2, 0);
    3
  }

  /** `get_available_asics`: adds 2^i for every camera i below NUMBEROFCAMERAS. */
  method AvailableAsics(numberOfCameras: int) returns (mask: nat)
    ensures numberOfCameras <= 0 ==> mask == 0
    ensures numberOfCameras > 0 ==> mask == Pow2(numberOfCameras) - 1
  {
    mask := 0;
    var i := 0;
    while i < numberOfCameras
      invariant 0 <= i && (i == 0 || i <= numberOfCameras)
      invariant mask == Pow2(i) - 1
    {
      mask := mask + Pow2(i);
      i := i + 1;
    }
  }

  /** The ASICs the simulator reports are exactly 0 .. N−1, one camera each. */
  lemma AvailableAsicsIndices(n: nat)
    ensures CompositeToList(Pow2(n) - 1).Ok?
    ensures IndexList(CompositeToList(Pow2(n) - 1).value) == Ok(seq(n, i => i))
  {
    var x: nat := Pow2(n) - 1;
    MaskIndices(x, n);
  }

  lemma MaskIndices(x: nat, n: nat)
    requires x == Pow2(n) - 1
    ensures IndexList(CompositeToList(x).value) == Ok(seq(n, i => i))
  {
    CompositeIndexList(x);
    LowMaskBits(n, 0);
    assert seq(n, i => 0 + i) == seq(n, i => i);
  }

  /** So the simulator always reports N cameras. */
  lemma AvailableAsicsCount(n: nat)
    ensures Popcount(Pow2(n) - 1) == n
  {
    AvailableAsicsIndices(n);
    CompositeListLength(Pow2(n) - 1);
  }

  /** Settings the simulated frame read uses. */
  datatype FrameSettings = FrameSettings(frameX: nat, frameY: nat, numberOfCameras: nat)

  /** `read_gige_science_frame`: a (FRAMEY, N, FRAMEX) array whose entry (j, i, x) is i, cast
      to uint16 and flattened; word p is therefore ASIC (p div FRAMEX) mod N. The unused index
      arrays it builds first divide by FRAMEX, which raises ZeroDivisionError when it is 0. */
  function ReadGigeScienceFrame(s: FrameSettings): (r: Result<seq<int>>)
    ensures r.Err? <==> s.frameX == 0
    ensures r.Ok? ==> |r.value| == s.frameX * s.frameY * s.numberOfCameras
  {
    if s.frameX == 0 then Err(ZeroDivisionError)
    else
      var size := s.frameX * s.frameY * s.numberOfCameras;
      Ok(seq(size, p requires 0 <= p < size => ((p / s.frameX) % s.numberOfCameras) % 0x1_0000))
  }

  /** The flat layout is the nested one: row j, ASIC i, column x sits at word (j·N + i)·FRAMEX + x
      and holds i. */
  lemma SyntheticFrameLayout(s: FrameSettings, j: nat, i: nat, x: nat)
    requires s.frameX > 0 && j < s.frameY && i < s.numberOfCameras && x < s.frameX
    requires s.numberOfCameras <= 0x1_0000
    ensures var frame := ReadGigeScienceFrame(s).value; var p := (j * s.numberOfCameras + i) * s.frameX + x;
      p < |frame| && frame[p] == i
  {
    var n, fx := s.numberOfCameras, s.frameX;
    var q := j * n + i;
    var p := q * fx + x;
    LayoutBound(i, n, j, s.frameY);
    MulLess(q, n * s.frameY, fx);
    assert (n * s.frameY) * fx == fx * s.frameY * n;
    DivModUnique(p, fx, q, x);
    DivModUnique(q, n, j, i);
  }

  /** `read_usb_science_frame` hands back the GigE read. */
  function ReadUsbScienceFrame(s: FrameSettings): (r: Result<seq<int>>)
    ensures r == ReadGigeScienceFrame(s)
  {
    ReadGigeScienceFrame(s)
  }

  /** `read_camlink_science_frame` hands back the GigE read. */
  function ReadCamlinkScienceFrame(s: FrameSettings): (r: Result<seq<int>>)
    ensures r == ReadGigeScienceFrame(s)
  {
    ReadGigeScienceFrame(s)
  }

  /** The list `[0x8000 for i in range(count)]` the block and data reads return. */
  function Filled(count: int): (values: seq<int>)
    ensures count <= 0 ==> values == []
    ensures count > 0 ==> |values| == count
    ensures forall k :: 0 <= k < |values| ==> values[k] == RegisterFill
  {
    if count <= 0 then [] else seq(count, _ => RegisterFill)
  }

  /** `read_macie_block`, `read_asic_block` and `read_gige_science_data`. */
  function ReadBlock(count: int): (values: seq<int>)
    ensures |values| == if count <= 0 then 0 else count
    ensures forall k :: 0 <= k < |values| ==> values[k] == RegisterFill
  {
    Filled(count)
  }

  /** `get_telemetry_set`: one value per requested item. */
  function TelemetrySet<T>(items: seq<T>): (values: seq<int>)
    ensures |values| == |items|
    ensures forall k :: 0 <= k < |values| ==> values[k] == RegisterFill
  {
    Filled(|items|)
  }

  /** `get_telemetry_all`: one value per TLMItem. */
  function TelemetryAll(): (values: seq<int>)
    ensures |values| == TelemetryItemCount
    ensures forall k :: 0 <= k < |values| ==> values[k] == RegisterFill
  {
    Filled(TelemetryItemCount)
  }

  datatype MacieStatus = OK | FAIL

  /** `handle_status`: fails exactly on FAIL. */
  function HandleStatus(status: MacieStatus): (r: Option<Exception>)
    ensures r.Some? <==> status == FAIL
    ensures r.Some? ==> r.value == MACIEFailError
  {
    if status == FAIL then Some(MACIEFailError) else None
  }

  /** `handle_image_array`: a null pointer is an acquisition error; otherwise the first
      frame_size words the pointer addresses. */
  function HandleImageArray(pointer: Option<seq<int>>, frameSize: nat): (r: Result<seq<int>>)
    requires pointer.Some? ==> |pointer.value| >= frameSize
    ensures r.Err? <==> pointer.None?
    ensures r.Err? ==> r.error == ImageAcquisitionError
    ensures r.Ok? ==> r.value == pointer.value[..frameSize]
  {
    match pointer
    case None => Err(ImageAcquisitionError)
    case Some(buffer) => Ok(buffer[..frameSize])
  }

  /** Camera i's index array picks words of the simulated frame that all hold i. */
  lemma GatherOwnWords(s: FrameSettings, i: nat)
    requires s.frameX > 0 && i < s.numberOfCameras && s.numberOfCameras <= 0x1_0000
    ensures var n, fs := s.numberOfCameras, s.frameX * s.frameY;
      DeinterleavingArray(n, fs, s.frameX).Ok? &&
      var g := Gather(ReadGigeScienceFrame(s).value, DeinterleavingArray(n, fs, s.frameX).value[i]);
      g.Ok? && |g.value| == fs && forall j :: 0 <= j < fs ==> g.value[j] == i
  {
    var n, fs, fx := s.numberOfCameras, s.frameX * s.frameY, s.frameX;
    DivModUnique(fs, fx, s.frameY, 0);
    var arrays := DeinterleavingArray(n, fs, fx).value;
    var data := ReadGigeScienceFrame(s).value;
    assert |data| == n * fs;
    forall j | 0 <= j < fs
      ensures arrays[i][j] < |data| && data[arrays[i][j]] == i
    {
      PositionInBuffer(i, j, n, fs, fx);
      CameraOfPosition(i, j, n, fx);
    }
  }

  /** The acquisition pipeline on the simulator: read a frame, build the index arrays with
      blocks of FRAMEX words, and deinterleave. */
  function SimulatedCameraFrames(s: FrameSettings): (r: Result<seq<seq<seq<int>>>>)
    ensures r.Ok? ==> |r.value| == s.numberOfCameras
  {
    var data :- ReadGigeScienceFrame(s);
    var arrays :- DeinterleavingArray(s.numberOfCameras, s.frameX * s.frameY, s.frameX);
    DeinterleaveFrames(data, arrays, s.frameY, s.frameX)
  }

  /** End to end: every camera i gets a frame_y × frame_x image whose every pixel is i. */
  lemma CameraSeesItsIndex(s: FrameSettings)
    requires s.frameX > 0 && s.numberOfCameras > 0 && s.numberOfCameras <= 0x1_0000
    ensures SimulatedCameraFrames(s).Ok?
    ensures forall i, y, x :: 0 <= i < s.numberOfCameras && 0 <= y < s.frameY && 0 <= x < s.frameX ==>
      var frames := SimulatedCameraFrames(s).value;
      |frames[i]| == s.frameY && |frames[i][y]| == s.frameX && frames[i][y][x] == i
  {
    var n, fs, fx := s.numberOfCameras, s.frameX * s.frameY, s.frameX;
    DivModUnique(fs, fx, s.frameY, 0);
    var arrays := DeinterleavingArray(n, fs, fx).value;
    var data := ReadGigeScienceFrame(s).value;
    SimulatedFramesOk(s, data, arrays);
    forall i, y, x | 0 <= i < n && 0 <= y < s.frameY && 0 <= x < fx
      ensures var frames := SimulatedCameraFrames(s).value;
        |frames[i]| == s.frameY && |frames[i][y]| == s.frameX && frames[i][y][x] == i
    {
      CameraPixel(s, data, arrays, i, y, x);
    }
  }

  lemma SimulatedFramesOk(s: FrameSettings, data: seq<int>, arrays: seq<seq<int>>)
    requires s.frameX > 0 && s.numberOfCameras > 0 && s.numberOfCameras <= 0x1_0000
    requires DeinterleavingArray(s.numberOfCameras, s.frameX * s.frameY, s.frameX).Ok?
    requires arrays == DeinterleavingArray(s.numberOfCameras, s.frameX * s.frameY, s.frameX).value
    requires data == ReadGigeScienceFrame(s).value
    ensures DeinterleaveFrames(data, arrays, s.frameY, s.frameX).Ok?
  {
    forall i | 0 <= i < |arrays|
      ensures |arrays[i]| == s.frameX * s.frameY && Gather(data, arrays[i]).Ok?
    {
      GatherOwnWords(s, i);
    }
    FramesFromGathers(data, arrays, s.frameY, s.frameX);
  }

  lemma CameraPixel(s: FrameSettings, data: seq<int>, arrays: seq<seq<int>>, i: nat, y: nat, x: nat)
    requires s.frameX > 0 && s.numberOfCameras <= 0x1_0000
    requires i < s.numberOfCameras && y < s.frameY && x < s.frameX
    requires DeinterleavingArray(s.numberOfCameras, s.frameX * s.frameY, s.frameX).Ok?
    requires arrays == DeinterleavingArray(s.numberOfCameras, s.frameX * s.frameY, s.frameX).value
    requires data == ReadGigeScienceFrame(s).value
    requires DeinterleaveFrames(data, arrays, s.frameY, s.frameX).Ok?
    ensures var frames := DeinterleaveFrames(data, arrays, s.frameY, s.frameX).value;
      |frames[i]| == s.frameY && |frames[i][y]| == s.frameX && frames[i][y][x] == i
  {
    var fx := s.frameX;
    GatherOwnWords(s, i);
    var flat := Gather(data, arrays[i]).value;
    var k := x + y * fx;
    LayoutBound(x, fx, y, s.frameY);
    DivModUnique(k, fx, y, x);
    ReshapePixel(flat, s.frameY, fx, k);
  }

  /** `deinterleave` succeeds when every camera's gather succeeds with a frame's worth of words. */
  lemma {:induction false} FramesFromGathers(data: seq<int>, arrays: seq<seq<int>>, fy: nat, fx: nat)
    requires forall i :: 0 <= i < |arrays| ==> |arrays[i]| == fx * fy && Gather(data, arrays[i]).Ok?
    ensures DeinterleaveFrames(data, arrays, fy, fx).Ok?
    decreases |arrays|
  {
    if |arrays| > 0 {
      FramesFromGathers(data, arrays[..|arrays| - 1], fy, fx);
    }
  }
}

=== FILE: slices.dfy ===
/** Python indexing and slicing of lists with step 1: negative positions count from the
    end and slice bounds are clamped to the list. */
module Slices {
  import opened Wrappers

  /** Where a slice bound `i` lands in a list of length n. */
  function Bound(i: int, n: nat): (b: nat)
    ensures b <= n
    ensures 0 <= i <= n ==> b == i
    ensures -(n as int) <= i < 0 ==> b == n + i
    ensures i > n ==> b == n
    ensures i < -(n as int) ==> b == 0
  {
    if i < 0 then (if i + n < 0 then 0 else i + n)
    else if i > n then n
    else i
  }

  /** `s[i:j]`. */
  function Slice<T>(s: seq<T>, i: int, j: int): (r: seq<T>)
    ensures Bound(i, |s|) <= Bound(j, |s|) ==> r == s[Bound(i, |s|)..Bound(j, |s|)]
    ensures Bound(i, |s|) > Bound(j, |s|) ==> r == []
  {
    var lo, hi := Bound(i, |s|), Bound(j, |s|);
    if lo <= hi then s[lo..hi] else []
  }

  /** `s[i]`: an IndexError outside -|s| .. |s|-1. */
  function At<T>(s: seq<T>, i: int): (r: Result<T>)
    ensures r.Ok? <==> -(|s| as int) <= i < |s|
    ensures 0 <= i < |s| ==> r == Ok(s[i])
    ensures -(|s| as int) <= i < 0 ==> r == Ok(s[|s| + i])
  {
    if 0 <= i < |s| then Ok(s[i])
    else if -(|s| as int) <= i < 0 then Ok(s[|s| + i])
    else Err(IndexError)
  }

  /** `s[:n]` keeps the first n elements, or all of them. */
  lemma TakePrefix<T>(s: seq<T>, n: nat)
    ensures |Slice(s, 0, n)| == if n <= |s| then n else |s|
    ensures Slice(s, 0, n) == s[..if n <= |s| then n else |s|]
  {
  }
}

=== FILE: status.dfy ===
/** The status sink of asdetector/utils/status.py: one JSON object, held in memory, that the
    acquisition updates in place. Writing it to the status file is not modelled; the file's
    content, when it is read, and the clock are parameters. */
module StatusSink {
  import opened Wrappers
  import opened Text
  import opened Json

  type Status = map<string, Json>

  const ExposureFrames := "ExposureFrames"
  const IntermediateReducedFrames := "IntermediateReducedFrames"
  const FinalReducedFrame := "FinalReducedFrame"

  /** `'CAMERA{}'.format(camera_number)`. */
  function CameraKey(camera: int): string
  {
    "CAMERA" + IntString(camera)
  }

  /** Two cameras never share a key. */
  lemma CameraKeyInjective(a: int, b: int)
    ensures CameraKey(a) == CameraKey(b) ==> a == b
  {
    PrefixCancel("CAMERA", IntString(a), IntString(b));
    IntStringInjective(a, b);
  }

  /** `status[group]['CAMERA{n}'].append(frame_file)`: KeyError when the group or the camera is
      missing, TypeError when the group is not an object, AttributeError when the camera's entry
      is not a list. */
  function AppendFrame(status: Status, group: string, camera: int, frameFile: string): Result<Status>
  {
    if group !in status then Err(KeyError)
    else match status[group]
      case JObject(cameras) =>
        var key := CameraKey(camera);
        if key !in cameras then Err(KeyError)
        else (match cameras[key]
          case JArray(files) => Ok(status[group := JObject(cameras[key := JArray(files + [JString(frameFile)])])])
          case _ => Err(AttributeError))
      case _ => Err(TypeError)
  }

  /** `status[group]['CAMERA{n}'] = frame_file`: KeyError when the group is missing, TypeError
      when it is not an object; a missing camera key is added. */
  function SetFinal(status: Status, group: string, camera: int, frameFile: string): Result<Status>
  {
    if group !in status then Err(KeyError)
    else match status[group]
      case JObject(cameras) => Ok(status[group := JObject(cameras[CameraKey(camera) := JString(frameFile)])])
      case _ => Err(TypeError)
  }

  /** The camera's list of the group, when there is one. */
  predicate HasList(status: Status, group: string, camera: int) {
    group in status && status[group].JObject? && CameraKey(camera) in status[group].fields
    && status[group].fields[CameraKey(camera)].JArray?
  }

  /** Appending a frame succeeds exactly when the camera has a list in the group, and then it
      adds the frame at the end of that list and changes nothing else: no other key, no other
      camera. */
  lemma AppendOnlyCamera(status: Status, group: string, camera: int, frameFile: string)
    ensures AppendFrame(status, group, camera, frameFile).Ok? <==> HasList(status, group, camera)
    ensures !HasList(status, group, camera) ==>
      AppendFrame(status, group, camera, frameFile) == Err(
        if group !in status || (status[group].JObject? && CameraKey(camera) !in status[group].fields) then KeyError
        else if !status[group].JObject? then TypeError
        else AttributeError)
    ensures HasList(status, group, camera) ==>
      var after := AppendFrame(status, group, camera, frameFile).value;
      after.Keys == status.Keys &&
      (forall k :: k in status && k != group ==> after[k] == status[k]) &&
      after[group].JObject? && after[group].fields.Keys == status[group].fields.Keys &&
      (forall c :: c in status[group].fields && c != CameraKey(camera) ==> after[group].fields[c] == status[group].fields[c]) &&
      after[group].fields[CameraKey(camera)] ==
        JArray(status[group].fields[CameraKey(camera)].items + [JString(frameFile)])
  {
  }

  /** Appending a frame keeps every camera's list in every group a list. */
  lemma AppendKeepsLists(status: Status, group: string, camera: int, frameFile: string, g: string, cam: int)
    requires HasList(status, g, cam)
    ensures AppendFrame(status, group, camera, frameFile).Ok? ==>
      HasList(AppendFrame(status, group, camera, frameFile).value, g, cam)
  {
    AppendOnlyCamera(status, group, camera, frameFile);
  }

  /** Frames appended for two different cameras give the same status in either order. */
  lemma AppendsCommute(status: Status, group: string, a: int, b: int, fileA: string, fileB: string)
    requires a != b
    requires HasList(status, group, a) && HasList(status, group, b)
    ensures var ab := AppendFrame(status, group, a, fileA).value;
      var ba := AppendFrame(status, group, b, fileB).value;
      HasList(ab, group, b) && HasList(ba, group, a) &&
      AppendFrame(ab, group, b, fileB) == AppendFrame(ba, group, a, fileA)
  {
    CameraKeyInjective(a, b);
    var ka, kb := CameraKey(a), CameraKey(b);
    var cameras := status[group].fields;
    var la, lb := cameras[ka].items + [JString(fileA)], cameras[kb].items + [JString(fileB)];
    var ab := status[group := JObject(cameras[ka := JArray(la)])];
    var ba := status[group := JObject(cameras[kb := JArray(lb)])];
    assert AppendFrame(status, group, a, fileA) == Ok(ab);
    assert AppendFrame(status, group, b, fileB) == Ok(ba);
    assert ab[group].fields[kb] == cameras[kb];
    assert ba[group].fields[ka] == cameras[ka];
    var both := cameras[ka := JArray(la)][kb := JArray(lb)];
    assert both == cameras[kb := JArray(lb)][ka := JArray(la)];
    assert ab[group := JObject(both)] == status[group := JObject(both)];
    assert ba[group := JObject(both)] == status[group := JObject(both)];
    assert AppendFrame(ab, group, b, fileB) == Ok(status[group := JObject(both)]);
    assert AppendFrame(ba, group, a, fileA) == Ok(status[group := JObject(both)]);
  }

  /** Recording the final frame replaces the camera's entry, keeps the rest, and doing it twice
      changes nothing more. */
  lemma SetFinalOnlyCamera(status: Status, group: string, camera: int, frameFile: string)
    ensures SetFinal(status, group, camera, frameFile).Ok? <==> group in status && status[group].JObject?
    ensures SetFinal(status, group, camera, frameFile).Err? ==>
      SetFinal(status, group, camera, frameFile).error == if group in status then TypeError else KeyError
    ensures SetFinal(status, group, camera, frameFile).Ok? ==>
      var after := SetFinal(status, group, camera, frameFile).value;
      after.Keys == status.Keys &&
      (forall k :: k in status && k != group ==> after[k] == status[k]) &&
      after[group].JObject? &&
      after[group].fields.Keys == status[group].fields.Keys + {CameraKey(camera)} &&
      (forall c :: c in status[group].fields && c != CameraKey(camera) ==> after[group].fields[c] == status[group].fields[c]) &&
      after[group].fields[CameraKey(camera)] == JString(frameFile) &&
      SetFinal(after, group, camera, frameFile) == Ok(after)
  {
    if group in status && status[group].JObject? {
      var cameras := status[group].fields;
      var key := CameraKey(camera);
      var after := status[group := JObject(cameras[key := JString(frameFile)])];
      assert SetFinal(status, group, camera, frameFile) == Ok(after);
      assert after[group].fields[key := JString(frameFile)] == after[group].fields;
      assert after[group := JObject(after[group].fields)] == after;
    }
  }

  /** `Status`: `status` is the in-memory copy of the status file. */
  class StatusHandler {
    var status: Status

    constructor()
      ensures status == map[]
    {
      status := map[];
    }

    /** `get_status`: the status becomes the file's content. */
    method GetStatus(file: Status) returns (r: Status)
      modifies this
      ensures status == file && r == file
    {
      status := file;
      r := status;
    }

    /** `update_command_complete`; `now` is the ISO time of the call. */
    method UpdateCommandComplete(complete: bool, now: string)
      modifies this
      ensures status == old(status)["CommandComplete" := JBool(complete)]["CommandCompleteTime" := JString(now)]
    {
      status := status["CommandComplete" := JBool(complete)];
      status := status["CommandCompleteTime" := JString(now)];
    }

    /** `update_exposure_time_remaining`. */
    method UpdateExposureTimeRemaining(exposureTime: real)
      modifies this
      ensures status == old(status)["ExposureTimeRemaining" := JReal(exposureTime)]
    {
      status := status["ExposureTimeRemaining" := JReal(exposureTime)];
    }

    /** `update_total_frame_count`. */
    method UpdateTotalFrameCount(frameCount: int)
      modifies this
      ensures status == old(status)["TotalFrameCount" := JInt(frameCount)]
    {
      status := status["TotalFrameCount" := JInt(frameCount)];
    }

    /** `update_exposure_frames`: the status is unchanged when the append raises. */
    method UpdateExposureFrames(frameFile: string, camera: int) returns (outcome: Outcome)
      modifies this
      ensures outcome.Pass? <==> AppendFrame(old(status), ExposureFrames, camera, frameFile).Ok?
      ensures status == match AppendFrame(old(status), ExposureFrames, camera, frameFile)
        case Ok(after) => after
        case Err(_) => old(status)
    {
      outcome := Append(ExposureFrames, frameFile, camera);
    }

    /** `update_intermediate_reduced_frame_frames`. */
    method UpdateIntermediateReducedFrames(frameFile: string, camera: int) returns (outcome: Outcome)
      modifies this
      ensures outcome.Pass? <==> AppendFrame(old(status), IntermediateReducedFrames, camera, frameFile).Ok?
      ensures status == match AppendFrame(old(status), IntermediateReducedFrames, camera, frameFile)
        case Ok(after) => after
        case Err(_) => old(status)
    {
      outcome := Append(IntermediateReducedFrames, frameFile, camera);
    }

    method Append(group: string, frameFile: string, camera: int) returns (outcome: Outcome)
      modifies this
      ensures outcome.Pass? <==> AppendFrame(old(status), group, camera, frameFile).Ok?
      ensures outcome.Fail? ==> outcome.error == AppendFrame(old(status), group, camera, frameFile).error
      ensures status == match AppendFrame(old(status), group, camera, frameFile)
        case Ok(after) => after
        case Err(_) => old(status)
    {
      match AppendFrame(status, group, camera, frameFile)
      case Ok(after) =>
        status := after;
        outcome := Pass;
      case Err(e) =>
        outcome := Fail(e);
    }

    /** `update_final_reduced_exposure`. */
    method UpdateFinalReducedExposure(frameFile: string, camera: int) returns (outcome: Outcome)
      modifies this
      ensures outcome.Pass? <==> SetFinal(old(status), FinalReducedFrame, camera, frameFile).Ok?
      ensures status == match SetFinal(old(status), FinalReducedFrame, camera, frameFile)
        case Ok(after) => after
        case Err(_) => old(status)
    {
      match SetFinal(status, FinalReducedFrame, camera, frameFile)
      case Ok(after) =>
        status := after;
        outcome := Pass;
      case Err(e) =>
        outcome := Fail(e);
    }

    /** `update_current_command`: the status file is reset to the template, read back, and the
        command and its start time are recorded. */
    method UpdateCurrentCommand(command: string, template: Status, now: string)
      modifies this
      ensures status == template["CurrentCommand" := JString(command)]["CommandStartTime" := JString(now)]
    {
      var reset := GetStatus(template);
      status := status["CurrentCommand" := JString(command)];
      status := status["CommandStartTime" := JString(now)];
    }
  }
}

=== FILE: telemetry.dfy ===
/** `BaseACADIA.parse_science_header` of asdetector/detector/macie/io.py: the six telemetry
    words an ACADIA ASIC writes at the start of a frame row are copied into the header and cut
    into bit fields, and the lower chip id re-assigns the frame to the camera it came from
    ("de-shuffling"). Words are the 16-bit pixel values of the frame. */
module Telemetry {
  import opened Wrappers
  import opened Header
  import Ordered

  type Word = bv16

  /** The fields are the words masked and NOT shifted down, as the code computes them. */
  datatype Fields = Fields(
    blockLength: int,     // ABLKLEN  = word1 & 0x3FFF
    blockCount: int,      // ABLKCNT  = word2 & 0x00FF
    asicId: int,          // AASICID  = word2 & 0x0F00
    headerLength: int,    // AHDRLEN  = word2 & 0x7000
    sampleCount: int,     // ASDPCNT  = word3 & 0x1FFF
    firstFrame: int,      // AFF      = word3 & 0x2000
    readFrame: int,       // ARDFRM   = word3 & 0x4000
    exposureVideo: int,   // AEXPVIDL = word3 & 0x8000
    scienceFrame: int,    // ASCIFRM  = word4 & 0x01FF
    exposureId: int)      // ASCIXPID = word4 & 0xFE00

  function DecodeFields(words: seq<Word>): Fields
    requires |words| == 6
  {
    Fields(
      (words[0] & 0x3FFF) as int,
      (words[1] & 0x00FF) as int, (words[1] & 0x0F00) as int, (words[1] & 0x7000) as int,
      (words[2] & 0x1FFF) as int, (words[2] & 0x2000) as int, (words[2] & 0x4000) as int, (words[2] & 0x8000) as int,
      (words[3] & 0x01FF) as int, (words[3] & 0xFE00) as int)
  }

  /** The fields of a word add back up to the bits their masks cover: all of word3 and word4,
      the low 15 bits of word2 and the low 14 bits of word1. Each field keeps its bits in place:
      AASICID is a multiple of 0x100, AHDRLEN of 0x1000, ASCIXPID of 0x200, and the three flags
      of word3 are 0 or their bit's value. */
  lemma FieldsRecombine(words: seq<Word>)
    requires |words| == 6
    ensures var f := DecodeFields(words);
      f.blockLength == words[0] as int % 0x4000 &&
      f.blockCount + f.asicId + f.headerLength == words[1] as int % 0x8000 &&
      f.sampleCount + f.firstFrame + f.readFrame + f.exposureVideo == words[2] as int &&
      f.scienceFrame + f.exposureId == words[3] as int &&
      f.asicId % 0x100 == 0 && f.asicId < 0x1000 &&
      f.headerLength % 0x1000 == 0 && f.headerLength < 0x8000 &&
      f.exposureId % 0x200 == 0 &&
      (f.firstFrame == 0 || f.firstFrame == 0x2000) &&
      (f.readFrame == 0 || f.readFrame == 0x4000) &&
      (f.exposureVideo == 0 || f.exposureVideo == 0x8000)
  {
    LowWordFields(words[0]);
    SecondWordFields(words[1]);
    ThirdWordFields(words[2]);
    FourthWordFields(words[3]);
  }

  lemma LowWordFields(w: Word)
    ensures (w & 0x3FFF) as int == w as int % 0x4000
  {
    assert (w & 0x3FFF) + (w & 0xC000) == w;
    assert (w & 0x3FFF) <= 0x3FFF && (w & 0xC000) <= 0xC000;
    var low, high := (w & 0x3FFF) as int, (w & 0xC000) as int;
    assert low + high == w as int;
    // Each case fixes the top field, so the low field is what is left modulo 0x4000.
    var top := w & 0xC000;
    assert top == 0 || top == 0x4000 || top == 0x8000 || top == 0xC000;
    if top == 0 {
    } else if top == 0x4000 {
    } else if top == 0x8000 {
    } else {
    }
  }

  lemma SecondWordFields(w: Word)
    ensures (w & 0x00FF) as int + (w & 0x0F00) as int + (w & 0x7000) as int == w as int % 0x8000
    ensures (w & 0x0F00) as int % 0x100 == 0 && (w & 0x0F00) as int < 0x1000
    ensures (w & 0x7000) as int % 0x1000 == 0 && (w & 0x7000) as int < 0x8000
  {
    SecondWordSum(w);
    AsicIdField(w);
    HeaderLengthField(w);
  }

  lemma SecondWordSum(w: Word)
    ensures (w & 0x00FF) as int + (w & 0x0F00) as int + (w & 0x7000) as int == w as int % 0x8000
  {
    LowFifteenBits(w);
    FieldsOfLowFifteen(w);
  }

  lemma LowFifteenBits(w: Word)
    ensures (w & 0x7FFF) as int == w as int % 0x8000
  {
    assert (w & 0x7FFF) + (w & 0x8000) == w;
    assert (w & 0x7FFF) <= 0x7FFF && (w & 0x8000) <= 0x8000;
    var low, high := (w & 0x7FFF) as int, (w & 0x8000) as int;
    assert low + high == w as int;
    assert high == 0 || high == 0x8000 by {
      assert (w & 0x8000) == 0 || (w & 0x8000) == 0x8000;
    }
  }

  lemma FieldsOfLowFifteen(w: Word)
    ensures (w & 0x00FF) as int + (w & 0x0F00) as int + (w & 0x7000) as int == (w & 0x7FFF) as int
  {
    assert (w & 0x00FF) + (w & 0x0F00) + (w & 0x7000) == w & 0x7FFF;
    assert (w & 0x00FF) <= 0xFF && (w & 0x0F00) <= 0x0F00 && (w & 0x7000) <= 0x7000;
  }

  lemma AsicIdField(w: Word)
    ensures (w & 0x0F00) as int % 0x100 == 0 && (w & 0x0F00) as int < 0x1000
  {
    assert (w & 0x0F00) == ((w >> 8) & 0xF) << 8;
  }

  lemma HeaderLengthField(w: Word)
    ensures (w & 0x7000) as int % 0x1000 == 0 && (w & 0x7000) as int < 0x8000
  {
    assert (w & 0x7000) == ((w >> 12) & 0x7) << 12;
  }

  lemma ThirdWordFields(w: Word)
    ensures (w & 0x1FFF) as int + (w & 0x2000) as int + (w & 0x4000) as int + (w & 0x8000) as int == w as int
    ensures (w & 0x2000) == 0 || (w & 0x2000) == 0x2000
    ensures (w & 0x4000) == 0 || (w & 0x4000) == 0x4000
    ensures (w & 0x8000) == 0 || (w & 0x8000) == 0x8000
  {
    assert (w & 0x1FFF) + (w & 0x2000) + (w & 0x4000) + (w & 0x8000) == w;
  }

  lemma FourthWordFields(w: Word)
    ensures (w & 0x01FF) as int + (w & 0xFE00) as int == w as int
    ensures (w & 0xFE00) as int % 0x200 == 0
  {
    assert (w & 0x01FF) + (w & 0xFE00) == w;
    assert (w & 0xFE00) == ((w >> 9) & 0x7F) << 9;
  }

  /** The keywords of the science header in the order the code inserts them: the science
      words, then exactly the built-in keywords that close the header template. */
  function TelemetryKeys(): (ks: seq<HeaderKey>)
    ensures ks == [SCIWRD(1), SCIWRD(2), SCIWRD(3), SCIWRD(4), SCIWRD(5), SCIWRD(6),
      ABLKLEN, ABLKCNT, AASICID, AHDRLEN, ASDPCNT, AFF, ARDFRM, AEXPVIDL, ASCIFRM, ASCIXPID]
  {
    var trailing := FixedKeys(BeforeScienceWords, FixedCount);
    assert trailing == [ABLKLEN, ABLKCNT, AASICID, AHDRLEN, ASDPCNT, AFF, ARDFRM, AEXPVIDL, ASCIFRM, ASCIXPID];
    ScienceKeys(6) + trailing
  }

  /** The values of the science header, keyword by keyword. */
  function TelemetryValues(words: seq<Word>): (vs: seq<int>)
    requires |words| == 6
    ensures |vs| == 16
  {
    var f := DecodeFields(words);
    [words[0] as int, words[1] as int, words[2] as int, words[3] as int, words[4] as int, words[5] as int,
     f.blockLength, f.blockCount, f.asicId, f.headerLength, f.sampleCount, f.firstFrame, f.readFrame,
     f.exposureVideo, f.scienceFrame, f.exposureId]
  }

  /** `science_header`: SCIWRD1..SCIWRD6 hold the raw words, then the fields. */
  function ScienceHeader(words: seq<Word>): (h: seq<(HeaderKey, int)>)
    requires |words| == 6
    ensures Ordered.Keys(h) == TelemetryKeys()
  {
    var ks, vs := TelemetryKeys(), TelemetryValues(words);
    seq(16, i requires 0 <= i < 16 => (ks[i], vs[i]))
  }

  /** No keyword occurs twice among the telemetry keywords: they are the tail of the template
      for six science words. */
  lemma TelemetryKeysDistinct()
    ensures Ordered.Distinct(TelemetryKeys())
  {
    var ks := TelemetryKeys();
    assert TemplateKeys(6) == FixedKeys(0, BeforeScienceWords) + ks;
    forall i, j | 0 <= i < j < |ks|
      ensures ks[i] != ks[j]
    {
      TemplateKeyAt(6, BeforeScienceWords + i);
      TemplateKeyAt(6, BeforeScienceWords + j);
    }
  }

  /** The science header is a well-formed dict in which each telemetry keyword looks up its
      value: SCIWRDj the raw word j, the field keywords the decoded fields. */
  lemma ScienceHeaderEntries(words: seq<Word>)
    requires |words| == 6
    ensures Ordered.Valid(ScienceHeader(words))
    ensures forall i :: 0 <= i < 16 ==>
      Ordered.Get(ScienceHeader(words), TelemetryKeys()[i]) == Some(TelemetryValues(words)[i])
  {
    var h := ScienceHeader(words);
    TelemetryKeysDistinct();
    forall i | 0 <= i < 16
      ensures Ordered.Get(h, TelemetryKeys()[i]) == Some(TelemetryValues(words)[i])
    {
      Ordered.GetAt(h, i);
    }
  }

  /** Every keyword of the science header is a keyword of the header template for six science
      words, and stays one whatever FITSHEADER adds, so copying the science header into a frame
      header (`fits_header[k]['value'] = v`) never meets a missing keyword. */
  lemma TelemetryKeysInHeader(s: HeaderSettings)
    requires s.scienceHeaders == 6
    ensures forall k :: k in TelemetryKeys() ==> k in Ordered.Keys(HeaderFormat(s))
  {
    Ordered.SetAllKeys(Template(s), s.fitsHeader);
    EntriesKeys(TemplateKeys(6), s);
    assert TemplateKeys(6) == FixedKeys(0, BeforeScienceWords) + TelemetryKeys();
  }

  /** The camera a frame is assigned to, and whether it asks for a resynchronisation. */
  datatype Assignment = Assignment(camName: string, camIndex: int, resync: bool)

  /** The chip-id step: a chip id found in ASICCHIPIDLOWER names the frame's camera (a mismatch
      with the camera the frame was read for is only logged); an unknown chip id keeps the
      camera and asks for a resync. The name is `cam_names[cam_index]`. */
  function AssignCamera(chipId: int, table: map<int, int>, camIndex: int, camNames: seq<string>): (r: Result<Assignment>)
    ensures r.Ok? <==> PyIndex(|camNames|, if chipId in table then table[chipId] else camIndex).Some?
    ensures r.Err? ==> r.error == IndexError
    ensures r.Ok? ==> r.value.resync == (chipId !in table)
    ensures r.Ok? ==> r.value.camIndex == (if chipId in table then table[chipId] else camIndex)
    ensures r.Ok? ==> r.value.camName == camNames[PyIndex(|camNames|, r.value.camIndex).value]
  {
    var known := chipId in table;
    var chip := if known then table[chipId] else camIndex;
    match PyIndex(|camNames|, chip)
    case None => Err(IndexError)
    case Some(i) => Ok(Assignment(camNames[i], chip, !known))
  }

  /** De-shuffling is idempotent: assigning again from the camera it chose changes nothing. */
  lemma AssignCameraIdempotent(chipId: int, table: map<int, int>, camIndex: int, camNames: seq<string>)
    requires AssignCamera(chipId, table, camIndex, camNames).Ok?
    ensures var a := AssignCamera(chipId, table, camIndex, camNames).value;
      AssignCamera(chipId, table, a.camIndex, camNames) == Ok(a)
  {
  }

  /** A frame whose chip id the table maps to the camera it was read for keeps its camera. */
  lemma AssignCameraAgrees(chipId: int, table: map<int, int>, camIndex: int, camNames: seq<string>)
    requires chipId in table && table[chipId] == camIndex && 0 <= camIndex < |camNames|
    ensures AssignCamera(chipId, table, camIndex, camNames) == Ok(Assignment(camNames[camIndex], camIndex, false))
  {
  }

  /** What `parse_science_header` returns, with the resync request it makes. */
  datatype Parsed = Parsed(header: seq<(HeaderKey, int)>, camName: string, camIndex: int, resync: bool)

  /** The telemetry words of a frame: the first six words of row `row` (Python indexing);
      ValueError when the row is shorter than six words (the unpacking fails). */
  function TelemetryWords(frame: seq<seq<Word>>, row: int): (r: Result<seq<Word>>)
    ensures r.Ok? ==> |r.value| == 6
  {
    match PyIndex(|frame|, row)
    case None => Err(IndexError)
    case Some(i) =>
      var words := frame[i][..if |frame[i]| < 6 then |frame[i]| else 6];
      if |words| != 6 then Err(ValueError) else Ok(words)
  }

  /** `parse_science_header` as written: with six science headers the chip id is looked up with
      `science_words['ASICIDLOWERTELEMETRYCOLUMN']`, a string index into the array of words,
      which raises IndexError; the `except KeyError` does not catch it. */
  function ParseScienceHeaderAsWritten(frame: seq<seq<Word>>, nHeaders: int, row: int, camName: string, camIndex: int): Result<Parsed>
  {
    if nHeaders != 6 then Ok(Parsed([], camName, camIndex, false))
    else
      var words :- TelemetryWords(frame, row);
      Err(IndexError)
  }

  /** As written, no frame can be parsed when there are six science headers. */
  lemma AsWrittenNeverParses(frame: seq<seq<Word>>, row: int, camName: string, camIndex: int)
    ensures ParseScienceHeaderAsWritten(frame, 6, row, camName, camIndex).Err?
    ensures TelemetryWords(frame, row).Ok? ==> ParseScienceHeaderAsWritten(frame, 6, row, camName, camIndex) == Err(IndexError)
  {
  }

  /** `parse_science_header` with the evidently intended lookup: the chip id is the word at
      column ASICIDLOWERTELEMETRYCOLUMN (`column`) of the telemetry words. */
  function ParseScienceHeader(frame: seq<seq<Word>>, nHeaders: int, row: int, column: int,
                              table: map<int, int>, camName: string, camIndex: int, camNames: seq<string>): Result<Parsed>
  {
    if nHeaders != 6 then Ok(Parsed([], camName, camIndex, false))
    else
      var words :- TelemetryWords(frame, row);
      match PyIndex(6, column)
      case None => Err(IndexError)
      case Some(c) =>
        var a :- AssignCamera(words[c] as int, table, camIndex, camNames);
        Ok(Parsed(ScienceHeader(words), a.camName, a.camIndex, a.resync))
  }

  /** Without six science headers the frame keeps its camera and gets no telemetry keywords.
      With six, a frame whose telemetry row is readable and whose chip id the table maps to a
      listed camera is parsed into the sixteen telemetry keywords and assigned to that camera
      without a resync; an unknown chip id keeps the camera and requests a resync. */
  lemma ParseScienceHeaderSpec(frame: seq<seq<Word>>, nHeaders: int, row: int, column: int,
                               table: map<int, int>, camName: string, camIndex: int, camNames: seq<string>)
    ensures nHeaders != 6 ==>
      ParseScienceHeader(frame, nHeaders, row, column, table, camName, camIndex, camNames) == Ok(Parsed([], camName, camIndex, false))
    ensures nHeaders == 6 && TelemetryWords(frame, row).Ok? && -6 <= column < 6 ==>
      var words := TelemetryWords(frame, row).value;
      var chipId := words[PyIndex(6, column).value] as int;
      var r := ParseScienceHeader(frame, nHeaders, row, column, table, camName, camIndex, camNames);
      (chipId in table && 0 <= table[chipId] < |camNames| ==>
        r == Ok(Parsed(ScienceHeader(words), camNames[table[chipId]], table[chipId], false))) &&
      (chipId !in table && 0 <= camIndex < |camNames| ==>
        r == Ok(Parsed(ScienceHeader(words), camNames[camIndex], camIndex, true)))
  {
  }
}

=== FILE: text.dfy ===
/** String operations the modelled Python code relies on: `str.split`, `str.strip`,
    `str.join`, `str.upper`, `str.startswith`/`endswith`, `int(s)`, `int(s, 16)`, `float(s)`,
    `hex(n)`,
    `'{:04d}'.format(n)`, `re.findall(r'\d+', s)` and POSIX `os.path.join`.
    Characters are modelled in the ASCII range only. */
module Text {
  import opened Wrappers

  predicate IsDigit(c: char) { '0' <= c <= '9' }

  /** Characters Python's `str.split()` and `str.strip()` treat as whitespace (ASCII part). */
  predicate IsSpace(c: char) {
    c == ' ' || ('\t' <= c <= '\r') || ('\U{1c}' <= c <= '\U{1f}')
  }

  function DigitValue(c: char): (d: nat)
    requires IsDigit(c)
    ensures d < 10
  {
    c as int - '0' as int
  }

  function DigitChar(d: nat): (c: char)
    requires d < 10
    ensures IsDigit(c) && DigitValue(c) == d
  {
    ('0' as int + d) as char
  }

  function HexValue(c: char): (r: Option<nat>)
    ensures r.Some? ==> r.value < 16
  {
    if IsDigit(c) then Some(DigitValue(c))
    else if 'a' <= c <= 'f' then Some(c as int - 'a' as int + 10)
    else if 'A' <= c <= 'F' then Some(c as int - 'A' as int + 10)
    else None
  }

  function HexChar(d: nat): (c: char)
    requires d < 16
    ensures HexValue(c) == Some(d)
  {
    if d < 10 then DigitChar(d) else ('a' as int + d - 10) as char
  }

  // ---------------------------------------------------------------- case

  function UpperChar(c: char): (u: char)
    ensures 'a' <= c <= 'z' ==> u as int == c as int - 32
    ensures !('a' <= c <= 'z') ==> u == c
  {
    if 'a' <= c <= 'z' then (c as int - 32) as char else c
  }

  /** `str.upper()` restricted to ASCII letters. */
  function Upper(s: string): (u: string)
    ensures |u| == |s|
    ensures forall i :: 0 <= i < |s| ==> u[i] == UpperChar(s[i])
  {
    seq(|s|, i requires 0 <= i < |s| => UpperChar(s[i]))
  }

  lemma UpperIdempotent(s: string)
    ensures Upper(Upper(s)) == Upper(s)
  {
  }

  predicate StartsWith(s: string, prefix: string) {
    |prefix| <= |s| && s[..|prefix|] == prefix
  }

  predicate EndsWith(s: string, suffix: string) {
    |suffix| <= |s| && s[|s| - |suffix|..] == suffix
  }

  // ---------------------------------------------------------------- split / strip

  /** `s.split(sep)`: always at least one part; adjacent separators give empty parts. */
  function Split(s: string, sep: char): (parts: seq<string>)
    ensures |parts| >= 1
    ensures forall i :: 0 <= i < |parts| ==> sep !in parts[i]
    decreases |s|
  {
    if |s| == 0 then [""]
    else if s[0] == sep then [""] + Split(s[1..], sep)
    else
      var rest := Split(s[1..], sep);
      [[s[0]] + rest[0]] + rest[1..]
  }

  lemma {:induction false} SplitNoSeparator(s: string, sep: char)
    requires sep !in s
    ensures Split(s, sep) == [s]
    decreases |s|
  {
    if |s| > 0 {
      SplitNoSeparator(s[1..], sep);
      assert [s[0]] + s[1..] == s;
    }
  }

  /** Splitting at an explicit separator splits the two halves independently. */
  lemma {:induction false} SplitConcat(a: string, sep: char, b: string)
    ensures Split(a + [sep] + b, sep) == Split(a, sep) + Split(b, sep)
    decreases |a|
  {
    if |a| == 0 {
      assert a + [sep] + b == [sep] + b;
      assert ([sep] + b)[1..] == b;
    } else {
      assert (a + [sep] + b)[0] == a[0];
      assert (a + [sep] + b)[1..] == a[1..] + [sep] + b;
      SplitConcat(a[1..], sep, b);
    }
  }

  /** `sep.join(parts)`. */
  function Join(parts: seq<string>, sep: char): string
    decreases |parts|
  {
    if |parts| == 0 then ""
    else if |parts| == 1 then parts[0]
    else Join(parts[..|parts| - 1], sep) + [sep] + parts[|parts| - 1]
  }

  /** Splitting a join gives back its parts, provided none of them holds the separator. */
  lemma {:induction false} SplitJoin(parts: seq<string>, sep: char)
    requires |parts| >= 1
    requires forall i :: 0 <= i < |parts| ==> sep !in parts[i]
    ensures Split(Join(parts, sep), sep) == parts
    decreases |parts|
  {
    if |parts| == 1 {
      SplitNoSeparator(parts[0], sep);
    } else {
      var init := parts[..|parts| - 1];
      SplitJoin(init, sep);
      SplitConcat(Join(init, sep), sep, parts[|parts| - 1]);
      SplitNoSeparator(parts[|parts| - 1], sep);
      assert init + [parts[|parts| - 1]] == parts;
    }
  }

  /** Joining a first part in front of at least one more puts one separator between them. */
  lemma {:induction false} JoinCons(a: string, rest: seq<string>, sep: char)
    requires |rest| >= 1
    ensures Join([a] + rest, sep) == a + [sep] + Join(rest, sep)
    decreases |rest|
  {
    var parts := [a] + rest;
    if |rest| > 1 {
      var init := rest[..|rest| - 1];
      assert parts[..|parts| - 1] == [a] + init;
      JoinCons(a, init, sep);
    }
  }

  /** Joining the parts of a split with the same separator gives back the text. */
  lemma {:induction false} JoinSplit(s: string, sep: char)
    ensures Join(Split(s, sep), sep) == s
    decreases |s|
  {
    if |s| > 0 {
      var rest := Split(s[1..], sep);
      JoinSplit(s[1..], sep);
      assert [s[0]] + s[1..] == s;
      if s[0] == sep {
        assert Split(s, sep) == [""] + rest;
        JoinCons("", rest, sep);
      } else {
        var first := [s[0]] + rest[0];
        assert Split(s, sep) == [first] + rest[1..];
        if |rest| > 1 {
          JoinCons(first, rest[1..], sep);
          JoinCons(rest[0], rest[1..], sep);
          assert [rest[0]] + rest[1..] == rest;
        } else {
          assert [first] + rest[1..] == [first];
        }
      }
    }
  }

  /** Length of the leading run of non-space characters. */
  function TokenLength(s: string): (n: nat)
    ensures n <= |s|
    ensures forall i :: 0 <= i < n ==> !IsSpace(s[i])
    ensures n < |s| ==> IsSpace(s[n])
    decreases |s|
  {
    if |s| == 0 || IsSpace(s[0]) then 0 else 1 + TokenLength(s[1..])
  }

  /** `s.split()`: maximal runs of non-whitespace characters, no empty parts. */
  function SplitWhitespace(s: string): (tokens: seq<string>)
    ensures forall i :: 0 <= i < |tokens| ==> |tokens[i]| > 0
    ensures forall i, j :: 0 <= i < |tokens| && 0 <= j < |tokens[i]| ==> !IsSpace(tokens[i][j])
    decreases |s|
  {
    if |s| == 0 then []
    else if IsSpace(s[0]) then SplitWhitespace(s[1..])
    else
      var n := TokenLength(s);
      [s[..n]] + SplitWhitespace(s[n..])
  }

  function StripLeft(s: string): (r: string)
    ensures |r| <= |s| && r == s[|s| - |r|..]
    ensures |r| > 0 ==> !IsSpace(r[0])
    ensures forall k :: 0 <= k < |s| - |r| ==> IsSpace(s[k])
    decreases |s|
  {
    if |s| > 0 && IsSpace(s[0]) then StripLeft(s[1..]) else s
  }

  function StripRight(s: string): (r: string)
    ensures |r| <= |s| && r == s[..|r|]
    ensures |r| > 0 ==> !IsSpace(r[|r| - 1])
    ensures forall k :: |r| <= k < |s| ==> IsSpace(s[k])
    decreases |s|
  {
    if |s| > 0 && IsSpace(s[|s| - 1]) then StripRight(s[..|s| - 1]) else s
  }

  /** r is s with only whitespace removed from its start and its end. */
  predicate TrimmedOf(s: string, r: string) {
    exists i, j ::
      0 <= i <= j <= |s| && r == s[i..j] &&
      (forall k :: 0 <= k < i ==> IsSpace(s[k])) && (forall k :: j <= k < |s| ==> IsSpace(s[k]))
  }

  /** Whitespace dropped from the start of s, then from the end of what is left, leaves r
      trimmed from s. */
  lemma TrimmedOfBoth(s: string, left: string, r: string)
    requires |left| <= |s| && left == s[|s| - |left|..] && forall k :: 0 <= k < |s| - |left| ==> IsSpace(s[k])
    requires |r| <= |left| && r == left[..|r|] && forall k :: |r| <= k < |left| ==> IsSpace(left[k])
    ensures TrimmedOf(s, r)
  {
    var i, j := |s| - |left|, |s| - |left| + |r|;
    assert r == s[i..j];
    forall k | j <= k < |s|
      ensures IsSpace(s[k])
    {
      assert s[k] == left[k - i];
    }
  }

  /** `s.strip()`: s with its leading and trailing whitespace removed. */
  function Strip(s: string): (r: string)
    ensures |r| > 0 ==> !IsSpace(r[0]) && !IsSpace(r[|r| - 1])
    ensures TrimmedOf(s, r)
  {
    var left := StripLeft(s);
    var r := StripRight(left);
    TrimmedOfBoth(s, left, r);
    r
  }

  /** Text made only of whitespace. */
  predicate AllSpace(s: string) {
    forall k :: 0 <= k < |s| ==> IsSpace(s[k])
  }

  /** A word of `s.split()`: non-empty and free of whitespace. */
  predicate IsWord(s: string) {
    |s| > 0 && forall k :: 0 <= k < |s| ==> !IsSpace(s[k])
  }

  /** Gaps that can surround the words in a text `s.split()` gives them back from: whitespace
      only, one more than the words, and none empty between two words. */
  predicate WellSpaced(words: seq<string>, gaps: seq<string>) {
    |gaps| == |words| + 1 &&
    (forall i :: 0 <= i < |words| ==> IsWord(words[i])) &&
    (forall i :: 0 <= i < |gaps| ==> AllSpace(gaps[i])) &&
    (forall i :: 0 < i < |words| ==> |gaps[i]| > 0)
  }

  /** The words laid out with the gaps around them: gaps[0], words[0], gaps[1], ..., gaps[n]. */
  function Spaced(words: seq<string>, gaps: seq<string>): (s: string)
    requires |gaps| == |words| + 1
    ensures |gaps[0]| <= |s| && s[..|gaps[0]|] == gaps[0]
    ensures words == [] ==> s == gaps[0]
    ensures gaps[0] == [] && words != [] && words[0] != [] ==> 0 < |s| && s[0] == words[0][0]
  {
    if |words| == 0 then gaps[0] else gaps[0] + (words[0] + Spaced(words[1..], gaps[1..]))
  }

  /** Leading whitespace adds no token. */
  lemma {:induction false} SplitAfterSpace(w: string, t: string)
    requires AllSpace(w)
    ensures SplitWhitespace(w + t) == SplitWhitespace(t)
    decreases |w|
  {
    if |w| > 0 {
      assert (w + t)[1..] == w[1..] + t;
      SplitAfterSpace(w[1..], t);
    } else {
      assert w + t == t;
    }
  }

  /** A word followed by whitespace or the end is the leading token. */
  lemma {:induction false} TokenLengthOfWord(word: string, t: string)
    requires forall k :: 0 <= k < |word| ==> !IsSpace(word[k])
    requires t == [] || IsSpace(t[0])
    ensures TokenLength(word + t) == |word|
    decreases |word|
  {
    if |word| > 0 {
      assert (word + t)[1..] == word[1..] + t;
      TokenLengthOfWord(word[1..], t);
    } else {
      assert word + t == t;
    }
  }

  /** `s.split()` of words laid out with whitespace gaps, at least one between two words, is
      exactly those words in order, whatever the gaps. */
  lemma {:induction false} SplitWhitespaceSpaced(words: seq<string>, gaps: seq<string>)
    requires WellSpaced(words, gaps)
    ensures SplitWhitespace(Spaced(words, gaps)) == words
    decreases |words|
  {
    if |words| == 0 {
      SplitAfterSpace(gaps[0], "");
      assert gaps[0] + "" == gaps[0];
    } else {
      var rest := Spaced(words[1..], gaps[1..]);
      var tail := words[0] + rest;
      assert Spaced(words, gaps) == gaps[0] + tail;
      SplitAfterSpace(gaps[0], tail);
      assert rest == [] || IsSpace(rest[0]) by {
        if |gaps[1]| > 0 {
          assert rest[0] == gaps[1][0];
        }
      }
      TokenLengthOfWord(words[0], rest);
      assert tail[..|words[0]|] == words[0] && tail[|words[0]|..] == rest;
      SplitWhitespaceSpaced(words[1..], gaps[1..]);
      assert words == [words[0]] + words[1..];
    }
  }

  /** A whitespace character before a spaced text joins its first gap. */
  lemma SpacedLeadingSpace(c: char, words: seq<string>, g: seq<string>)
    requires WellSpaced(words, g) && IsSpace(c)
    ensures WellSpaced(words, g[0 := [c] + g[0]])
    ensures Spaced(words, g[0 := [c] + g[0]]) == [c] + Spaced(words, g)
  {
    var gaps := g[0 := [c] + g[0]];
    assert gaps[1..] == g[1..];
    assert forall k :: 0 < k < |gaps[0]| ==> gaps[0][k] == g[0][k - 1];
  }

  /** A word before a spaced text that starts with whitespace (or holds no word) is its first
      word, after an empty gap. */
  lemma SpacedLeadingWord(w: string, words: seq<string>, g: seq<string>)
    requires WellSpaced(words, g) && IsWord(w) && (words != [] ==> |g[0]| > 0)
    ensures WellSpaced([w] + words, [""] + g)
    ensures Spaced([w] + words, [""] + g) == w + Spaced(words, g)
  {
    assert ([w] + words)[1..] == words && ([""] + g)[1..] == g;
  }

  /** The whitespace gaps around the tokens of `s.split()`: the leading run, the runs between
      tokens and the trailing run. */
  function GapsOf(s: string): (gaps: seq<string>)
    ensures |gaps| == |SplitWhitespace(s)| + 1
    decreases |s|
  {
    if |s| == 0 then [""]
    else if IsSpace(s[0]) then
      var g := GapsOf(s[1..]);
      g[0 := [s[0]] + g[0]]
    else [""] + GapsOf(s[TokenLength(s)..])
  }

  /** Conversely, every text is its `s.split()` tokens laid out with its whitespace gaps. */
  lemma {:induction false} SplitWhitespaceCovers(s: string)
    ensures WellSpaced(SplitWhitespace(s), GapsOf(s)) && Spaced(SplitWhitespace(s), GapsOf(s)) == s
    decreases |s|
  {
    var words := SplitWhitespace(s);
    if |s| == 0 {
      assert Spaced(words, [""]) == s;
    } else if IsSpace(s[0]) {
      var g := GapsOf(s[1..]);
      assert words == SplitWhitespace(s[1..]) && GapsOf(s) == g[0 := [s[0]] + g[0]];
      SplitWhitespaceCovers(s[1..]);
      SpacedLeadingSpace(s[0], words, g);
      assert [s[0]] + s[1..] == s;
    } else {
      var n := TokenLength(s);
      var rest := SplitWhitespace(s[n..]);
      var g := GapsOf(s[n..]);
      assert words == [s[..n]] + rest && GapsOf(s) == [""] + g;
      SplitWhitespaceCovers(s[n..]);
      if rest != [] {
        assert IsSpace(s[n..][0]);
      }
      SpacedLeadingWord(s[..n], rest, g);
      assert s[..n] + s[n..] == s;
    }
  }

  // ---------------------------------------------------------------- decimal numbers

  predicate AllDigits(s: string) {
    forall i :: 0 <= i < |s| ==> IsDigit(s[i])
  }

  /** Value of a string of decimal digits, most significant first. */
  function DigitsValue(s: string): nat
    requires AllDigits(s)
  {
    if |s| == 0 then 0 else DigitsValue(s[..|s| - 1]) * 10 + DigitValue(s[|s| - 1])
  }

  /** The value of decimal digits, most significant first; None when a character is not one. */
  function DecimalValue(s: string): Option<nat>
  {
    if |s| == 0 then Some(0)
    else
      match DecimalValue(s[..|s| - 1])
      case None => None
      case Some(v) => if IsDigit(s[|s| - 1]) then Some(v * 10 + DigitValue(s[|s| - 1])) else None
  }

  /** On a string of digits the two readings agree. */
  lemma {:induction false} DecimalValueOfDigits(s: string)
    requires AllDigits(s)
    ensures DecimalValue(s) == Some(DigitsValue(s))
  {
    if |s| > 0 {
      DecimalValueOfDigits(s[..|s| - 1]);
    }
  }

  /** `str(n)` for a non-negative integer. */
  function DecimalString(n: nat): (s: string)
    ensures |s| > 0 && AllDigits(s)
  {
    if n < 10 then [DigitChar(n)] else DecimalString(n / 10) + [DigitChar(n % 10)]
  }

  /** `str(i)` for any integer. */
  function IntString(i: int): (s: string)
    ensures |s| > 0
    ensures s[0] == '-' <==> i < 0
  {
    if i < 0 then "-" + DecimalString(-i) else DecimalString(i)
  }

  lemma {:induction false} DecimalStringValue(n: nat)
    ensures DigitsValue(DecimalString(n)) == n
  {
    if n >= 10 {
      var s := DecimalString(n);
      assert s[..|s| - 1] == DecimalString(n / 10);
      DecimalStringValue(n / 10);
    }
  }

  /** `str` is injective on integers. */
  lemma IntStringInjective(a: int, b: int)
    ensures IntString(a) == IntString(b) ==> a == b
  {
    if IntString(a) == IntString(b) {
      if a >= 0 && b >= 0 {
        DecimalStringValue(a);
        DecimalStringValue(b);
      } else if a < 0 && b < 0 {
        assert IntString(a)[1..] == DecimalString(-a);
        assert IntString(b)[1..] == DecimalString(-b);
        DecimalStringValue(-a);
        DecimalStringValue(-b);
      }
    }
  }

  /** A common prefix can be cancelled. */
  lemma PrefixCancel(p: string, a: string, b: string)
    ensures p + a == p + b ==> a == b
  {
    if p + a == p + b {
      assert a == (p + a)[|p|..];
      assert b == (p + b)[|p|..];
    }
  }

  lemma {:induction false} LeadingZerosValue(z: nat, s: string)
    requires AllDigits(s)
    ensures AllDigits(Zeros(z) + s) && DigitsValue(Zeros(z) + s) == DigitsValue(s)
    decreases |s|
  {
    var t := Zeros(z) + s;
    assert AllDigits(t);
    if |s| == 0 {
      assert t == Zeros(z);
      ZerosValue(z);
    } else {
      assert t[..|t| - 1] == Zeros(z) + s[..|s| - 1];
      LeadingZerosValue(z, s[..|s| - 1]);
    }
  }

  function Zeros(n: nat): (z: string)
    ensures |z| == n && forall i :: 0 <= i < n ==> z[i] == '0'
  {
    seq(n, _ => '0')
  }

  lemma {:induction false} ZerosValue(n: nat)
    ensures AllDigits(Zeros(n)) && DigitsValue(Zeros(n)) == 0
  {
    if n > 0 {
      assert Zeros(n)[..n - 1] == Zeros(n - 1);
      ZerosValue(n - 1);
    }
  }

  /** `'{:0Nd}'.format(n)` for a non-negative integer: left-padded with zeros to `width`. */
  function ZeroPadded(n: nat, width: nat): (s: string)
    ensures AllDigits(s) && |s| >= width
  {
    var d := DecimalString(n);
    if |d| >= width then d else Zeros(width - |d|) + d
  }

  /** Zero padding never changes the value a digit string denotes. */
  lemma ZeroPaddedValue(n: nat, width: nat)
    ensures DigitsValue(ZeroPadded(n, width)) == n
  {
    var d, padded := DecimalString(n), ZeroPadded(n, width);
    DecimalStringValue(n);
    if |d| < width {
      var z := Zeros(width - |d|);
      assert padded == z + d;
      LeadingZerosValue(width - |d|, d);
    } else {
      assert padded == d;
    }
  }

  function Pow10(w: nat): (p: nat)
    ensures p >= 1
  {
    if w == 0 then 1 else 10 * Pow10(w - 1)
  }

  /** A number below 10^w has at most w digits. */
  lemma {:induction false} DecimalStringLength(n: nat, w: nat)
    requires w >= 1 && n < Pow10(w)
    ensures |DecimalString(n)| <= w
  {
    if n >= 10 {
      assert Pow10(w) == 10 * Pow10(w - 1);
      assert n / 10 < Pow10(w - 1);
      DecimalStringLength(n / 10, w - 1);
    }
  }

  /** `'{:0Nd}'` of a number below 10^N has exactly N digits. */
  lemma ZeroPaddedExact(n: nat, w: nat)
    requires w >= 1 && n < Pow10(w)
    ensures |ZeroPadded(n, w)| == w
  {
    DecimalStringLength(n, w);
  }

  /** `int(s)` for base 10: surrounding whitespace, an optional sign, then decimal digits.
      (Python also accepts single underscores between digits; not modelled.) */
  function ParseInt(s: string): (r: Option<int>)
  {
    ParseSigned(Strip(s))
  }

  /** An optional sign, then at least one decimal digit. */
  function ParseSigned(t: string): (r: Option<int>)
  {
    var signed := |t| > 0 && (t[0] == '-' || t[0] == '+');
    var body := if signed then t[1..] else t;
    if |body| == 0 then None
    else
      match DecimalValue(body)
      case None => None
      case Some(v) => Some(if signed && t[0] == '-' then -(v as int) else v)
  }

  lemma ParseIntDecimal(n: nat)
    ensures ParseInt(DecimalString(n)) == Some(n)
  {
    var s := DecimalString(n);
    assert IsDigit(s[0]) && IsDigit(s[|s| - 1]);
    StripUnchanged(s);
    DecimalStringValue(n);
    DecimalValueOfDigits(s);
    assert ParseSigned(s) == DecimalValue(s);
  }

  /** A string that neither starts nor ends with whitespace is its own `strip()`. */
  lemma StripUnchanged(s: string)
    requires |s| > 0 && !IsSpace(s[0]) && !IsSpace(s[|s| - 1])
    ensures Strip(s) == s
  {
    assert StripLeft(s) == s;
  }

  /** A minus sign before decimal digits negates their value. */
  lemma ParseNegative(d: string, v: nat)
    requires |d| > 0 && DecimalValue(d) == Some(v) && !IsSpace(d[|d| - 1])
    ensures ParseInt("-" + d) == Some(-(v as int))
  {
    var t := "-" + d;
    assert t[|t| - 1] == d[|d| - 1];
    StripUnchanged(t);
    assert t[1..] == d;
    assert ParseSigned(t) == (match DecimalValue(d) case None => None case Some(w) => Some(-(w as int)));
  }

  /** `int(str(i)) == i`. */
  lemma ParseIntString(i: int)
    ensures ParseInt(IntString(i)) == Some(i)
  {
    if i < 0 {
      var d := DecimalString(-i);
      DecimalStringValue(-i);
      DecimalValueOfDigits(d);
      ParseNegative(d, -i);
    } else {
      ParseIntDecimal(i);
    }
  }

  /** `float(s)` for decimal notation: surrounding whitespace, an optional sign, digits with
      at most one decimal point and at least one digit. (Exponents, `inf`, `nan` and
      underscores are not modelled and give None.) */
  function ParseFloat(s: string): (r: Option<real>)
  {
    var t := Strip(s);
    var neg := |t| > 0 && t[0] == '-';
    var unsigned := if |t| > 0 && (t[0] == '-' || t[0] == '+') then t[1..] else t;
    match DecimalReal(unsigned)
    case Some(v) => Some(if neg then -v else v)
    case None => None
  }

  /** Unsigned decimal notation: `ddd`, `ddd.`, `.ddd` or `ddd.ddd`. */
  function DecimalReal(u: string): (r: Option<real>)
    ensures r.Some? ==> r.value >= 0.0
  {
    var parts := Split(u, '.');
    if |parts| == 1 && |parts[0]| > 0 && AllDigits(parts[0]) then
      Some(DigitsValue(parts[0]) as real)
    else if |parts| == 2 && |parts[0]| + |parts[1]| > 0 && AllDigits(parts[0]) && AllDigits(parts[1]) then
      Some(DigitsValue(parts[0]) as real + DigitsValue(parts[1]) as real / Pow10(|parts[1]|) as real)
    else None
  }

  /** `float(str(n)) == n` for a whole number. */
  lemma ParseFloatDecimal(n: nat)
    ensures ParseFloat(DecimalString(n)) == Some(n as real)
  {
    var s := DecimalString(n);
    assert !IsSpace(s[0]) && !IsSpace(s[|s| - 1]);
    StripUnchanged(s);
    assert s[0] != '-' && s[0] != '+';
    assert forall i :: 0 <= i < |s| ==> s[i] != '.';
    SplitNoSeparator(s, '.');
    DecimalStringValue(n);
  }

  // ---------------------------------------------------------------- hexadecimal numbers

  predicate AllHex(s: string) {
    forall i :: 0 <= i < |s| ==> HexValue(s[i]).Some?
  }

  /** The value of hexadecimal digits, most significant first; None when a character is not
      one. */
  function HexDigitsValue(s: string): Option<nat>
  {
    if |s| == 0 then Some(0)
    else
      match HexDigitsValue(s[..|s| - 1])
      case None => None
      case Some(v) =>
        match HexValue(s[|s| - 1])
        case None => None
        case Some(d) => Some(v * 16 + d)
  }

  /** Lower-case hexadecimal digits of `n`, without prefix. */
  function HexDigits(n: nat): (s: string)
    ensures |s| > 0 && AllHex(s)
  {
    if n < 16 then [HexChar(n)] else HexDigits(n / 16) + [HexChar(n % 16)]
  }

  lemma {:induction false} HexDigitsRoundTrip(n: nat)
    ensures HexDigitsValue(HexDigits(n)) == Some(n)
  {
    if n >= 16 {
      var s := HexDigits(n);
      assert s[..|s| - 1] == HexDigits(n / 16);
      HexDigitsRoundTrip(n / 16);
    }
  }

  /** `hex(n)` for a non-negative integer. */
  function HexString(n: nat): (s: string)
    ensures StartsWith(s, "0x")
  {
    "0x" + HexDigits(n)
  }

  /** `int(s, 16)`: surrounding whitespace, an optional sign, an optional `0x`/`0X` prefix,
      then at least one hexadecimal digit. (Underscores between digits are not modelled.) */
  function ParseHex(s: string): (r: Option<int>)
  {
    var t := Strip(s);
    var neg := |t| > 0 && t[0] == '-';
    var unsigned := if |t| > 0 && (t[0] == '-' || t[0] == '+') then t[1..] else t;
    var digits := if |unsigned| >= 2 && unsigned[0] == '0' && (unsigned[1] == 'x' || unsigned[1] == 'X')
                  then unsigned[2..] else unsigned;
    if |digits| == 0 then None
    else
      match HexDigitsValue(digits)
      case None => None
      case Some(v) => Some(if neg then -(v as int) else v)
  }

  /** `int(hex(n), 16) == n`. */
  lemma ParseHexRoundTrip(n: nat)
    ensures ParseHex(HexString(n)) == Some(n)
  {
    var s := HexString(n);
    assert !IsSpace(s[0]) && !IsSpace(s[|s| - 1]);
    assert StripLeft(s) == s;
    assert StripRight(s) == s;
    assert s[2..] == HexDigits(n);
    HexDigitsRoundTrip(n);
  }

  // ---------------------------------------------------------------- digit groups

  function DigitRunLength(s: string): (n: nat)
    ensures n <= |s| && AllDigits(s[..n])
    ensures n < |s| ==> !IsDigit(s[n])
    decreases |s|
  {
    if |s| == 0 || !IsDigit(s[0]) then 0
    else
      var m := DigitRunLength(s[1..]);
      assert s[..1 + m] == [s[0]] + s[1..][..m];
      1 + m
  }

  /** `re.findall(r'\d+', s)` with ASCII digits: the maximal runs of digits, left to right. */
  function DigitGroups(s: string): (groups: seq<string>)
    ensures forall i :: 0 <= i < |groups| ==> |groups[i]| > 0 && AllDigits(groups[i])
    decreases |s|
  {
    if |s| == 0 then []
    else if !IsDigit(s[0]) then DigitGroups(s[1..])
    else
      var n := DigitRunLength(s);
      [s[..n]] + DigitGroups(s[n..])
  }

  predicate NoDigits(s: string) {
    forall i :: 0 <= i < |s| ==> !IsDigit(s[i])
  }

  /** Two digit runs separated by non-digits are the first two digit groups. */
  lemma SecondDigitGroup(first: string, mid: string, second: string, tail: string)
    requires |first| > 0 && AllDigits(first) && |second| > 0 && AllDigits(second)
    requires |mid| > 0 && NoDigits(mid)
    requires |tail| == 0 || !IsDigit(tail[0])
    ensures var groups := DigitGroups(first + mid + second + tail);
      |groups| >= 2 && groups[0] == first && groups[1] == second
  {
    assert first + mid + second + tail == first + (mid + (second + tail));
    DigitGroupsConcat(first, mid + (second + tail));
    DigitGroupsConcat(mid, second + tail);
    DigitGroupsNoDigits(mid);
    DigitGroupsConcat(second, tail);
    DigitGroupsOfDigits(first);
    DigitGroupsOfDigits(second);
  }

  lemma {:induction false} DigitGroupsNoDigits(s: string)
    requires forall i :: 0 <= i < |s| ==> !IsDigit(s[i])
    ensures DigitGroups(s) == []
    decreases |s|
  {
    if |s| > 0 {
      DigitGroupsNoDigits(s[1..]);
    }
  }

  /** A non-digit boundary lets the digit groups of a concatenation be computed piecewise. */
  lemma {:induction false} DigitGroupsConcat(a: string, b: string)
    requires |a| == 0 || !IsDigit(a[|a| - 1]) || |b| == 0 || !IsDigit(b[0])
    ensures DigitGroups(a + b) == DigitGroups(a) + DigitGroups(b)
    decreases |a|
  {
    if |a| == 0 {
      assert a + b == b;
    } else if !IsDigit(a[0]) {
      assert (a + b)[1..] == a[1..] + b;
      DigitGroupsConcat(a[1..], b);
    } else {
      var n := DigitRunLength(a);
      var m := DigitRunLength(a + b);
      DigitRunPrefix(a, b);
      assert m == n;
      assert (a + b)[..n] == a[..n];
      assert (a + b)[n..] == a[n..] + b;
      DigitGroupsConcat(a[n..], b);
    }
  }

  lemma {:induction false} DigitRunPrefix(a: string, b: string)
    requires (|a| > 0 && !IsDigit(a[|a| - 1])) || |b| == 0 || !IsDigit(b[0])
    ensures DigitRunLength(a + b) == DigitRunLength(a)
    decreases |a|
  {
    if |a| > 0 && IsDigit(a[0]) {
      assert (a + b)[1..] == a[1..] + b;
      DigitRunPrefix(a[1..], b);
    } else if |a| == 0 {
      assert a + b == b;
    }
  }

  lemma DigitGroupsOfDigits(d: string)
    requires |d| > 0 && AllDigits(d)
    ensures DigitGroups(d) == [d]
  {
    DigitRunAll(d);
    assert d[..|d|] == d;
    assert d[|d|..] == [];
  }

  lemma {:induction false} DigitRunAll(d: string)
    requires AllDigits(d)
    ensures DigitRunLength(d) == |d|
    decreases |d|
  {
    if |d| > 0 {
      DigitRunAll(d[1..]);
    }
  }

  // ---------------------------------------------------------------- paths

  /** POSIX `os.path.dirname`: everything before the last '/', with trailing slashes of
      that head removed unless the head is all slashes. */
  function DirName(p: string): string
  {
    var i := LastSlash(p);
    if i < 0 then ""
    else
      var head := p[..i + 1];
      var trimmed := TrimTrailingSlashes(head);
      if |trimmed| == 0 then head else trimmed
  }

  function LastSlash(p: string): (i: int)
    ensures -1 <= i < |p|
    ensures i >= 0 ==> p[i] == '/'
    ensures forall j :: i < j < |p| ==> p[j] != '/'
    decreases |p|
  {
    if |p| == 0 then -1
    else if p[|p| - 1] == '/' then |p| - 1
    else LastSlash(p[..|p| - 1])
  }

  function TrimTrailingSlashes(s: string): (r: string)
    ensures |r| <= |s| && r == s[..|r|]
    decreases |s|
  {
    if |s| > 0 && s[|s| - 1] == '/' then TrimTrailingSlashes(s[..|s| - 1]) else s
  }

  /** POSIX `os.path.join(a, b)` for two components. */
  function PathJoin(a: string, b: string): (p: string)
    ensures StartsWith(b, "/") ==> p == b
    ensures !StartsWith(b, "/") && |a| > 0 && a[|a| - 1] != '/' ==> p == a + "/" + b
  {
    if |b| > 0 && b[0] == '/' then b
    else if |a| == 0 || a[|a| - 1] == '/' then a + b
    else a + "/" + b
  }
}

=== FILE: utf8.dfy ===
/** `bytes.decode('utf-8')` with Python's strict error handling: a byte string decodes exactly
    when it is a sequence of well-formed UTF-8 encodings of Unicode scalar values (no overlong
    forms, no surrogates, nothing above U+10FFFF); otherwise UnicodeDecodeError. */
module Utf8 {
  import opened Wrappers

  type Byte = b: int | 0 <= b < 256

  predicate IsContinuation(b: Byte) { 0x80 <= b <= 0xBF }

  /** The first character of a non-empty byte string and the number of bytes it takes. */
  function DecodeFirst(b: seq<Byte>): (r: Option<(char, nat)>)
    requires |b| > 0
    ensures r.Some? ==> 1 <= r.value.1 <= 4 && r.value.1 <= |b|
  {
    var b0: int := b[0];
    if b0 < 0x80 then Some((b0 as char, 1))
    else if 0xC2 <= b0 <= 0xDF then
      if |b| >= 2 && IsContinuation(b[1]) then
        Some((((b0 - 0xC0) * 64 + (b[1] as int - 0x80)) as char, 2))
      else None
    else if 0xE0 <= b0 <= 0xEF then
      var lo := if b0 == 0xE0 then 0xA0 else 0x80;
      var hi := if b0 == 0xED then 0x9F else 0xBF;
      if |b| >= 3 && lo <= b[1] <= hi && IsContinuation(b[2]) then
        Some((((b0 - 0xE0) * 4096 + (b[1] as int - 0x80) * 64 + (b[2] as int - 0x80)) as char, 3))
      else None
    else if 0xF0 <= b0 <= 0xF4 then
      var lo := if b0 == 0xF0 then 0x90 else 0x80;
      var hi := if b0 == 0xF4 then 0x8F else 0xBF;
      if |b| >= 4 && lo <= b[1] <= hi && IsContinuation(b[2]) && IsContinuation(b[3]) then
        Some((((b0 - 0xF0) * 262144 + (b[1] as int - 0x80) * 4096 + (b[2] as int - 0x80) * 64 + (b[3] as int - 0x80)) as char, 4))
      else None
    else None
  }

  /** `b.decode('utf-8')`: None where Python raises UnicodeDecodeError. */
  function Decode(b: seq<Byte>): Option<string>
    decreases |b|
  {
    if |b| == 0 then Some("")
    else
      match DecodeFirst(b)
      case None => None
      case Some((c, n)) =>
        match Decode(b[n..])
        case None => None
        case Some(rest) => Some([c] + rest)
  }

  /** `c.encode('utf-8')`. */
  function EncodeChar(c: char): (b: seq<Byte>)
    ensures 1 <= |b| <= 4
  {
    var cp := c as int;
    if cp < 0x80 then [cp]
    else if cp < 0x800 then [0xC0 + cp / 64, 0x80 + cp % 64]
    else if cp < 0x10000 then [0xE0 + cp / 4096, 0x80 + (cp / 64) % 64, 0x80 + cp % 64]
    else [0xF0 + cp / 262144, 0x80 + (cp / 4096) % 64, 0x80 + (cp / 64) % 64, 0x80 + cp % 64]
  }

  /** `s.encode('utf-8')`. */
  function Encode(s: string): seq<Byte>
  {
    if |s| == 0 then [] else EncodeChar(s[0]) + Encode(s[1..])
  }

  /** The encoding of a character is read back as that character, whatever follows it. */
  lemma DecodeFirstEncodeChar(c: char, rest: seq<Byte>)
    ensures DecodeFirst(EncodeChar(c) + rest) == Some((c, |EncodeChar(c)|))
  {
    var cp := c as int;
    if cp < 0x80 {
    } else if cp < 0x800 {
      DecodeTwo(c, rest);
    } else if cp < 0x10000 {
      DecodeThree(c, rest);
    } else {
      DecodeFour(c, rest);
    }
  }

  lemma DecodeTwo(c: char, rest: seq<Byte>)
    requires 0x80 <= c as int < 0x800
    ensures DecodeFirst(EncodeChar(c) + rest) == Some((c, 2))
  {
    var cp := c as int;
    var b := EncodeChar(c) + rest;
    var x1, x0 := cp / 64, cp % 64;
    assert cp == x1 * 64 + x0;
    assert b[0] == 0xC0 + x1 && b[1] == 0x80 + x0;
  }

  lemma DecodeThree(c: char, rest: seq<Byte>)
    requires 0x800 <= c as int < 0x10000
    ensures DecodeFirst(EncodeChar(c) + rest) == Some((c, 3))
  {
    var cp := c as int;
    var b := EncodeChar(c) + rest;
    var x2, x1, x0 := cp / 4096, (cp / 64) % 64, cp % 64;
    assert cp / 64 == x2 * 64 + x1;
    assert cp == x2 * 4096 + x1 * 64 + x0;
    assert b[0] == 0xE0 + x2 && b[1] == 0x80 + x1 && b[2] == 0x80 + x0;
  }

  lemma DecodeFour(c: char, rest: seq<Byte>)
    requires 0x10000 <= c as int
    ensures DecodeFirst(EncodeChar(c) + rest) == Some((c, 4))
  {
    var cp := c as int;
    var b := EncodeChar(c) + rest;
    var x3, x2, x1, x0 := cp / 262144, (cp / 4096) % 64, (cp / 64) % 64, cp % 64;
    assert cp / 4096 == x3 * 64 + x2;
    assert cp / 64 == (cp / 4096) * 64 + x1;
    assert cp == x3 * 262144 + x2 * 4096 + x1 * 64 + x0;
    assert b[0] == 0xF0 + x3 && b[1] == 0x80 + x2 && b[2] == 0x80 + x1 && b[3] == 0x80 + x0;
  }

  /** Decoding inverts encoding: every string survives the round trip. */
  lemma {:induction false} DecodeEncode(s: string)
    ensures Decode(Encode(s)) == Some(s)
    decreases |s|
  {
    if |s| > 0 {
      var head := EncodeChar(s[0]);
      DecodeFirstEncodeChar(s[0], Encode(s[1..]));
      assert (head + Encode(s[1..]))[|head|..] == Encode(s[1..]);
      DecodeEncode(s[1..]);
      assert [s[0]] + s[1..] == s;
    }
  }

  /** ASCII bytes decode to the characters with the same codes. */
  lemma {:induction false} DecodeAscii(b: seq<Byte>)
    requires forall i :: 0 <= i < |b| ==> b[i] < 0x80
    ensures Decode(b).Some? && |Decode(b).value| == |b|
    ensures forall i :: 0 <= i < |b| ==> Decode(b).value[i] as int == b[i]
    decreases |b|
  {
    if |b| > 0 {
      DecodeAscii(b[1..]);
    }
  }

  /** A byte string that starts with a continuation byte, or with a byte no UTF-8 encoding
      starts with, does not decode. */
  lemma InvalidLeadByte(b: seq<Byte>)
    requires |b| > 0 && (IsContinuation(b[0]) || b[0] in {0xC0, 0xC1} || b[0] >= 0xF5)
    ensures Decode(b).None?
  {
  }

  /** The encoding of a string holds a zero byte exactly where the string holds U+0000. */
  lemma {:induction false} EncodeNoZero(s: string)
    requires forall i :: 0 <= i < |s| ==> s[i] != '\0'
    ensures forall i :: 0 <= i < |Encode(s)| ==> Encode(s)[i] != 0
    decreases |s|
  {
    if |s| > 0 {
      EncodeNoZero(s[1..]);
      var e := Encode(s);
      assert e == EncodeChar(s[0]) + Encode(s[1..]);
      forall i | 0 <= i < |e|
        ensures e[i] != 0
      {
        if i >= |EncodeChar(s[0])| {
          assert e[i] == Encode(s[1..])[i - |EncodeChar(s[0])|];
        }
      }
    }
  }
}

=== FILE: wrappers.dfy ===
/** Failure-carrying results shared by every module of the model.
    `Exception` names the Python exceptions the modelled code raises or lets escape. */
module Wrappers {

  datatype Option<+T> = None | Some(value: T) {
    predicate IsFailure() { None? }
    function PropagateFailure<U>(): Option<U>
      requires None?
    {
      None
    }
    function Extract(): T
      requires Some?
    {
      value
    }
  }

  /** The Python exception classes that the modelled code raises or lets propagate. */
  datatype Exception =
    | IndexError
    | KeyError
    | ValueError
    | TypeError
    | AttributeError
    | ZeroDivisionError
    | OverflowError
    | SyntaxError
    | AssertionError
    | UnicodeDecodeError
    | MissingMACIEError
    | MACIEFailError
    | ImageAcquisitionError
    | ExecutionError
    | ConnectionAbortedError

  datatype Result<+T> = Ok(value: T) | Err(error: Exception) {
    predicate IsFailure() { Err? }
    function PropagateFailure<U>(): Result<U>
      requires Err?
    {
      Err(error)
    }
    function Extract(): T
      requires Ok?
    {
      value
    }
  }

  /** The result of an operation run for its effect: it completed, or it raised. */
  datatype Outcome = Pass | Fail(error: Exception) {
    predicate IsFailure() { Fail? }
    function PropagateFailure(): Outcome
      requires Fail?
    {
      this
    }
  }

  /** The position `xs[i]` reads in a Python list or array of the given length: a negative index
      counts from the end; None where Python raises IndexError. */
  function PyIndex(length: nat, i: int): (r: Option<nat>)
    ensures r.None? <==> !(-(length as int) <= i < length)
    ensures r.Some? ==> r.value < length && (if i >= 0 then r.value == i else r.value == i + length)
  {
    if 0 <= i < length then Some(i)
    else if -(length as int) <= i < 0 then Some(i + length)
    else None
  }
}
